=== FILE: README.md ===
# AI-AMV-STUDIO backend workers in Dafny

This project models the backend workers of AI-AMV-STUDIO. These are the Python and Node processes that take a video-editing task from a JSON descriptor in `storage/temp` to a render in `storage/output`, then verify it, repair it, back it up, publish it and clean up after it. Each worker reads a task, a plan or a directory listing, decides something, and writes back. The model keeps exactly that: every worker body is a transformation of an abstract file system.

- **File system.** The storage tree is a map from full path to a record holding content and a modification time (`Common.FileSystem`). Content is a JSON document that `json.load` accepts, a text it rejects (logs, truncated JSON), or a media file known only by its size. Directory listings are inputs: sequences of names, in an arbitrary order unless the source sorts them. A listed name with no file stands for a file that vanished between the listing and its use; where the source would raise on it, the model says so: `CleanupWorker.CleanOutput` gives such a name the modification time 0 where `statSync` would throw, and `MediaOptimizer.OptimizePass` requires every listed render to exist, as `os.path.getsize` would otherwise raise.
- **Outside world.** ffmpeg, ffprobe, the analyser subprocess, curl, `ping`, downloads and `random.*` are oracle inputs. An oracle answers with an exit status, whether a file was produced and its size, or a draw from the table the source picks from. The clock is a parameter (`now`, in milliseconds).
- **Python and JavaScript semantics.** Truthiness, bools as the ints 0 and 1 in Python's arithmetic, `dict.get` defaults, `str(x)` for None, booleans, ints and strings, a JavaScript template's text for every value but a float, and `str.replace`, `split`, `strip` and `lower` are written out in `Common`. So is `os.path.exists`, which treats an int as a file descriptor: which descriptors are open, and their sizes, are an input. So are the places where a value of the wrong type raises. A raise that the source does not catch is a `Crashed` outcome that ends the worker's pass.
- **Loops.** Each worker loop is a method with a loop. The method is proved equal to a fold over the listing (`PassFold`, `TempFold`, …), and the properties are lemmas about the fold. State the source keeps in module-level dicts becomes a class: the supervisor's process table (`AutoTrigger.Supervisor`) and the monitor's cache (`TaskMonitor.Cache`).

One module per worker:

| module | worker |
|---|---|
| `Orchestrator` | `orchestrator.py`: the analyse → clips → plan → render → save pipeline |
| `Rchestrator` | `rchestrator.py`: the one-shot runner |
| `Compose` | `compose.py` |
| `SceneSplit` | `scene_split.py` |
| `AudioAnalysis` | `audio_analysis.py` |
| `RenderManager` | `render_manager.py` |
| `ResumeRepair` | `resume_worker.py` |
| `ResumeQueue` | `resume_worker.js` |
| `RenderFusion` | `render_fusion_engine.py` |
| `AutoTrigger` | `auto_ai_trigger.py` |
| `GeminiManager` | `gemini_manager.py` |
| `CleanupWorker` | `cleanup_worker.js` |
| `CloudSync` | `cloud_sync_manager.py` |
| `CloudBackupEngine` | `cloud_backup_worker.py` |
| `AutoPublish` | `auto_publish.py` |
| `BackupUploader` | `cloud_backup_worker.js` |
| `CloudRestore` | `cloud_restore_worker.js` |
| `MediaOptimizer` | `media_optimizer.py` |
| `TaskMonitor` | `task_monitor.py` |

The model follows the code as written. Several of the proved facts describe behaviour that an idealised pipeline would not have:

- **Saves.** Plain saves are overwrites, and a reader in the middle of one finds a truncated file (`Common.PlainWriteExposesTruncation`). Only the model pool's save goes through `.tmp` and `os.replace` (`Common.AtomicWriteNoTornRead`).
- **Orchestrator.**
  - It keeps no status: every detected task is processed again on every pass (`Orchestrator.EveryTaskRuns`).
  - The analyser can report the moods "aggressive" and "cinematic". Planning then raises, so such a task is never saved (`Orchestrator.AnalyserMoodsCrash`).
  - A task is saved to `<id>.json`, not to the file it was read from (`Orchestrator.StemSavePath`).
- **Render manager.** Repair has no bound: a task whose `output` stays bad is re-rendered on every pass (`RenderManager.RepairRepeats`). A task file holding a JSON string containing `id` passes `safe_load` and ends the pass (`RenderManager.StringTaskCrashes`).
- **Orchestrator plans.** A plan is written as `<id>_auto_plan.json` in the temp directory and holds a JSON list. When the id is the file stem `task_<n>`, the name is `task_<n>_auto_plan.json`, which the other workers' `task_*.json` filters then pick up.
  - The Python resume worker picks it up as a task and crashes on it (`ResumeRepair.PlanFileCrashesWorker`).
  - The Node resume worker copies it to `undefined.json` (`ResumeQueue.PlanFileCopied`).
  - The model-pool manager leaves it unenriched (`GeminiManager.ListPlansUntouched`).
- **Supervisor.** `start_process` zeroes the restart counter before `respawn` increments it, so the three-crash cooldown is unreachable (`AutoTrigger.CooldownUnreachable`).
- **Media optimizer.**
  - Originals are re-enhanced and re-compressed on every pass (`MediaOptimizer.ReprocessedEveryPass`).
  - The compressed copy is made from the original, not from the enhanced one.
  - `.replace(".mp4", …)` acts on the whole path.
- **Cloud restore.** A file name containing `" | "` loses its entry when the backup log is parsed back (`CloudRestore.BarInNameLost`).
- **Cloud backup.** `cleanup_old_backups(0)` deletes nothing, because `files[:-0]` is empty.

## Model

| member | source | states |
|---|---|---|
| Common.WriteDoc | backend/cloud_sync_manager.py:44-45 | a written document loads back as written |
| Common.WriteDocOthers | backend/cloud_sync_manager.py:44-45 | a write adds only its own path and leaves every other file as it was |
| Common.LoadJson | backend/cloud_sync_manager.py:39-42 | a document loads iff the file exists and its text is JSON |
| Common.PlainWriteStates | backend/cloud_sync_manager.py:44-45 | a plain overwrite goes from the old state through a truncated file to the written document |
| Common.PlainWriteExposesTruncation | backend/cloud_sync_manager.py:44-45 | a reader in the middle of a plain overwrite finds no loadable document |
| Common.AtomicWriteStates | backend/gemini_manager.py:50-55 | the write to `path.tmp` followed by `os.replace` ends with the new document at the path |
| Common.AtomicWriteNoTornRead | backend/gemini_manager.py:50-55 | a reader during an atomic save finds the old document or the new one at the path, never anything else |
| Common.SortNames | backend/task_monitor.py:40-52 | `sorted` returns the same names, in code-point order |
| Common.SortByMtime | backend/auto_publish.py:79 | sorting by modification time keeps exactly the same paths |
| Common.SortByMtimeOrdered | backend/auto_publish.py:79 | the sorted list is ordered oldest first |
| Common.DropOldest | backend/cloud_sync_manager.py:97-99 | keeping the newest `keep` drops exactly the surplus, or nothing |
| Common.DropOldestListed | backend/cloud_sync_manager.py:97-99 | only listed paths are dropped |
| Common.DropOldestKeepsNewest | backend/cloud_sync_manager.py:97-99 | each dropped path is no newer than every path kept |
| Common.RandInt | backend/orchestrator.py:92 | `random.randint(lo, hi)` lies within lo..hi inclusive |
| Common.Choice | backend/orchestrator.py:93 | `random.choice` returns an element of the table |
| Common.ChoiceReaches | backend/orchestrator.py:93 | every element of the table can be drawn |
| Common.Basename | backend/cloud_backup_worker.js:26 | the base name holds no '/', ends the path, and is the whole name when it has no '/' |
| Common.BasenameOfJoin | backend/cloud_backup_worker.js:26-41 | a listed name is the base name of its joined path |
| Common.SplitSuffix | backend/auto_publish.py:58 | the stem and suffix concatenate to the name, the suffix being empty or a dot followed by a dot-free rest |
| Common.SplitJoin | backend/cloud_restore_worker.js:20 | splitting a joined text on a separator found in no part gives the parts back |
| Common.ReplaceEndsWith | backend/media_optimizer.py:42-65 | replacing every match of a pattern in a text ending with it leaves a text ending with the replacement |
| Common.Filter | backend/cloud_sync_manager.py:96 | a list comprehension's filter keeps exactly the selected names and never lengthens the list |
| Common.FilterAppend | backend/cloud_sync_manager.py:96 | filtering a concatenation filters each part and concatenates the results, so the kept names stay in listing order |
| Common.FilterOne | backend/cloud_sync_manager.py:96 | a single name is kept exactly when it is selected |
| Common.JsStrShapes | backend/resume_worker.js:35 | a template prints an array as its items joined by commas, with null as nothing, and an object as `[object Object]` |
| Common.PyExists | backend/resume_worker.py:55 | `os.path.exists` answers for a string whether the path is a file; an int or a bool is a file descriptor that exists iff it is non-negative and open, and raises outside the C int range; None, floats, lists and dicts raise |
| Common.PySize | backend/render_manager.py:34 | `os.path.getsize` of an existing path is its file's size, and of an open descriptor that descriptor's size |
| Common.Num | backend/gemini_manager.py:75 | the values Python's arithmetic accepts are exactly the numbers and the bools, and an int or a bool counts as its int value (True as 1) |
| AudioAnalysis.DetectMood | backend/audio_analysis.py:77-89 | the mood is one of the five; each mood is returned exactly when its rule fires and no earlier rule does (intense first, then epic, sad, romantic, otherwise cinematic) |
| AudioAnalysis.DetectSubmood | backend/audio_analysis.py:94-98 | one of four sub-moods; impact iff bpm > 160, emotional iff bpm < 85, hype iff 85..160 with energy > 0.10, flow otherwise |
| AudioAnalysis.DetectEditStyle | backend/audio_analysis.py:103-108 | the style depends on the mood alone; each of the four named moods maps to its style and every other mood to cinematic-glow |
| AudioAnalysis.Abs | backend/audio_analysis.py:58 | `abs` is non-negative and equals x or -x |
| AudioAnalysis.Energies | backend/audio_analysis.py:58 | one energy per sample, each the sample's absolute value |
| AudioAnalysis.PeaksFrom | backend/audio_analysis.py:61-64 | exactly the interior indices above the threshold and above both neighbours, in strictly increasing order |
| AudioAnalysis.Peaks | backend/audio_analysis.py:58-64 | the peaks against 1.2 times the mean energy come in strictly increasing order |
| AudioAnalysis.Intervals | backend/audio_analysis.py:69 | one gap per consecutive pair of peaks, each the index difference divided by the sample rate |
| AudioAnalysis.SumPositive | backend/audio_analysis.py:70 | a non-empty sum of positive gaps is positive |
| AudioAnalysis.MeanPositive | backend/audio_analysis.py:70 | the mean of positive gaps is positive, so `60 / avg` never divides by zero |
| AudioAnalysis.IntervalsPositive | backend/audio_analysis.py:61-69 | increasing peaks give strictly positive intervals |
| AudioAnalysis.EstimateBpm | backend/audio_analysis.py:54-72 | 118 for fewer samples than the sample rate, 120 for fewer than three peaks, and always within 60..200 |
| AudioAnalysis.ClampBpm | backend/audio_analysis.py:71 | the clamped tempo lies in 60..200 and, for an in-range value, is its integer part |
| AudioAnalysis.SampleAt | backend/audio_analysis.py:46-47 | a signed little-endian 16-bit sample scaled by 1/32768 lies in [-1, 1) |
| AudioAnalysis.ExtractWave | backend/audio_analysis.py:40-49 | the decode loop yields exactly the decoded wave: one sample per started byte pair, each the decoded sample of that pair, all in [-1, 1) |
| AudioAnalysis.Decoded | backend/audio_analysis.py:40-49 | one decoded sample per started byte pair |
| AudioAnalysis.Analyze | backend/audio_analysis.py:113-139 | a missing file gives the "File not found" error, an empty decode the "Decode error" error; otherwise the seven-key report of the decoded wave: its tempo estimate (in 60..200), its mean frame energy, the probed duration and volume, and the mood, sub-mood and edit style the classifiers pick from them |
| AudioAnalysis.Report | backend/audio_analysis.py:123-139 | the report holds exactly the seven keys: the duration, volume, tempo and energy given, and the mood, sub-mood and edit style the classifiers pick from them |
| AudioAnalysis.AnalyserMoods | backend/audio_analysis.py:77-89 | the analyser does report "aggressive" (bpm 150) and "cinematic" (bpm 90) |
| AutoPublish.Metadata | backend/auto_publish.py:38-45 | the metadata holds exactly file, created_at (seconds), priority 1, pending status, no tags and platform "none" |
| AutoPublish.CreateMetadata | backend/auto_publish.py:37-49 | the document at `metadata/<name>.json` loads back as that metadata and no other path appears |
| AutoPublish.QueueStep | backend/auto_publish.py:60-72 | an already queued render is skipped unchanged; otherwise the step succeeds iff the copy succeeds, and a failed copy changes nothing |
| AutoPublish.MoveToQueue | backend/auto_publish.py:57-72 | the loop over the `.mp4` renders, taken in sorted name order, ends in the state and the raise/finish outcome of the queue fold |
| AutoPublish.QueueOrder | backend/auto_publish.py:58 | the renders visited are exactly the listed `.mp4` names, each as often as listed, sorted by name |
| AutoPublish.SortedFirstRaise | backend/auto_publish.py:58-69 | the order matters: with `b.mp4` listed before `a.mp4`, `a.mp4` is still copied first, so its failed copy raises before `b.mp4` is touched |
| AutoPublish.SortedTwo | backend/auto_publish.py:58 | `sorted` walks `a.mp4` before `b.mp4` whatever the listing order |
| AutoPublish.FirstCopyFails | backend/auto_publish.py:64-69 | a failing copy of the first render raises before anything is written |
| AutoPublish.QueueFoldNext | backend/auto_publish.py:60-72 | while no copy has raised, one more render extends the fold by exactly one step |
| AutoPublish.QueueFoldStops | backend/auto_publish.py:68 | once a copy raises, the rest of the listing changes nothing |
| AutoPublish.PathsApart | backend/auto_publish.py:12-14 | output, queue and metadata paths never coincide |
| AutoPublish.MetaPathInjective | backend/auto_publish.py:47 | distinct renders get distinct metadata paths |
| AutoPublish.QueuedSkipped | backend/auto_publish.py:64-65 | a render already in the queue keeps its queue file and its metadata (present or absent) untouched |
| AutoPublish.NewlyQueued | backend/auto_publish.py:60-72 | a listed render not yet queued ends up copied byte for byte into the queue with its fresh metadata, when no copy raised |
| AutoPublish.QueueFrame | backend/auto_publish.py:57-72 | the loop writes nothing but the queue and metadata paths of the renders it walks |
| AutoPublish.OutputUnchanged | backend/auto_publish.py:57-72 | renders in the output directory are never changed or removed |
| AutoPublish.Trimmed | backend/auto_publish.py:78-82 | nothing is removed when at most `max_files` are queued, otherwise exactly the surplus |
| AutoPublish.TrimQueue | backend/auto_publish.py:78-87 | the new state is the old one minus exactly the trimmed queue files, a failing unlink included |
| AutoPublish.TrimKeepsNewest | backend/auto_publish.py:78-82 | only listed queue files go, only when over the limit, never a metadata document, and each is no newer than every queue file kept |
| AutoPublish.Requeued | backend/auto_publish.py:93-99 | a trimmed render still in the output directory is queued again, with fresh metadata, on the next pass |
| AutoPublish.PublishPass | backend/auto_publish.py:96-98 | one pass is the queue fold over the renders in sorted name order followed, if no copy raised, by the trim of the queue |
| AutoTrigger.Command | backend/auto_ai_trigger.py:103-112 | a fixed restart command exists exactly for the five registered workers |
| AutoTrigger.SystemOverloaded | backend/auto_ai_trigger.py:51-60 | false when reading the load raises; otherwise true iff CPU or RAM is above 92 percent |
| AutoTrigger.RespawnRule | backend/auto_ai_trigger.py:65-78 | the cooldown holds a worker back iff it has three or more restarts and less than 20 s have passed; a dead process is relaunched with health (1, now) and cooldown 0; a live one only gets its counter incremented (after the reset when it had three) |
| AutoTrigger.RespawnShape | backend/auto_ai_trigger.py:65-78 | a respawn changes only the worker's entry, keeps the keys and their order, and takes a handle and records a launch exactly when the rule relaunches |
| AutoTrigger.RespawnSteps | backend/auto_ai_trigger.py:65-78 | past the cooldown check, the respawn is the cooldown reset (three or more restarts), then the start call, then the increment of the counter |
| AutoTrigger.CooldownUnreachable | backend/auto_ai_trigger.py:25-78 | from a counter of at most 1, any run of crashes never meets the cooldown, and after at least one crash the counter is exactly 1 |
| AutoTrigger.CooldownAsWritten | backend/auto_ai_trigger.py:69-78 | a dead worker with three restarts waits iff less than 20 s passed since the cooldown stamp, and is otherwise relaunched with its counter back at 1 |
| AutoTrigger.Supervisor.constructor | backend/auto_ai_trigger.py:12-14 | the dicts start empty, with nothing launched or signalled |
| AutoTrigger.Supervisor.StartProcess | backend/auto_ai_trigger.py:25-35 | a worker whose process still runs is left alone; otherwise it gets a fresh handle, health (0, now) and cooldown 0, and the launch is recorded; the new tables are what the start rule gives |
| AutoTrigger.Supervisor.StopProcess | backend/auto_ai_trigger.py:40-46 | an unknown name is ignored; a known one has its handle signalled and nothing else changes |
| AutoTrigger.Supervisor.Respawn | backend/auto_ai_trigger.py:65-78 | the worker's entry becomes what the respawn rule gives (with a fresh handle when relaunched); every other entry is unchanged, and the new tables are what the respawn rule gives |
| AutoTrigger.Supervisor.Boot | backend/auto_ai_trigger.py:86-90 | all five workers are registered; a worker whose process still runs, and any other name, keeps its entry; every other worker gets a handle newer than any before, health (0, now), cooldown 0 and a launch on its own command; the new tables are the five start calls in order |
| AutoTrigger.Supervisor.ShedLoad | backend/auto_ai_trigger.py:93-97 | without overload nothing changes; with overload only render_manager is signalled, and it is relaunched with a fresh handle, health (0, now) and cooldown 0 unless its process survived the signal; every other entry is kept |
| AutoTrigger.Supervisor.CheckCrashes | backend/auto_ai_trigger.py:100-112 | workers still running, or without a fixed command, keep their entries; from a calm state each crashed worker is relaunched with a fresh handle, health (1, now) and a cleared cooldown; the new tables are the crash check applied to each name in registration order |
| AutoTrigger.Supervisor.CheckWorker | backend/auto_ai_trigger.py:101-112 | the crash check on one worker changes only that worker's entry, as the crash rule says, and the new tables are what that rule gives |
| AutoTrigger.Supervisor.Tick | backend/auto_ai_trigger.py:92-114 | one loop iteration signals only render_manager and only under overload; its new tables are the load shedding followed by the crash check of every registered worker; the state stays calm and every launch on its fixed command |
| AutoTrigger.Supervisor.Shutdown | backend/auto_ai_trigger.py:122-125 | on interrupt every registered worker's handle is signalled, in registration order, and the dicts are kept |
| AutoTrigger.StartMeaning | backend/auto_ai_trigger.py:25-35 | a worker whose process still runs leaves the tables as they are; otherwise it gets the next handle, health (0, now) and cooldown 0, its launch is recorded, a new name is appended to the key order, and every other entry is kept |
| AutoTrigger.StartFrame | backend/auto_ai_trigger.py:25-35 | one start call only adds its own name, keeps every other entry, and never takes back a handle or a launch |
| AutoTrigger.StartLaunches | backend/auto_ai_trigger.py:25-35 | a start call on a worker whose process is not running registers a fresh handle, health (0, now) and cooldown 0, and records the launch with the given command |
| AutoTrigger.BootPrefix | backend/auto_ai_trigger.py:86-90 | after the first k start calls exactly those workers are added; running workers and other names keep their entries; each other worker has a new handle, health (0, now), cooldown 0 and its launch recorded |
| AutoTrigger.BootPrefixFrame | backend/auto_ai_trigger.py:86-90 | the first k start calls add exactly the first k workers, keep the entries of running workers and of other names, and never take back a handle or a launch |
| AutoTrigger.BootLaunch | backend/auto_ai_trigger.py:86-90 | each of the first k workers whose process was not running has a handle newer than any before, health (0, now), cooldown 0 and a launch on its own command |
| AutoTrigger.BootLaunchLast | backend/auto_ai_trigger.py:86-90 | the k-th start call launches its worker, on its own command, when that worker's process was not running |
| AutoTrigger.BootLaunchKept | backend/auto_ai_trigger.py:86-90 | a launch made by an earlier start call keeps its entry and its record through the next start call |
| AutoTrigger.WorkersNoRepeats | backend/auto_ai_trigger.py:86-90 | the five workers started have five different names |
| AutoTrigger.BootStarts | backend/auto_ai_trigger.py:86-90 | after all five start calls every worker is registered; running workers and other names keep their entries; each other worker has a handle newer than any before, health (0, now), cooldown 0 and a launch on its own command |
| AutoTrigger.AppendFresh | backend/auto_ai_trigger.py:33 | registering a new name keeps the key order duplicate-free |
| AutoTrigger.ElemsIndex | backend/auto_ai_trigger.py:124 | the names iterated are exactly the registered ones |
| AutoTrigger.DistinctIndices | backend/auto_ai_trigger.py:124 | each registered worker occurs once in the iteration order |
| AutoTrigger.HandlesOf | backend/auto_ai_trigger.py:124-125 | one signalled handle per registered name, each that worker's own handle |
| BackupUploader.UploadLink | backend/cloud_backup_worker.js:18-31 | the link is the fake cloud prefix followed by the file's base name |
| BackupUploader.LinkOfListed | backend/cloud_backup_worker.js:26-41 | for a listed output file the link is the prefix followed by the listed name |
| BackupUploader.LogLine | backend/cloud_backup_worker.js:51 | each backup line starts with its ISO timestamp |
| BackupUploader.AppendLog | backend/cloud_backup_worker.js:51 | appending grows the log text by exactly the appended text |
| BackupUploader.UploadStep | backend/cloud_backup_worker.js:41-58 | a file that is not an `.mp4` render older than seven days, or whose append raises, is left alone; otherwise its line is appended and the render deleted |
| BackupUploader.BackupOldFiles | backend/cloud_backup_worker.js:33-60 | nothing changes without an output directory; otherwise the result is the upload fold over the listing |
| BackupUploader.Logged | backend/cloud_backup_worker.js:46 | every logged file was listed, eligible and did not fail |
| BackupUploader.LogNotOutput | backend/cloud_backup_worker.js:12-13 | the backup log is never one of the output files |
| BackupUploader.UploadFrame | backend/cloud_backup_worker.js:40-59 | the scan changes no path other than the log and the renders it walks |
| BackupUploader.UploadLogGrows | backend/cloud_backup_worker.js:40-59 | the log grows by exactly one line per logged file, in listing order |
| BackupUploader.LoggedTextSnoc | backend/cloud_backup_worker.js:51 | one more logged file adds exactly its line at the end |
| BackupUploader.StepLogAppends | backend/cloud_backup_worker.js:49-53 | an uploading step appends its line to the log |
| BackupUploader.StepLogSame | backend/cloud_backup_worker.js:46-58 | a step that does not upload changes nothing |
| BackupUploader.LastUntouched | backend/cloud_backup_worker.js:40-59 | in a listing without repeats, the scan reaches each render as it was |
| BackupUploader.UploadDeletesLogged | backend/cloud_backup_worker.js:40-59 | a walked render is gone afterwards exactly when it was logged |
| BackupUploader.StepDeletes | backend/cloud_backup_worker.js:46-53 | a step deletes the render it walks exactly when it uploads it |
| CleanupWorker.DeleteIfOld | backend/cleanup_worker.js:34-45 | true iff the path exists and is older than the limit in days, and then exactly that path is removed; otherwise nothing changes |
| CleanupWorker.TempStep | backend/cleanup_worker.js:55-65 | a temp entry is deleted, and counted, iff it exists, is not an active task descriptor and is older than seven days |
| CleanupWorker.CleanTemp | backend/cleanup_worker.js:50-68 | no count and no change without the temp directory; otherwise the count and state of the temp fold over the listing |
| CleanupWorker.TempFoldDeletesDoomed | backend/cleanup_worker.js:50-68 | over a listing without repeats, the pass removes exactly the doomed temp paths and counts exactly the doomed entries |
| CleanupWorker.TempFoldDeletes | backend/cleanup_worker.js:54-66 | the pass removes exactly the doomed temp paths |
| CleanupWorker.TempFoldCounts | backend/cleanup_worker.js:53-65 | the count is the number of doomed entries |
| CleanupWorker.DoomedAfterStep | backend/cleanup_worker.js:54-66 | deleting one entry does not change whether any other listed entry is doomed |
| CleanupWorker.DoomedPaths | backend/cleanup_worker.js:54-66 | the doomed paths are exactly the temp paths of the doomed listed entries |
| CleanupWorker.FilterSame | backend/cleanup_worker.js:54-66 | two selectors that agree on every listed entry select the same entries |
| CleanupWorker.ActiveTaskSurvives | backend/cleanup_worker.js:58-62 | a `task_*.json` whose status is processing or queued survives the pass unchanged, however old it is |
| CleanupWorker.Excess | backend/cleanup_worker.js:76-87 | exactly the number of listed videos beyond forty are removed, or none |
| CleanupWorker.CleanOutput | backend/cleanup_worker.js:73-90 | no count and no change without the output directory; otherwise the excess videos are removed and counted |
| CleanupWorker.OutputKeepsNewest | backend/cleanup_worker.js:76-87 | only listed videos are removed, each no newer than every listed video kept |
| CleanupWorker.LastN | backend/cleanup_worker.js:106 | `slice(-n)` keeps min(n, length) elements |
| CleanupWorker.TrimText | backend/cleanup_worker.js:104-106 | a log is rewritten iff it has more than 5000 lines |
| CleanupWorker.TrimKeepsLastLines | backend/cleanup_worker.js:104-106 | a rewritten log splits into exactly its last 5000 lines |
| CleanupWorker.LogStep | backend/cleanup_worker.js:101-110 | a step either changes nothing or rewrites a text log of more than 5000 lines to its trimmed text |
| CleanupWorker.TrimLogs | backend/cleanup_worker.js:95-114 | no count and no change without the logs directory; otherwise the count and state of the trim fold over the listing |
| CleanupWorker.TrimFoldBounds | backend/cleanup_worker.js:95-114 | no path appears or disappears, unlisted paths are unchanged, and every listed text log ends with at most 5000 lines |
| CleanupWorker.TrimFoldKeys | backend/cleanup_worker.js:100-111 | trimming never creates or removes a path |
| CleanupWorker.TrimFoldFrame | backend/cleanup_worker.js:100-111 | a path the pass does not walk is unchanged |
| CleanupWorker.TrimFoldKeepsShort | backend/cleanup_worker.js:105 | a log of at most 5000 lines stays so |
| CleanupWorker.TrimFoldShortens | backend/cleanup_worker.js:100-111 | every listed text log has at most 5000 lines after the pass |
| CleanupWorker.RunCleanup | backend/cleanup_worker.js:119-127 | the temp, output and log passes run in that order, each reporting a count iff its directory exists |
| CloudBackupEngine.BackupStep | backend/cloud_backup_worker.py:41-53 | a video whose backup exists with the same size is skipped; otherwise it is copied, and a failing copy changes nothing |
| CloudBackupEngine.BackupNewVideos | backend/cloud_backup_worker.py:35-53 | the pass is the backup fold over the listed videos |
| CloudBackupEngine.OutputNotBackup | backend/cloud_backup_worker.py:13-14 | output and backup paths never coincide |
| CloudBackupEngine.BackupFrame | backend/cloud_backup_worker.py:41-53 | the pass writes only the backup paths of the videos it walks |
| CloudBackupEngine.BackupOutcome | backend/cloud_backup_worker.py:41-53 | after the pass every listed video whose copy does not fail has a backup of its own size; one already backed up is left as it was |
| CloudBackupEngine.Classify | backend/cloud_backup_worker.py:64-72 | missing iff there is no backup; corrupted iff the backup is smaller than 95% of the video |
| CloudBackupEngine.VerifyBackup | backend/cloud_backup_worker.py:59-72 | one verdict per listed video, in listing order, each the classification of that video |
| CloudBackupEngine.BackedUpVerified | backend/cloud_backup_worker.py:45-69 | a backup of the video's own size is verified, never corrupted |
| CloudBackupEngine.OldBackups | backend/cloud_backup_worker.py:78-83 | nothing is deleted within the limit (or for a limit of 0, whose slice is empty); otherwise exactly the surplus |
| CloudBackupEngine.CleanupOldBackups | backend/cloud_backup_worker.py:78-89 | the new state is the old one minus exactly the old backups, a failing unlink included |
| CloudBackupEngine.CleanupKeepsNewest | backend/cloud_backup_worker.py:79-83 | only listed backups are deleted, only over a positive limit, each no newer than every backup kept |
| CloudBackupEngine.RunPass | backend/cloud_backup_worker.py:97-100 | one pass backs up, reports a verdict per video on the state after the copies, then removes the old backups |
| CloudRestore.ParseLine | backend/cloud_restore_worker.js:22-25 | a line is dropped iff its second " \| " piece is missing or empty; otherwise the file is that piece up to its first " → ", with a url iff a " → " follows |
| CloudRestore.ParseLines | backend/cloud_restore_worker.js:21-26 | dropping unparsable lines never adds entries |
| CloudRestore.ParseBackupLog | backend/cloud_restore_worker.js:18-27 | no log means no entries |
| CloudRestore.LineRoundTrip | backend/cloud_restore_worker.js:22-25 | a line `iso \| file → link` without separators in its parts parses back to exactly (file, link) |
| CloudRestore.BarInNameLost | backend/cloud_restore_worker.js:22-25 | a file name containing " \| " comes back truncated and without its url |
| CloudRestore.Restorable | backend/cloud_restore_worker.js:21-26 | one entry per logged file, each with the uploader's link for it |
| CloudRestore.UploadLines | backend/cloud_backup_worker.js:51 | one line per uploaded file, each the uploader's line for it |
| CloudRestore.PlainLine | backend/cloud_backup_worker.js:26-51 | for a plain name the uploader's line is `iso \| name → prefix+name`, single-line and unpadded |
| CloudRestore.ParseUploadLines | backend/cloud_restore_worker.js:21-26 | the uploader's lines for plain names parse back, in order, to their entries |
| CloudRestore.LinkPlain | backend/cloud_backup_worker.js:26 | the link of a plain name holds no separator and no newline |
| CloudRestore.RestorableSnoc | backend/cloud_restore_worker.js:21-26 | one more logged file adds its entry at the end |
| CloudRestore.TerminatedJoined | backend/cloud_restore_worker.js:20 | newline-terminated lines are the lines joined by newlines plus a final newline |
| CloudRestore.LoggedTextLines | backend/cloud_backup_worker.js:51 | the uploader's log text is its lines, each followed by a newline |
| CloudRestore.LoggedTextJoined | backend/cloud_backup_worker.js:51 | the uploader's log text is its lines joined by newlines plus a final newline |
| CloudRestore.UploadLinesSnoc | backend/cloud_backup_worker.js:51 | one more upload appends its line |
| CloudRestore.JoinedEnds | backend/cloud_restore_worker.js:20 | the joined lines carry no whitespace at either end, so `trim` removes only the final newline |
| CloudRestore.LoggedTextRoundTrip | backend/cloud_restore_worker.js:18-27 | the text the uploader appends for plain names parses back to exactly those names, in order, each with its link |
| CloudRestore.BackupLogRoundTrip | backend/cloud_restore_worker.js:18-27 | starting without a log, what the uploader's scan logs is read back by the restore worker as exactly the logged renders with their links |
| CloudRestore.FindIndex | backend/cloud_restore_worker.js:41 | the index of the first entry with that file name, or none iff no entry has it |
| CloudRestore.Download | backend/cloud_restore_worker.js:29-55 | a successful fetch lands its content at the destination and resolves to that path; a failed one changes nothing and returns its message |
| CloudRestore.RestoreFrom | backend/cloud_restore_worker.js:39-56 | not_found without an entry; a failure changes nothing; a success writes only OUTPUT/name and keeps every other file |
| CloudRestore.RestoreFile | backend/cloud_restore_worker.js:39-56 | not_found when the backup log has no entry for the name; a failure changes nothing; a success writes only OUTPUT/name and keeps every other file |
| CloudRestore.RestoreFetchesFirstEntry | backend/cloud_restore_worker.js:41-55 | the first entry for the name is downloaded; the restore succeeds exactly when that download does, the file then holds what was fetched, and a failed download's message is the error |
| CloudRestore.RestoreFrame | backend/cloud_restore_worker.js:39-56 | a restore writes at most its target, removes nothing and leaves the backup log as it was |
| CloudRestore.RestoreFoldSnoc | backend/cloud_restore_worker.js:63-69 | one more entry extends the pass by exactly one step |
| CloudRestore.AutoRestoreMissing | backend/cloud_restore_worker.js:58-70 | the pass restores, entry by entry, each missing local file by a `restoreFile` call that re-reads the same log |
| CloudRestore.StepInvariant | backend/cloud_restore_worker.js:63-69 | each iteration is the next fold step and keeps the log unchanged |
| CloudRestore.StepRestores | backend/cloud_restore_worker.js:64-68 | while the log is the one parsed at the start, a step is a `restoreFile` call of the entry's name, and it keeps the log |
| CloudRestore.StepKeepsLog | backend/cloud_restore_worker.js:64-68 | a step never changes the backup log |
| CloudRestore.RestoreKeepsPresent | backend/cloud_restore_worker.js:63-69 | the pass never changes or removes an existing file |
| CloudRestore.RestoreBringsBack | backend/cloud_restore_worker.js:63-69 | every walked entry whose first download succeeds is present after the pass |
| CloudRestore.AutoRestoreMeaning | backend/cloud_restore_worker.js:58-70 | the pass only adds files, and every logged file whose first entry's download succeeds is present afterwards |
| CloudSync.LoadState | backend/cloud_sync_manager.py:36-42 | `{}` when the state file is missing or does not parse; otherwise the saved document |
| CloudSync.InitialState | backend/cloud_sync_manager.py:111-131 | the loop can start exactly when the loaded state is an object |
| CloudSync.SaveLoadRoundTrip | backend/cloud_sync_manager.py:36-45 | a saved state loads back as it was saved |
| CloudSync.MissingStateIsEmpty | backend/cloud_sync_manager.py:37-38 | without a state file the loop starts from the empty state |
| CloudSync.UploadFile | backend/cloud_sync_manager.py:50-90 | "terabox" iff that copy succeeds, else "mega" iff the Mega copy succeeds, else None; the successful copy keeps content and time, and a total failure changes nothing |
| CloudSync.SyncStep | backend/cloud_sync_manager.py:129-144 | a done file is skipped; otherwise its entry becomes done or retry as the upload went, and the saved state loads back as the new state |
| CloudSync.SyncFiles | backend/cloud_sync_manager.py:129-144 | the per-file loop ends in the state and files of the sync fold |
| CloudSync.Touched | backend/cloud_sync_manager.py:129-144 | the writable paths include the state file and both copies of every file not yet done |
| CloudSync.SyncFrame | backend/cloud_sync_manager.py:129-144 | the loop writes nothing outside the state file and the copies of files not yet done |
| CloudSync.SyncKeepsDone | backend/cloud_sync_manager.py:131-132 | a file marked done stays done |
| CloudSync.OutputNotTouched | backend/cloud_sync_manager.py:10-11 | the loop never writes a render in the output directory |
| CloudSync.SyncOutcome | backend/cloud_sync_manager.py:129-144 | over a listing without repeats, each listed file ends done iff it was done or an upload succeeded, otherwise retry; unlisted entries are kept |
| CloudSync.SyncSaved | backend/cloud_sync_manager.py:139-144 | when anything is uploaded the state file holds the final state; when everything was done nothing changes |
| CloudSync.DoneNotUploaded | backend/cloud_sync_manager.py:131-132 | a render done at the start gets neither backup copy written |
| CloudSync.MegaPathInjective | backend/cloud_sync_manager.py:69 | distinct renders have distinct Mega copies |
| CloudSync.Mp4NotMega | backend/cloud_sync_manager.py:55-69 | a render's TeraBox copy is never another render's Mega copy |
| CloudSync.OldRenders | backend/cloud_sync_manager.py:96-99 | exactly the renders beyond the newest 25 are removed, or none |
| CloudSync.AutoCleanup | backend/cloud_sync_manager.py:95-104 | the new state is the old one minus exactly the old renders, a failing remove included |
| CloudSync.CleanupKeepsNewest | backend/cloud_sync_manager.py:96-99 | only listed renders are removed, only when there are more than 25, each no newer than every render kept |
| CloudSync.SyncPass | backend/cloud_sync_manager.py:113-147 | without network or renders nothing changes; otherwise the sync fold over the renders, then the cleanup |
| Compose.Round2 | backend/compose.py:41 | `round(x, 2)` lies within half a hundredth of x and keeps a positive value non-negative |
| Compose.Duration | backend/compose.py:41 | the duration is a number: the int difference when both bounds are ints or bools, otherwise within half a hundredth of end - start; non-negative when end > start |
| Compose.MakeBlock | backend/compose.py:36-43 | a block holds exactly clip, start, end, duration and effect, with the given values and the rounded duration |
| Compose.FallbackBlock | backend/compose.py:58 | the fallback block has no clip, runs from 0 to 5 with duration 5 and effect "fade" |
| Compose.Pool | backend/compose.py:71 | a known mood's own effects, any other string's the transitions, and a raise for an unhashable list or dict |
| Compose.ClipAt | backend/compose.py:74 | a non-empty clip list gives the clip at `i mod len`; only a list or a string can be indexed |
| Compose.SceneDur | backend/compose.py:66-67 | a scene has a duration exactly when it is a dict whose `start` and `end` are numbers or bools; the stored, rounded duration lies within half a hundredth of it and is non-negative when it is positive |
| Compose.SceneStep | backend/compose.py:65-77 | a block is emitted iff the scene's duration (bools counting as 0 and 1) is positive, the mood has an effect pool and the clip index is in range; it is then the block of its clip, bounds and an effect drawn from the pool; a non-positive duration skips the scene and anything else raises |
| Compose.BlocksNext | backend/compose.py:65-77 | one more scene extends the loop by exactly its step |
| Compose.Kept | backend/compose.py:65-69 | exactly the indices of the scenes of positive duration, in increasing order |
| Compose.Beats | backend/compose.py:81 | at least one beat per block |
| Compose.WithBeats | backend/compose.py:80-82 | every block keeps its fields and gains `beats` computed from its own duration |
| Compose.ReadInputs | backend/compose.py:49-54 | the inputs can be read iff `analysis`, or its default, is a dict |
| Compose.Timeline | backend/compose.py:48-85 | no dict analysis raises; no scenes or no clips give the single fallback block; otherwise a timeline exists iff the bpm is a nonzero number (bools counting as 0 and 1), the scenes are a list and the scene loop does not raise, and it is then the scene loop's blocks with their beats |
| Compose.RaiseStops | backend/compose.py:65-77 | once a scene raises, the whole loop raises |
| Compose.SceneLoop | backend/compose.py:65-77 | the scene loop yields the blocks of the scene fold, or raises with it |
| Compose.BeatLoop | backend/compose.py:80-82 | the second loop sets `beats` on every block |
| Compose.GenerateTimeline | backend/compose.py:48-85 | the method yields what the timeline function defines, including its raises; a bool bpm or bool bounds take part in the arithmetic as 0 and 1 |
| Compose.FallbackTimeline | backend/compose.py:56-58 | without scenes or clips the timeline is the single fallback block, without `beats` |
| Compose.MissingAnalysisDefaults | backend/compose.py:49-51 | a task without `analysis` composes as one with mood "cinematic" and bpm 120 |
| Compose.TrueBpmIsOne | backend/compose.py:50-61 | a bpm of `true` gives the same timeline as a bpm of 1: `60 / True` is a beat of 60 seconds |
| Compose.BoolBoundsScene | backend/compose.py:65-77 | a scene from `false` to `true` yields a block of duration 1 that keeps the two bools as its bounds |
| Compose.BlocksFollowScenes | backend/compose.py:65-77 | one block per scene of positive duration, in scene order; each has its scene's bounds, the clip chosen by the scene's own index (skipped scenes included) and an effect from the mood's pool |
| Compose.TimelineBeats | backend/compose.py:65-82 | every block of a non-fallback timeline has a non-negative duration and at least one beat |
| Compose.BlocksPositive | backend/compose.py:65-77 | every emitted block has a non-negative duration |
| Compose.TimelineDoc | backend/compose.py:90-94 | the saved document is the list of blocks, in order |
| Compose.ComposeTask | backend/compose.py:99-117 | an unreadable task changes nothing; otherwise the task is composed exactly when the timeline function gives a timeline (a bool bpm or bool bounds included), and then the timeline is saved under the task id (or the file's stem) and the task is rewritten with `timeline` pointing at it, every other file kept |
| Compose.TwoWrites | backend/compose.py:110-115 | after the timeline write and the task write both documents read back, exactly those two paths are added, and every other file is as it was |
| GeminiManager.LoadModels | backend/gemini_manager.py:42-48 | an empty list when the pool file is missing or unreadable, otherwise its document |
| GeminiManager.SaveModels | backend/gemini_manager.py:51-55 | the pool loads back as saved, the temporary file is gone, and no other file changes |
| GeminiManager.Succ | backend/gemini_manager.py:75 | `x + 1` succeeds exactly on numbers and adds one |
| GeminiManager.Heal | backend/gemini_manager.py:66-89 | an unlinked model is untouched; a live one becomes active with no failures; a dead one counts a failure and, at three, is healed onto the backup link, active, with the count reset; linked models always end with fewer than three failures; fields other than the four healed ones are kept; a missing name or non-numeric count raises |
| GeminiManager.HealAll | backend/gemini_manager.py:66-89 | every entry healed in order, or a raise caused by some entry |
| GeminiManager.HealPool | backend/gemini_manager.py:66-89 | the loop heals the entries in order and stops at the first that raises |
| GeminiManager.NewModel | backend/gemini_manager.py:92-99 | the discovered model holds exactly six keys: name `AutoAI-<seconds>`, the discovery link, a type from the table, creativity 5..10, active and not healed |
| GeminiManager.Objs | backend/gemini_manager.py:101 | the healed models as JSON, in order |
| GeminiManager.UpdateModelPool | backend/gemini_manager.py:61-105 | the update is the heal-then-discover-then-save function, raises included |
| GeminiManager.CheckedFacts | backend/gemini_manager.py:66-89 | a healed entry was a dict, has fewer than three failures when linked, and is unchanged when unlinked |
| GeminiManager.HealedBounded | backend/gemini_manager.py:66-89 | after healing, every linked model has fewer than three failures and every unlinked one is as it was |
| GeminiManager.PoolAfterUpdate | backend/gemini_manager.py:61-105 | a successful update saves every old model, healed and in order, followed by the new one |
| GeminiManager.BadPoolNotSaved | backend/gemini_manager.py:63-67 | a pool that is not a list, or holds a non-dict, raises before anything is saved |
| GeminiManager.MissingPoolStartsFresh | backend/gemini_manager.py:92-104 | without a readable pool the saved pool is exactly the one discovered model |
| GeminiManager.AutoPlans | backend/gemini_manager.py:115 | the plan paths are the temp paths of the listed `*_auto_plan.json` names, in listing order |
| GeminiManager.Last5 | backend/gemini_manager.py:120 | at most the last five plans, never none of a non-empty list |
| GeminiManager.Scores | backend/gemini_manager.py:119-125 | at most one score per plan |
| GeminiManager.NoDictNoScores | backend/gemini_manager.py:121-125 | plans that are not dicts yield no score |
| GeminiManager.SumNum | backend/gemini_manager.py:130 | `sum` succeeds exactly when every score is a number |
| GeminiManager.Boost | backend/gemini_manager.py:111-135 | always in 4..10; 5..10 without plans or scores; 7..10 for an average below 6 and 4..7 otherwise; a raise exactly when a score is not a number |
| GeminiManager.ListPlansNeutralBoost | backend/gemini_manager.py:119-128 | when every plan holds a list, the booster draws from 5..10 |
| GeminiManager.Enriched | backend/gemini_manager.py:156-158 | a dict plan gains the sync time, the booster's level and a boost effect from the table, and keeps its other fields |
| GeminiManager.SyncOne | backend/gemini_manager.py:148-168 | enriching one plan changes no other file and adds none |
| GeminiManager.SyncOneChanges | backend/gemini_manager.py:149-164 | a plan that changes was a dict and is now that dict enriched with the booster's level |
| GeminiManager.SyncFoldNext | backend/gemini_manager.py:147-168 | one more plan extends the pass by exactly its step |
| GeminiManager.DeepSyncEditPlans | backend/gemini_manager.py:141-168 | the pass enriches the listed auto plans one by one |
| GeminiManager.ListPlansUntouched | backend/gemini_manager.py:156-168 | a plan holding a list is left exactly as it was: `data[...] =` on a list raises before the shuffle |
| GeminiManager.SyncOnlyEnrichesDicts | backend/gemini_manager.py:141-168 | the pass adds no file and changes only walked plans, each into an enriched dict with a level in 4..10 and an effect from the table |
| GeminiManager.SyncFoldKeys | backend/gemini_manager.py:141-168 | a pass neither adds nor removes a file |
| GeminiManager.SyncFoldChanged | backend/gemini_manager.py:141-168 | a file the pass changes is one of the walked plans and holds an enriched dict |
| GeminiManager.SyncOneEnriches | backend/gemini_manager.py:149-164 | a plan that one step changes holds a dict with a level in 4..10 and an effect from the table |
| GeminiManager.EnrichmentSame | backend/gemini_manager.py:156-158 | whether a plan is enriched depends on that file alone |
| MediaOptimizer.Crf | backend/media_optimizer.py:32-40 | rate factor 25 below 10 MiB, 28 below 50 MiB, 30 from 50 MiB on |
| MediaOptimizer.CrfMonotone | backend/media_optimizer.py:35-40 | a larger original never gets a lower rate factor |
| MediaOptimizer.EnhanceVideo | backend/media_optimizer.py:64-74 | the sharpened copy is written at the `_enhanced` path when ffmpeg produces it; otherwise nothing changes |
| MediaOptimizer.CompressVideo | backend/media_optimizer.py:31-51 | the rate factor is the one for the original's size, and the compressed copy is written at the `_optimized` path when ffmpeg produces it |
| MediaOptimizer.ReplaceAtEnd | backend/media_optimizer.py:42-65 | for a name whose only ".mp4" is the last, `replace` swaps just that ending |
| MediaOptimizer.EndsWithJoin | backend/media_optimizer.py:99-103 | a slash-free ending of a joined path is an ending of the name |
| MediaOptimizer.SlashInSuffix | backend/media_optimizer.py:99-103 | an ending longer than the name reaches the directory's '/' |
| MediaOptimizer.JoinEndsWith | backend/media_optimizer.py:99-103 | a joined path ends with every ending of its name |
| MediaOptimizer.DerivedNames | backend/media_optimizer.py:42-65 | a render `<stem>.mp4` gets `<stem>_enhanced.mp4` and `<stem>_optimized.mp4` beside it, both of which are skipped as already optimized |
| MediaOptimizer.DerivedNotEligible | backend/media_optimizer.py:99-103 | no copy ever overwrites a render the loop processes |
| MediaOptimizer.DerivedNotEligibleBy | backend/media_optimizer.py:42-65 | a replaced path never names a processed render |
| MediaOptimizer.OptStep | backend/media_optimizer.py:99-109 | a step only adds files |
| MediaOptimizer.OptFold | backend/media_optimizer.py:99-109 | the pass only adds files |
| MediaOptimizer.OptFoldFirst | backend/media_optimizer.py:99-109 | the pass from one position is that render's step followed by the rest; a skipped name adds nothing |
| MediaOptimizer.OptimizePass | backend/media_optimizer.py:99-109 | the loop yields the pass fold: one compression per processed render in listing order at the rate factor of its size; both copies of every processed render hold what ffmpeg produced, stamped now, or what was there when ffmpeg produced nothing; every path that is no such copy is unchanged |
| MediaOptimizer.JobsMeaning | backend/media_optimizer.py:99-109 | one compression per processed render, in listing order, at the rate factor of its size |
| MediaOptimizer.StepKeepsOriginal | backend/media_optimizer.py:106-109 | a step leaves every processed render as it was |
| MediaOptimizer.PassKeepsOriginals | backend/media_optimizer.py:99-109 | the originals are neither replaced nor removed by a pass |
| MediaOptimizer.JobsSameSizes | backend/media_optimizer.py:32-40 | the jobs depend only on the sizes of the processed renders |
| MediaOptimizer.PassJobs | backend/media_optimizer.py:99-109 | the pass compresses exactly the renders that are not optimizer products, in listing order, at the rate factor of their size, reading the original's size although the enhanced copy exists |
| MediaOptimizer.JobsAppend | backend/media_optimizer.py:99-109 | the jobs of a concatenated listing are the jobs of each part in turn |
| MediaOptimizer.NoneEligible | backend/media_optimizer.py:102-103 | the optimizer's own copies are never processed |
| MediaOptimizer.ReprocessedEveryPass | backend/media_optimizer.py:98-112 | the next pass, which also lists the new copies, compresses the same originals again at the same rate factors |
| MediaOptimizer.FirstMatchInReplace | backend/media_optimizer.py:42-65 | after replacing the first ".mp4" by a marker, the first ".mp4" is the one ending the marker |
| MediaOptimizer.NoEarlyMatch | backend/media_optimizer.py:42-65 | no ".mp4" starts before the end of the inserted marker |
| MediaOptimizer.ReplacedFirst | backend/media_optimizer.py:42-65 | `replace` rewrites the first ".mp4" and then the rest, and the result's first ".mp4" ends that marker |
| MediaOptimizer.ReplacedBoth | backend/media_optimizer.py:42-65 | two paths with the same copy path both hold ".mp4" or neither does |
| MediaOptimizer.ReplacedSame | backend/media_optimizer.py:42-65 | two paths with the same copy path agree up to their first ".mp4", which is at the same place, and their rests have the same copy path |
| MediaOptimizer.SameSplit | backend/media_optimizer.py:42-65 | a text cut two ways at the same place has the same parts |
| MediaOptimizer.ReplaceInjective | backend/media_optimizer.py:42-65 | different paths never get the same `_enhanced` or the same `_optimized` path |
| MediaOptimizer.CopiesApart | backend/media_optimizer.py:42-65 | an `_enhanced` copy is never an `_optimized` copy, and different renders have different copies |
| MediaOptimizer.MarkersApart | backend/media_optimizer.py:42-65 | an `_enhanced` path of one render is never the `_optimized` path of another |
| MediaOptimizer.SuffixesClash | backend/media_optimizer.py:57-58 | no name ends both in `_enhanced.mp4` and in `_optimized.mp4` |
| MediaOptimizer.StepWrites | backend/media_optimizer.py:105-109 | a step on a processed render writes its two copies, the compression at the rate factor of the render's size, and leaves every other path untouched |
| MediaOptimizer.StepFrame | backend/media_optimizer.py:99-109 | a step changes nothing but the copies of the render it processes |
| MediaOptimizer.PassFrame | backend/media_optimizer.py:99-109 | a pass changes nothing but the copies of the renders it processes |
| MediaOptimizer.PassCopies | backend/media_optimizer.py:99-109 | after a pass, both copies of every processed render it lists hold what ffmpeg produced, stamped now, or, when ffmpeg produced nothing, what was there before |
| MediaOptimizer.NotCopyOfOther | backend/media_optimizer.py:99-109 | no path is a copy of two different processed renders |
| MediaOptimizer.CopySurvives | backend/media_optimizer.py:80-89 | cleaning the temp directory keeps every copy ffmpeg produced |
| MediaOptimizer.OutputCopyNotTemp | backend/media_optimizer.py:42-65 | a copy of a render stays in the output directory, never in the temp directory |
| MediaOptimizer.HeadBeforeMatch | backend/media_optimizer.py:42-65 | the first ".mp4" of a render path lies after the directory part |
| MediaOptimizer.CleanStep | backend/media_optimizer.py:81-88 | a cleaning step only removes files |
| MediaOptimizer.CleanTemp | backend/media_optimizer.py:80-89 | the cleaning is the clean fold over the temp listing |
| MediaOptimizer.CleanTempDeletes | backend/media_optimizer.py:81-88 | every listed file that is not an edit plan and whose unlink succeeds is gone, task descriptors included |
| MediaOptimizer.CleanTempKeeps | backend/media_optimizer.py:81-88 | every other file is kept unchanged |
| MediaOptimizer.EditPlansSurvive | backend/media_optimizer.py:82-83 | `*_edit_plan.json` files survive the cleaning |
| MediaOptimizer.OptimizeLoopPass | backend/media_optimizer.py:98-112 | one pass reports the jobs of the processed renders and ends in the clean fold of the pass fold; every copy ffmpeg produced is still there after the temp directory is cleaned |
| Orchestrator.MoodKeysAreTableKeys | backend/orchestrator.py:33-39 | the fallback draws its mood from exactly the table's keys, each with a non-empty effect list |
| Orchestrator.DetectTasks | backend/orchestrator.py:55-59 | exactly the listed `task_*.json` entries whose path does not contain `_auto_plan` |
| Orchestrator.LoadTask | backend/orchestrator.py:65-73 | an unreadable file gives no task; a dict is returned with its own `id` or, lacking one, the file's stem; any other value is returned unchanged exactly when it is a list holding "id" or a string containing it (the assignment that would raise is skipped), and gives no task otherwise |
| Orchestrator.Fallback | backend/orchestrator.py:91-95 | the fallback analysis holds exactly bpm in 90..180, a mood that is a key of the table, and error "fallback_mode" |
| Orchestrator.AnalyzeAudio | backend/orchestrator.py:79-98 | only `analysis` is set: to the analyser's output, or to the fallback when the task has no `audio` or the subprocess fails |
| Orchestrator.Clips | backend/orchestrator.py:109-112 | the four sample clip paths of the mood, numbered 1 to 4 |
| Orchestrator.PickClips | backend/orchestrator.py:104-113 | only `clips` is set, to the mood's four sample clip paths |
| Orchestrator.GeneratePlan | backend/orchestrator.py:125-138 | one block per clip, in clip order, block k running from 4k to 4k+4 with the clip, the bpm as beat_sync and an effect, transition and mood effect drawn from their tables |
| Orchestrator.BlockShape | backend/orchestrator.py:129-137 | a block holds exactly its seven keys with the values the plan loop gives them |
| Orchestrator.PlanBlocksNext | backend/orchestrator.py:128-138 | one more clip appends exactly its block, starting where the previous one ended |
| Orchestrator.Render | backend/orchestrator.py:151-161 | the output path is recorded whatever ffmpeg does, and the render exists only when ffmpeg produced it |
| Orchestrator.Finish | backend/orchestrator.py:140-171 | the plan file holds the plan as a JSON list and loads back; the render (when produced) and the task file are written; the saved task gains exactly `plan_path` and `output` and loads back as saved |
| Orchestrator.PlanPathApart | backend/orchestrator.py:140-160 | the plan, the task save and the render of one task are three different files, so no write overwrites another |
| Orchestrator.Stages | backend/orchestrator.py:196-201 | a task is saved iff its analysis is readable (a dict with `bpm` and `mood`) and names one of the known moods; otherwise it raises and changes nothing; a saved task's plan file holds the plan of the mood's clips, bpm and effects, and the task gains exactly the four stage keys, keeps its other fields and loads back as saved |
| Orchestrator.Process | backend/orchestrator.py:189-206 | a task file is saved iff it loads as a dict whose analysis names a known mood; no task or a falsy one is skipped; anything but a saved task leaves the files as they were; a saved task gains exactly the four stage keys and loads back from its save path |
| Orchestrator.RunTask | backend/orchestrator.py:189-206 | one iteration, stage by stage, ends as the per-task function says |
| Orchestrator.PassFold | backend/orchestrator.py:188-206 | one outcome per detected task |
| Orchestrator.PassFoldStep | backend/orchestrator.py:188-206 | one more task appends its outcome and its file changes |
| Orchestrator.RunPass | backend/orchestrator.py:181-206 | one pass processes the detected tasks in order, each on the files the earlier ones left |
| Orchestrator.EveryTaskRuns | backend/orchestrator.py:188-206 | the outcome of the k-th task is its processing on the files the earlier tasks left: an exception in one task never stops the pass |
| Orchestrator.SavedKeys | backend/orchestrator.py:190-201 | a saved task carries exactly its own keys, `id` and the four stage keys; no stage sets or reads a status |
| Orchestrator.LoadedFields | backend/orchestrator.py:67-70 | a dict task is loaded with its own fields and `id` |
| Orchestrator.UnknownMoodCrashes | backend/orchestrator.py:188-206 | a mood outside the table's keys raises before the plan is written: nothing is saved |
| Orchestrator.AnalyserMoodsCrash | backend/orchestrator.py:125-143 | tasks the analyser classifies "aggressive" or "cinematic" are never saved |
| Orchestrator.FallbackAlwaysSaves | backend/orchestrator.py:89-95 | without a working analyser, or without `audio`, a dict task always runs to the end |
| Orchestrator.ProcessObject | backend/orchestrator.py:190-201 | a dict task goes through the stages in its loaded form |
| Orchestrator.StemSavePath | backend/orchestrator.py:167-171 | the save path of a stem id is the task file itself |
| Orchestrator.StemIdSavesInPlace | backend/orchestrator.py:65-73 | a task without an `id` is saved back to the file it came from, so the next pass runs it again |
| Rchestrator.EditPlan | backend/rchestrator.py:64-70 | the edit plan holds exactly bpm and mood from the audio stub, the scene stub's scenes as timeline and the lyric stub's lines as captions |
| Rchestrator.RenderBranch | backend/rchestrator.py:79-104 | concat for more than one video, transcode for exactly one, a black preview for none |
| Rchestrator.VideoCount | backend/rchestrator.py:29-30 | `len(videos)` for a list, a string or a dict, 0 when missing, and a raise for anything else and for a one-key dict, whose `videos[0]` at line 93 raises KeyError; a count of one is always a list or a string |
| Rchestrator.AddNote | backend/rchestrator.py:41 | appending a note extends the notes by exactly that note and changes no other field |
| Rchestrator.Started | backend/rchestrator.py:24-27 | the first snapshot is running, with "Boss AI started." appended and every other field kept |
| Rchestrator.WriteStubFiles | backend/rchestrator.py:40-72 | exactly the four stub paths are added or replaced: audio, scenes and lyrics with their stub results and the edit plan with the plan built from them, all written now; the edit plan loads back as written; every other file is unchanged |
| Rchestrator.FourStubPathsApart | backend/rchestrator.py:44-70 | the audio, scenes, lyrics and edit-plan stub files are four different files |
| Rchestrator.FourWrites | backend/rchestrator.py:44-70 | four writes to four different paths leave each path holding its document and every other file as it was |
| Rchestrator.StubPathsApart | backend/rchestrator.py:44-70 | two different suffixes on the same task id name different files |
| Rchestrator.StubsNoted | backend/rchestrator.py:41-73 | steps 1 to 4 append their four notes, in order, and change nothing else |
| Rchestrator.FourNotes | backend/rchestrator.py:41-73 | four notes appended in turn extend the notes by those four, in order, and change no other key |
| Rchestrator.StubNotesListed | backend/rchestrator.py:41-73 | the four step notes, in order |
| Rchestrator.StepNotesSplit | backend/rchestrator.py:41-108 | a successful run's notes are the four step notes followed by the completion note |
| Rchestrator.Completed | backend/rchestrator.py:106-109 | a completed task has status completed, the preview as output and the completion note appended |
| Rchestrator.Failed | backend/rchestrator.py:86-98 | a failed render sets status error, appends its note and leaves `output` untouched |
| Rchestrator.Steps | backend/rchestrator.py:29-110 | exit 0 with a completed snapshot carrying all five notes and the preview path; exit 3 only when ffmpeg failed on a concat or transcode, with the error status and that branch's note; exit 1 when a step raises, with nothing more written, in particular when `videos` has no usable length or is a one-key dict |
| Rchestrator.Run | backend/rchestrator.py:11-110 | exit 1 without enough arguments and 2 without the task file, with nothing written; the first snapshot is the started task; every later snapshot only appends notes and moves the status from running to completed or error; a task whose `videos` raises exits 1 with only the started snapshot; success and failure end as Steps says |
| RenderFusion.GetEditPlans | backend/render_fusion_engine.py:20-21 | the temp paths of exactly the listed `*_edit_plan.json` names, in listing order |
| RenderFusion.ListText | backend/render_fusion_engine.py:37-39 | the list text has at least eight characters per clip (the line-per-clip content is what ListTextJoin and ListLinesRoundTrip state) |
| RenderFusion.Lines | backend/render_fusion_engine.py:38-39 | one line per clip |
| RenderFusion.ListTextSnoc | backend/render_fusion_engine.py:38-39 | one more clip appends exactly its line |
| RenderFusion.WriteList | backend/render_fusion_engine.py:37-39 | the loop writes the list text of the clips, one line per clip, in order |
| RenderFusion.ListTextJoin | backend/render_fusion_engine.py:38-39 | the list text is the lines joined by newlines, with a final newline |
| RenderFusion.LineNoNewline | backend/render_fusion_engine.py:39 | a clip's line holds a newline only at its end when the clip's text has none |
| RenderFusion.ListLinesRoundTrip | backend/render_fusion_engine.py:37-39 | when no clip's text holds a newline, splitting the list file at newlines gives back exactly one line per clip, in order |
| RenderFusion.LinesSplitOnlyAtEnd | backend/render_fusion_engine.py:39 | every line, and the empty tail, holds no inner newline |
| RenderFusion.RenderPlan | backend/render_fusion_engine.py:25-57 | a non-dict plan or falsy clips return nothing and write nothing; the output name is returned exactly for a dict plan with iterable truthy clips, with the list file removed and the render present when ffmpeg produced it; a failure leaves at most an empty list file; no other file changes |
| RenderFusion.Render | backend/render_fusion_engine.py:23-57 | a plan that does not load is a caught error that changes nothing |
| RenderFusion.RenderVideo | backend/render_fusion_engine.py:23-57 | step by step, the method returns what the render function defines |
| RenderFusion.EffectsIgnored | backend/render_fusion_engine.py:28-51 | a plan's effects never change the render |
| RenderFusion.PlanNotDone | backend/render_fusion_engine.py:66 | a plan's `.done` name is not its own name |
| RenderFusion.Step | backend/render_fusion_engine.py:64-67 | a plan that finishes has its `.done` file and is gone from the plan name |
| RenderFusion.PassFold | backend/render_fusion_engine.py:63-67 | at most one outcome per plan; a crash ends the pass |
| RenderFusion.FusionPass | backend/render_fusion_engine.py:62-67 | one pass renders and renames the listed plans in order |
| RenderFusion.NoPlanCreated | backend/render_fusion_engine.py:36-67 | no step creates a new `*_edit_plan.json` file in the temp directory |
| RenderFusion.PlansRetired | backend/render_fusion_engine.py:62-67 | after a pass without a crash every listed plan is gone, so each plan is rendered at most once |
| RenderFusion.LastRetires | backend/render_fusion_engine.py:62-67 | a step that renders its plan retires it and brings back none of the plans retired before |
| RenderManager.DetectTasks | backend/render_manager.py:10-15 | exactly the `task_*.json` names without `_auto_plan`, joined to the temp directory, in listing order, and every such listed name is included |
| RenderManager.SafeLoad | backend/render_manager.py:17-29 | a file that does not load, or holds a list, gives nothing; a dict comes back with its fields, with `id` added from the base name without `.json` only when missing |
| RenderManager.ReRender | backend/render_manager.py:37-51 | the path returned is always `rerender_<id>.mp4` in the output directory, whether or not ffmpeg produced it; only that path can change |
| RenderManager.CheckQuality | backend/render_manager.py:31-35 | for a path: a file of more than 5000 bytes; in general it raises exactly when `os.path.exists` raises, and passes exactly when the output exists with more than 5000 bytes |
| RenderManager.Step | backend/render_manager.py:57-78 | only a repair rewrites anything; every other outcome, including the raise when `os.path.exists` cannot take a truthy output, leaves the files as they were |
| RenderManager.PassFold | backend/render_manager.py:57-78 | at most one outcome per task; nothing runs after a crash |
| RenderManager.RenderPass | backend/render_manager.py:55-80 | one pass of the loop yields exactly the outcomes and files the fold defines |
| RenderManager.CrashEndsPass | backend/render_manager.py:57-78 | a crash can only be the last outcome, and a pass without one handles every task |
| RenderManager.Loaded | backend/render_manager.py:17-26 | a dict task loads truthy, keeping every field other than `id` |
| RenderManager.NoOutputSkipped | backend/render_manager.py:66-69 | a task without a truthy `output` is skipped and its file left as it was |
| RenderManager.GoodOutputUntouched | backend/render_manager.py:71-78 | a task whose output holds more than 5000 bytes is verified and nothing is written |
| RenderManager.BadOutputRepaired | backend/render_manager.py:71-76 | a task whose output is missing or small is rewritten with `output_fixed` set to its re-render path, every other field kept |
| RenderManager.RepairRepeats | backend/render_manager.py:71-76 | repairing does not change `output`, so the same task is repaired again on the next pass |
| RenderManager.StringTaskCrashes | backend/render_manager.py:20-66 | a task file holding a JSON string that contains `id` passes the load and makes the loop raise, leaving the files unchanged |
| RenderManager.DescriptorOutputRepaired | backend/render_manager.py:66-76 | an int output is a file descriptor: when it is closed, negative, or open on at most 5000 bytes the task is repaired with `output_fixed`, keeping `output` |
| RenderManager.UnstatableOutputCrashes | backend/render_manager.py:66-72 | a truthy output that `os.path.exists` cannot take (float, list, dict, or an int beyond the C range) raises, ending the pass with the files unchanged |
| ResumeQueue.ListTaskFiles | backend/resume_worker.js:21-23 | exactly the listed names starting `task_` and ending `.json` |
| ResumeQueue.ReadTask | backend/resume_worker.js:25-32 | a document comes back exactly when the task file exists and parses |
| ResumeQueue.PathsDistinct | backend/resume_worker.js:35-90 | a task's file, its lock, its concat list and its output are four different paths |
| ResumeQueue.LockTask | backend/resume_worker.js:39-47 | after locking, the task is locked |
| ResumeQueue.UnlockTask | backend/resume_worker.js:49-52 | after unlocking, the task is not locked |
| ResumeQueue.Videos | backend/resume_worker.js:71 | the videos are always truthy: the empty list stands in for a missing or falsy value |
| ResumeQueue.Audio | backend/resume_worker.js:72 | the audio is null or truthy |
| ResumeQueue.Length | backend/resume_worker.js:75-89 | `videos.length` is an array's or a string's length, an object's own `length` field, and undefined otherwise |
| ResumeQueue.Input | backend/resume_worker.js:115 | the first video when it is truthy, an object's `"0"` field when that is truthy, and the audio otherwise, in particular when an array or string has no videos |
| ResumeQueue.ObjectVideos | backend/resume_worker.js:71-115 | an object as `videos` answers from its own fields: `{length: 0}` is no videos, `{length: 2}` is several and has no `map`, so the concat branch throws, and `{"0": "clip.mp4"}` is a single video |
| ResumeQueue.Escape | backend/resume_worker.js:91 | every single quote is preceded by a backslash, nothing else is added, and a path without quotes is unchanged |
| ResumeQueue.ConcatLines | backend/resume_worker.js:91 | the lines exist exactly when the videos are an array of strings, one `file '…'` line per video, in order |
| ResumeQueue.ConcatListLines | backend/resume_worker.js:91-92 | splitting the written list at newlines gives back exactly one line per video, in order, each of the form `file '…'`, when no path holds a newline |
| ResumeQueue.ConcatLineShape | backend/resume_worker.js:91 | each line starts with `file '` and ends with a quote |
| ResumeQueue.LineNoNewline | backend/resume_worker.js:91 | a line holds no newline when its path holds none |
| ResumeQueue.Produce | backend/resume_worker.js:94-125 | the output ffmpeg produces is present with its size |
| ResumeQueue.Close | backend/resume_worker.js:76-140 | every exit sets `finished_at`, writes the ended task to its file and releases the lock, keeping every field it does not set |
| ResumeQueue.AfterFfmpeg | backend/resume_worker.js:98-136 | a failed run gives "failed" with its error and stderr; a good one gives "done" with the output; other fields are kept |
| ResumeQueue.Concat | backend/resume_worker.js:89-111 | the branch raises exactly when the videos are not an array of strings; otherwise the task is closed, the list file is gone, and it failed exactly when ffmpeg failed on the list text |
| ResumeQueue.Transcode | backend/resume_worker.js:113-142 | the task is always closed; a missing input fails it with "input_missing", otherwise it failed exactly when ffmpeg failed |
| ResumeQueue.Processing | backend/resume_worker.js:66-67 | status "processing" with `started_at`, other fields kept |
| ResumeQueue.Process | backend/resume_worker.js:60-144 | a raise leaves only the "processing" write; otherwise the task ends "done" with its output or "failed" with one of the four errors, written and unlocked; the branch follows `videos.length` as JavaScript reads it, an object's own fields included |
| ResumeQueue.ProcessTask | backend/resume_worker.js:60-144 | step by step, the method does what the processing function defines |
| ResumeQueue.CloseFrame | backend/resume_worker.js:76-81 | closing touches only the task file and its lock |
| ResumeQueue.ConcatFrame | backend/resume_worker.js:89-111 | the concat branch touches only the task's file, lock, list and output |
| ResumeQueue.TranscodeFrame | backend/resume_worker.js:113-142 | the single-input branch touches only the task's file, lock and output |
| ResumeQueue.ProcessFrame | backend/resume_worker.js:60-144 | processing touches only the task's own four paths |
| ResumeQueue.Head | backend/resume_worker.js:177 | at most 1000 characters, a prefix of the error text, and the whole text when it is short |
| ResumeQueue.Fail | backend/resume_worker.js:174-180 | the catch writes the task as "failed" with the first 1000 characters of the error and releases the lock |
| ResumeQueue.FailFrame | backend/resume_worker.js:174-180 | the catch touches only the task file and its lock |
| ResumeQueue.PushedNotes | backend/resume_worker.js:168-169 | the old notes array with one `resumed_by_worker:` note appended, or that note alone |
| ResumeQueue.Resuming | backend/resume_worker.js:166-169 | status "resuming", `resumed_at` and the pushed notes |
| ResumeQueue.MarksKeepFields | backend/resume_worker.js:66-169 | both marks keep every field they do not set |
| ResumeQueue.ResumePushed | backend/resume_worker.js:164-180 | the handled task is unlocked, its last write is what its file holds, and it ended "done"/"failed" or was caught as failed |
| ResumeQueue.ResumeWrites | backend/resume_worker.js:164-180 | three writes: "resuming", "processing" and the last, all with the new note |
| ResumeQueue.ThrownWrites | backend/resume_worker.js:172-180 | when processing raises, the writes are still the three with the new note |
| ResumeQueue.ClosedWrites | backend/resume_worker.js:170-173 | when processing ends normally, the writes are the three with the new note |
| ResumeQueue.ProcessKeepsNotes | backend/resume_worker.js:60-144 | processing writes the "processing" object first and never changes `notes` |
| ResumeQueue.FailedKeepsNotes | backend/resume_worker.js:174-180 | the catch never changes `notes` |
| ResumeQueue.Resume | backend/resume_worker.js:164-180 | the handled task is unlocked with its last value on disk; notes that cannot take the push lead straight to the catch |
| ResumeQueue.HandleFile | backend/resume_worker.js:150-180 | a file is skipped exactly when it is unreadable, falsy, finished, locked or cannot be locked, and then nothing changes; a non-object non-array value crashes the scan with the lock left; a handled task ends unlocked with its last write on disk |
| ResumeQueue.ResumeFrame | backend/resume_worker.js:164-180 | the `try` block touches only the task's own four paths |
| ResumeQueue.OnlyOwnFilesChange | backend/resume_worker.js:150-180 | handling a task changes no file but its own file, lock, list and output |
| ResumeQueue.HandleTaskFile | backend/resume_worker.js:150-180 | step by step, the method does what the handling function defines |
| ResumeQueue.PassFold | backend/resume_worker.js:150-181 | at most one outcome per listed file; a crash ends the scan |
| ResumeQueue.MainOnce | backend/resume_worker.js:147-182 | one scan yields exactly the outcomes and files the fold defines over the listed task files |
| ResumeQueue.NoInputsFails | backend/resume_worker.js:75-82 | a task without videos or audio fails with "no_inputs"; only its file and lock change |
| ResumeQueue.FailedAtOnce | backend/resume_worker.js:75-123 | an early failure touches only the task file and its lock |
| ResumeQueue.InputMissingFails | backend/resume_worker.js:115-123 | a single input that does not exist fails with "input_missing" and ffmpeg does not run |
| ResumeQueue.InputMissingCloses | backend/resume_worker.js:115-123 | that failure is the early close right after "processing" |
| ResumeQueue.ProcessingInputs | backend/resume_worker.js:66-72 | marking a task as processing leaves its inputs alone |
| ResumeQueue.PlanFileCopied | backend/resume_worker.js:147-170 | an orchestrator `_auto_plan.json` list passes the `task_` filter and is written to `undefined.json` |
| ResumeRepair.Sanitise | backend/resume_worker.py:26 | the retried text holds no NUL character and is no longer than the original |
| ResumeRepair.LoadJsonSafe | backend/resume_worker.py:18-31 | a file that loads is returned as it is, with nothing written; otherwise its sanitised text is parsed once more and, when that succeeds, the file is rewritten to the parsed value with the current time as its modification time; a failure changes nothing |
| ResumeRepair.DetectIncomplete | backend/resume_worker.py:33-38 | every listed `task_*.json` name, whatever its status, joined to the temp directory in listing order |
| ResumeRepair.ResumeTask | backend/resume_worker.py:40-67 | step by step, the method does what the resume function defines |
| ResumeRepair.ResumeLoadedTask | backend/resume_worker.py:46-67 | for a loaded task, the method does what the resume function defines after the load |
| ResumeRepair.PassFold | backend/resume_worker.py:72-74 | at most one outcome per task; an uncaught error ends the worker |
| ResumeRepair.PassFoldStep | backend/resume_worker.py:72-74 | one more task adds nothing after a crash; otherwise that task is resumed on the files the earlier ones left and its outcome appended |
| ResumeRepair.ResumePass | backend/resume_worker.py:69-75 | one pass of the loop yields exactly the outcomes and files the fold defines |
| ResumeRepair.Resume | backend/resume_worker.py:40-67 | skipped exactly when the safe load gives nothing or a falsy value; only an output repair writes beyond the JSON repair; a resumed task was a dict, and a plan repair is requested exactly when its `plan_path` is falsy |
| ResumeRepair.ResumeLoaded | backend/resume_worker.py:46-67 | a loaded dict is never skipped; it raises exactly when a truthy output is one `os.path.exists` cannot take; only an output repair writes; a plan repair is requested exactly when `plan_path` is falsy |
| ResumeRepair.OutputPresentNoWrite | backend/resume_worker.py:49-67 | a task whose output exists is not written, and a plan repair is requested exactly when `plan_path` is falsy |
| ResumeRepair.MissingOutputRepaired | backend/resume_worker.py:46-64 | a missing or falsy output, or one `os.path.exists` finds absent (a missing path, a closed descriptor), is replaced by `resume_<id>.mp4` in the output directory and the task rewritten with every other field kept |
| ResumeRepair.UnfixableUntouched | backend/resume_worker.py:18-44 | a corrupt file that sanitising cannot save is neither rewritten nor deleted, and the task is skipped |
| ResumeRepair.PlanFileCrashesWorker | backend/resume_worker.py:33-46 | an orchestrator `_auto_plan.json` list is picked up as a task, and its `task.get` raises and ends the worker |
| ResumeRepair.UnstatableOutputCrashes | backend/resume_worker.py:54-55 | a truthy output that `os.path.exists` cannot take raises and ends the worker, with nothing written |
| ResumeRepair.RepairedFileIsFresh | backend/resume_worker.py:18-31 | a corrupt task that sanitising saves is rewritten and carries the current time as its modification time |
| SceneSplit.FirstWith | backend/scene_split.py:41 | the first word, in order, that contains the text: every earlier word lacks it; none when no word contains it |
| SceneSplit.LineTime | backend/scene_split.py:38-45 | a line without `pts_time` gives no stamp; otherwise the stamp is the parse of the text after the first `=` of the first word containing `pts_time`, and none when that word has no `=` |
| SceneSplit.Times | backend/scene_split.py:35-45 | the stamps are exactly those of the lines that yield one, in line order: the k-th stamp is the parse of the k-th such line |
| SceneSplit.LineTimes | backend/scene_split.py:38-45 | the stamp, or none, of each line in turn |
| SceneSplit.Stamped | backend/scene_split.py:38-45 | the positions of the lines that yield a stamp: ascending, each yielding one, and none left out |
| SceneSplit.ParseTimes | backend/scene_split.py:35-45 | the parsing loop collects exactly the stamps of the lines, in order |
| SceneSplit.ChunkCount | backend/scene_split.py:51-58 | no chunks for a non-positive duration; otherwise the fewest four-second chunks that reach the duration |
| SceneSplit.Chunks | backend/scene_split.py:53-58 | as many chunks as it takes four-second steps to pass the duration |
| SceneSplit.ChunkLoop | backend/scene_split.py:53-59 | the fallback loop yields exactly the clipped four-second chunks |
| SceneSplit.ChunksCover | backend/scene_split.py:53-58 | the chunks start at 0, are back to back, are non-empty and at most four seconds long, and the last ends at the duration |
| SceneSplit.Intervals | backend/scene_split.py:62-66 | one interval per stamp |
| SceneSplit.IntervalLoop | backend/scene_split.py:62-66 | the loop yields each stamp paired with the one before it (0 first) and ends holding the last stamp |
| SceneSplit.IntervalsChain | backend/scene_split.py:62-71 | the intervals start at 0 and are back to back; a tail is added exactly when the duration is non-zero and past the last stamp, and it runs from that stamp to the duration |
| SceneSplit.Detect | backend/scene_split.py:20-71 | the detection raises exactly when `os.path.exists` does not find the video (or cannot take it) |
| SceneSplit.DetectScenes | backend/scene_split.py:20-71 | step by step, the method returns what the detection function defines |
| SceneSplit.ScenesFrom | backend/scene_split.py:50-71 | without stamps the scenes are the four-second chunks of the duration; with stamps they are the intervals between them plus the tail the duration adds |
| SceneSplit.ClipLength | backend/scene_split.py:90 | the preview length is the scene's length, raised to at least half a second |
| SceneSplit.RenderClip | backend/scene_split.py:91-94 | rendering a preview can add or change only that preview's file |
| SceneSplit.SceneClips | backend/scene_split.py:89-97 | rendering previews never removes a file |
| SceneSplit.ClipNames | backend/scene_split.py:91-96 | one path per preview number |
| SceneSplit.CreateSceneClips | backend/scene_split.py:81-97 | the loop renders each scene and returns the paths of the previews found on disk, in scene order |
| SceneSplit.SceneClipsOrdered | backend/scene_split.py:89-97 | the previews returned are numbered within 1 to the number of scenes, strictly increasing, and each exists afterwards |
| SceneSplit.StalePreviewReported | backend/scene_split.py:95-96 | a preview left on disk from an earlier run is returned even when ffmpeg renders nothing |
| SceneSplit.VideoField | backend/scene_split.py:112 | a truthy `video` field is the video |
| SceneSplit.SceneObjs | backend/scene_split.py:124 | one `{start, end}` object per scene, in order |
| SceneSplit.FirstEight | backend/scene_split.py:128 | a prefix of the scenes with at most eight of them: eight when there are that many, all otherwise |
| SceneSplit.SplitTask | backend/scene_split.py:99-136 | the task is split iff its file loads as a dict with a truthy video that exists, a preview directory can be derived, and the video is a string or no scene is chosen; it is left alone iff the file does not load, or loads as a dict whose video is present but falsy or missing on disk; every other task raises; only a split writes anything |
| SceneSplit.SceneSplitTask | backend/scene_split.py:99-136 | step by step, the method does what the split function defines |
| SceneSplit.NoSplitWithoutVideo | backend/scene_split.py:105-115 | an unreadable task, or one whose video is falsy or that `os.path.exists` finds absent, is not split and nothing is written |
| SceneSplit.SplitWritesScenes | backend/scene_split.py:118-133 | a split rewrites the task with its scenes and at most eight preview paths, keeping every other field; the scenes at threshold 0.4 are kept unless there are none; a video given as a descriptor splits only with no scenes and no previews |
| SceneSplit.SplitTaskDocFields | backend/scene_split.py:124-129 | the written task is the old one plus `scenes` and `scene_clips` |
| SceneSplit.UnstatableVideoRaises | backend/scene_split.py:112-113 | a truthy video that `os.path.exists` cannot take raises, with nothing written |
| SceneSplit.DescriptorVideoRaises | backend/scene_split.py:88-96 | a video given as an open descriptor with scenes found raises at the first preview name, with nothing written |
| TaskMonitor.CollectStops | backend/task_monitor.py:40-59 | once a listing loop has raised, the whole refresh has |
| TaskMonitor.CollectStep | backend/task_monitor.py:40-59 | one iteration appends the entry of a selected name, skips any other name, and raises when the entry does |
| TaskMonitor.CollectMeaning | backend/task_monitor.py:40-59 | a listing loop raises exactly when a selected name's entry raises; otherwise it holds the entry of every selected name and nothing else |
| TaskMonitor.CollectOrdered | backend/task_monitor.py:40-52 | over the sorted listing, entries come in name order |
| TaskMonitor.TaskEntry | backend/task_monitor.py:42-48 | a task file that loads as an object is returned with `_file` set to its name; one that does not load is `{"error": "corrupt"}` with `_file`; any other JSON value raises |
| TaskMonitor.TasksMeaning | backend/task_monitor.py:38-48 | the task list raises exactly when some `task_*.json` holds a non-object; otherwise it holds one tagged entry per listed task file and nothing else, ordered by `_file` |
| TaskMonitor.OutputEntry | backend/task_monitor.py:54-59 | an entry exists exactly when the output file does, with its name, size and whole-second mtime |
| TaskMonitor.OutputsMeaning | backend/task_monitor.py:50-59 | the output list raises exactly when a listed video is gone; otherwise it holds one entry per listed video, whatever the case of its extension, and nothing else, ordered by name |
| TaskMonitor.UpperCaseVideo | backend/task_monitor.py:53 | an upper-case `.MP4` name counts as a video |
| TaskMonitor.ReadTasks | backend/task_monitor.py:38-48 | the task loop yields exactly the task list |
| TaskMonitor.ReadOutputs | backend/task_monitor.py:50-59 | the output loop yields exactly the output list |
| TaskMonitor.Cache.constructor | backend/task_monitor.py:18-22 | the cache starts empty with a last update of 0 |
| TaskMonitor.Cache.Refresh | backend/task_monitor.py:33-64 | within three seconds of the last update the cache is returned as it was; otherwise it succeeds exactly when both loops do, and then holds both lists and the new time; a raise leaves the cache as it was |
| TaskMonitor.ServedPath | backend/task_monitor.py:90-99 | whatever name is requested, the path names an entry directly inside the directory, and a plain name is joined unchanged |
| TaskMonitor.ApiOutputFile | backend/task_monitor.py:88-94 | not found exactly when the served path does not exist; a file sent is an existing entry directly inside the output directory |
| TaskMonitor.ReadLines | backend/task_monitor.py:106 | the lines join back to the text; each is non-empty, holds a newline only at its end, and every line but the last ends in one |
| TaskMonitor.LastLines | backend/task_monitor.py:106 | a suffix of at most n lines, and all of them when there are no more than n |
| TaskMonitor.LogBodyTail | backend/task_monitor.py:105-107 | the page body is an end of the log with at most 150 lines, and the whole log when it has no more than that |
| TaskMonitor.ApiLogs | backend/task_monitor.py:96-109 | not found exactly when the served log path does not exist |
| TaskMonitor.LogPageTail | backend/task_monitor.py:96-107 | a log page wraps in `<pre>` an end of the log of at most 150 lines, and the whole log when it has no more than that |
| TaskMonitor.TailLines | backend/task_monitor.py:106 | reading back a run of whole lines gives as many lines |
| TaskMonitor.LinesRoundTrip | backend/task_monitor.py:106-107 | reading back joined whole lines gives exactly those lines |
| TaskMonitor.ReadLinesCons | backend/task_monitor.py:106 | a line ending in its only newline is read off the front of a text |
| TaskMonitor.ReadLinesLast | backend/task_monitor.py:106 | a last line, with or without its newline, is read as one line |

## Left out

- Logging and console output: every `log`/`print`/`console.log` is dropped. The one exception is a log file that another worker reads back: the backup log, which the restore worker parses.
- Flask and HTTP plumbing: the routes `home`, `api_tasks`, `api_task`, `api_outputs` and `api_health` of `task_monitor.py`, beyond the cache, file and log logic they call. `server.js`, `analyzer.js`, `log_viewer.py`, `health_monitor.py`, `auto_restart_guard.py`, `orchestrator_safe.py` and the frontend are not part of this model.
- The command lines of ffmpeg, ffprobe, curl, `ping` and the analyser: their text is not modelled, only what each run answers (an exit status, stderr, whether a file was produced and its size). The exceptions are the texts the model does follow: the concat list files and the backup log line.
- The `orchestrator.py --repair` subprocess started by `resume_worker.py`: it is taken to change no file. The command names `orchestrator.py` in the repository root, while the scripts live in `backend/`, so `python3` fails at once. Were a copy there, it would ignore `--repair` and run its endless loop (`backend/orchestrator.py` lines 177-215), and `resume_task` would never return; that case is not modelled.
- Sleeps, `setInterval`, the endless `while True` loops and the start-up code: one pass of each loop body is modelled, with the clock as a parameter.
- Concurrency: workers running side by side, overlapping `setInterval` scans and async `exec` callbacks. Each scan is one sequential step. The plain-versus-atomic save lemmas state the only interleaving considered: a reader between the truncation and the write.
- Floating point: numbers are exact reals, and `int()` of a positive real is its floor.
- `Compose.Round2`: rounds halves up. Python's `round` works on the binary float and breaks ties to even, so the two can differ in the last digit.
- `AudioAnalysis.Report`: stores duration, volume and energy without the `round` to two or four decimals that `analyze` applies.
- `Common.Lower`, `Common.Trim` and `Common.Words` handle ASCII letters and ASCII whitespace only; Unicode case folding and Unicode spaces are not modelled.
- `Common.IsSpace`: the space, tab, newline, carriage return, vertical tab and form feed that both Python and JavaScript strip. Python's `strip()` and `split()` also treat the separators `\x1c`–`\x1f` as whitespace and JavaScript's `trim()` does not, so a Python text that starts or ends with one of them is trimmed differently in the model.
- `Common.Size`: a JSON document's byte size is not measured and counts as 0. Sizes matter only for media files (quality checks, CRF choice, backup verification).
- Logs that are not text files read as empty (`TaskMonitor.LogText`), and the cleanup worker does not trim them (`CleanupWorker.LogStep`).
- Directories as entries of a listing, `mkdir`, and path normalisation (`..`, doubled slashes): paths are plain strings joined with `/`.
- The order and contents of `os.listdir`/`readdirSync`: they are an input sequence of names. Some lemmas require the names to be distinct or sorted, as a real listing is.
- Dictionary key order: iterating a JSON object (`Common.PyIter`) is treated as raising, wherever the source would iterate over a dict.
- `random.*`: each draw is an oracle number mapped into the table or range the source draws from. The creative content of the tables is not modelled.
- psutil's CPU and RAM readings and process liveness (`poll`) in `auto_ai_trigger.py` are inputs; signals and `sys.exit` in the shutdown handler are recorded as the handles signalled.
- `Common.PyStr`, `Common.JsString` and `Common.JsStr`: a float, and in Python a list or a dict, is rendered as the placeholder `<value>` rather than its printed form, so ids such as 1.5 and 2.5 give the same `resume_<id>.mp4`, `rerender_<id>.mp4` or `<id>.json` path in the model where the source keeps them apart. JavaScript's loss of precision for integers beyond 2^53 is not modelled either.
- `BackupUploader.BackupOldFiles`: one timestamp is used for every log line of a scan, where the source reads the clock again (`toISOString()`) for each line.
- `TaskMonitor.ReadLines`: splits on `\n` only; the universal-newline folding of `\r\n` and `\r` that Python's text mode applies is not modelled.
- `CloudRestore.Download`: a failed curl is taken to leave no file behind; a partial download left on disk is not modelled.
- `ResumeQueue.Length`: a `length` field that is a string, a list or an object counts as not a number, where JavaScript's `>` converts it (so `{length: "5"}` would count as several videos). A string's `length` counts code points, where JavaScript counts UTF-16 code units: a single character outside the Basic Multilingual Plane has length 2 there and 1 here, and `videos[0]` on such a string is half of it there.
- `SceneSplit.Times`: the lines of ffmpeg's output are an input. As written, the command's `-loglevel error` silences showinfo and its `2>&1` sends stderr to stdout while the worker reads stderr, so a real run parses no stamp and always takes the four-second chunks; the model also covers the output the command was evidently meant to give.
- `CloudRestore.LineRoundTrip`: requires that the time stamp, name and link hold no '|' and the name and link no '→' at all. The parse only breaks on the separators " | " and " → ", so a name holding a bare '|' or '→' also reads back, but that wider case is not proved.
- `CloudRestore.BackupLogRoundTrip`: requires, through `PlainName` and `PlainStamp`, names and the time stamp free of the characters '|' and '→', not only of the separators " | " and " → "; names that hold a bare '|' or '→' are not covered. `CloudRestore.BarInNameLost` shows what a name holding " | " does to the parse.
- `MediaOptimizer.CleanTemp`: the temp directory is taken to exist; `iterdir()` on a missing directory raises, which the listing-as-input model does not represent.

=== FILE: audio_analysis.dfy ===
/** The audio analyser: the mood, sub-mood and edit-style decision tables, the
    beat estimate from a decoded waveform, the 16-bit PCM decoder and the
    error returns of `analyze`. Floating point is modelled by exact reals. */
module AudioAnalysis {
  import opened Common

  /** The sample rate the decoder asks ffmpeg for, and `estimate_bpm`'s
      default `sr`. */
  const SR: nat := 11025

  const Moods: set<string> := {"aggressive", "epic", "sad", "romantic", "cinematic"}

  // ---------------------------------------------------------------------------
  // Decision tables
  // ---------------------------------------------------------------------------

  /** `detect_mood`: the first matching rule wins. */
  function DetectMood(bpm: int, volume: real, energy: real): (m: string)
    ensures m in Moods
    ensures m == "aggressive" <==> bpm > 145 || energy > 0.12
    ensures m == "epic" <==> !(bpm > 145 || energy > 0.12) && bpm > 130
    ensures m == "sad" <==> bpm <= 130 && energy <= 0.12 && bpm < 95 && volume < -17.0
    ensures m == "romantic" <==> energy <= 0.12 && 100 <= bpm <= 125
    ensures m == "cinematic" <==>
      energy <= 0.12 && bpm <= 130 && !(bpm < 95 && volume < -17.0) && !(100 <= bpm <= 125)
  {
    var intense := bpm > 145 || energy > 0.12;
    var soft := bpm < 95 && volume < -17.0;
    if intense then "aggressive"
    else if bpm > 130 then "epic"
    else if soft then "sad"
    else if 100 <= bpm <= 125 then "romantic"
    else "cinematic"
  }

  /** `detect_submood` */
  function DetectSubmood(bpm: int, energy: real): (m: string)
    ensures m in {"impact", "emotional", "hype", "flow"}
    ensures m == "impact" <==> bpm > 160
    ensures m == "emotional" <==> bpm < 85
    ensures m == "hype" <==> 85 <= bpm <= 160 && energy > 0.10
    ensures m == "flow" <==> 85 <= bpm <= 160 && energy <= 0.10
  {
    if bpm > 160 then "impact"
    else if bpm < 85 then "emotional"
    else if energy > 0.10 then "hype"
    else "flow"
  }

  /** `detect_edit_style`: the style depends on the mood alone. */
  function DetectEditStyle(bpm: int, mood: string): (s: string)
    ensures s in {"velocity", "impact", "emotional-sync", "smooth-flow", "cinematic-glow"}
    ensures s == "velocity" <==> mood == "aggressive"
    ensures s == "impact" <==> mood == "epic"
    ensures s == "emotional-sync" <==> mood == "sad"
    ensures s == "smooth-flow" <==> mood == "romantic"
    ensures s == "cinematic-glow" <==> mood !in {"aggressive", "epic", "sad", "romantic"}
  {
    if mood == "aggressive" then "velocity"
    else if mood == "epic" then "impact"
    else if mood == "sad" then "emotional-sync"
    else if mood == "romantic" then "smooth-flow"
    else "cinematic-glow"
  }

  // ---------------------------------------------------------------------------
  // Beat estimate
  // ---------------------------------------------------------------------------

  function Abs(x: real): (r: real)
    ensures r >= 0.0 && (r == x || r == -x)
  {
    if x < 0.0 then -x else x
  }

  function Sum(xs: seq<real>): real
    decreases |xs|
  {
    if xs == [] then 0.0 else xs[0] + Sum(xs[1..])
  }

  /** `statistics.mean` of a non-empty list. */
  function Mean(xs: seq<real>): real
    requires |xs| > 0
  {
    Sum(xs) / (|xs| as real)
  }

  function Energies(samples: seq<real>): (e: seq<real>)
    ensures |e| == |samples|
    ensures forall i :: 0 <= i < |e| ==> e[i] == Abs(samples[i])
  {
    seq(|samples|, i requires 0 <= i < |samples| => Abs(samples[i]))
  }

  /** An interior index whose energy is above the threshold and strictly above
      both neighbours. */
  predicate IsPeak(e: seq<real>, threshold: real, i: nat) {
    1 <= i < |e| - 1 && e[i] > threshold && e[i] > e[i - 1] && e[i] > e[i + 1]
  }

  /** The peaks at index `i` or later, in increasing order. */
  function PeaksFrom(e: seq<real>, threshold: real, i: nat): (r: seq<nat>)
    requires 1 <= i
    ensures forall k :: 0 <= k < |r| ==> i <= r[k] && IsPeak(e, threshold, r[k])
    ensures forall j: nat :: i <= j && IsPeak(e, threshold, j) ==> j in r
    ensures forall k :: 0 < k < |r| ==> r[k - 1] < r[k]
    decreases |e| - i
  {
    if i + 1 >= |e| then []
    else if IsPeak(e, threshold, i) then [i] + PeaksFrom(e, threshold, i + 1)
    else PeaksFrom(e, threshold, i + 1)
  }

  /** The gaps between consecutive peaks, in seconds. */
  function Intervals(peaks: seq<nat>): (r: seq<real>)
    requires |peaks| >= 1
    ensures |r| == |peaks| - 1
    ensures forall k :: 0 <= k < |r| ==> r[k] == (peaks[k + 1] as real - peaks[k] as real) / (SR as real)
  {
    seq(|peaks| - 1, k requires 0 <= k < |peaks| - 1 => (peaks[k + 1] as real - peaks[k] as real) / (SR as real))
  }

  lemma {:induction false} SumPositive(xs: seq<real>)
    requires |xs| > 0 && forall k :: 0 <= k < |xs| ==> xs[k] > 0.0
    ensures Sum(xs) > 0.0
    decreases |xs|
  {
    if |xs| > 1 {
      SumPositive(xs[1..]);
    }
  }

  lemma MeanPositive(xs: seq<real>)
    requires |xs| > 0 && forall k :: 0 <= k < |xs| ==> xs[k] > 0.0
    ensures Mean(xs) > 0.0
  {
    SumPositive(xs);
  }

  /** Peaks come in increasing order, so every gap is positive. */
  lemma IntervalsPositive(peaks: seq<nat>)
    requires |peaks| >= 1 && forall k :: 0 < k < |peaks| ==> peaks[k - 1] < peaks[k]
    ensures forall k :: 0 <= k < |peaks| - 1 ==> Intervals(peaks)[k] > 0.0
  {
    forall k | 0 <= k < |peaks| - 1 ensures Intervals(peaks)[k] > 0.0 {
      assert peaks[k] < peaks[k + 1];
      var d := peaks[k + 1] as real - peaks[k] as real;
      assert d > 0.0;
    }
  }

  /** The peaks of the energy above 1.2 times its mean, in increasing order. */
  function Peaks(samples: seq<real>): (r: seq<nat>)
    requires |samples| > 0
    ensures forall k :: 0 < k < |r| ==> r[k - 1] < r[k]
  {
    PeaksFrom(Energies(samples), Mean(Energies(samples)) * 1.2, 1)
  }

  /** `estimate_bpm(samples)` */
  function EstimateBpm(samples: seq<real>): (bpm: int)
    ensures |samples| < SR ==> bpm == 118
    ensures |samples| >= SR && |Peaks(samples)| < 3 ==> bpm == 120
    ensures 60 <= bpm <= 200
  {
    if |samples| < SR then 118
    else
      var peaks := Peaks(samples);
      if |peaks| < 3 then 120
      else
        var intervals := Intervals(peaks);
        IntervalsPositive(peaks);
        MeanPositive(intervals);
        ClampBpm(60.0 / Mean(intervals))
  }

  /** `int(max(60, min(200, x)))` */
  function ClampBpm(x: real): (bpm: int)
    ensures 60 <= bpm <= 200
    ensures 60.0 <= x <= 200.0 ==> bpm as real <= x < bpm as real + 1.0
  {
    Trunc(if x > 200.0 then 200.0 else if x < 60.0 then 60.0 else x)
  }

  // ---------------------------------------------------------------------------
  // PCM decoding
  // ---------------------------------------------------------------------------

  newtype byte = x: int | 0 <= x < 256

  /** Sample `k` of a little-endian signed 16-bit stream, scaled by 1/32768.
      A lone trailing byte is read as a signed 8-bit value, as
      `int.from_bytes` reads a one-byte slice. */
  function SampleAt(raw: seq<byte>, k: nat): (x: real)
    requires 2 * k < |raw|
    ensures -1.0 <= x < 1.0
  {
    var v: int :=
      if 2 * k + 1 < |raw| then
        var u := raw[2 * k] as int + 256 * raw[2 * k + 1] as int;
        if u >= 32768 then u - 65536 else u
      else
        var u := raw[2 * k] as int;
        if u >= 128 then u - 256 else u;
    v as real / 32768.0
  }

  /** The samples of a byte stream, two bytes each, a lone last byte last. */
  function Decoded(raw: seq<byte>): (r: seq<real>)
    ensures |r| == (|raw| + 1) / 2
  {
    seq((|raw| + 1) / 2, k requires 0 <= k < (|raw| + 1) / 2 => SampleAt(raw, k))
  }

  /** `extract_wave`'s decode loop over the bytes ffmpeg printed. */
  method ExtractWave(raw: seq<byte>) returns (data: seq<real>)
    ensures data == Decoded(raw)
    ensures |data| == (|raw| + 1) / 2
    ensures forall k :: 0 <= k < |data| ==> 2 * k < |raw| && data[k] == SampleAt(raw, k)
    ensures forall k :: 0 <= k < |data| ==> -1.0 <= data[k] < 1.0
  {
    data := [];
    var i := 0;
    while i < |raw|
      invariant i % 2 == 0 && i <= |raw| + 1
      invariant |data| == i / 2
      invariant forall k :: 0 <= k < |data| ==> 2 * k < |raw| && data[k] == SampleAt(raw, k)
    {
      data := data + [SampleAt(raw, i / 2)];
      i := i + 2;
    }
    assert |data| == |Decoded(raw)|;
  }

  // ---------------------------------------------------------------------------
  // analyze
  // ---------------------------------------------------------------------------

  /** `analyze(path)`, given whether the file exists, ffprobe's duration and
      volume readings and ffmpeg's decoded bytes. */
  method Analyze(exists_: bool, duration: real, volume: real, raw: seq<byte>) returns (r: Obj)
    ensures !exists_ ==> r == map["error" := JStr("File not found")]
    ensures exists_ && |raw| == 0 ==> r == map["error" := JStr("Decode error")]
    ensures exists_ && |raw| > 0 ==>
      r.Keys == {"duration", "volume", "bpm", "energy", "mood", "sub_mood", "edit_style"}
    ensures exists_ && |raw| > 0 ==>
      r["bpm"].JInt? && 60 <= r["bpm"].i <= 200 && r["mood"].JStr? && r["mood"].s in Moods
    ensures exists_ && |raw| > 0 ==>
      var wave := Decoded(raw);
      var bpm := EstimateBpm(wave);
      var energy := Mean(Energies(wave));
      r["bpm"] == JInt(bpm) && r["energy"] == JReal(energy)
      && r["duration"] == JReal(duration) && r["volume"] == JReal(volume)
      && r["mood"] == JStr(DetectMood(bpm, volume, energy))
      && r["sub_mood"] == JStr(DetectSubmood(bpm, energy))
      && r["edit_style"] == JStr(DetectEditStyle(bpm, DetectMood(bpm, volume, energy)))
  {
    if !exists_ {
      return map["error" := JStr("File not found")];
    }
    var wave := ExtractWave(raw);
    if |wave| == 0 {
      return map["error" := JStr("Decode error")];
    }
    r := Report(duration, volume, EstimateBpm(wave), Mean(Energies(wave)));
  }

  /** The dictionary `analyze` returns for a decoded track. */
  method Report(duration: real, volume: real, bpm: int, energy: real) returns (r: Obj)
    ensures r.Keys == {"duration", "volume", "bpm", "energy", "mood", "sub_mood", "edit_style"}
    ensures r["bpm"] == JInt(bpm) && r["energy"] == JReal(energy)
    ensures r["mood"] == JStr(DetectMood(bpm, volume, energy)) && r["mood"].s in Moods
    ensures r["edit_style"] == JStr(DetectEditStyle(bpm, DetectMood(bpm, volume, energy)))
    ensures r["sub_mood"] == JStr(DetectSubmood(bpm, energy))
    ensures r["duration"] == JReal(duration) && r["volume"] == JReal(volume)
  {
    var mood := DetectMood(bpm, volume, energy);
    var submood := DetectSubmood(bpm, energy);
    var style := DetectEditStyle(bpm, mood);
    r := map[
      "duration" := JReal(duration),
      "volume" := JReal(volume),
      "bpm" := JInt(bpm),
      "energy" := JReal(energy),
      "mood" := JStr(mood),
      "sub_mood" := JStr(submood),
      "edit_style" := JStr(style)
    ];
  }

  /** Both "aggressive" and "cinematic" are moods the analyser reports. */
  lemma AnalyserMoods()
    ensures DetectMood(150, 0.0, 0.0) == "aggressive"
    ensures DetectMood(90, 0.0, 0.0) == "cinematic"
  {
  }
}

=== FILE: auto_publish.dfy ===
/** The upload queue engine: each pass copies every .mp4 render not yet in the
    upload queue into it, writes a metadata document for it, and then trims
    the queue to its 30 newest entries. A failing copy is not caught and ends
    the process. Listings, failing copies and the clock are inputs. */
module AutoPublish {
  import opened Common

  const OUTPUT := "storage/output"
  const QUEUE := "storage/upload_queue"
  const META := "storage/metadata"
  const MAX_FILES: nat := 30

  predicate IsRender(n: string) {
    Suffix(n) == ".mp4"
  }

  function QueuePath(n: string): string {
    Join(QUEUE, n)
  }

  function MetaPath(n: string): string {
    Join(META, n + ".json")
  }

  // ---------------------------------------------------------------------------
  // create_metadata
  // ---------------------------------------------------------------------------

  /** The metadata document of a newly queued video, created at `now`
      milliseconds. */
  function Metadata(name: string, now: nat): (r: Json)
    ensures r.JObj?
    ensures r.fields.Keys == {"file", "created_at", "priority", "upload_status", "tags", "platform"}
    ensures r.fields["file"] == JStr(name) && r.fields["created_at"] == JInt(now / 1000)
    ensures r.fields["priority"] == JInt(1) && r.fields["upload_status"] == JStr("pending")
    ensures r.fields["tags"] == JArr([]) && r.fields["platform"] == JStr("none")
  {
    JObj(map[
      "file" := JStr(name),
      "created_at" := JInt(now / 1000),
      "priority" := JInt(1),
      "upload_status" := JStr("pending"),
      "tags" := JArr([]),
      "platform" := JStr("none")])
  }

  /** `create_metadata(name)`. */
  function CreateMetadata(fs: FileSystem, name: string, now: nat): (r: FileSystem)
    ensures LoadJson(r, MetaPath(name)) == Some(Metadata(name, now))
    ensures r.Keys == fs.Keys + {MetaPath(name)}
  {
    WriteDoc(fs, MetaPath(name), Metadata(name, now), now)
  }

  // ---------------------------------------------------------------------------
  // move_to_queue
  // ---------------------------------------------------------------------------

  /** One iteration of the loop of `move_to_queue`: false when the copy
      raises. */
  function QueueStep(fs: FileSystem, n: string, fails: set<string>, now: nat): (r: (bool, FileSystem))
    ensures QueuePath(n) in fs ==> r == (true, fs)
    ensures QueuePath(n) !in fs ==> (r.0 <==> CopyOk(fs, Join(OUTPUT, n), QueuePath(n), fails))
    ensures !r.0 ==> r.1 == fs
  {
    var src, q := Join(OUTPUT, n), QueuePath(n);
    if q in fs then (true, fs)
    else if CopyOk(fs, src, q, fails) then (true, CreateMetadata(fs[q := fs[src]], n, now))
    else (false, fs)
  }

  /** Whether the loop over `files` finishes, and the file system at its end
      or at the copy that raised. */
  function QueueFold(fs: FileSystem, files: seq<string>, fails: set<string>, now: nat): (r: (bool, FileSystem))
    decreases |files|
  {
    if files == [] then (true, fs)
    else
      var prev := QueueFold(fs, files[..|files| - 1], fails, now);
      if !prev.0 then prev else QueueStep(prev.1, files[|files| - 1], fails, now)
  }

  /** The renders of a listing of the output directory in the order
      `move_to_queue` walks them: sorted by name. */
  function QueueOrder(names: seq<string>): (r: seq<string>)
    ensures multiset(r) == multiset(Filter(names, IsRender))
    ensures SortedByName(r)
    ensures forall n :: n in r <==> n in names && IsRender(n)
  {
    var r := SortNames(Filter(names, IsRender));
    assert forall n :: n in r <==> n in multiset(r);
    r
  }

  /** `move_to_queue()` with the listing `names` of the output directory. */
  method MoveToQueue(fs: FileSystem, names: seq<string>, fails: set<string>, now: nat) returns (ok: bool, fs': FileSystem)
    ensures (ok, fs') == QueueFold(fs, QueueOrder(names), fails, now)
  {
    var files := QueueOrder(names);
    fs' := fs;
    for k := 0 to |files|
      invariant QueueFold(fs, files[..k], fails, now) == (true, fs')
    {
      QueueFoldNext(fs, files, fails, now, k);
      var step := QueueStep(fs', files[k], fails, now);
      if !step.0 {
        QueueFoldStops(fs, files, fails, now, k + 1, |files|);
        assert files[..|files|] == files;
        return false, fs';
      }
      fs' := step.1;
    }
    assert files[..|files|] == files;
    ok := true;
  }

  /** One more iteration of the loop of `move_to_queue`. */
  lemma QueueFoldNext(fs: FileSystem, files: seq<string>, fails: set<string>, now: nat, k: nat)
    requires k < |files| && QueueFold(fs, files[..k], fails, now).0
    ensures QueueFold(fs, files[..k + 1], fails, now) == QueueStep(QueueFold(fs, files[..k], fails, now).1, files[k], fails, now)
  {
    assert files[..k + 1][..k] == files[..k];
  }

  /** Once a copy has raised, the rest of the listing changes nothing. */
  lemma {:induction false} QueueFoldStops(fs: FileSystem, files: seq<string>, fails: set<string>, now: nat, k: nat, j: nat)
    requires k <= j <= |files| && !QueueFold(fs, files[..k], fails, now).0
    ensures QueueFold(fs, files[..j], fails, now) == QueueFold(fs, files[..k], fails, now)
    decreases j
  {
    if k < j {
      assert files[..j][..j - 1] == files[..j - 1];
      QueueFoldStops(fs, files, fails, now, k, j - 1);
    }
  }

  /** The copies follow the names' order, not the listing's: with `b.mp4`
      listed before `a.mp4` and the copy of `a.mp4` failing, the pass raises
      on its first copy and nothing is queued. */
  lemma SortedFirstRaise(fs: FileSystem, now: nat)
    requires Join(OUTPUT, "a.mp4") in fs && Join(OUTPUT, "b.mp4") in fs
    requires QueuePath("a.mp4") !in fs
    ensures QueueOrder(["b.mp4", "a.mp4"]) == ["a.mp4", "b.mp4"]
    ensures QueueFold(fs, QueueOrder(["b.mp4", "a.mp4"]), {QueuePath("a.mp4")}, now) == (false, fs)
  {
    SortedTwo();
    var r := ["a.mp4", "b.mp4"];
    FirstCopyFails(fs, now);
    assert r[..1] == ["a.mp4"] && r[..2] == r;
    QueueFoldStops(fs, r, {QueuePath("a.mp4")}, now, 1, 2);
  }

  /** A failing copy of the first render raises at once. */
  lemma FirstCopyFails(fs: FileSystem, now: nat)
    requires QueuePath("a.mp4") !in fs
    ensures QueueFold(fs, ["a.mp4"], {QueuePath("a.mp4")}, now) == (false, fs)
  {
    assert ["a.mp4"][..0] == [];
  }

  /** `sorted` puts `a.mp4` before `b.mp4`. */
  lemma SortedTwo()
    ensures QueueOrder(["b.mp4", "a.mp4"]) == ["a.mp4", "b.mp4"]
  {
    assert IsRender("a.mp4") && IsRender("b.mp4");
    assert Filter(["b.mp4", "a.mp4"], IsRender) == ["b.mp4", "a.mp4"];
    var r := QueueOrder(["b.mp4", "a.mp4"]);
    assert NameLeq(r[0], r[1]);
    assert multiset(r) == multiset{"a.mp4", "b.mp4"};
    assert |r| == 2;
    assert r[0] in multiset(r) && r[1] in multiset(r);
  }

  /** The three directories are apart. */
  lemma PathsApart(n: string, m: string)
    ensures Join(OUTPUT, n) != QueuePath(m) && Join(OUTPUT, n) != MetaPath(m) && QueuePath(n) != MetaPath(m)
  {
    assert Join(OUTPUT, n)[8] == 'o' && QueuePath(m)[8] == 'u' && MetaPath(m)[8] == 'm';
    assert QueuePath(n)[8] == 'u';
  }

  lemma MetaPathInjective(n: string, m: string)
    requires MetaPath(n) == MetaPath(m)
    ensures n == m
  {
    JoinInjective(META, n + ".json", m + ".json");
    assert n == (n + ".json")[..|n|];
    assert m == (m + ".json")[..|m|];
  }

  /** A render already in the queue is skipped: its queue file and its
      metadata are left as they were. */
  lemma {:induction false} QueuedSkipped(fs: FileSystem, files: seq<string>, fails: set<string>, now: nat, n: string)
    requires QueuePath(n) in fs
    ensures QueuePath(n) in QueueFold(fs, files, fails, now).1
    ensures QueueFold(fs, files, fails, now).1[QueuePath(n)] == fs[QueuePath(n)]
    ensures MetaPath(n) in QueueFold(fs, files, fails, now).1 <==> MetaPath(n) in fs
    ensures MetaPath(n) in fs ==> QueueFold(fs, files, fails, now).1[MetaPath(n)] == fs[MetaPath(n)]
    decreases |files|
  {
    if files != [] {
      var l := files[|files| - 1];
      QueuedSkipped(fs, files[..|files| - 1], fails, now, n);
      if l != n {
        PathsApart(l, n);
        PathsApart(n, l);
        assert QueuePath(l) != QueuePath(n) by {
          if QueuePath(l) == QueuePath(n) { JoinInjective(QUEUE, l, n); }
        }
        assert MetaPath(l) != MetaPath(n) by {
          if MetaPath(l) == MetaPath(n) { MetaPathInjective(l, n); }
        }
      }
    }
  }

  /** A listed render that was not queued, after a pass that finishes, is in
      the queue as a copy of the render with fresh metadata (priority 1,
      pending, no tags, no platform). */
  lemma {:induction false} NewlyQueued(fs: FileSystem, files: seq<string>, fails: set<string>, now: nat, n: string)
    requires n in files && QueuePath(n) !in fs && Join(OUTPUT, n) in fs
    requires QueueFold(fs, files, fails, now).0
    ensures QueuePath(n) in QueueFold(fs, files, fails, now).1
    ensures QueueFold(fs, files, fails, now).1[QueuePath(n)] == fs[Join(OUTPUT, n)]
    ensures LoadJson(QueueFold(fs, files, fails, now).1, MetaPath(n)) == Some(Metadata(n, now))
    decreases |files|
  {
    var pre := files[..|files| - 1];
    var l := files[|files| - 1];
    var prev := QueueFold(fs, pre, fails, now);
    assert prev.0;
    OutputUnchanged(fs, pre, fails, now, n);
    if n in pre {
      NewlyQueued(fs, pre, fails, now, n);
      QueuedSkipped(prev.1, [l], fails, now, n);
      assert QueueFold(prev.1, [l], fails, now) == QueueStep(prev.1, l, fails, now) by {
        assert [l][..0] == [];
      }
    } else {
      assert files == pre + [l] && l == n;
      forall m | m in pre
        ensures QueuePath(n) != QueuePath(m) && QueuePath(n) != MetaPath(m)
      {
        PathsApart(n, m);
        if QueuePath(n) == QueuePath(m) { JoinInjective(QUEUE, n, m); }
      }
      QueueFrame(fs, pre, fails, now, QueuePath(n));
      PathsApart(n, n);
    }
  }

  /** The loop writes only queue and metadata paths of the files it walks. */
  lemma {:induction false} QueueFrame(fs: FileSystem, files: seq<string>, fails: set<string>, now: nat, p: string)
    requires forall m :: m in files ==> p != QueuePath(m) && p != MetaPath(m)
    ensures p in QueueFold(fs, files, fails, now).1 <==> p in fs
    ensures p in fs ==> QueueFold(fs, files, fails, now).1[p] == fs[p]
    decreases |files|
  {
    if files != [] {
      QueueFrame(fs, files[..|files| - 1], fails, now, p);
    }
  }

  /** Renders are never changed by the loop. */
  lemma OutputUnchanged(fs: FileSystem, files: seq<string>, fails: set<string>, now: nat, n: string)
    ensures Join(OUTPUT, n) in QueueFold(fs, files, fails, now).1 <==> Join(OUTPUT, n) in fs
    ensures Join(OUTPUT, n) in fs ==> QueueFold(fs, files, fails, now).1[Join(OUTPUT, n)] == fs[Join(OUTPUT, n)]
  {
    forall m | m in files
      ensures Join(OUTPUT, n) != QueuePath(m) && Join(OUTPUT, n) != MetaPath(m)
    {
      PathsApart(n, m);
    }
    QueueFrame(fs, files, fails, now, Join(OUTPUT, n));
  }

  // ---------------------------------------------------------------------------
  // trim_queue
  // ---------------------------------------------------------------------------

  /** The queue files `trim_queue(max_files)` removes: the oldest, until at
      most `max_files` remain. */
  function Trimmed(fs: FileSystem, names: seq<string>, maxFiles: nat): (r: seq<string>)
    ensures |names| <= maxFiles ==> r == []
    ensures |names| > maxFiles ==> |r| == |names| - maxFiles
  {
    DropOldest(fs, JoinAll(QUEUE, names), maxFiles)
  }

  /** `trim_queue(max_files)` with the listing `names` of the queue: pop the
      oldest and unlink it while more than `max_files` remain. An unlink
      that fails has still popped its entry, so the loop ends. */
  method TrimQueue(fs: FileSystem, names: seq<string>, maxFiles: nat) returns (fs': FileSystem)
    ensures fs' == fs - PathSet(Trimmed(fs, names, maxFiles))
  {
    var sorted := SortByMtime(fs, JoinAll(QUEUE, names));
    var files := sorted;
    var popped := 0;
    fs' := fs;
    while |files| > maxFiles
      invariant popped <= |sorted| && files == sorted[popped..]
      invariant |sorted| <= maxFiles ==> popped == 0
      invariant |sorted| > maxFiles ==> popped <= |sorted| - maxFiles
      invariant fs' == fs - PathSet(sorted[..popped])
      decreases |files|
    {
      var oldest := files[0];
      files := files[1..];
      RemoveNext(fs, sorted, popped);
      fs' := fs' - {oldest};
      popped := popped + 1;
    }
    assert sorted[..popped] == Trimmed(fs, names, maxFiles);
  }

  /** `trim_queue` removes only listed queue files, each no newer than every
      queue file it keeps, and never a metadata document. */
  lemma TrimKeepsNewest(fs: FileSystem, names: seq<string>, maxFiles: nat, n: string, m: string)
    requires QueuePath(n) in Trimmed(fs, names, maxFiles)
    ensures n in names && |names| > maxFiles
    ensures forall x :: MetaPath(x) !in Trimmed(fs, names, maxFiles)
    ensures m in names && QueuePath(m) !in Trimmed(fs, names, maxFiles) ==>
      MtimeOf(fs, QueuePath(n)) <= MtimeOf(fs, QueuePath(m))
  {
    DropOldestListed(fs, JoinAll(QUEUE, names), maxFiles, QueuePath(n));
    JoinAllListed(QUEUE, names, n);
    forall x
      ensures MetaPath(x) !in Trimmed(fs, names, maxFiles)
    {
      if MetaPath(x) in Trimmed(fs, names, maxFiles) {
        DropOldestListed(fs, JoinAll(QUEUE, names), maxFiles, MetaPath(x));
        var k :| 0 <= k < |names| && JoinAll(QUEUE, names)[k] == MetaPath(x);
        PathsApart(names[k], x);
      }
    }
    if m in names && QueuePath(m) !in Trimmed(fs, names, maxFiles) {
      var k :| 0 <= k < |names| && names[k] == m;
      assert JoinAll(QUEUE, names)[k] == QueuePath(m);
      DropOldestKeepsNewest(fs, JoinAll(QUEUE, names), maxFiles, QueuePath(n), QueuePath(m));
    }
  }

  /** A render trimmed from the queue while still in the output directory
      is queued again, with fresh metadata, by the next `move_to_queue`
      that finishes. */
  lemma Requeued(fs: FileSystem, qnames: seq<string>, files: seq<string>, fails: set<string>, now: nat, n: string)
    requires QueuePath(n) in Trimmed(fs, qnames, MAX_FILES) && Join(OUTPUT, n) in fs && n in files
    requires QueueFold(fs - PathSet(Trimmed(fs, qnames, MAX_FILES)), files, fails, now).0
    ensures QueuePath(n) in QueueFold(fs - PathSet(Trimmed(fs, qnames, MAX_FILES)), files, fails, now).1
    ensures LoadJson(QueueFold(fs - PathSet(Trimmed(fs, qnames, MAX_FILES)), files, fails, now).1, MetaPath(n))
      == Some(Metadata(n, now))
  {
    var fs1 := fs - PathSet(Trimmed(fs, qnames, MAX_FILES));
    DropOldestListed(fs, JoinAll(QUEUE, qnames), MAX_FILES, QueuePath(n));
    if Join(OUTPUT, n) in PathSet(Trimmed(fs, qnames, MAX_FILES)) {
      DropOldestListed(fs, JoinAll(QUEUE, qnames), MAX_FILES, Join(OUTPUT, n));
      var k :| 0 <= k < |qnames| && JoinAll(QUEUE, qnames)[k] == Join(OUTPUT, n);
      PathsApart(n, qnames[k]);
    }
    NewlyQueued(fs1, files, fails, now, n);
  }

  // ---------------------------------------------------------------------------
  // run_auto_publish
  // ---------------------------------------------------------------------------

  /** One iteration of the loop of `run_auto_publish`: queue new renders,
      then trim with the listing `queueNames` the queue has after the copies.
      False when a copy raised, which ends the process. */
  method PublishPass(fs: FileSystem, outputNames: seq<string>, queueNames: seq<string>, fails: set<string>, now: nat)
    returns (ok: bool, fs': FileSystem)
    ensures ok == QueueFold(fs, QueueOrder(outputNames), fails, now).0
    ensures !ok ==> fs' == QueueFold(fs, QueueOrder(outputNames), fails, now).1
    ensures ok ==>
      fs' == QueueFold(fs, QueueOrder(outputNames), fails, now).1
        - PathSet(Trimmed(QueueFold(fs, QueueOrder(outputNames), fails, now).1, queueNames, MAX_FILES))
  {
    var fs1;
    ok, fs1 := MoveToQueue(fs, outputNames, fails, now);
    if !ok {
      return ok, fs1;
    }
    fs' := TrimQueue(fs1, queueNames, MAX_FILES);
  }
}

=== FILE: auto_trigger.dfy ===
/** The supervisor that starts the backend workers, restarts the ones that
    die and sheds load when the machine is busy. Process liveness (`poll`),
    the CPU and RAM readings and the clock are inputs; a started process is
    known by a handle, and `stop_process` is recorded as the handle it
    signalled. */
module AutoTrigger {
  import opened Common

  const ROOT := "~/AI-AMV-STUDIO/backend"

  /** The workers `auto_loop` registers, in the order it starts them. */
  const Workers: seq<string> := ["server", "orchestrator", "render_manager", "task_monitor", "cloud_sync"]

  /** The fixed command each worker is started and restarted with. */
  function Command(name: string): (r: Option<string>)
    ensures r.Some? <==> name in Workers
  {
    if name == "server" then Some("node " + ROOT + "/server.js")
    else if name == "orchestrator" then Some("python3 " + ROOT + "/orchestrator.py")
    else if name == "render_manager" then Some("python3 " + ROOT + "/render_manager.py")
    else if name == "task_monitor" then Some("python3 " + ROOT + "/task_monitor.py")
    else if name == "cloud_sync" then Some("python3 " + ROOT + "/cloud_sync_manager.py")
    else None
  }

  // ---------------------------------------------------------------------------
  // Load
  // ---------------------------------------------------------------------------

  datatype Load = Load(cpu: real, ram: real)

  /** `system_overloaded`, given the readings or None when reading them
      raised. */
  function SystemOverloaded(reading: Option<Load>): (r: bool)
    ensures reading.None? ==> !r
    ensures reading.Some? ==> (r <==> reading.value.cpu > 92.0 || reading.value.ram > 92.0)
  {
    match reading
    case None => false
    case Some(l) => l.cpu > 92.0 || l.ram > 92.0
  }

  // ---------------------------------------------------------------------------
  // The restart rule
  // ---------------------------------------------------------------------------

  /** `HEALTH[name]`: restarts since the last start, and when it started. */
  datatype Health = Health(restarts: int, lastStart: real)

  /** What `respawn` leaves for one worker: its health, its cooldown stamp,
      whether a new process was launched, and whether the cooldown held it
      back. */
  datatype Respawned = Respawned(health: Health, cooldown: real, launched: bool, waited: bool)

  /** `respawn(name, cmd)` for a worker whose health is `h`, cooldown stamp
      `cd`, and whose current process is `alive` or not when `start_process`
      polls it. With three or more restarts the cooldown is checked and, once
      elapsed, stamped and the counter cleared; `start_process` then resets
      health and cooldown for a dead process (and does nothing for a live
      one), and the counter is incremented last. */
  function RespawnRule(h: Health, cd: real, alive: bool, now: real): (r: Respawned)
    ensures r.waited <==> h.restarts >= 3 && now - cd < 20.0
    ensures r.waited ==> r.health == h && r.cooldown == cd && !r.launched
    ensures !r.waited ==> (r.launched <==> !alive)
    ensures r.launched ==> r.health == Health(1, now) && r.cooldown == 0.0
    ensures !r.waited && alive ==>
      r.health == Health((if h.restarts >= 3 then 0 else h.restarts) + 1, h.lastStart)
      && r.cooldown == (if h.restarts >= 3 then now else cd)
  {
    if h.restarts >= 3 && now - cd < 20.0 then Respawned(h, cd, false, true)
    else
      var h1 := if h.restarts >= 3 then h.(restarts := 0) else h;
      var cd1 := if h.restarts >= 3 then now else cd;
      if alive then Respawned(h1.(restarts := h1.restarts + 1), cd1, false, false)
      else Respawned(Health(1, now), 0.0, true, false)
  }

  /** A worker that is found dead before each of the ticks `nows` and
      respawned each time: its final health and cooldown stamp, and whether
      the cooldown ever held it back. */
  function Crashes(h: Health, cd: real, nows: seq<real>): (r: (Health, real, bool))
    decreases |nows|
  {
    if nows == [] then (h, cd, false)
    else
      var prior := Crashes(h, cd, nows[..|nows| - 1]);
      var step := RespawnRule(prior.0, prior.1, false, nows[|nows| - 1]);
      (step.health, step.cooldown, prior.2 || step.waited)
  }

  /** The cooldown cannot be reached: starting from a fresh start (or any
      count below 2), however often the worker crashes and however close
      together, the counter stays at most 1 and the cooldown never holds a
      restart back; after at least one crash the counter is exactly 1. */
  lemma {:induction false} CooldownUnreachable(h: Health, cd: real, nows: seq<real>)
    requires h.restarts <= 1
    ensures !Crashes(h, cd, nows).2
    ensures Crashes(h, cd, nows).0.restarts <= 1
    ensures nows != [] ==> Crashes(h, cd, nows).0.restarts == 1
    decreases |nows|
  {
    if nows != [] {
      CooldownUnreachable(h, cd, nows[..|nows| - 1]);
    }
  }

  /** The cooldown branch as written: a worker with three restarts whose
      stamp is under 20 s old is not restarted, and one whose stamp is older
      is restarted with its counter back at 1. */
  lemma CooldownAsWritten(lastStart: real, cd: real, now: real)
    ensures RespawnRule(Health(3, lastStart), cd, false, now).waited <==> now - cd < 20.0
    ensures now - cd >= 20.0 ==> RespawnRule(Health(3, lastStart), cd, false, now) == Respawned(Health(1, now), 0.0, true, false)
  {
  }

  // ---------------------------------------------------------------------------
  // The supervisor state
  // ---------------------------------------------------------------------------

  /** A process launch: the worker, its command and the new handle. */
  datatype Launch = Launch(name: string, cmd: string, handle: nat)

  /** What the three module-level dicts hold for one worker:
      `processes[name]` (the handle), `HEALTH[name]` and `COOLDOWN[name]`.
      `start_process` writes all three together, so they share their keys and
      are kept as one map. */
  datatype Entry = Entry(handle: nat, health: Health, cooldown: real)

  /** The three dicts as one value, with the key order of `processes`, the
      next fresh handle and the launches so far: what the supervisor's
      methods change, apart from the signals. */
  datatype Tables = Tables(table: map<string, Entry>, order: seq<string>, nextHandle: nat, launches: seq<Launch>)

  /** `start_process(name, cmd)` on the tables. */
  function Start(t: Tables, name: string, cmd: string, running: set<nat>, now: real): Tables {
    if name in t.table && t.table[name].handle in running then t
    else Tables(t.table[name := Entry(t.nextHandle, Health(0, now), 0.0)],
                if name in t.table then t.order else t.order + [name],
                t.nextHandle + 1, t.launches + [Launch(name, cmd, t.nextHandle)])
  }

  /** The first `k` `start_process` calls at the top of `auto_loop`. */
  function BootFold(t: Tables, k: nat, running: set<nat>, now: real): Tables
    requires k <= |Workers|
  {
    if k == 0 then t
    else Start(BootFold(t, k - 1, running, now), Workers[k - 1], Command(Workers[k - 1]).value, running, now)
  }

  /** `respawn(name, cmd)` on the tables, as `RespawnRule` says; a launch
      takes the next fresh handle. */
  function RespawnTables(t: Tables, name: string, cmd: string, running: set<nat>, now: real): Tables
    requires name in t.table
  {
    var e := t.table[name];
    var r := RespawnRule(e.health, e.cooldown, e.handle in running, now);
    Tables(t.table[name := Entry(if r.launched then t.nextHandle else e.handle, r.health, r.cooldown)],
           t.order,
           if r.launched then t.nextHandle + 1 else t.nextHandle,
           if r.launched then t.launches + [Launch(name, cmd, t.nextHandle)] else t.launches)
  }

  /** What `RespawnTables` changes: the one entry, and the handle and
      launches exactly when the rule launches; keys, order and the other
      entries stay. */
  lemma RespawnShape(t: Tables, name: string, cmd: string, running: set<nat>, now: real)
    requires name in t.table
    ensures var e := t.table[name];
      var r := RespawnRule(e.health, e.cooldown, e.handle in running, now);
      var u := RespawnTables(t, name, cmd, running, now);
      u.table.Keys == t.table.Keys && u.order == t.order
      && u.table[name] == Entry(if r.launched then t.nextHandle else e.handle, r.health, r.cooldown)
      && (r.launched ==> u.nextHandle == t.nextHandle + 1 && u.launches == t.launches + [Launch(name, cmd, t.nextHandle)])
      && (!r.launched ==> u.nextHandle == t.nextHandle && u.launches == t.launches)
      && (forall m :: m in t.table && m != name ==> u.table[m] == t.table[m])
  {
  }

  /** `RespawnTables` past the cooldown check, as the three steps of
      `respawn`: the cooldown reset (with three or more restarts), the
      `start_process` call, and the increment of the counter. */
  lemma RespawnSteps(t: Tables, name: string, cmd: string, running: set<nat>, now: real)
    requires name in t.table
    requires var e := t.table[name]; !(e.health.restarts >= 3 && now - e.cooldown < 20.0)
    ensures var e := t.table[name];
      var c := if e.health.restarts >= 3 then t.(table := t.table[name := Entry(e.handle, e.health.(restarts := 0), now)]) else t;
      var s := Start(c, name, cmd, running, now);
      name in s.table
      && RespawnTables(t, name, cmd, running, now)
         == s.(table := s.table[name := s.table[name].(health := s.table[name].health.(restarts := s.table[name].health.restarts + 1))])
  {
  }

  /** The crash check on worker `n`: respawned with its own command when it
      is registered and its process is not in `alive`. */
  function CheckOne(t: Tables, n: string, alive: set<nat>, now: real): Tables {
    if n in t.table && Command(n).Some? && t.table[n].handle !in alive
    then RespawnTables(t, n, Command(n).value, alive, now)
    else t
  }

  /** The crash check on `names`, in order. */
  function CheckFold(t: Tables, names: seq<string>, alive: set<nat>, now: real): Tables
    decreases |names|
  {
    if names == [] then t
    else CheckOne(CheckFold(t, names[..|names| - 1], alive, now), names[|names| - 1], alive, now)
  }

  /** The load-shedding step: under overload `render_manager` is started
      again unless its process is still in `afterStop`. */
  function Shed(t: Tables, overloaded: bool, afterStop: set<nat>, now: real): Tables {
    if overloaded then Start(t, "render_manager", Command("render_manager").value, afterStop, now) else t
  }

  /** One iteration of the `while True` loop: the load shedding, then the
      crash check over the workers registered by then. */
  function TickTables(t: Tables, overloaded: bool, afterStop: set<nat>, alive: set<nat>, now: real): Tables {
    var s := Shed(t, overloaded, afterStop, now);
    CheckFold(s, s.order, alive, now)
  }

  /** The dicts, the key order of `processes`, the next fresh handle, and
      what was launched and signalled so far. */
  class Supervisor {
    var table: map<string, Entry>
    var order: seq<string>
    var nextHandle: nat
    var launches: seq<Launch>
    var signalled: seq<nat>

    /** `order` lists the registered workers once each. */
    ghost predicate Valid()
      reads this
    {
      Distinct(order) && table.Keys == Elems(order)
    }

    /** No worker has been restarted more than once since its last start. */
    predicate Calm()
      reads this
    {
      forall n :: n in table ==> table[n].health.restarts <= 1
    }

    /** The dicts, key order, next handle and launches as a value. */
    function Snapshot(): Tables
      reads this
    {
      Tables(table, order, nextHandle, launches)
    }

    /** Every launch used the worker's own fixed command. */
    predicate LaunchesFixed()
      reads this
    {
      forall k :: 0 <= k < |launches| ==> Command(launches[k].name) == Some(launches[k].cmd)
    }

    constructor()
      ensures Valid() && Calm() && LaunchesFixed()
      ensures table == map[] && order == [] && launches == [] && signalled == []
    {
      table, order, nextHandle, launches, signalled := map[], [], 0, [], [];
    }

    /** `start_process(name, cmd)`: nothing if the worker's process is still
        running; otherwise a new process, restarts 0, `last_start` now and
        cooldown 0. */
    method StartProcess(name: string, cmd: string, running: set<nat>, now: real)
      requires Valid()
      modifies this
      ensures Valid()
      ensures old(name in table && table[name].handle in running) ==>
        table == old(table) && launches == old(launches) && nextHandle == old(nextHandle) && order == old(order)
      ensures !old(name in table && table[name].handle in running) ==>
        table == old(table)[name := Entry(old(nextHandle), Health(0, now), 0.0)]
        && nextHandle == old(nextHandle) + 1
        && launches == old(launches) + [Launch(name, cmd, old(nextHandle))]
        && order == (if name in old(table) then old(order) else old(order) + [name])
      ensures signalled == old(signalled)
      ensures Snapshot() == Start(old(Snapshot()), name, cmd, running, now)
      ensures old(Calm()) ==> Calm()
      ensures old(LaunchesFixed()) && Command(name) == Some(cmd) ==> LaunchesFixed()
    {
      if name in table && table[name].handle in running {
        return;
      }
      if name !in table {
        AppendFresh(order, name);
        order := order + [name];
      }
      table := table[name := Entry(nextHandle, Health(0, now), 0.0)];
      launches := launches + [Launch(name, cmd, nextHandle)];
      nextHandle := nextHandle + 1;
    }

    /** `stop_process(name)`: an unknown name is ignored; a kill that fails
        is swallowed, so the signal is all that is recorded. */
    method StopProcess(name: string)
      modifies this
      ensures name in old(table) ==> signalled == old(signalled) + [old(table[name].handle)]
      ensures name !in old(table) ==> signalled == old(signalled)
      ensures table == old(table) && order == old(order) && nextHandle == old(nextHandle) && launches == old(launches)
    {
      if name in table {
        signalled := signalled + [table[name].handle];
      }
    }

    /** `respawn(name, cmd)` on a registered worker, as `RespawnRule` says;
        a launch takes the next fresh handle. */
    method Respawn(name: string, cmd: string, running: set<nat>, now: real)
      requires Valid() && name in table
      modifies this
      ensures Valid()
      ensures var e := old(table[name]);
        var r := RespawnRule(e.health, e.cooldown, e.handle in running, now);
        table.Keys == old(table).Keys
        && table[name] == Entry(if r.launched then old(nextHandle) else e.handle, r.health, r.cooldown)
        && (r.launched ==>
              nextHandle == old(nextHandle) + 1 && launches == old(launches) + [Launch(name, cmd, old(nextHandle))])
        && (!r.launched ==> nextHandle == old(nextHandle) && launches == old(launches))
      ensures forall m :: m in old(table) && m != name ==> table[m] == old(table)[m]
      ensures order == old(order) && signalled == old(signalled)
      ensures Snapshot() == RespawnTables(old(Snapshot()), name, cmd, running, now)
    {
      ghost var t := Snapshot();
      var e := table[name];
      if e.health.restarts >= 3 {
        if now - e.cooldown < 20.0 {
          RespawnShape(t, name, cmd, running, now);
          return;
        }
        table := table[name := Entry(e.handle, e.health.(restarts := 0), now)];
      }
      RespawnSteps(t, name, cmd, running, now);
      StartProcess(name, cmd, running, now);
      var started := table[name];
      table := table[name := started.(health := started.health.(restarts := started.health.restarts + 1))];
      assert Snapshot() == RespawnTables(t, name, cmd, running, now);
      RespawnShape(t, name, cmd, running, now);
    }

    /** The five `start_process` calls at the top of `auto_loop`: every
        worker is registered; one whose process is still running keeps its
        entry, any other gets a new process with restarts 0, `last_start`
        now and cooldown 0 (see `BootStarts`). */
    method Boot(running: set<nat>, now: real)
      requires Valid()
      modifies this
      ensures Valid()
      ensures Snapshot() == BootFold(old(Snapshot()), |Workers|, running, now)
      ensures forall k :: 0 <= k < |Workers| ==> Workers[k] in table
      ensures forall n :: n in old(table) && (n !in Workers || old(table)[n].handle in running) ==>
        n in table && table[n] == old(table)[n]
      ensures forall n :: n in Workers && !(n in old(table) && old(table)[n].handle in running) ==>
        n in table && old(nextHandle) <= table[n].handle < nextHandle
        && table[n].health == Health(0, now) && table[n].cooldown == 0.0
        && Launch(n, Command(n).value, table[n].handle) in launches
      ensures old(Calm()) ==> Calm()
      ensures old(LaunchesFixed()) ==> LaunchesFixed()
      ensures signalled == old(signalled)
    {
      ghost var t := Snapshot();
      for k := 0 to |Workers|
        invariant Snapshot() == BootFold(t, k, running, now)
        invariant Valid()
        invariant old(Calm()) ==> Calm()
        invariant old(LaunchesFixed()) ==> LaunchesFixed()
        invariant signalled == old(signalled)
      {
        StartProcess(Workers[k], Command(Workers[k]).value, running, now);
      }
      BootStarts(t, running, now);
    }

    /** The load-shedding step of a tick: under overload only
        `render_manager` is stopped and started again (if its process is
        gone by then, `afterStop` being the handles still running). */
    method ShedLoad(overloaded: bool, afterStop: set<nat>, now: real)
      requires Valid()
      modifies this
      ensures Valid()
      ensures !overloaded ==>
        table == old(table) && order == old(order) && launches == old(launches) && nextHandle == old(nextHandle)
      ensures signalled == old(signalled)
        + (if overloaded && "render_manager" in old(table) then [old(table["render_manager"].handle)] else [])
      ensures forall n :: n in old(table) && n != "render_manager" ==> n in table && table[n] == old(table[n])
      ensures overloaded && "render_manager" in old(table) && old(table["render_manager"].handle) in afterStop ==>
        table == old(table) && order == old(order) && launches == old(launches) && nextHandle == old(nextHandle)
      ensures overloaded && !("render_manager" in old(table) && old(table["render_manager"].handle) in afterStop) ==>
        table == old(table)["render_manager" := Entry(old(nextHandle), Health(0, now), 0.0)]
        && nextHandle == old(nextHandle) + 1
        && launches == old(launches) + [Launch("render_manager", Command("render_manager").value, old(nextHandle))]
      ensures Snapshot() == Shed(old(Snapshot()), overloaded, afterStop, now)
      ensures nextHandle >= old(nextHandle)
      ensures old(Calm()) ==> Calm()
      ensures old(LaunchesFixed()) ==> LaunchesFixed()
    {
      if overloaded {
        StopProcess("render_manager");
        StartProcess("render_manager", Command("render_manager").value, afterStop, now);
      }
    }

    /** The crash check of a tick: each registered worker whose process is
        not in `alive` is respawned with its own command. In a calm state the
        cooldown never intervenes: every dead worker gets a new process, one
        restart and a cleared cooldown, and the state stays calm. */
    method CheckCrashes(alive: set<nat>, now: real)
      requires Valid()
      modifies this
      ensures Valid()
      ensures order == old(order) && table.Keys == old(table).Keys && signalled == old(signalled)
      ensures forall n :: n in old(table) && !(Command(n).Some? && old(table[n].handle) !in alive) ==>
        table[n] == old(table[n])
      ensures old(Calm()) ==> Calm()
      ensures old(Calm()) ==> forall n :: n in old(table) && Command(n).Some? && old(table[n].handle) !in alive ==>
        table[n].handle >= old(nextHandle) && table[n].health == Health(1, now) && table[n].cooldown == 0.0
      ensures old(LaunchesFixed()) ==> LaunchesFixed()
      ensures Snapshot() == CheckFold(old(Snapshot()), old(order), alive, now)
    {
      forall j | 0 <= j < |order|
        ensures order[j] in table
      {
        ElemsIndex(order, order[j]);
      }
      for i := 0 to |order|
        invariant Valid()
        invariant order == old(order) && table.Keys == old(table).Keys && signalled == old(signalled)
        invariant nextHandle >= old(nextHandle)
        invariant forall j :: 0 <= j < |order| ==> order[j] in table
        invariant forall j :: i <= j < |order| ==> table[order[j]] == old(table)[order[j]]
        invariant forall j :: 0 <= j < i ==>
          Checked(order[j], old(table)[order[j]], table[order[j]], alive, now, old(nextHandle), old(Calm()))
        invariant old(Calm()) ==> Calm()
        invariant old(LaunchesFixed()) ==> LaunchesFixed()
        invariant Snapshot() == CheckFold(old(Snapshot()), order[..i], alive, now)
      {
        assert order[..i + 1][..i] == order[..i];
        var n := order[i];
        ElemsIndex(order, n);
        forall j | 0 <= j < |order| && j != i
          ensures order[j] != n
        {
          DistinctIndices(order, i, j);
        }
        CheckWorker(n, alive, now);
      }
      assert order[..|order|] == order;
      forall n | n in old(table)
        ensures Checked(n, old(table)[n], table[n], alive, now, old(nextHandle), old(Calm()))
      {
        ElemsIndex(order, n);
      }
    }

    /** The crash check on one registered worker `n`: respawned with its own
        command when its process is not in `alive`. */
    method CheckWorker(n: string, alive: set<nat>, now: real)
      requires Valid() && n in table
      modifies this
      ensures Valid()
      ensures order == old(order) && table.Keys == old(table).Keys && signalled == old(signalled)
      ensures nextHandle >= old(nextHandle)
      ensures forall m :: m in old(table) && m != n ==> table[m] == old(table)[m]
      ensures !(Command(n).Some? && old(table[n].handle) !in alive) ==> table[n] == old(table[n])
      ensures old(Calm()) ==> Calm()
      ensures old(Calm()) && Command(n).Some? && old(table[n].handle) !in alive ==>
        table[n].handle >= old(nextHandle) && table[n].health == Health(1, now) && table[n].cooldown == 0.0
      ensures Checked(n, old(table[n]), table[n], alive, now, old(nextHandle), old(Calm()))
      ensures old(LaunchesFixed()) ==> LaunchesFixed()
      ensures Snapshot() == CheckOne(old(Snapshot()), n, alive, now)
    {
      if Command(n).Some? && table[n].handle !in alive {
        Respawn(n, Command(n).value, alive, now);
      }
    }

    /** One iteration of the `while True` loop of `auto_loop`: the new
        tables are those of the load shedding followed by the crash check. */
    method Tick(reading: Option<Load>, afterStop: set<nat>, alive: set<nat>, now: real)
      requires Valid()
      modifies this
      ensures Valid()
      ensures Snapshot() == TickTables(old(Snapshot()), SystemOverloaded(reading), afterStop, alive, now)
      ensures signalled == old(signalled)
        + (if SystemOverloaded(reading) && "render_manager" in old(table) then [old(table["render_manager"].handle)] else [])
      ensures old(Calm()) ==> Calm()
      ensures old(LaunchesFixed()) ==> LaunchesFixed()
    {
      ShedLoad(SystemOverloaded(reading), afterStop, now);
      CheckCrashes(alive, now);
    }

    /** The `KeyboardInterrupt` handler: `stop_process` for every
        registered worker, in registration order, so every registered
        process is signalled. */
    method Shutdown()
      requires Valid()
      modifies this
      ensures signalled == old(signalled) + HandlesOf(old(table), old(order))
      ensures forall n :: n in old(table) ==> old(table)[n].handle in signalled[|old(signalled)|..]
      ensures table == old(table) && order == old(order)
    {
      for k := 0 to |order|
        invariant table == old(table) && order == old(order)
        invariant signalled == old(signalled) + HandlesOf(table, order[..k])
      {
        assert order[..k + 1][..k] == order[..k];
        StopProcess(order[k]);
      }
      assert order[..|order|] == order;
      forall n | n in table
        ensures table[n].handle in signalled[|old(signalled)|..]
      {
        ElemsIndex(order, n);
        var j :| 0 <= j < |order| && order[j] == n;
        forall i | 0 <= i < |order|
          ensures order[i] in table
        {
          ElemsIndex(order, order[i]);
        }
        assert signalled[|old(signalled)|..] == HandlesOf(table, order);
        assert HandlesOf(table, order)[j] == table[n].handle;
      }
    }
  }

  /** The first `k` start-up calls: later handles and launches only grow;
      the workers among the first `k` are registered; a name's entry is kept
      unless it is one of them and its process is not running, and such a
      worker gets a launch with its own command, a handle newer than any
      before, restarts 0, `last_start` now and cooldown 0. */
  lemma {:induction false} BootPrefix(t: Tables, k: nat, running: set<nat>, now: real)
    requires k <= |Workers|
    ensures t.nextHandle <= BootFold(t, k, running, now).nextHandle && t.launches <= BootFold(t, k, running, now).launches
    ensures forall n :: n in BootFold(t, k, running, now).table <==> n in t.table || n in Workers[..k]
    ensures forall n :: n in t.table && (n !in Workers[..k] || t.table[n].handle in running) ==>
      BootFold(t, k, running, now).table[n] == t.table[n]
    ensures forall n :: n in Workers[..k] && !(n in t.table && t.table[n].handle in running) ==>
      var r := BootFold(t, k, running, now);
      t.nextHandle <= r.table[n].handle < r.nextHandle
      && r.table[n].health == Health(0, now) && r.table[n].cooldown == 0.0
      && Launch(n, Command(n).value, r.table[n].handle) in r.launches
  {
    BootPrefixFrame(t, k, running, now);
    forall n | n in Workers[..k] && !(n in t.table && t.table[n].handle in running)
      ensures var r := BootFold(t, k, running, now);
        t.nextHandle <= r.table[n].handle < r.nextHandle
        && r.table[n].health == Health(0, now) && r.table[n].cooldown == 0.0
        && Launch(n, Command(n).value, r.table[n].handle) in r.launches
    {
      BootLaunch(t, k, running, now, n);
    }
  }

  /** One worker among the first `k` whose process was not running: it was
      launched with its own command and a handle newer than any before. */
  lemma {:induction false} BootLaunch(t: Tables, k: nat, running: set<nat>, now: real, n: string)
    requires k <= |Workers| && n in Workers[..k] && !(n in t.table && t.table[n].handle in running)
    ensures n in BootFold(t, k, running, now).table
    ensures var r := BootFold(t, k, running, now);
      t.nextHandle <= r.table[n].handle < r.nextHandle
      && r.table[n].health == Health(0, now) && r.table[n].cooldown == 0.0
      && Launch(n, Command(n).value, r.table[n].handle) in r.launches
  {
    assert Workers[..k] == Workers[..k - 1] + [Workers[k - 1]];
    if n != Workers[k - 1] {
      assert n in Workers[..k - 1];
      BootLaunch(t, k - 1, running, now, n);
      BootLaunchKept(t, k, running, now, n);
    } else {
      BootLaunchLast(t, k, running, now);
    }
  }

  /** The `k`-th start-up call launches its worker when its process was
      not running. */
  lemma BootLaunchLast(t: Tables, k: nat, running: set<nat>, now: real)
    requires 0 < k <= |Workers|
    requires var w := Workers[k - 1]; !(w in t.table && t.table[w].handle in running)
    ensures var w := Workers[k - 1];
      var r := BootFold(t, k, running, now);
      w in r.table && Command(w).Some?
      && t.nextHandle <= r.table[w].handle < r.nextHandle
      && r.table[w].health == Health(0, now) && r.table[w].cooldown == 0.0
      && Launch(w, Command(w).value, r.table[w].handle) in r.launches
  {
    var w := Workers[k - 1];
    var p := BootFold(t, k - 1, running, now);
    BootPrefixFrame(t, k - 1, running, now);
    WorkersNoRepeats();
    LastNotBefore(Workers, k);
    assert w in p.table ==> p.table[w] == t.table[w];
    StartLaunches(p, w, Command(w).value, running, now);
  }

  /** In a sequence without repeats, the `k`-th element is not among the
      ones before it. */
  lemma LastNotBefore(s: seq<string>, k: nat)
    requires NoRepeats(s) && 0 < k <= |s|
    ensures s[k - 1] !in s[..k - 1]
  {
  }

  /** No name occurs twice in `s`. */
  predicate NoRepeats(s: seq<string>) {
    forall i, j :: 0 <= i < j < |s| ==> s[i] != s[j]
  }

  /** The five workers have five different names. */
  lemma WorkersNoRepeats()
    ensures NoRepeats(Workers)
  {
  }

  /** `start_process` on a worker whose process is not running registers a
      fresh process for it, with its command. */
  lemma StartLaunches(t: Tables, name: string, cmd: string, running: set<nat>, now: real)
    requires !(name in t.table && t.table[name].handle in running)
    ensures var r := Start(t, name, cmd, running, now);
      name in r.table
      && t.nextHandle <= r.table[name].handle < r.nextHandle
      && r.table[name].health == Health(0, now) && r.table[name].cooldown == 0.0
      && Launch(name, cmd, r.table[name].handle) in r.launches
  {
  }

  /** A launch from an earlier start-up call survives the `k`-th one. */
  lemma BootLaunchKept(t: Tables, k: nat, running: set<nat>, now: real, n: string)
    requires 0 < k <= |Workers| && n in Workers && n != Workers[k - 1]
    requires var p := BootFold(t, k - 1, running, now);
      n in p.table
      && t.nextHandle <= p.table[n].handle < p.nextHandle
      && p.table[n].health == Health(0, now) && p.table[n].cooldown == 0.0
      && Launch(n, Command(n).value, p.table[n].handle) in p.launches
    ensures var r := BootFold(t, k, running, now);
      n in r.table
      && t.nextHandle <= r.table[n].handle < r.nextHandle
      && r.table[n].health == Health(0, now) && r.table[n].cooldown == 0.0
      && Launch(n, Command(n).value, r.table[n].handle) in r.launches
  {
    var p := BootFold(t, k - 1, running, now);
    var w := Workers[k - 1];
    var r := Start(p, w, Command(w).value, running, now);
    StartFrame(p, w, Command(w).value, running, now);
    PrefixKeeps(p.launches, r.launches, Launch(n, Command(n).value, p.table[n].handle));
  }

  /** An element of a prefix is an element of the whole. */
  lemma PrefixKeeps<T>(a: seq<T>, b: seq<T>, x: T)
    requires a <= b && x in a
    ensures x in b
  {
    var i :| 0 <= i < |a| && a[i] == x;
    assert b[i] == x;
  }

  /** The frame part of `BootPrefix`: handles and launches only grow, the
      first `k` workers are registered, and every other entry, or one whose
      process runs, is kept. */
  lemma {:induction false} BootPrefixFrame(t: Tables, k: nat, running: set<nat>, now: real)
    requires k <= |Workers|
    ensures t.nextHandle <= BootFold(t, k, running, now).nextHandle && t.launches <= BootFold(t, k, running, now).launches
    ensures forall n :: n in BootFold(t, k, running, now).table <==> n in t.table || n in Workers[..k]
    ensures forall n :: n in t.table && (n !in Workers[..k] || t.table[n].handle in running) ==>
      BootFold(t, k, running, now).table[n] == t.table[n]
  {
    if k > 0 {
      BootPrefixFrame(t, k - 1, running, now);
      var p := BootFold(t, k - 1, running, now);
      var w := Workers[k - 1];
      assert Workers[..k] == Workers[..k - 1] + [w];
      StartFrame(p, w, Command(w).value, running, now);
    }
  }

  /** What one `start_process` call does: nothing while the worker's
      process runs; otherwise the next handle, health (0, now), cooldown 0
      and a recorded launch, with a new name appended to the key order. */
  lemma StartMeaning(t: Tables, name: string, cmd: string, running: set<nat>, now: real)
    ensures var r := Start(t, name, cmd, running, now);
      (name in t.table && t.table[name].handle in running ==> r == t)
      && (!(name in t.table && t.table[name].handle in running) ==>
            name in r.table && r.table[name] == Entry(t.nextHandle, Health(0, now), 0.0)
            && r.nextHandle == t.nextHandle + 1 && r.launches == t.launches + [Launch(name, cmd, t.nextHandle)]
            && (name in t.table ==> r.order == t.order) && (name !in t.table ==> r.order == t.order + [name]))
  {
  }

  /** What one `start_process` call keeps: later handles and launches only
      grow, and every other name keeps its entry. */
  lemma StartFrame(t: Tables, name: string, cmd: string, running: set<nat>, now: real)
    ensures var r := Start(t, name, cmd, running, now);
      t.nextHandle <= r.nextHandle && t.launches <= r.launches
      && (forall n :: n in r.table <==> n in t.table || n == name)
      && (forall n :: n in t.table && n != name ==> r.table[n] == t.table[n])
  {
  }

  /** After the five start-up calls of `auto_loop` every worker is
      registered; a worker whose process is still running keeps its entry,
      and any other gets a launch with its own command, a handle newer than
      any before, restarts 0, `last_start` now and cooldown 0. Other names
      keep their entries. */
  lemma BootStarts(t: Tables, running: set<nat>, now: real)
    ensures var r := BootFold(t, |Workers|, running, now);
      (forall n :: n in r.table <==> n in t.table || n in Workers)
      && (forall n :: n in t.table && (n !in Workers || t.table[n].handle in running) ==> r.table[n] == t.table[n])
      && (forall n :: n in Workers && !(n in t.table && t.table[n].handle in running) ==>
            t.nextHandle <= r.table[n].handle < r.nextHandle
            && r.table[n].health == Health(0, now) && r.table[n].cooldown == 0.0
            && Launch(n, Command(n).value, r.table[n].handle) in r.launches)
  {
    BootPrefix(t, |Workers|, running, now);
    assert Workers[..|Workers|] == Workers;
  }

  /** What the crash check leaves for worker `n`, whose entry was `e0` and
      is now `e`: unchanged unless it has a command and its process is dead;
      then, from a calm state, a process newer than handle `h0`, one restart
      and a cleared cooldown. */
  predicate Checked(n: string, e0: Entry, e: Entry, alive: set<nat>, now: real, h0: nat, calm: bool) {
    (!(Command(n).Some? && e0.handle !in alive) ==> e == e0)
    && (calm && Command(n).Some? && e0.handle !in alive ==>
          e.handle >= h0 && e.health == Health(1, now) && e.cooldown == 0.0)
  }

  /** The elements of `s`. */
  function Elems(s: seq<string>): (r: set<string>)
    decreases |s|
  {
    if s == [] then {} else Elems(s[..|s| - 1]) + {s[|s| - 1]}
  }

  /** No element of `s` occurs twice. */
  predicate Distinct(s: seq<string>)
    decreases |s|
  {
    s == [] || (Distinct(s[..|s| - 1]) && s[|s| - 1] !in Elems(s[..|s| - 1]))
  }

  /** Appending a new element keeps the sequence duplicate-free. */
  lemma AppendFresh(s: seq<string>, x: string)
    requires Distinct(s) && x !in Elems(s)
    ensures Distinct(s + [x]) && Elems(s + [x]) == Elems(s) + {x}
  {
    assert (s + [x])[..|s|] == s;
  }

  /** The elements are exactly the entries. */
  lemma {:induction false} ElemsIndex(s: seq<string>, x: string)
    ensures x in Elems(s) <==> exists j :: 0 <= j < |s| && s[j] == x
    decreases |s|
  {
    if s != [] {
      ElemsIndex(s[..|s| - 1], x);
    }
  }

  /** In a duplicate-free sequence, different positions hold different
      elements. */
  lemma {:induction false} DistinctIndices(s: seq<string>, i: int, j: int)
    requires Distinct(s) && 0 <= i < |s| && 0 <= j < |s| && i != j
    ensures s[i] != s[j]
    decreases |s|
  {
    var n := |s| - 1;
    if i < n && j < n {
      DistinctIndices(s[..n], i, j);
    } else {
      var k := if i == n then j else i;
      ElemsIndex(s[..n], s[k]);
    }
  }

  /** The handles `stop_process` signals for `names`, in order; names that
      are not registered are skipped. */
  function HandlesOf(table: map<string, Entry>, names: seq<string>): (r: seq<nat>)
    ensures |r| <= |names|
    ensures (forall i :: 0 <= i < |names| ==> names[i] in table) ==>
      |r| == |names| && forall i :: 0 <= i < |names| ==> r[i] == table[names[i]].handle
    decreases |names|
  {
    if names == [] then []
    else
      var n := names[|names| - 1];
      HandlesOf(table, names[..|names| - 1]) + (if n in table then [table[n].handle] else [])
  }
}

=== FILE: backup_uploader.dfy ===
/** The JavaScript cloud backup worker: renders older than seven days are
    "uploaded" (a link is made up from the file name), one line per upload is
    appended to the backup log, and the local copy is then deleted. An error
    on one file is logged and the scan goes on. The listing, the clock, the
    timestamp text and the files whose log append raises are inputs. */
module BackupUploader {
  import opened Common

  const OUTPUT := "storage/output"
  const BACKUP_LOG := "storage/logs/cloud_backup.log"
  const DAYS_LIMIT: nat := 7
  const DAY_MS: nat := 1000 * 60 * 60 * 24
  const LINK_PREFIX := "https://terabox.fakecloud.com/file/"

  /** `uploadToCloud(filePath)`: the link it resolves to. */
  function UploadLink(filePath: string): (r: string)
    ensures StartsWith(r, LINK_PREFIX) && r[|LINK_PREFIX|..] == Basename(filePath)
  {
    LINK_PREFIX + Basename(filePath)
  }

  /** The link of a listed file is the prefix followed by its name. */
  lemma LinkOfListed(f: string)
    requires '/' !in f
    ensures UploadLink(Join(OUTPUT, f)) == LINK_PREFIX + f
  {
    BasenameOfJoin(OUTPUT, f);
  }

  /** The line appended for `file`, without its newline. */
  function LogLine(iso: string, file: string): (r: string)
    ensures StartsWith(r, iso)
  {
    iso + " | " + file + " → " + UploadLink(Join(OUTPUT, file))
  }

  /** The text of the backup log, empty when it does not exist. */
  function LogText(fs: FileSystem): string {
    if BACKUP_LOG in fs && fs[BACKUP_LOG].content.Text? then fs[BACKUP_LOG].content.text else ""
  }

  /** `fs.appendFileSync(BACKUP_LOG, text)` at `now`. */
  function AppendLog(fs: FileSystem, text: string, now: nat): (r: FileSystem)
    ensures LogText(r) == LogText(fs) + text
  {
    fs[BACKUP_LOG := FileRec(Text(LogText(fs) + text), now)]
  }

  /** The file is backed up by the scan at `now`: a render strictly older than
      seven days. */
  predicate Eligible(fs: FileSystem, f: string, now: nat) {
    Join(OUTPUT, f) in fs && (now as int) - fs[Join(OUTPUT, f)].mtime > DAYS_LIMIT * DAY_MS && EndsWith(f, ".mp4")
  }

  /** One iteration of the loop of `backupOldFiles`; `failing` holds the
      files whose log append raises, which are then kept. */
  function UploadStep(fs: FileSystem, f: string, iso: string, now: nat, failing: set<string>): (r: FileSystem)
    ensures !Eligible(fs, f, now) || f in failing ==> r == fs
    ensures Eligible(fs, f, now) && f !in failing ==>
      r == AppendLog(fs, LogLine(iso, f) + "\n", now) - {Join(OUTPUT, f)}
  {
    if !Eligible(fs, f, now) || f in failing then fs
    else AppendLog(fs, LogLine(iso, f) + "\n", now) - {Join(OUTPUT, f)}
  }

  function UploadFold(fs: FileSystem, files: seq<string>, iso: string, now: nat, failing: set<string>): (r: FileSystem)
    decreases |files|
  {
    if files == [] then fs
    else UploadStep(UploadFold(fs, files[..|files| - 1], iso, now, failing), files[|files| - 1], iso, now, failing)
  }

  /** `backupOldFiles()` with the listing `names`; nothing when the output
      directory is missing. */
  method BackupOldFiles(fs: FileSystem, exists_: bool, names: seq<string>, iso: string, now: nat, failing: set<string>)
    returns (fs': FileSystem)
    ensures !exists_ ==> fs' == fs
    ensures exists_ ==> fs' == UploadFold(fs, names, iso, now, failing)
  {
    fs' := fs;
    if !exists_ {
      return;
    }
    for k := 0 to |names|
      invariant fs' == UploadFold(fs, names[..k], iso, now, failing)
    {
      assert names[..k + 1][..k] == names[..k];
      var file := names[k];
      var filePath := Join(OUTPUT, file);
      if filePath in fs' && (now as int) - fs'[filePath].mtime > DAYS_LIMIT * DAY_MS && EndsWith(file, ".mp4") {
        if file in failing {
          continue;
        }
        fs' := AppendLog(fs', LogLine(iso, file) + "\n", now);
        fs' := fs' - {filePath};
      }
    }
    assert names[..|names|] == names;
  }

  /** The files the scan logs and deletes, in listing order. */
  function Logged(fs: FileSystem, files: seq<string>, now: nat, failing: set<string>): (r: seq<string>)
    ensures forall g :: g in r ==> g in files && Eligible(fs, g, now) && g !in failing
    decreases |files|
  {
    if files == [] then []
    else
      var f := files[|files| - 1];
      Logged(fs, files[..|files| - 1], now, failing) + (if Eligible(fs, f, now) && f !in failing then [f] else [])
  }

  /** The text the scan appends for the logged files `fs`. */
  function LoggedText(files: seq<string>, iso: string): string
    decreases |files|
  {
    if files == [] then ""
    else LoggedText(files[..|files| - 1], iso) + LogLine(iso, files[|files| - 1]) + "\n"
  }

  /** The log path is not in the output directory. */
  lemma LogNotOutput(f: string)
    ensures Join(OUTPUT, f) != BACKUP_LOG
  {
    assert Join(OUTPUT, f)[8] == 'o' && BACKUP_LOG[8] == 'l';
  }

  /** Listed files are distinct and their paths are apart from the log. */
  predicate DistinctNames(files: seq<string>) {
    forall i, j :: 0 <= i < j < |files| ==> files[i] != files[j]
  }

  /** The scan changes a render only if it walks it, and only by deleting it
      after its line was appended; every other file except the log stays. */
  lemma {:induction false} UploadFrame(fs: FileSystem, files: seq<string>, iso: string, now: nat, failing: set<string>, p: string)
    requires p != BACKUP_LOG && forall g :: g in files ==> p != Join(OUTPUT, g)
    ensures p in UploadFold(fs, files, iso, now, failing) <==> p in fs
    ensures p in fs ==> UploadFold(fs, files, iso, now, failing)[p] == fs[p]
    decreases |files|
  {
    if files != [] {
      UploadFrame(fs, files[..|files| - 1], iso, now, failing, p);
    }
  }

  /** Over a listing, the log grows by exactly one line per logged file, in
      listing order. */
  lemma {:induction false} UploadLogGrows(fs: FileSystem, files: seq<string>, iso: string, now: nat, failing: set<string>)
    requires DistinctNames(files)
    ensures LogText(UploadFold(fs, files, iso, now, failing)) == LogText(fs) + LoggedText(Logged(fs, files, now, failing), iso)
    decreases |files|
  {
    if files != [] {
      var pre := files[..|files| - 1];
      var l := files[|files| - 1];
      var prev := UploadFold(fs, pre, iso, now, failing);
      UploadLogGrows(fs, pre, iso, now, failing);
      LastUntouched(fs, files, iso, now, failing);
      var logged := Logged(fs, files, now, failing);
      var loggedPre := Logged(fs, pre, now, failing);
      if Eligible(fs, l, now) && l !in failing {
        StepLogAppends(prev, l, iso, now, failing);
        assert logged == loggedPre + [l];
        LoggedTextSnoc(loggedPre, l, iso);
        Assoc(LogText(fs), LoggedText(loggedPre, iso), LogLine(iso, l) + "\n");
      } else {
        StepLogSame(prev, l, iso, now, failing);
        assert logged == loggedPre;
      }
    }
  }

  lemma LoggedTextSnoc(xs: seq<string>, l: string, iso: string)
    ensures LoggedText(xs + [l], iso) == LoggedText(xs, iso) + (LogLine(iso, l) + "\n")
  {
    assert (xs + [l])[..|xs|] == xs;
    Assoc(LoggedText(xs, iso), LogLine(iso, l), "\n");
  }

  lemma Assoc(a: string, b: string, c: string)
    ensures a + b + c == a + (b + c)
  {
  }

  /** A step that uploads appends its line to the log. */
  lemma StepLogAppends(fs: FileSystem, f: string, iso: string, now: nat, failing: set<string>)
    requires Eligible(fs, f, now) && f !in failing
    ensures LogText(UploadStep(fs, f, iso, now, failing)) == LogText(fs) + LogLine(iso, f) + "\n"
  {
    LogNotOutput(f);
    var r := AppendLog(fs, LogLine(iso, f) + "\n", now);
    assert UploadStep(fs, f, iso, now, failing) == r - {Join(OUTPUT, f)};
    assert LogText(r - {Join(OUTPUT, f)}) == LogText(r);
    Assoc(LogText(fs), LogLine(iso, f), "\n");
  }

  /** A step that does not upload leaves the log as it was. */
  lemma StepLogSame(fs: FileSystem, f: string, iso: string, now: nat, failing: set<string>)
    requires !Eligible(fs, f, now) || f in failing
    ensures UploadStep(fs, f, iso, now, failing) == fs
  {
  }

  /** The last file of a duplicate-free listing is as it was when the scan
      reaches it. */
  lemma LastUntouched(fs: FileSystem, files: seq<string>, iso: string, now: nat, failing: set<string>)
    requires DistinctNames(files) && files != []
    ensures var l := files[|files| - 1];
      Eligible(UploadFold(fs, files[..|files| - 1], iso, now, failing), l, now) == Eligible(fs, l, now)
      && (Join(OUTPUT, l) in UploadFold(fs, files[..|files| - 1], iso, now, failing) <==> Join(OUTPUT, l) in fs)
  {
    var pre := files[..|files| - 1];
    var l := files[|files| - 1];
    forall g | g in pre
      ensures Join(OUTPUT, l) != Join(OUTPUT, g)
    {
      var i :| 0 <= i < |pre| && pre[i] == g;
      assert files[i] == g;
      if Join(OUTPUT, l) == Join(OUTPUT, g) { JoinInjective(OUTPUT, l, g); }
    }
    LogNotOutput(l);
    UploadFrame(fs, pre, iso, now, failing, Join(OUTPUT, l));
  }

  /** A walked render is gone after the scan exactly when it was logged. */
  lemma {:induction false} UploadDeletesLogged(fs: FileSystem, files: seq<string>, iso: string, now: nat, failing: set<string>, g: string)
    requires DistinctNames(files) && g in files
    ensures Join(OUTPUT, g) in UploadFold(fs, files, iso, now, failing) <==>
      Join(OUTPUT, g) in fs && g !in Logged(fs, files, now, failing)
    decreases |files|
  {
    var pre := files[..|files| - 1];
    var l := files[|files| - 1];
    var prev := UploadFold(fs, pre, iso, now, failing);
    var logged := Logged(fs, pre, now, failing) + (if Eligible(fs, l, now) && l !in failing then [l] else []);
    assert files == pre + [l];
    assert UploadFold(fs, files, iso, now, failing) == UploadStep(prev, l, iso, now, failing);
    assert Logged(fs, files, now, failing) == logged;
    LastUntouched(fs, files, iso, now, failing);
    if g == l {
      assert g !in Logged(fs, pre, now, failing) by {
        forall i | 0 <= i < |pre|
          ensures pre[i] != l
        {
          assert pre[i] == files[i];
        }
      }
      StepDeletes(prev, l, iso, now, failing);
    } else {
      assert g in pre;
      UploadDeletesLogged(fs, pre, iso, now, failing, g);
      assert Join(OUTPUT, g) != Join(OUTPUT, l) by {
        if Join(OUTPUT, g) == Join(OUTPUT, l) { JoinInjective(OUTPUT, g, l); }
      }
      LogNotOutput(g);
      StepKeeps(prev, l, iso, now, failing, Join(OUTPUT, g));
      assert g in logged <==> g in Logged(fs, pre, now, failing);
    }
  }

  /** A step leaves every path but the log and the render it walks. */
  lemma StepKeeps(fs: FileSystem, f: string, iso: string, now: nat, failing: set<string>, p: string)
    requires p != BACKUP_LOG && p != Join(OUTPUT, f)
    ensures p in UploadStep(fs, f, iso, now, failing) <==> p in fs
  {
  }

  /** A step deletes the render it walks exactly when it uploads it. */
  lemma StepDeletes(fs: FileSystem, f: string, iso: string, now: nat, failing: set<string>)
    ensures Join(OUTPUT, f) in UploadStep(fs, f, iso, now, failing) <==>
      Join(OUTPUT, f) in fs && !(Eligible(fs, f, now) && f !in failing)
  {
    LogNotOutput(f);
  }
}

=== FILE: cleanup.dfy ===
/** The cleanup worker: deletes temp entries older than seven days (sparing
    task descriptors that are still processing or queued), keeps the forty
    newest renders, and trims every log to its last 5000 lines. Directory
    existence and listings are inputs; the clock is `now` in milliseconds. */
module CleanupWorker {
  import opened Common

  const TEMP := "storage/temp"
  const OUTPUT := "storage/output"
  const LOGS := "storage/logs"

  const KEEP_DAYS: nat := 7
  const MAX_LOG_LINES: nat := 5000
  const KEEP_OUTPUT_LIMIT: nat := 40
  const DAY_MS: nat := 1000 * 60 * 60 * 24

  // ---------------------------------------------------------------------------
  // deleteIfOld
  // ---------------------------------------------------------------------------

  /** The file's age in days, `(now - mtimeMs) / 86400000`, is above
      `days`; multiplied out, since the divisor is positive. */
  predicate Old(fs: FileSystem, p: string, days: nat, now: nat)
    requires p in fs
  {
    (now as int) - fs[p].mtime > days * DAY_MS
  }

  /** `deleteIfOld(p, days)`: whether it deleted, and the file system after.
      A path that cannot be stat'ed gives false. */
  function DeleteIfOld(fs: FileSystem, p: string, days: nat, now: nat): (r: (bool, FileSystem))
    ensures r.0 <==> p in fs && Old(fs, p, days, now)
    ensures r.1 == if r.0 then fs - {p} else fs
  {
    if p in fs && Old(fs, p, days, now) then (true, fs - {p}) else (false, fs)
  }

  // ---------------------------------------------------------------------------
  // cleanTemp
  // ---------------------------------------------------------------------------

  predicate IsTaskFile(n: string) {
    StartsWith(n, "task_") && EndsWith(n, ".json")
  }

  /** A task descriptor whose parsed `status` is "processing" or "queued";
      a file that does not parse, or a value without that status, is not
      protected. */
  predicate Active(fs: FileSystem, p: string) {
    match LoadJson(fs, p)
    case Some(JObj(m)) => "status" in m && (m["status"] == JStr("processing") || m["status"] == JStr("queued"))
    case _ => false
  }

  /** The temp entry `n` is spared by the status check. */
  predicate Protected(fs: FileSystem, n: string) {
    IsTaskFile(n) && Active(fs, Join(TEMP, n))
  }

  /** The temp entry `n` is deleted by the pass over `fs`. */
  predicate Doomed(fs: FileSystem, n: string, now: nat) {
    Join(TEMP, n) in fs && !Protected(fs, n) && Old(fs, Join(TEMP, n), KEEP_DAYS, now)
  }

  /** One iteration of the loop of `cleanTemp`. */
  function TempStep(fs: FileSystem, n: string, now: nat): (r: (bool, FileSystem))
    ensures r.0 <==> Doomed(fs, n, now)
    ensures r.1 == if r.0 then fs - {Join(TEMP, n)} else fs
  {
    if Protected(fs, n) then (false, fs) else DeleteIfOld(fs, Join(TEMP, n), KEEP_DAYS, now)
  }

  /** The count and the file system after the loop of `cleanTemp` over
      `names`. */
  function TempFold(fs: FileSystem, names: seq<string>, now: nat): (r: (nat, FileSystem))
    decreases |names|
  {
    if names == [] then (0, fs)
    else
      var (d, fs1) := TempStep(fs, names[0], now);
      var (c, fs2) := TempFold(fs1, names[1..], now);
      ((if d then 1 else 0) + c, fs2)
  }

  /** `cleanTemp()` with the listing `names`; None when the directory is
      missing. */
  method CleanTemp(fs: FileSystem, exists_: bool, names: seq<string>, now: nat) returns (deleted: Option<nat>, fs': FileSystem)
    ensures !exists_ ==> deleted.None? && fs' == fs
    ensures exists_ ==> deleted.Some? && (deleted.value, fs') == TempFold(fs, names, now)
  {
    if !exists_ {
      return None, fs;
    }
    var count := 0;
    fs' := fs;
    for k := 0 to |names|
      invariant TempFold(fs, names, now) == (count + TempFold(fs', names[k..], now).0, TempFold(fs', names[k..], now).1)
    {
      assert names[k..][1..] == names[k + 1..];
      var removed, next := TempStep(fs', names[k], now).0, TempStep(fs', names[k], now).1;
      if removed {
        count := count + 1;
      }
      fs' := next;
    }
    deleted := Some(count);
  }

  /** The pass deletes exactly the listed entries that are old and not
      protected, as they were before the pass, and changes nothing else; the
      count is the number of such entries. */
  lemma TempFoldDeletesDoomed(fs: FileSystem, names: seq<string>, now: nat)
    requires forall i, j :: 0 <= i < j < |names| ==> names[i] != names[j]
    ensures TempFold(fs, names, now).1 == fs - DoomedPaths(fs, names, now)
    ensures TempFold(fs, names, now).0 == |Filter(names, n => Doomed(fs, n, now))|
  {
    TempFoldDeletes(fs, names, now);
    TempFoldCounts(fs, names, now);
  }

  /** The entries after the first are doomed after the first step exactly
      when they were before it. */
  lemma DoomedAfterStep(fs: FileSystem, names: seq<string>, now: nat)
    requires names != [] && forall i, j :: 0 <= i < j < |names| ==> names[i] != names[j]
    ensures forall m :: m in names[1..] ==> Doomed(TempStep(fs, names[0], now).1, m, now) == Doomed(fs, m, now)
  {
    var n := names[0];
    var fs1 := TempStep(fs, n, now).1;
    forall m | m in names[1..]
      ensures Doomed(fs1, m, now) == Doomed(fs, m, now)
    {
      var k :| 0 <= k < |names[1..]| && names[1..][k] == m;
      assert names[k + 1] == m;
      if Join(TEMP, m) == Join(TEMP, n) {
        JoinInjective(TEMP, m, n);
      }
      assert Join(TEMP, m) in fs1 <==> Join(TEMP, m) in fs;
    }
  }

  lemma {:induction false} TempFoldDeletes(fs: FileSystem, names: seq<string>, now: nat)
    requires forall i, j :: 0 <= i < j < |names| ==> names[i] != names[j]
    ensures TempFold(fs, names, now).1 == fs - DoomedPaths(fs, names, now)
    decreases |names|
  {
    if names == [] {
      assert fs - {} == fs;
    } else {
      var n := names[0];
      var fs1 := TempStep(fs, n, now).1;
      TempFoldDeletes(fs1, names[1..], now);
      DoomedAfterStep(fs, names, now);
      var rest := DoomedPaths(fs, names[1..], now);
      assert DoomedPaths(fs1, names[1..], now) == rest;
      var first: set<string> := if Doomed(fs, n, now) then {Join(TEMP, n)} else {};
      assert DoomedPaths(fs, names, now) == first + rest;
      assert fs1 == fs - first;
      MapMinusUnion(fs, first, rest);
    }
  }

  lemma {:induction false} TempFoldCounts(fs: FileSystem, names: seq<string>, now: nat)
    requires forall i, j :: 0 <= i < j < |names| ==> names[i] != names[j]
    ensures TempFold(fs, names, now).0 == |Filter(names, n => Doomed(fs, n, now))|
    decreases |names|
  {
    if names != [] {
      var fs1 := TempStep(fs, names[0], now).1;
      TempFoldCounts(fs1, names[1..], now);
      DoomedAfterStep(fs, names, now);
      FilterSame(names[1..], m => Doomed(fs1, m, now), m => Doomed(fs, m, now));
    }
  }

  /** The temp paths the pass over `fs` deletes. */
  function DoomedPaths(fs: FileSystem, names: seq<string>, now: nat): (r: set<string>)
    ensures forall n :: n in names && Doomed(fs, n, now) ==> Join(TEMP, n) in r
    ensures forall p :: p in r ==> exists n :: n in names && Doomed(fs, n, now) && p == Join(TEMP, n)
  {
    set n | n in names && Doomed(fs, n, now) :: Join(TEMP, n)
  }

  /** Two selectors that agree on a listing select the same names. */
  lemma {:induction false} FilterSame(names: seq<string>, f: string -> bool, g: string -> bool)
    requires forall n :: n in names ==> f(n) == g(n)
    ensures Filter(names, f) == Filter(names, g)
    decreases |names|
  {
    if names != [] {
      FilterSame(names[1..], f, g);
    }
  }

  /** A task descriptor that is processing or queued survives the pass,
      unchanged, however old it is. */
  lemma ActiveTaskSurvives(fs: FileSystem, names: seq<string>, now: nat, n: string)
    requires forall i, j :: 0 <= i < j < |names| ==> names[i] != names[j]
    requires IsTaskFile(n) && Join(TEMP, n) in fs && Active(fs, Join(TEMP, n))
    ensures Join(TEMP, n) in TempFold(fs, names, now).1
    ensures TempFold(fs, names, now).1[Join(TEMP, n)] == fs[Join(TEMP, n)]
  {
    TempFoldDeletesDoomed(fs, names, now);
    if Join(TEMP, n) in DoomedPaths(fs, names, now) {
      var m :| m in names && Doomed(fs, m, now) && Join(TEMP, n) == Join(TEMP, m);
      JoinInjective(TEMP, n, m);
    }
  }

  // ---------------------------------------------------------------------------
  // cleanOutput
  // ---------------------------------------------------------------------------

  predicate IsVideo(n: string) {
    EndsWith(n, ".mp4") || EndsWith(n, ".mov") || EndsWith(n, ".mkv")
  }

  /** The paths `cleanOutput` deletes: the oldest of the listed videos, all
      but the newest forty. */
  function Excess(fs: FileSystem, names: seq<string>): (r: seq<string>)
    ensures |r| == if |Filter(names, IsVideo)| > KEEP_OUTPUT_LIMIT then |Filter(names, IsVideo)| - KEEP_OUTPUT_LIMIT else 0
  {
    DropOldest(fs, JoinAll(OUTPUT, Filter(names, IsVideo)), KEEP_OUTPUT_LIMIT)
  }

  /** `cleanOutput()` with the listing `names`: the while loop shifting the
      oldest file off the sorted list until forty remain. */
  method CleanOutput(fs: FileSystem, exists_: bool, names: seq<string>) returns (deleted: Option<nat>, fs': FileSystem)
    ensures !exists_ ==> deleted.None? && fs' == fs
    ensures exists_ ==> deleted == Some(|Excess(fs, names)|) && fs' == fs - PathSet(Excess(fs, names))
  {
    if !exists_ {
      return None, fs;
    }
    var sorted := SortByMtime(fs, JoinAll(OUTPUT, Filter(names, IsVideo)));
    var files := sorted;
    var count := 0;
    fs' := fs;
    while |files| > KEEP_OUTPUT_LIMIT
      invariant count <= |sorted| && files == sorted[count..]
      invariant |sorted| <= KEEP_OUTPUT_LIMIT ==> count == 0
      invariant |sorted| > KEEP_OUTPUT_LIMIT ==> count <= |sorted| - KEEP_OUTPUT_LIMIT
      invariant fs' == fs - PathSet(sorted[..count])
      decreases |files|
    {
      var file := files[0];
      files := files[1..];
      RemoveNext(fs, sorted, count);
      fs' := fs' - {file};
      count := count + 1;
    }
    assert sorted[..count] == Excess(fs, names);
    deleted := Some(count);
  }

  /** `cleanOutput` deletes only listed videos, each no newer than every
      listed video it keeps; other files of the output directory stay. */
  lemma OutputKeepsNewest(fs: FileSystem, names: seq<string>, n: string, m: string)
    requires Join(OUTPUT, n) in Excess(fs, names)
    ensures n in names && IsVideo(n)
    ensures m in names && IsVideo(m) && Join(OUTPUT, m) !in Excess(fs, names) ==>
      MtimeOf(fs, Join(OUTPUT, n)) <= MtimeOf(fs, Join(OUTPUT, m))
  {
    var vs := Filter(names, IsVideo);
    DropOldestListed(fs, JoinAll(OUTPUT, vs), KEEP_OUTPUT_LIMIT, Join(OUTPUT, n));
    JoinAllListed(OUTPUT, vs, n);
    if m in names && IsVideo(m) && Join(OUTPUT, m) !in Excess(fs, names) {
      var k :| 0 <= k < |vs| && vs[k] == m;
      assert JoinAll(OUTPUT, vs)[k] == Join(OUTPUT, m);
      DropOldestKeepsNewest(fs, JoinAll(OUTPUT, vs), KEEP_OUTPUT_LIMIT, Join(OUTPUT, n), Join(OUTPUT, m));
    }
  }

  // ---------------------------------------------------------------------------
  // trimLogs
  // ---------------------------------------------------------------------------

  /** The last `n` of `xs` (`xs.slice(-n)`). */
  function LastN(xs: seq<string>, n: nat): (r: seq<string>)
    ensures |r| == if |xs| <= n then |xs| else n
  {
    if |xs| <= n then xs else xs[|xs| - n..]
  }

  /** The text a log is rewritten to, or None when it has at most 5000 lines
      and is left alone. */
  function TrimText(t: string): (r: Option<string>)
    ensures r.None? <==> |SplitOn(t, "\n")| <= MAX_LOG_LINES
  {
    var lines := SplitOn(t, "\n");
    if |lines| > MAX_LOG_LINES then Some(JoinWith(LastN(lines, MAX_LOG_LINES), "\n")) else None
  }

  /** A trimmed log splits into exactly its last 5000 lines. */
  lemma TrimKeepsLastLines(t: string)
    requires TrimText(t).Some?
    ensures SplitOn(TrimText(t).value, "\n") == LastN(SplitOn(t, "\n"), MAX_LOG_LINES)
    ensures |SplitOn(TrimText(t).value, "\n")| == MAX_LOG_LINES
  {
    var lines := SplitOn(t, "\n");
    var kept := LastN(lines, MAX_LOG_LINES);
    SplitPiecesFree(t, '\n');
    forall k | 0 <= k < |kept|
      ensures SepOnlyAtEnd(kept[k], "\n")
    {
      assert kept[k] == lines[|lines| - MAX_LOG_LINES + k];
      CharSepOnlyAtEnd(kept[k], '\n');
    }
    SplitJoin(kept, "\n");
  }

  /** One iteration of the loop of `trimLogs` on the path `p`. Only text
      files are read as logs (see README); a missing file is skipped. */
  function LogStep(fs: FileSystem, p: string, now: nat): (r: (bool, FileSystem))
    ensures !r.0 ==> r.1 == fs
    ensures r.0 ==>
      p in fs && fs[p].content.Text? && TrimText(fs[p].content.text).Some?
      && r.1 == fs[p := FileRec(Text(TrimText(fs[p].content.text).value), now)]
  {
    if p in fs && fs[p].content.Text? && TrimText(fs[p].content.text).Some? then
      (true, fs[p := FileRec(Text(TrimText(fs[p].content.text).value), now)])
    else (false, fs)
  }

  function TrimFold(fs: FileSystem, names: seq<string>, now: nat): (r: (nat, FileSystem))
    decreases |names|
  {
    if names == [] then (0, fs)
    else
      var (d, fs1) := LogStep(fs, Join(LOGS, names[0]), now);
      var (c, fs2) := TrimFold(fs1, names[1..], now);
      ((if d then 1 else 0) + c, fs2)
  }

  /** `trimLogs()` with the listing `names`. */
  method TrimLogs(fs: FileSystem, exists_: bool, names: seq<string>, now: nat) returns (trimmed: Option<nat>, fs': FileSystem)
    ensures !exists_ ==> trimmed.None? && fs' == fs
    ensures exists_ ==> trimmed.Some? && (trimmed.value, fs') == TrimFold(fs, names, now)
  {
    if !exists_ {
      return None, fs;
    }
    var count := 0;
    fs' := fs;
    for k := 0 to |names|
      invariant TrimFold(fs, names, now) == (count + TrimFold(fs', names[k..], now).0, TrimFold(fs', names[k..], now).1)
    {
      assert names[k..][1..] == names[k + 1..];
      var step := LogStep(fs', Join(LOGS, names[k]), now);
      if step.0 {
        count := count + 1;
      }
      fs' := step.1;
    }
    trimmed := Some(count);
  }

  /** The trim pass creates and deletes nothing, leaves every path outside
      the listing as it was, and every log it leaves with more than 5000
      lines was not a text file. */
  lemma TrimFoldBounds(fs: FileSystem, names: seq<string>, now: nat)
    ensures TrimFold(fs, names, now).1.Keys == fs.Keys
    ensures forall q :: q in fs && (forall n :: n in names ==> q != Join(LOGS, n)) ==> TrimFold(fs, names, now).1[q] == fs[q]
    ensures forall n :: n in names && Join(LOGS, n) in fs && fs[Join(LOGS, n)].content.Text? ==>
      TrimFold(fs, names, now).1[Join(LOGS, n)].content.Text?
      && |SplitOn(TrimFold(fs, names, now).1[Join(LOGS, n)].content.text, "\n")| <= MAX_LOG_LINES
  {
    TrimFoldKeys(fs, names, now);
    forall q | q in fs && (forall n :: n in names ==> q != Join(LOGS, n))
      ensures TrimFold(fs, names, now).1[q] == fs[q]
    {
      TrimFoldFrame(fs, names, now, q);
    }
    forall n | n in names && Join(LOGS, n) in fs && fs[Join(LOGS, n)].content.Text?
      ensures ShortLog(TrimFold(fs, names, now).1, Join(LOGS, n))
    {
      TrimFoldShortens(fs, names, now, n);
    }
  }

  /** `q` is a text log of at most 5000 lines. */
  predicate ShortLog(fs: FileSystem, q: string) {
    q in fs && fs[q].content.Text? && |SplitOn(fs[q].content.text, "\n")| <= MAX_LOG_LINES
  }

  lemma {:induction false} TrimFoldKeys(fs: FileSystem, names: seq<string>, now: nat)
    ensures TrimFold(fs, names, now).1.Keys == fs.Keys
    decreases |names|
  {
    if names != [] {
      TrimFoldKeys(LogStep(fs, Join(LOGS, names[0]), now).1, names[1..], now);
    }
  }

  lemma {:induction false} TrimFoldFrame(fs: FileSystem, names: seq<string>, now: nat, q: string)
    requires q in fs && forall n :: n in names ==> q != Join(LOGS, n)
    ensures q in TrimFold(fs, names, now).1 && TrimFold(fs, names, now).1[q] == fs[q]
    decreases |names|
  {
    if names != [] {
      assert names[0] in names;
      TrimFoldFrame(LogStep(fs, Join(LOGS, names[0]), now).1, names[1..], now, q);
    }
  }

  /** A short text log stays short whatever the pass walks. */
  lemma {:induction false} TrimFoldKeepsShort(fs: FileSystem, names: seq<string>, now: nat, q: string)
    requires ShortLog(fs, q)
    ensures ShortLog(TrimFold(fs, names, now).1, q)
    decreases |names|
  {
    if names != [] {
      var fs1 := LogStep(fs, Join(LOGS, names[0]), now).1;
      assert ShortLog(fs1, q);
      TrimFoldKeepsShort(fs1, names[1..], now, q);
    }
  }

  /** Every listed text log is short after the pass. */
  lemma {:induction false} TrimFoldShortens(fs: FileSystem, names: seq<string>, now: nat, n: string)
    requires n in names && Join(LOGS, n) in fs && fs[Join(LOGS, n)].content.Text?
    ensures ShortLog(TrimFold(fs, names, now).1, Join(LOGS, n))
    decreases |names|
  {
    var p := Join(LOGS, names[0]);
    var q := Join(LOGS, n);
    var fs1 := LogStep(fs, p, now).1;
    if n == names[0] {
      if LogStep(fs, p, now).0 {
        TrimKeepsLastLines(fs[p].content.text);
      }
      assert ShortLog(fs1, q);
      TrimFoldKeepsShort(fs1, names[1..], now, q);
    } else {
      assert p != q by {
        if p == q { JoinInjective(LOGS, names[0], n); }
      }
      assert n in names[1..];
      TrimFoldShortens(fs1, names[1..], now, n);
    }
  }

  // ---------------------------------------------------------------------------
  // runCleanup
  // ---------------------------------------------------------------------------

  /** Which of the three directories exist, and their listings. */
  datatype Dirs = Dirs(temp: bool, output: bool, logs: bool, tempNames: seq<string>, outputNames: seq<string>, logNames: seq<string>)

  /** `runCleanup()`: the temp, output and log passes in order, with their
      counts. */
  method RunCleanup(fs: FileSystem, d: Dirs, now: nat) returns (t: Option<nat>, o: Option<nat>, l: Option<nat>, fs': FileSystem)
    ensures t.Some? <==> d.temp
    ensures o.Some? <==> d.output
    ensures l.Some? <==> d.logs
    ensures var fs1 := if d.temp then TempFold(fs, d.tempNames, now).1 else fs;
      var fs2 := if d.output then fs1 - PathSet(Excess(fs1, d.outputNames)) else fs1;
      fs' == if d.logs then TrimFold(fs2, d.logNames, now).1 else fs2
  {
    var fs1, fs2;
    t, fs1 := CleanTemp(fs, d.temp, d.tempNames, now);
    o, fs2 := CleanOutput(fs1, d.output, d.outputNames);
    l, fs' := TrimLogs(fs2, d.logs, d.logNames, now);
  }
}

=== FILE: cloud_backup.dfy ===
/** The Python cloud backup engine: each pass copies every video of the output
    directory into the backup directory unless a backup of the same size is
    already there, classifies each backup as missing, corrupted or verified
    (logging only), and keeps the 50 newest entries of the backup directory.
    Directory listings and the copies that fail are inputs. */
module CloudBackupEngine {
  import opened Common

  const OUTPUT := "storage/output"
  const BACKUP := "cloud_backup"
  const LIMIT: nat := 50

  /** `f.suffix in [".mp4", ".mov", ".mkv"]`. */
  predicate IsVideo(n: string) {
    Suffix(n) == ".mp4" || Suffix(n) == ".mov" || Suffix(n) == ".mkv"
  }

  // ---------------------------------------------------------------------------
  // backup_new_videos
  // ---------------------------------------------------------------------------

  /** The backup of `n` exists and has the size of the video. */
  predicate BackedUp(fs: FileSystem, n: string) {
    Join(BACKUP, n) in fs && SizeOf(fs, Join(BACKUP, n)) == SizeOf(fs, Join(OUTPUT, n))
  }

  /** One iteration of the loop of `backup_new_videos`: skip a video already
      backed up, otherwise copy it (a failing copy is logged and changes
      nothing). */
  function BackupStep(fs: FileSystem, n: string, fails: set<string>): (r: FileSystem)
    ensures BackedUp(fs, n) ==> r == fs
    ensures !BackedUp(fs, n) && CopyOk(fs, Join(OUTPUT, n), Join(BACKUP, n), fails) ==>
      r == fs[Join(BACKUP, n) := fs[Join(OUTPUT, n)]]
    ensures !BackedUp(fs, n) && !CopyOk(fs, Join(OUTPUT, n), Join(BACKUP, n), fails) ==> r == fs
  {
    var src, dst := Join(OUTPUT, n), Join(BACKUP, n);
    if BackedUp(fs, n) then fs
    else if CopyOk(fs, src, dst, fails) then fs[dst := fs[src]]
    else fs
  }

  function BackupFold(fs: FileSystem, files: seq<string>, fails: set<string>): (r: FileSystem)
    decreases |files|
  {
    if files == [] then fs
    else BackupStep(BackupFold(fs, files[..|files| - 1], fails), files[|files| - 1], fails)
  }

  /** `backup_new_videos()` with the listing `names` of the output directory.
      The source walks the videos in name order; each writes only its own
      backup path, so the order does not change the outcome. */
  method BackupNewVideos(fs: FileSystem, names: seq<string>, fails: set<string>) returns (fs': FileSystem)
    ensures fs' == BackupFold(fs, Filter(names, IsVideo), fails)
  {
    var files := Filter(names, IsVideo);
    fs' := fs;
    for k := 0 to |files|
      invariant fs' == BackupFold(fs, files[..k], fails)
    {
      assert files[..k + 1][..k] == files[..k];
      var src, dst := Join(OUTPUT, files[k]), Join(BACKUP, files[k]);
      if dst in fs' && SizeOf(fs', dst) == SizeOf(fs', src) {
        continue;
      }
      if CopyOk(fs', src, dst, fails) {
        fs' := fs'[dst := fs'[src]];
      }
    }
    assert files[..|files|] == files;
  }

  /** Output and backup paths never meet. */
  lemma OutputNotBackup(n: string, m: string)
    ensures Join(OUTPUT, n) != Join(BACKUP, m)
  {
    assert Join(OUTPUT, n)[0] == 's' && Join(BACKUP, m)[0] == 'c';
  }

  /** The pass writes only the backup paths of the videos it walks. */
  lemma {:induction false} BackupFrame(fs: FileSystem, files: seq<string>, fails: set<string>, p: string)
    requires forall n :: n in files ==> p != Join(BACKUP, n)
    ensures p in BackupFold(fs, files, fails) <==> p in fs
    ensures p in fs ==> BackupFold(fs, files, fails)[p] == fs[p]
    decreases |files|
  {
    if files != [] {
      BackupFrame(fs, files[..|files| - 1], fails, p);
    }
  }

  /** After the pass, every walked video whose copy does not fail has a
      backup of its size, and a backup that already had the size is kept as
      it was, not copied again. */
  lemma {:induction false} BackupOutcome(fs: FileSystem, files: seq<string>, fails: set<string>, n: string)
    requires n in files && Join(OUTPUT, n) in fs && Join(BACKUP, n) !in fails
    ensures BackedUp(BackupFold(fs, files, fails), n)
    ensures SizeOf(BackupFold(fs, files, fails), Join(BACKUP, n)) == SizeOf(fs, Join(OUTPUT, n))
    ensures BackedUp(fs, n) ==> BackupFold(fs, files, fails)[Join(BACKUP, n)] == fs[Join(BACKUP, n)]
    decreases |files|
  {
    var pre := files[..|files| - 1];
    var l := files[|files| - 1];
    var prev := BackupFold(fs, pre, fails);
    forall m | m in files
      ensures Join(OUTPUT, n) != Join(BACKUP, m)
    {
      OutputNotBackup(n, m);
    }
    BackupFrame(fs, pre, fails, Join(OUTPUT, n));
    if n in pre {
      BackupOutcome(fs, pre, fails, n);
    } else {
      assert files == pre + [l];
      assert l == n;
      forall m | m in pre
        ensures Join(BACKUP, n) != Join(BACKUP, m)
      {
        if Join(BACKUP, n) == Join(BACKUP, m) { JoinInjective(BACKUP, n, m); }
      }
      BackupFrame(fs, pre, fails, Join(BACKUP, n));
    }
    if l != n {
      assert Join(BACKUP, l) != Join(BACKUP, n) by {
        if Join(BACKUP, l) == Join(BACKUP, n) { JoinInjective(BACKUP, l, n); }
      }
    }
  }

  // ---------------------------------------------------------------------------
  // verify_backup
  // ---------------------------------------------------------------------------

  datatype Verdict = Missing | Corrupted | Verified

  /** The verdict `verify_backup` logs for the video `n`: missing without a
      backup, corrupted when the backup is smaller than 95% of the video. */
  function Classify(fs: FileSystem, n: string): (v: Verdict)
    ensures v == Missing <==> Join(BACKUP, n) !in fs
    ensures v == Corrupted <==>
      Join(BACKUP, n) in fs && 20 * SizeOf(fs, Join(BACKUP, n)) < 19 * SizeOf(fs, Join(OUTPUT, n))
  {
    var b := Join(BACKUP, n);
    if b !in fs then Missing
    else if (SizeOf(fs, b) as real) < (SizeOf(fs, Join(OUTPUT, n)) as real) * 0.95 then Corrupted
    else Verified
  }

  /** `verify_backup()`: the log, one verdict per video in listing order;
      it changes no file. */
  method VerifyBackup(fs: FileSystem, names: seq<string>) returns (report: seq<(string, Verdict)>)
    ensures |report| == |Filter(names, IsVideo)|
    ensures forall k :: 0 <= k < |report| ==>
      report[k] == (Filter(names, IsVideo)[k], Classify(fs, Filter(names, IsVideo)[k]))
  {
    var vids := Filter(names, IsVideo);
    report := [];
    for k := 0 to |vids|
      invariant |report| == k
      invariant forall i :: 0 <= i < k ==> report[i] == (vids[i], Classify(fs, vids[i]))
    {
      report := report + [(vids[k], Classify(fs, vids[k]))];
    }
  }

  /** A video just backed up is verified: equal sizes are never corrupted. */
  lemma BackedUpVerified(fs: FileSystem, n: string)
    requires BackedUp(fs, n)
    ensures Classify(fs, n) == Verified
  {
  }

  // ---------------------------------------------------------------------------
  // cleanup_old_backups
  // ---------------------------------------------------------------------------

  /** The backups `cleanup_old_backups(limit)` deletes: all but the newest
      `limit` entries of the backup directory. The slice `files[:-limit]` is
      empty for a limit of 0, so that limit deletes nothing. */
  function OldBackups(fs: FileSystem, names: seq<string>, limit: nat): (r: seq<string>)
    ensures |names| <= limit || limit == 0 ==> r == []
    ensures |names| > limit > 0 ==> |r| == |names| - limit
  {
    if limit == 0 then [] else DropOldest(fs, JoinAll(BACKUP, names), limit)
  }

  /** `cleanup_old_backups(limit)` with the listing `names` of the backup
      directory. */
  method CleanupOldBackups(fs: FileSystem, names: seq<string>, limit: nat) returns (fs': FileSystem)
    ensures fs' == fs - PathSet(OldBackups(fs, names, limit))
  {
    fs' := fs;
    var files := SortByMtime(fs, JoinAll(BACKUP, names));
    if |files| <= limit {
      return;
    }
    var doomed := if limit == 0 then [] else files[..|files| - limit];
    for k := 0 to |doomed|
      invariant fs' == fs - PathSet(doomed[..k])
    {
      assert doomed[..k + 1] == doomed[..k] + [doomed[k]];
      PathSetSnoc(doomed[..k], doomed[k]);
      fs' := fs' - {doomed[k]};
    }
    assert doomed[..|doomed|] == doomed;
  }

  /** Only listed backups are deleted, each no newer than every listed backup
      that is kept. */
  lemma CleanupKeepsNewest(fs: FileSystem, names: seq<string>, limit: nat, n: string, m: string)
    requires Join(BACKUP, n) in OldBackups(fs, names, limit)
    ensures n in names && |names| > limit > 0
    ensures m in names && Join(BACKUP, m) !in OldBackups(fs, names, limit) ==>
      MtimeOf(fs, Join(BACKUP, n)) <= MtimeOf(fs, Join(BACKUP, m))
  {
    DropOldestListed(fs, JoinAll(BACKUP, names), limit, Join(BACKUP, n));
    JoinAllListed(BACKUP, names, n);
    if m in names && Join(BACKUP, m) !in OldBackups(fs, names, limit) {
      var k :| 0 <= k < |names| && names[k] == m;
      assert JoinAll(BACKUP, names)[k] == Join(BACKUP, m);
      DropOldestKeepsNewest(fs, JoinAll(BACKUP, names), limit, Join(BACKUP, n), Join(BACKUP, m));
    }
  }

  // ---------------------------------------------------------------------------
  // run_loop
  // ---------------------------------------------------------------------------

  /** One iteration of `run_loop`: back up, verify, then clean up with the
      listing `backupNames` the backup directory has after the copies. */
  method RunPass(fs: FileSystem, outputNames: seq<string>, backupNames: seq<string>, fails: set<string>)
    returns (report: seq<(string, Verdict)>, fs': FileSystem)
    ensures |report| == |Filter(outputNames, IsVideo)|
    ensures forall k :: 0 <= k < |report| ==>
      report[k].1 == Classify(BackupFold(fs, Filter(outputNames, IsVideo), fails), report[k].0)
    ensures fs' == BackupFold(fs, Filter(outputNames, IsVideo), fails)
      - PathSet(OldBackups(BackupFold(fs, Filter(outputNames, IsVideo), fails), backupNames, LIMIT))
  {
    var fs1 := BackupNewVideos(fs, outputNames, fails);
    report := VerifyBackup(fs1, outputNames);
    fs' := CleanupOldBackups(fs1, backupNames, LIMIT);
  }
}

=== FILE: cloud_restore.dfy ===
/** The cloud restore worker: parses the backup log written by the backup
    uploader into (file, url) entries, restores a file by downloading the url
    of its first entry into the output directory, and restores every logged
    file that is missing locally. Downloads are an input mapping the url
    argument to a fetched content or an error message. */
module CloudRestore {
  import opened Common
  import BackupUploader

  const OUTPUT := "storage/output"
  const BACKUP_LOG := "storage/logs/cloud_backup.log"

  /** One parsed log line; `url` is None when the line has no " → ". */
  datatype Entry = Entry(file: string, url: Option<string>)

  // ---------------------------------------------------------------------------
  // parseBackupLog
  // ---------------------------------------------------------------------------

  /** The mapping callback of `parseBackupLog` on one line: None for a line
      whose second " | "-piece is missing or empty; otherwise the file is the
      text of that piece before its first " → ", and the url the text after
      it, up to a further " → ". */
  function ParseLine(line: string): (r: Option<Entry>)
    ensures r.None? <==> |SplitOn(line, " | ")| < 2 || SplitOn(line, " | ")[1] == []
    ensures r.Some? ==> r.value.file == SplitOn(SplitOn(line, " | ")[1], " → ")[0]
    ensures r.Some? ==> (r.value.url.Some? <==> |SplitOn(SplitOn(line, " | ")[1], " → ")| >= 2)
  {
    var parts := SplitOn(line, " | ");
    if |parts| < 2 || parts[1] == [] then None
    else
      var fu := SplitOn(parts[1], " → ");
      Some(Entry(fu[0], if |fu| >= 2 then Some(fu[1]) else None))
  }

  /** `lines.map(...).filter(Boolean)`. */
  function ParseLines(lines: seq<string>): (r: seq<Entry>)
    ensures |r| <= |lines|
    decreases |lines|
  {
    if lines == [] then []
    else
      var last := ParseLine(lines[|lines| - 1]);
      ParseLines(lines[..|lines| - 1]) + (if last.Some? then [last.value] else [])
  }

  /** `parseBackupLog()`: [] without a log; otherwise the parsed lines of
      the trimmed text. */
  function ParseBackupLog(fs: FileSystem): (r: seq<Entry>)
    ensures BACKUP_LOG !in fs ==> r == []
  {
    if BACKUP_LOG !in fs then []
    else ParseLines(SplitOn(Trim(BackupUploader.LogText(fs)), "\n"))
  }

  // ---------------------------------------------------------------------------
  // Round trip with the backup uploader
  // ---------------------------------------------------------------------------

  /** A line as the uploader writes it parses back to its file and link
      when none of the three fields holds '|', and neither file nor link
      holds '→'. */
  lemma LineRoundTrip(iso: string, file: string, link: string)
    requires '|' !in iso && '|' !in file && '|' !in link
    requires '→' !in file && '→' !in link
    ensures ParseLine(iso + " | " + file + " → " + link) == Some(Entry(file, Some(link)))
  {
    var rest := file + " → " + link;
    assert iso + " | " + file + " → " + link == iso + " | " + rest;
    RestNoBar(file, link);
    SplitPair(iso, " | ", rest);
    SplitPair(file, " → ", link);
  }

  lemma RestNoBar(file: string, link: string)
    requires '|' !in file && '|' !in link
    ensures '|' !in file + " → " + link
    ensures " | "[1] == '|' && " → "[1] == '→'
  {
    assert '|' !in " → ";
    CharNotInConcat('|', file, " → ");
    CharNotInConcat('|', file + " → ", link);
  }

  /** The parse is not a round trip for a name holding " | ": the line of
      the name a + " | " + b reads back as the file a with no url, so such a
      render can never be restored by its name. */
  lemma BarInNameLost(iso: string, a: string, b: string, link: string)
    requires a != [] && '|' !in iso && '|' !in a && '→' !in a
    ensures ParseLine(iso + " | " + (a + " | " + b) + " → " + link) == Some(Entry(a, None))
  {
    var tail := b + " → " + link;
    var rest := a + " | " + tail;
    assert iso + " | " + (a + " | " + b) + " → " + link == iso + " | " + rest;
    assert " | "[1] == '|' && " → "[1] == '→';
    SplitFirst(iso, " | ", rest);
    SplitFirst(a, " | ", tail);
    NoSplit(a, " → ");
  }

  /** A file name the uploader's lines carry back unchanged. */
  predicate PlainName(f: string) {
    '/' !in f && '|' !in f && '→' !in f && '\n' !in f && EndsWith(f, ".mp4")
  }

  /** A timestamp that starts the log cleanly and does not break a line. */
  predicate PlainStamp(iso: string) {
    iso != [] && !IsSpace(iso[0]) && '|' !in iso && '\n' !in iso
  }

  /** The entry the restore worker reads back for a logged file. */
  function Restorable(files: seq<string>): (r: seq<Entry>)
    ensures |r| == |files|
    ensures forall k :: 0 <= k < |r| ==> r[k] == Entry(files[k], Some(BackupUploader.LINK_PREFIX + files[k]))
  {
    seq(|files|, k requires 0 <= k < |files| => Entry(files[k], Some(BackupUploader.LINK_PREFIX + files[k])))
  }

  /** The lines (without newlines) the uploader writes for `files`. */
  function UploadLines(files: seq<string>, iso: string): (r: seq<string>)
    ensures |r| == |files|
    ensures forall k :: 0 <= k < |r| ==> r[k] == BackupUploader.LogLine(iso, files[k])
  {
    seq(|files|, k requires 0 <= k < |files| => BackupUploader.LogLine(iso, files[k]))
  }

  /** The uploader's line for a plain name and stamp. */
  lemma PlainLine(iso: string, f: string)
    requires PlainStamp(iso) && PlainName(f)
    ensures BackupUploader.LogLine(iso, f) == iso + " | " + f + " → " + (BackupUploader.LINK_PREFIX + f)
    ensures '\n' !in BackupUploader.LogLine(iso, f)
    ensures Unpadded(BackupUploader.LogLine(iso, f))
  {
    BackupUploader.LinkOfListed(f);
    var link := BackupUploader.LINK_PREFIX + f;
    LinkPlain(f);
    CharNotInConcat('\n', iso, " | ");
    CharNotInConcat('\n', iso + " | ", f);
    CharNotInConcat('\n', iso + " | " + f, " → ");
    CharNotInConcat('\n', iso + " | " + f + " → ", link);
    assert f[|f| - 1] == '4';
  }

  /** Lines of plain names parse back, in order, to their entries. */
  lemma {:induction false} ParseUploadLines(files: seq<string>, iso: string)
    requires PlainStamp(iso) && forall f :: f in files ==> PlainName(f)
    ensures ParseLines(UploadLines(files, iso)) == Restorable(files)
    decreases |files|
  {
    if files != [] {
      var pre := files[..|files| - 1];
      var f := files[|files| - 1];
      ParseUploadLines(pre, iso);
      assert UploadLines(files, iso)[..|files| - 1] == UploadLines(pre, iso);
      PlainLine(iso, f);
      var link := BackupUploader.LINK_PREFIX + f;
      LinkPlain(f);
      LineRoundTrip(iso, f, link);
      RestorableSnoc(files);
    }
  }

  /** The link of a plain name holds no separator character. */
  lemma LinkPlain(f: string)
    requires PlainName(f)
    ensures var link := BackupUploader.LINK_PREFIX + f; '|' !in link && '→' !in link && '\n' !in link
  {
    PrefixNoBar();
    PrefixNoArrow();
    PrefixNoNewline();
    CharNotInConcat('|', BackupUploader.LINK_PREFIX, f);
    CharNotInConcat('→', BackupUploader.LINK_PREFIX, f);
    CharNotInConcat('\n', BackupUploader.LINK_PREFIX, f);
  }

  lemma PrefixNoBar()
    ensures '|' !in BackupUploader.LINK_PREFIX
  {
  }

  lemma PrefixNoArrow()
    ensures '→' !in BackupUploader.LINK_PREFIX
  {
  }

  lemma PrefixNoNewline()
    ensures '\n' !in BackupUploader.LINK_PREFIX
  {
  }

  lemma RestorableSnoc(files: seq<string>)
    requires files != []
    ensures var f := files[|files| - 1];
      Restorable(files) == Restorable(files[..|files| - 1]) + [Entry(f, Some(BackupUploader.LINK_PREFIX + f))]
  {
  }

  /** Lines each followed by a newline. */
  function Terminated(lines: seq<string>): string
    decreases |lines|
  {
    if lines == [] then "" else Terminated(lines[..|lines| - 1]) + lines[|lines| - 1] + "\n"
  }

  /** Newline-terminated lines are the lines joined by newlines, plus one. */
  lemma {:induction false} TerminatedJoined(lines: seq<string>)
    requires lines != []
    ensures Terminated(lines) == JoinWith(lines, "\n") + "\n"
    decreases |lines|
  {
    var pre := lines[..|lines| - 1];
    var l := lines[|lines| - 1];
    assert lines == pre + [l];
    if pre == [] {
      assert Terminated(pre) == "";
      assert JoinWith(lines, "\n") == l;
    } else {
      TerminatedJoined(pre);
      JoinWithSnoc(pre, l, "\n");
      Glue(Terminated(lines), JoinWith(lines, "\n"), JoinWith(pre, "\n"), l);
    }
  }

  lemma Glue(t: string, j: string, a: string, line: string)
    requires t == (a + "\n") + line + "\n"
    requires j == a + "\n" + line
    ensures t == j + "\n"
  {
  }

  /** The uploader's log text is its lines, each followed by a newline. */
  lemma {:induction false} LoggedTextLines(files: seq<string>, iso: string)
    ensures BackupUploader.LoggedText(files, iso) == Terminated(UploadLines(files, iso))
    decreases |files|
  {
    if files != [] {
      var lines := UploadLines(files, iso);
      LoggedTextLines(files[..|files| - 1], iso);
      UploadLinesSnoc(files, iso);
      assert lines[..|lines| - 1] == UploadLines(files[..|files| - 1], iso);
    }
  }

  /** The uploader's log text is its lines joined by newlines, plus a final
      newline. */
  lemma LoggedTextJoined(files: seq<string>, iso: string)
    requires files != []
    ensures BackupUploader.LoggedText(files, iso) == JoinWith(UploadLines(files, iso), "\n") + "\n"
  {
    LoggedTextLines(files, iso);
    TerminatedJoined(UploadLines(files, iso));
  }

  lemma UploadLinesSnoc(files: seq<string>, iso: string)
    requires files != []
    ensures UploadLines(files, iso) ==
      UploadLines(files[..|files| - 1], iso) + [BackupUploader.LogLine(iso, files[|files| - 1])]
  {
  }

  /** The joined lines start with the stamp and end with the last line's
      last character. */
  lemma JoinedEnds(files: seq<string>, iso: string)
    requires files != [] && PlainStamp(iso) && forall f :: f in files ==> PlainName(f)
    ensures Unpadded(JoinWith(UploadLines(files, iso), "\n"))
  {
    var lines := UploadLines(files, iso);
    forall k | 0 <= k < |lines|
      ensures Unpadded(lines[k])
    {
      PlainLine(iso, files[k]);
    }
    JoinUnpadded(lines, "\n");
  }

  /** The text the uploader appends for plain names parses back to exactly
      those names, in order, each with its link. */
  lemma LoggedTextRoundTrip(logged: seq<string>, iso: string)
    requires PlainStamp(iso) && forall f :: f in logged ==> PlainName(f)
    ensures ParseLines(SplitOn(Trim(BackupUploader.LoggedText(logged, iso)), "\n")) == Restorable(logged)
  {
    if logged == [] {
      assert BackupUploader.LoggedText(logged, iso) == "";
      assert Trim("") == "";
      assert SplitOn("", "\n") == [""];
      assert ParseLines([""]) == ParseLines([]) + [];
    } else {
      var lines := UploadLines(logged, iso);
      var text := JoinWith(lines, "\n");
      LoggedTextJoined(logged, iso);
      JoinedEnds(logged, iso);
      TrimNewline(text);
      forall k | 0 <= k < |lines|
        ensures SepOnlyAtEnd(lines[k], "\n")
      {
        PlainLine(iso, logged[k]);
        CharSepOnlyAtEnd(lines[k], '\n');
      }
      SplitJoin(lines, "\n");
      ParseUploadLines(logged, iso);
    }
  }

  /** Round trip: after the uploader's scan over a fresh log, the restore
      worker reads back exactly the logged files, in order, each with its
      link. */
  lemma BackupLogRoundTrip(fs: FileSystem, names: seq<string>, iso: string, now: nat, failing: set<string>)
    requires BACKUP_LOG !in fs
    requires BackupUploader.DistinctNames(names) && PlainStamp(iso)
    requires forall f :: f in names ==> PlainName(f)
    ensures ParseBackupLog(BackupUploader.UploadFold(fs, names, iso, now, failing))
      == Restorable(BackupUploader.Logged(fs, names, now, failing))
  {
    var fs' := BackupUploader.UploadFold(fs, names, iso, now, failing);
    var logged := BackupUploader.Logged(fs, names, now, failing);
    BackupUploader.UploadLogGrows(fs, names, iso, now, failing);
    assert BackupUploader.LogText(fs) == "";
    forall f | f in logged
      ensures PlainName(f)
    {
    }
    LoggedTextRoundTrip(logged, iso);
    assert "" + BackupUploader.LoggedText(logged, iso) == BackupUploader.LoggedText(logged, iso);
    var text := BackupUploader.LogText(fs');
    assert text == BackupUploader.LoggedText(logged, iso);
    if BACKUP_LOG in fs' {
      assert ParseBackupLog(fs') == ParseLines(SplitOn(Trim(text), "\n"));
    } else {
      assert BackupUploader.LogText(fs') == "";
      assert logged == [] by {
        if logged != [] {
          LoggedTextJoined(logged, iso);
        }
      }
    }
  }

  // ---------------------------------------------------------------------------
  // restoreFile
  // ---------------------------------------------------------------------------

  /** What running the download of a url argument gives. */
  datatype Fetch = Fetched(content: Content) | FetchError(message: string)

  /** The value `restoreFile` resolves to. */
  datatype RestoreResult = Restored(path: string) | RestoreFailed(error: string)

  /** `entries.find(e => e.file === name)`, as an index. */
  function FindIndex(entries: seq<Entry>, name: string): (r: Option<nat>)
    ensures r.Some? ==> r.value < |entries| && entries[r.value].file == name
    ensures r.Some? ==> forall j :: 0 <= j < r.value ==> entries[j].file != name
    ensures r.None? <==> forall j :: 0 <= j < |entries| ==> entries[j].file != name
    decreases |entries|
  {
    if entries == [] then None
    else if entries[0].file == name then Some(0)
    else match FindIndex(entries[1..], name)
      case None => None
      case Some(i) => Some(i + 1)
  }

  /** The url as the download command receives it: a missing url is
      interpolated as "undefined". */
  function UrlArg(e: Entry): string {
    match e.url
    case Some(u) => u
    case None => "undefined"
  }

  /** `downloadFile(url, dest)` inside the try of `restoreFile`: the fetched
      content lands at `dest`, or the error's message is returned. */
  function Download(fs: FileSystem, dest: string, got: Fetch, now: nat): (r: (RestoreResult, FileSystem))
    ensures got.Fetched? ==> r == (Restored(dest), fs[dest := FileRec(got.content, now)])
    ensures got.FetchError? ==> r == (RestoreFailed(got.message), fs)
  {
    match got
    case Fetched(c) => (Restored(dest), fs[dest := FileRec(c, now)])
    case FetchError(m) => (RestoreFailed(m), fs)
  }

  /** `restoreFile(name)` once the log has been parsed into `entries`. */
  function RestoreFrom(fs: FileSystem, entries: seq<Entry>, name: string, net: string -> Fetch, now: nat): (r: (RestoreResult, FileSystem))
    ensures FindIndex(entries, name).None? ==> r == (RestoreFailed("not_found"), fs)
    ensures r.0.RestoreFailed? ==> r.1 == fs
    ensures r.0.Restored? ==>
      r.0.path == Join(OUTPUT, name) && r.1.Keys == fs.Keys + {r.0.path}
      && forall p :: p in fs && p != r.0.path ==> r.1[p] == fs[p]
  {
    match FindIndex(entries, name)
    case None => (RestoreFailed("not_found"), fs)
    case Some(i) => Download(fs, Join(OUTPUT, name), net(UrlArg(entries[i])), now)
  }

  /** `restoreFile(name)`: not_found without an entry; otherwise the first
      entry's url is downloaded to OUTPUT/name, or its error is returned. */
  function RestoreFile(fs: FileSystem, name: string, net: string -> Fetch, now: nat): (r: (RestoreResult, FileSystem))
    ensures FindIndex(ParseBackupLog(fs), name).None? ==> r == (RestoreFailed("not_found"), fs)
    ensures r.0.RestoreFailed? ==> r.1 == fs
    ensures r.0.Restored? ==>
      r.0.path == Join(OUTPUT, name) && r.1.Keys == fs.Keys + {r.0.path}
      && forall p :: p in fs && p != r.0.path ==> r.1[p] == fs[p]
  {
    RestoreFrom(fs, ParseBackupLog(fs), name, net, now)
  }

  /** With an entry for the name, the restore downloads the url of the first
      such entry: it succeeds exactly when that download does, the file then
      holds what was downloaded, and a failed download's message is the
      error. */
  lemma RestoreFetchesFirstEntry(fs: FileSystem, name: string, net: string -> Fetch, now: nat)
    requires FindIndex(ParseBackupLog(fs), name).Some?
    ensures var entries := ParseBackupLog(fs);
      var i := FindIndex(entries, name).value;
      var got := net(UrlArg(entries[i]));
      var r := RestoreFile(fs, name, net, now);
      entries[i].file == name && (forall j :: 0 <= j < i ==> entries[j].file != name)
      && (r.0.Restored? <==> got.Fetched?)
      && (got.Fetched? ==> r.1[Join(OUTPUT, name)] == FileRec(got.content, now))
      && (got.FetchError? ==> r.0 == RestoreFailed(got.message))
  {
  }

  /** A restore writes at most its target and never the log. */
  lemma RestoreFrame(fs: FileSystem, name: string, net: string -> Fetch, now: nat)
    ensures forall p :: p != Join(OUTPUT, name) ==>
      (p in RestoreFile(fs, name, net, now).1 <==> p in fs)
      && (p in fs ==> RestoreFile(fs, name, net, now).1[p] == fs[p])
    ensures fs.Keys <= RestoreFile(fs, name, net, now).1.Keys
    ensures ParseBackupLog(RestoreFile(fs, name, net, now).1) == ParseBackupLog(fs)
  {
    assert Join(OUTPUT, name)[8] == 'o' && BACKUP_LOG[8] == 'l';
    var fs' := RestoreFile(fs, name, net, now).1;
    assert BackupUploader.LogText(fs') == BackupUploader.LogText(fs);
  }

  // ---------------------------------------------------------------------------
  // autoRestoreMissing
  // ---------------------------------------------------------------------------

  /** One iteration of `autoRestoreMissing`, with `log` the entries the
      restore reads: a file already present is skipped, a missing one
      restored. */
  function RestoreStep(fs: FileSystem, log: seq<Entry>, e: Entry, net: string -> Fetch, now: nat): FileSystem {
    if Join(OUTPUT, e.file) in fs then fs else RestoreFrom(fs, log, e.file, net, now).1
  }

  function RestoreFold(fs: FileSystem, log: seq<Entry>, entries: seq<Entry>, net: string -> Fetch, now: nat): (r: FileSystem)
    decreases |entries|
  {
    if entries == [] then fs
    else RestoreStep(RestoreFold(fs, log, entries[..|entries| - 1], net, now), log, entries[|entries| - 1], net, now)
  }

  lemma RestoreFoldSnoc(fs: FileSystem, log: seq<Entry>, entries: seq<Entry>, net: string -> Fetch, now: nat, k: nat)
    requires k < |entries|
    ensures RestoreFold(fs, log, entries[..k + 1], net, now)
      == RestoreStep(RestoreFold(fs, log, entries[..k], net, now), log, entries[k], net, now)
  {
    assert entries[..k + 1][..k] == entries[..k];
  }

  /** `autoRestoreMissing()`: for every entry of the log whose local file is
      missing, `restoreFile` of its name, which reads the log again. */
  method AutoRestoreMissing(fs: FileSystem, net: string -> Fetch, now: nat) returns (fs': FileSystem)
    ensures fs' == RestoreFold(fs, ParseBackupLog(fs), ParseBackupLog(fs), net, now)
  {
    var entries := ParseBackupLog(fs);
    fs' := fs;
    if |entries| == 0 {
      return;
    }
    for k := 0 to |entries|
      invariant fs' == RestoreFold(fs, entries, entries[..k], net, now)
      invariant SameLog(fs, fs')
    {
      StepInvariant(fs, fs', entries, k, net, now);
      var localPath := Join(OUTPUT, entries[k].file);
      if localPath !in fs' {
        var result := RestoreFile(fs', entries[k].file, net, now);
        fs' := result.1;
      }
    }
    assert entries[..|entries|] == entries;
  }

  /** The two file systems hold the same backup log. */
  predicate SameLog(a: FileSystem, b: FileSystem) {
    (BACKUP_LOG in a <==> BACKUP_LOG in b) && (BACKUP_LOG in a ==> a[BACKUP_LOG] == b[BACKUP_LOG])
  }

  /** One iteration of the loop of `AutoRestoreMissing` keeps its
      invariant. */
  lemma StepInvariant(fs: FileSystem, cur: FileSystem, entries: seq<Entry>, k: nat, net: string -> Fetch, now: nat)
    requires entries == ParseBackupLog(fs) && k < |entries|
    requires cur == RestoreFold(fs, entries, entries[..k], net, now) && SameLog(fs, cur)
    ensures var next := if Join(OUTPUT, entries[k].file) in cur then cur else RestoreFile(cur, entries[k].file, net, now).1;
      next == RestoreFold(fs, entries, entries[..k + 1], net, now) && SameLog(fs, next)
  {
    RestoreFoldSnoc(fs, entries, entries, net, now, k);
    StepRestores(fs, cur, entries[k], net, now);
  }

  /** While the log is the one the pass parsed, a step is a `restoreFile`
      call, and it keeps the log. */
  lemma StepRestores(fs: FileSystem, cur: FileSystem, e: Entry, net: string -> Fetch, now: nat)
    requires SameLog(fs, cur)
    ensures RestoreStep(cur, ParseBackupLog(fs), e, net, now)
      == if Join(OUTPUT, e.file) in cur then cur else RestoreFile(cur, e.file, net, now).1
    ensures SameLog(fs, RestoreStep(cur, ParseBackupLog(fs), e, net, now))
  {
    assert ParseBackupLog(cur) == ParseBackupLog(fs) by {
      assert BackupUploader.LogText(cur) == BackupUploader.LogText(fs);
    }
    StepKeepsLog(fs, cur, ParseBackupLog(fs), e, net, now);
  }

  lemma StepKeepsLog(fs: FileSystem, cur: FileSystem, log: seq<Entry>, e: Entry, net: string -> Fetch, now: nat)
    requires SameLog(fs, cur)
    ensures SameLog(fs, RestoreStep(cur, log, e, net, now))
  {
    assert Join(OUTPUT, e.file)[8] == 'o' && BACKUP_LOG[8] == 'l';
  }

  /** The pass never changes a file that exists and only adds files. */
  lemma {:induction false} RestoreKeepsPresent(fs: FileSystem, log: seq<Entry>, entries: seq<Entry>, net: string -> Fetch, now: nat)
    ensures fs.Keys <= RestoreFold(fs, log, entries, net, now).Keys
    ensures forall p :: p in fs ==> RestoreFold(fs, log, entries, net, now)[p] == fs[p]
    decreases |entries|
  {
    if entries != [] {
      RestoreKeepsPresent(fs, log, entries[..|entries| - 1], net, now);
    }
  }

  /** Every logged file is present after the pass when the download of its
      first entry succeeds. */
  lemma {:induction false} RestoreBringsBack(fs: FileSystem, log: seq<Entry>, entries: seq<Entry>, net: string -> Fetch, now: nat, e: Entry)
    requires e in entries
    requires FindIndex(log, e.file).Some? && net(UrlArg(log[FindIndex(log, e.file).value])).Fetched?
    ensures Join(OUTPUT, e.file) in RestoreFold(fs, log, entries, net, now)
    decreases |entries|
  {
    var pre := entries[..|entries| - 1];
    var l := entries[|entries| - 1];
    var prev := RestoreFold(fs, log, pre, net, now);
    if e != l {
      InPrefix(entries, e);
      RestoreBringsBack(fs, log, pre, net, now, e);
    }
  }

  /** After `autoRestoreMissing`, every file that was present is unchanged,
      the log is as it was, and every logged file whose first download
      succeeds is present. */
  lemma AutoRestoreMeaning(fs: FileSystem, net: string -> Fetch, now: nat, e: Entry)
    ensures var fs' := RestoreFold(fs, ParseBackupLog(fs), ParseBackupLog(fs), net, now);
      fs.Keys <= fs'.Keys && (forall p :: p in fs ==> fs'[p] == fs[p])
    ensures var log := ParseBackupLog(fs);
      e in log && net(UrlArg(log[FindIndex(log, e.file).value])).Fetched? ==>
      Join(OUTPUT, e.file) in RestoreFold(fs, log, log, net, now)
  {
    var log := ParseBackupLog(fs);
    RestoreKeepsPresent(fs, log, log, net, now);
    if e in log {
      var i :| 0 <= i < |log| && log[i] == e;
      assert FindIndex(log, e.file).Some?;
      if net(UrlArg(log[FindIndex(log, e.file).value])).Fetched? {
        RestoreBringsBack(fs, log, log, net, now, e);
      }
    }
  }

  lemma InPrefix(entries: seq<Entry>, e: Entry)
    requires e in entries && e != entries[|entries| - 1]
    ensures e in entries[..|entries| - 1]
  {
    var i :| 0 <= i < |entries| && entries[i] == e;
    assert entries[..|entries| - 1][i] == e;
  }
}

=== FILE: cloud_sync.dfy ===
/** The cloud sync manager: each pass, when the network is up, uploads every
    render of the output directory not yet marked "done" (TeraBox first, Mega
    as fallback, both simulated by copies into the backup directory), records
    "done" or "retry" per file in a state document saved after every file,
    and then keeps only the 25 newest renders. The network check and the
    copies that fail are inputs. */
module CloudSync {
  import opened Common

  const OUTPUT := "storage/output"
  const BACKUP := "cloud_backup"
  const STATE := "storage/temp/cloud_state.json"
  const KEEP_RENDERS: nat := 25

  const DONE := JStr("done")
  const RETRY := JStr("retry")

  // ---------------------------------------------------------------------------
  // load_state / save_state
  // ---------------------------------------------------------------------------

  /** `load_state()`: the saved document, or `{}` when the state file is
      missing or is not JSON. */
  function LoadState(fs: FileSystem): (r: Json)
    ensures LoadJson(fs, STATE).None? ==> r == JObj(map[])
    ensures STATE in fs && fs[STATE].content.Doc? ==> r == fs[STATE].content.json
  {
    match LoadJson(fs, STATE)
    case None => JObj(map[])
    case Some(j) => j
  }

  /** The state the loop starts from; None when the document is not an
      object, where the first `state.get` of the loop raises. */
  function InitialState(fs: FileSystem): (r: Option<Obj>)
    ensures r.Some? <==> LoadState(fs).JObj?
  {
    match LoadState(fs)
    case JObj(m) => Some(m)
    case _ => None
  }

  /** A saved state is loaded back as it was saved. */
  lemma SaveLoadRoundTrip(fs: FileSystem, s: Obj, now: nat)
    ensures InitialState(WriteDoc(fs, STATE, JObj(s), now)) == Some(s)
  {
  }

  /** A missing state file starts the loop from the empty state. */
  lemma MissingStateIsEmpty(fs: FileSystem)
    requires STATE !in fs
    ensures InitialState(fs) == Some(map[])
  {
  }

  // ---------------------------------------------------------------------------
  // upload_terabox / upload_mega / upload_file
  // ---------------------------------------------------------------------------

  /** `state.get(f) == "done"`. */
  predicate Done(s: Obj, f: string) {
    f in s && s[f] == DONE
  }

  function TeraboxPath(f: string): string {
    Join(BACKUP, f)
  }

  function MegaPath(f: string): string {
    Join(BACKUP, f + ".mega")
  }

  /** `upload_file(OUTPUT/f)`: "terabox" when the TeraBox copy succeeds,
      otherwise "mega" when the Mega copy does, otherwise None; each copy
      keeps content and modification time. */
  function UploadFile(fs: FileSystem, f: string, fails: set<string>): (r: (Option<string>, FileSystem))
    ensures r.0 == Some("terabox") <==> CopyOk(fs, Join(OUTPUT, f), TeraboxPath(f), fails)
    ensures r.0 == Some("mega") <==>
      !CopyOk(fs, Join(OUTPUT, f), TeraboxPath(f), fails) && CopyOk(fs, Join(OUTPUT, f), MegaPath(f), fails)
    ensures r.0.None? <==>
      !CopyOk(fs, Join(OUTPUT, f), TeraboxPath(f), fails) && !CopyOk(fs, Join(OUTPUT, f), MegaPath(f), fails)
    ensures r.0 == Some("terabox") ==> r.1 == fs[TeraboxPath(f) := fs[Join(OUTPUT, f)]]
    ensures r.0 == Some("mega") ==> r.1 == fs[MegaPath(f) := fs[Join(OUTPUT, f)]]
    ensures r.0.None? ==> r.1 == fs
  {
    var src := Join(OUTPUT, f);
    if CopyOk(fs, src, TeraboxPath(f), fails) then (Some("terabox"), fs[TeraboxPath(f) := fs[src]])
    else if CopyOk(fs, src, MegaPath(f), fails) then (Some("mega"), fs[MegaPath(f) := fs[src]])
    else (None, fs)
  }

  /** Some upload of `f` succeeds. */
  predicate UploadOk(fs: FileSystem, f: string, fails: set<string>) {
    Join(OUTPUT, f) in fs && (TeraboxPath(f) !in fails || MegaPath(f) !in fails)
  }

  // ---------------------------------------------------------------------------
  // periodic_sync: the per-file loop
  // ---------------------------------------------------------------------------

  /** One iteration of the per-file loop: skip a done file, otherwise upload
      it, record "done" or "retry" and save the state. */
  function SyncStep(fs: FileSystem, s: Obj, f: string, fails: set<string>, now: nat): (r: (Obj, FileSystem))
    ensures Done(s, f) ==> r == (s, fs)
    ensures !Done(s, f) ==> r.0 == s[f := if UploadOk(fs, f, fails) then DONE else RETRY]
    ensures !Done(s, f) ==> LoadJson(r.1, STATE) == Some(JObj(r.0))
  {
    if Done(s, f) then (s, fs)
    else
      var (res, fs1) := UploadFile(fs, f, fails);
      var s1 := s[f := if res.Some? then DONE else RETRY];
      (s1, WriteDoc(fs1, STATE, JObj(s1), now))
  }

  /** The state and the file system after the per-file loop over `files`. */
  function SyncFold(fs: FileSystem, s: Obj, files: seq<string>, fails: set<string>, now: nat): (r: (Obj, FileSystem))
    decreases |files|
  {
    if files == [] then (s, fs)
    else
      var prev := SyncFold(fs, s, files[..|files| - 1], fails, now);
      SyncStep(prev.1, prev.0, files[|files| - 1], fails, now)
  }

  method SyncFiles(fs: FileSystem, s: Obj, files: seq<string>, fails: set<string>, now: nat) returns (s': Obj, fs': FileSystem)
    ensures (s', fs') == SyncFold(fs, s, files, fails, now)
  {
    s', fs' := s, fs;
    for k := 0 to |files|
      invariant (s', fs') == SyncFold(fs, s, files[..k], fails, now)
    {
      assert files[..k + 1][..k] == files[..k];
      var f := files[k];
      if !Done(s', f) {
        var res, fs1 := UploadFile(fs', f, fails).0, UploadFile(fs', f, fails).1;
        s' := s'[f := if res.Some? then DONE else RETRY];
        fs' := WriteDoc(fs1, STATE, JObj(s'), now);
      }
    }
    assert files[..|files|] == files;
  }

  /** The paths the loop over `files` may write: the state file and both
      backup copies of every file not already done. */
  function Touched(s: Obj, files: seq<string>): (r: set<string>)
    ensures STATE in r
    ensures forall f :: f in files && !Done(s, f) ==> TeraboxPath(f) in r && MegaPath(f) in r
  {
    {STATE} + (set f | f in files && !Done(s, f) :: TeraboxPath(f)) + (set f | f in files && !Done(s, f) :: MegaPath(f))
  }

  /** The loop writes nothing outside `Touched`. */
  lemma {:induction false} SyncFrame(fs: FileSystem, s: Obj, files: seq<string>, fails: set<string>, now: nat, p: string)
    requires p !in Touched(s, files)
    ensures p in SyncFold(fs, s, files, fails, now).1 <==> p in fs
    ensures p in fs ==> SyncFold(fs, s, files, fails, now).1[p] == fs[p]
    decreases |files|
  {
    if files != [] {
      var pre := files[..|files| - 1];
      var f := files[|files| - 1];
      assert Touched(s, pre) <= Touched(s, files);
      SyncFrame(fs, s, pre, fails, now, p);
      var prev := SyncFold(fs, s, pre, fails, now);
      if !Done(prev.0, f) {
        assert p != TeraboxPath(f) && p != MegaPath(f) by {
          if !Done(s, f) {
            assert f in files;
          } else {
            // A file done at the start stays done: the loop only writes
            // the entries of files it uploads.
            SyncKeepsDone(fs, s, pre, fails, now, f);
          }
        }
      }
    }
  }

  /** A file marked done stays done. */
  lemma {:induction false} SyncKeepsDone(fs: FileSystem, s: Obj, files: seq<string>, fails: set<string>, now: nat, f: string)
    requires Done(s, f)
    ensures Done(SyncFold(fs, s, files, fails, now).0, f)
    decreases |files|
  {
    if files != [] {
      SyncKeepsDone(fs, s, files[..|files| - 1], fails, now, f);
    }
  }

  /** No path of the output directory is among those the loop writes. */
  lemma OutputNotTouched(s: Obj, files: seq<string>, n: string)
    ensures Join(OUTPUT, n) !in Touched(s, files)
  {
    assert Join(OUTPUT, n)[0] == 's' && Join(OUTPUT, n)[8] == 'o';
    assert STATE[8] == 't';
    forall f ensures TeraboxPath(f)[0] == 'c' && MegaPath(f)[0] == 'c' {
    }
  }

  /** After the loop, every listed file is recorded: "done" if it was done
      before or one of its uploads succeeds, "retry" otherwise; a "retry"
      file is therefore attempted again. Entries of unlisted files stay. */
  lemma {:induction false} SyncOutcome(fs: FileSystem, s: Obj, files: seq<string>, fails: set<string>, now: nat, f: string)
    requires forall i, j :: 0 <= i < j < |files| ==> files[i] != files[j]
    ensures f in files ==>
      f in SyncFold(fs, s, files, fails, now).0
      && SyncFold(fs, s, files, fails, now).0[f] == (if Done(s, f) || UploadOk(fs, f, fails) then DONE else RETRY)
    ensures f !in files ==>
      (f in SyncFold(fs, s, files, fails, now).0 <==> f in s)
      && (f in s ==> SyncFold(fs, s, files, fails, now).0[f] == s[f])
    decreases |files|
  {
    if files != [] {
      var pre := files[..|files| - 1];
      var l := files[|files| - 1];
      assert files == pre + [l];
      assert l !in pre by {
        forall i | 0 <= i < |pre|
          ensures pre[i] != l
        {
          assert pre[i] == files[i];
        }
      }
      SyncOutcome(fs, s, pre, fails, now, f);
      SyncOutcome(fs, s, pre, fails, now, l);
      var prev := SyncFold(fs, s, pre, fails, now);
      if !Done(prev.0, l) {
        OutputNotTouched(s, pre, l);
        SyncFrame(fs, s, pre, fails, now, Join(OUTPUT, l));
        assert UploadOk(prev.1, l, fails) == UploadOk(fs, l, fails);
      }
    }
  }

  /** When the loop uploads anything, the state file afterwards holds the
      final state; when every file was done, nothing changes. */
  lemma {:induction false} SyncSaved(fs: FileSystem, s: Obj, files: seq<string>, fails: set<string>, now: nat)
    ensures (exists f :: f in files && !Done(s, f)) ==>
      LoadJson(SyncFold(fs, s, files, fails, now).1, STATE) == Some(JObj(SyncFold(fs, s, files, fails, now).0))
    ensures (forall f :: f in files ==> Done(s, f)) ==> SyncFold(fs, s, files, fails, now) == (s, fs)
    decreases |files|
  {
    if files != [] {
      var pre := files[..|files| - 1];
      var l := files[|files| - 1];
      assert files == pre + [l];
      SyncSaved(fs, s, pre, fails, now);
      var prev := SyncFold(fs, s, pre, fails, now);
      if Done(s, l) {
        SyncKeepsDone(fs, s, pre, fails, now, l);
        if exists f :: f in files && !Done(s, f) {
          var f :| f in files && !Done(s, f);
          assert f in pre;
        }
      } else if Done(prev.0, l) {
        assert prev != (s, fs);
        assert exists f :: f in pre && !Done(s, f);
      }
    }
  }

  /** A render already done at the start of the loop is not uploaded again:
      neither of its backup copies is written. */
  lemma DoneNotUploaded(fs: FileSystem, s: Obj, files: seq<string>, fails: set<string>, now: nat, f: string)
    requires Done(s, f) && EndsWith(f, ".mp4")
    requires forall g :: g in files ==> EndsWith(g, ".mp4")
    ensures TeraboxPath(f) in SyncFold(fs, s, files, fails, now).1 <==> TeraboxPath(f) in fs
    ensures MegaPath(f) in SyncFold(fs, s, files, fails, now).1 <==> MegaPath(f) in fs
  {
    forall g | g in files && !Done(s, g)
      ensures TeraboxPath(f) != TeraboxPath(g) && TeraboxPath(f) != MegaPath(g)
      ensures MegaPath(f) != TeraboxPath(g) && MegaPath(f) != MegaPath(g)
    {
      Mp4NotMega(f, g);
      Mp4NotMega(g, f);
      if TeraboxPath(f) == TeraboxPath(g) { JoinInjective(BACKUP, f, g); }
      if TeraboxPath(f) == MegaPath(g) { JoinInjective(BACKUP, f, g + ".mega"); }
      if MegaPath(f) == TeraboxPath(g) { JoinInjective(BACKUP, f + ".mega", g); }
      if MegaPath(f) == MegaPath(g) { MegaPathInjective(f, g); }
    }
    assert TeraboxPath(f)[0] == 'c' && MegaPath(f)[0] == 'c';
    SyncFrame(fs, s, files, fails, now, TeraboxPath(f));
    SyncFrame(fs, s, files, fails, now, MegaPath(f));
  }

  lemma MegaPathInjective(f: string, g: string)
    requires MegaPath(f) == MegaPath(g)
    ensures f == g
  {
    JoinInjective(BACKUP, f + ".mega", g + ".mega");
    assert f == (f + ".mega")[..|f|];
    assert g == (g + ".mega")[..|g|];
  }

  /** A render name never ends in ".mega". */
  lemma Mp4NotMega(f: string, g: string)
    requires EndsWith(f, ".mp4")
    ensures f != g + ".mega"
  {
    assert f[|f| - 1] == '4';
    assert (g + ".mega")[|g| + 4] == 'a';
  }

  // ---------------------------------------------------------------------------
  // auto_cleanup and one pass of periodic_sync
  // ---------------------------------------------------------------------------

  predicate IsRender(n: string) {
    EndsWith(n, ".mp4")
  }

  /** The renders `auto_cleanup` deletes: all but the 25 newest. */
  function OldRenders(fs: FileSystem, names: seq<string>): (r: seq<string>)
    ensures |r| == if |Filter(names, IsRender)| > KEEP_RENDERS then |Filter(names, IsRender)| - KEEP_RENDERS else 0
  {
    DropOldest(fs, JoinAll(OUTPUT, Filter(names, IsRender)), KEEP_RENDERS)
  }

  /** `auto_cleanup()` with the listing `names`. */
  method AutoCleanup(fs: FileSystem, names: seq<string>) returns (fs': FileSystem)
    ensures fs' == fs - PathSet(OldRenders(fs, names))
  {
    var files := Filter(names, IsRender);
    fs' := fs;
    if |files| > KEEP_RENDERS {
      var sorted := SortByMtime(fs, JoinAll(OUTPUT, files));
      var doomed := sorted[..|sorted| - KEEP_RENDERS];
      for k := 0 to |doomed|
        invariant fs' == fs - PathSet(doomed[..k])
      {
        assert doomed[..k + 1] == doomed[..k] + [doomed[k]];
        PathSetSnoc(doomed[..k], doomed[k]);
        fs' := fs' - {doomed[k]};
      }
      assert doomed[..|doomed|] == doomed;
    }
  }

  /** `auto_cleanup` deletes only listed renders, each no newer than every
      listed render it keeps; with 25 renders or fewer it deletes nothing. */
  lemma CleanupKeepsNewest(fs: FileSystem, names: seq<string>, n: string, m: string)
    requires Join(OUTPUT, n) in OldRenders(fs, names)
    ensures n in names && IsRender(n)
    ensures |Filter(names, IsRender)| > KEEP_RENDERS
    ensures m in names && IsRender(m) && Join(OUTPUT, m) !in OldRenders(fs, names) ==>
      MtimeOf(fs, Join(OUTPUT, n)) <= MtimeOf(fs, Join(OUTPUT, m))
  {
    var rs := Filter(names, IsRender);
    DropOldestListed(fs, JoinAll(OUTPUT, rs), KEEP_RENDERS, Join(OUTPUT, n));
    JoinAllListed(OUTPUT, rs, n);
    if m in names && IsRender(m) && Join(OUTPUT, m) !in OldRenders(fs, names) {
      var k :| 0 <= k < |rs| && rs[k] == m;
      assert JoinAll(OUTPUT, rs)[k] == Join(OUTPUT, m);
      DropOldestKeepsNewest(fs, JoinAll(OUTPUT, rs), KEEP_RENDERS, Join(OUTPUT, n), Join(OUTPUT, m));
    }
  }

  /** One iteration of the `while True` loop of `periodic_sync`: nothing
      without network or without renders; otherwise the per-file loop over
      the listed renders, then `auto_cleanup`. */
  method SyncPass(fs: FileSystem, s: Obj, net: bool, names: seq<string>, fails: set<string>, now: nat)
    returns (s': Obj, fs': FileSystem)
    ensures !net || Filter(names, IsRender) == [] ==> s' == s && fs' == fs
    ensures net && Filter(names, IsRender) != [] ==>
      s' == SyncFold(fs, s, Filter(names, IsRender), fails, now).0
      && fs' == SyncFold(fs, s, Filter(names, IsRender), fails, now).1
        - PathSet(OldRenders(SyncFold(fs, s, Filter(names, IsRender), fails, now).1, names))
  {
    if !net {
      return s, fs;
    }
    var files := Filter(names, IsRender);
    if files == [] {
      return s, fs;
    }
    var fs1;
    s', fs1 := SyncFiles(fs, s, files, fails, now);
    fs' := AutoCleanup(fs1, names);
  }
}

=== FILE: common.dfy ===
/** Shared vocabulary of the backend workers: JSON values, the file system as a
    map from path to record, the string operations the workers use on names and
    log lines, sorting by modification time, and random picks from a table. */
module Common {

  datatype Option<T> = None | Some(value: T)

  // ---------------------------------------------------------------------------
  // JSON values
  // ---------------------------------------------------------------------------

  /** A JSON value as Python's `json` and JavaScript's `JSON` read and write it.
      Integers and floats are kept apart, as Python keeps them. */
  datatype Json =
    | JNull
    | JBool(b: bool)
    | JInt(i: int)
    | JReal(r: real)
    | JStr(s: string)
    | JArr(items: seq<Json>)
    | JObj(fields: map<string, Json>)

  /** A JSON object: a task descriptor, a plan block, a model entry. */
  type Obj = map<string, Json>

  /** Python's truth value of a JSON value (`if not x`). */
  predicate PyTruthy(j: Json) {
    match j
    case JNull => false
    case JBool(b) => b
    case JInt(i) => i != 0
    case JReal(r) => r != 0.0
    case JStr(s) => s != ""
    case JArr(xs) => xs != []
    case JObj(m) => m != map[]
  }

  /** JavaScript's truth value: arrays and objects are always truthy. */
  predicate JsTruthy(j: Json) {
    match j
    case JNull => false
    case JBool(b) => b
    case JInt(i) => i != 0
    case JReal(r) => r != 0.0
    case JStr(s) => s != ""
    case JArr(_) => true
    case JObj(_) => true
  }

  /** `o.get(k, d)` */
  function GetOr(o: Obj, k: string, d: Json): (r: Json)
    ensures k in o ==> r == o[k]
    ensures k !in o ==> r == d
  {
    if k in o then o[k] else d
  }

  /** The characters of a string as one-character JSON strings. */
  function Chars(s: string): (r: seq<Json>)
    ensures |r| == |s|
    ensures forall i :: 0 <= i < |s| ==> r[i] == JStr([s[i]])
  {
    seq(|s|, i requires 0 <= i < |s| => JStr([s[i]]))
  }

  /** What a Python `for` loop iterates over: a list's items or a string's
      characters; anything else raises (a dict's key order is not modelled). */
  function PyIter(j: Json): (r: Option<seq<Json>>)
    ensures j.JArr? ==> r == Some(j.items)
    ensures j.JStr? ==> r == Some(Chars(j.s))
    ensures !j.JArr? && !j.JStr? ==> r == None
  {
    match j
    case JArr(xs) => Some(xs)
    case JStr(s) => Some(Chars(s))
    case _ => None
  }

  /** A list of strings as JSON. */
  function JStrs(xs: seq<string>): (r: seq<Json>)
    ensures |r| == |xs| && forall i :: 0 <= i < |xs| ==> r[i] == JStr(xs[i])
  {
    seq(|xs|, i requires 0 <= i < |xs| => JStr(xs[i]))
  }

  /** The numeric value of a JSON number, as Python's arithmetic sees it:
      a bool counts as the int 0 or 1; anything else is not a number. */
  function Num(j: Json): (r: Option<real>)
    ensures r.Some? <==> j.JInt? || j.JBool? || j.JReal?
    ensures j.JInt? || j.JBool? ==> r == Some(IntOf(j) as real)
  {
    match j
    case JInt(i) => Some(i as real)
    case JBool(b) => Some(if b then 1.0 else 0.0)
    case JReal(x) => Some(x)
    case _ => None
  }

  // ---------------------------------------------------------------------------
  // Numbers and their text
  // ---------------------------------------------------------------------------

  function DigitChar(d: nat): (c: char)
    requires d < 10
    ensures '0' <= c <= '9'
  {
    "0123456789"[d]
  }

  /** Decimal text of a natural number, as `str(n)` and `${n}` print it. */
  function NatToString(n: nat): (s: string)
    ensures |s| >= 1
    ensures forall i :: 0 <= i < |s| ==> '0' <= s[i] <= '9'
    decreases n
  {
    if n < 10 then [DigitChar(n)] else NatToString(n / 10) + [DigitChar(n % 10)]
  }

  function IntToString(i: int): (s: string)
    ensures |s| >= 1
  {
    if i < 0 then "-" + NatToString(-i) else NatToString(i)
  }

  /** Python's `int(x)` and JavaScript's truncation of a real: toward zero. */
  function Trunc(x: real): (r: int)
    ensures x >= 0.0 ==> r as real <= x < r as real + 1.0
    ensures x < 0.0 ==> r as real - 1.0 < x <= r as real
  {
    if x >= 0.0 then x.Floor else -((-x).Floor)
  }

  /** `str(v)` of a JSON value used as a task id or a mood in a Python
      f-string. Floats, lists and dicts are rendered by a fixed placeholder. */
  function PyStr(j: Json): string {
    match j
    case JNull => "None"
    case JBool(b) => if b then "True" else "False"
    case JInt(i) => IntToString(i)
    case JStr(s) => s
    case _ => "<value>"
  }

  /** `String(v)` of a JSON value in JavaScript: an array is its items
      joined by commas, with null as the empty string, and every object is
      "[object Object]". Floats are rendered by a fixed placeholder. */
  function JsString(j: Json): string
    decreases j
  {
    match j
    case JNull => "null"
    case JBool(b) => if b then "true" else "false"
    case JInt(i) => IntToString(i)
    case JReal(_) => "<value>"
    case JStr(s) => s
    case JArr(xs) => JoinWith(seq(|xs|, k requires 0 <= k < |xs| => if xs[k].JNull? then "" else JsString(xs[k])), ",")
    case JObj(_) => "[object Object]"
  }

  /** `${v}` of a possibly absent JSON value in a JavaScript template. */
  function JsStr(j: Option<Json>): string {
    match j
    case None => "undefined"
    case Some(v) => JsString(v)
  }

  /** An array and an object as JavaScript prints them in a template. */
  lemma JsStrShapes()
    ensures JsStr(Some(JArr([JInt(1), JNull, JInt(2)]))) == "1,,2"
    ensures JsStr(Some(JObj(map[]))) == "[object Object]"
  {
    assert IntToString(1) == "1" && IntToString(2) == "2";
    var xs := [JInt(1), JNull, JInt(2)];
    var parts := seq(|xs|, k requires 0 <= k < |xs| => if xs[k].JNull? then "" else JsString(xs[k]));
    assert parts == ["1", "", "2"];
    assert JoinWith(["2"], ",") == "2";
    assert JoinWith(["", "2"], ",") == "" + "," + "2";
    assert ["1", "", "2"][1..] == ["", "2"];
  }

  // ---------------------------------------------------------------------------
  // os.path.exists on a JSON value
  // ---------------------------------------------------------------------------

  /** The range of a C `int`: `os.stat` refuses a file descriptor outside it
      with OverflowError. */
  const IntMin: int := -0x8000_0000
  const IntMax: int := 0x7fff_ffff

  /** The worker process's open file descriptors, each with the byte size of
      what it refers to (None when closed): an input, like the listings. */
  type Descriptors = int -> Option<nat>

  /** The int an int or a bool stands for in Python (True is 1, False 0);
      also the file descriptor `os.path.exists` takes it for. */
  function IntOf(x: Json): int
    requires x.JInt? || x.JBool?
  {
    if x.JBool? then (if x.b then 1 else 0) else x.i
  }

  /** `os.path.exists(x)` for a JSON value, None when it raises. A string is
      a path; an int (or a bool) is a file descriptor, which exists when it
      is open; `exists` catches only OSError and ValueError, so an int
      outside C's range (OverflowError) and a value of any other type
      (TypeError) raise. */
  function PyExists(fs: FileSystem, x: Json, fds: Descriptors): (r: Option<bool>)
    ensures x.JStr? ==> r == Some(x.s in fs)
    ensures x.JInt? || x.JBool? ==> (r.None? <==> !(IntMin <= IntOf(x) <= IntMax))
    ensures x.JInt? || x.JBool? ==> (r == Some(true) <==> 0 <= IntOf(x) <= IntMax && fds(IntOf(x)).Some?)
    ensures x.JNull? || x.JReal? || x.JArr? || x.JObj? ==> r.None?
  {
    match x
    case JStr(p) => Some(p in fs)
    case JInt(_) =>
      if !(IntMin <= IntOf(x) <= IntMax) then None
      else Some(IntOf(x) >= 0 && fds(IntOf(x)).Some?)
    case JBool(_) => Some(fds(IntOf(x)).Some?)
    case _ => None
  }

  /** `os.path.getsize(x)` for a value `os.path.exists` accepted. */
  function PySize(fs: FileSystem, x: Json, fds: Descriptors): (n: nat)
    requires PyExists(fs, x, fds) == Some(true)
    ensures x.JStr? ==> n == Size(fs[x.s].content)
    ensures x.JInt? || x.JBool? ==> Some(n) == fds(IntOf(x))
  {
    if x.JStr? then Size(fs[x.s].content) else fds(IntOf(x)).value
  }

  // ---------------------------------------------------------------------------
  // Strings
  // ---------------------------------------------------------------------------

  predicate StartsWith(s: string, p: string) {
    |p| <= |s| && s[..|p|] == p
  }

  predicate EndsWith(s: string, p: string) {
    |p| <= |s| && s[|s| - |p|..] == p
  }

  /** `sep` occurs in `s` at index `j`. */
  predicate MatchAt(s: string, sep: string, j: nat) {
    j + |sep| <= |s| && s[j..j + |sep|] == sep
  }

  /** The first index at or after `i` at which `sep` occurs in `s`. */
  function FindFrom(s: string, sep: string, i: nat): (r: Option<nat>)
    requires i <= |s|
    ensures r.Some? ==> i <= r.value && MatchAt(s, sep, r.value)
    ensures r.Some? ==> forall j: nat :: i <= j < r.value ==> !MatchAt(s, sep, j)
    ensures r.None? ==> forall j: nat :: i <= j ==> !MatchAt(s, sep, j)
    decreases |s| - i
  {
    if i + |sep| > |s| then None
    else if MatchAt(s, sep, i) then Some(i)
    else FindFrom(s, sep, i + 1)
  }

  /** The first index at which `sep` occurs in `s` (`s.find(sep)`). */
  function Find(s: string, sep: string): (r: Option<nat>)
    ensures r.Some? ==> MatchAt(s, sep, r.value)
    ensures r.Some? ==> forall j: nat :: j < r.value ==> !MatchAt(s, sep, j)
    ensures r.None? ==> forall j: nat :: !MatchAt(s, sep, j)
  {
    FindFrom(s, sep, 0)
  }

  /** A shell-style pattern `pre*suf` (`glob`) matched against a name. */
  predicate GlobMatch(n: string, pre: string, suf: string) {
    |n| >= |pre| + |suf| && StartsWith(n, pre) && EndsWith(n, suf)
  }

  /** Python's `p in s` and JavaScript's `s.includes(p)` on strings. */
  predicate Contains(s: string, p: string) {
    Find(s, p).Some?
  }

  /** Python's `s.split(sep)` and JavaScript's `s.split(sep)` for a non-empty
      separator string: always at least one piece. */
  function SplitOn(s: string, sep: string): (r: seq<string>)
    requires |sep| > 0
    ensures |r| >= 1
    decreases |s|
  {
    match Find(s, sep)
    case None => [s]
    case Some(i) => [s[..i]] + SplitOn(s[i + |sep|..], sep)
  }

  /** `sep.join(parts)` */
  function JoinWith(parts: seq<string>, sep: string): string
    decreases |parts|
  {
    if |parts| == 0 then ""
    else if |parts| == 1 then parts[0]
    else parts[0] + sep + JoinWith(parts[1..], sep)
  }

  /** `sep` first occurs in `a + sep` at the joint: no match lies inside `a`
      or straddles its end. */
  predicate SepOnlyAtEnd(a: string, sep: string) {
    Find(a + sep, sep) == Some(|a|)
  }

  /** `Find` returns the index of a match with no match before it. */
  lemma FindIs(s: string, sep: string, i: nat)
    requires MatchAt(s, sep, i)
    requires forall j: nat :: j < i ==> !MatchAt(s, sep, j)
    ensures Find(s, sep) == Some(i)
  {
  }

  /** No match starts inside a prefix lacking the pattern's first character. */
  lemma NoMatchInPrefix(p: string, t: string, sep: string, j: nat)
    requires |sep| > 0 && sep[0] !in p && j < |p|
    ensures !MatchAt(p + t, sep, j)
  {
    assert (p + t)[j] == p[j] != sep[0];
  }

  /** A match past a prefix is a match in what follows it. */
  lemma MatchShift(p: string, t: string, sep: string, j: nat)
    requires |p| <= j && MatchAt(p + t, sep, j)
    ensures MatchAt(t, sep, j - |p|)
  {
    assert (p + t)[j..j + |sep|] == t[j - |p|..j - |p| + |sep|];
  }

  /** A prefix without the pattern's first character adds no occurrence. */
  lemma SepAfterPrefix(p: string, a: string, sep: string)
    requires |sep| > 0 && sep[0] !in p && SepOnlyAtEnd(a, sep)
    ensures SepOnlyAtEnd(p + a, sep)
  {
    var t := a + sep;
    var s := p + a + sep;
    assert s == p + t;
    assert s[|p| + |a|..] == sep;
    forall j: nat | j < |p| + |a|
      ensures !MatchAt(s, sep, j)
    {
      if j < |p| {
        NoMatchInPrefix(p, t, sep, j);
      } else if MatchAt(s, sep, j) {
        MatchShift(p, t, sep, j);
      }
    }
    FindIs(s, sep, |p| + |a|);
  }

  /** A one-character separator occurs only at the joint iff the part does
      not contain it. */
  lemma CharSepOnlyAtEnd(a: string, c: char)
    requires c !in a
    ensures SepOnlyAtEnd(a, [c])
  {
    var s := a + [c];
    assert MatchAt(s, [c], |a|);
    forall j: nat | j < |a| ensures !MatchAt(s, [c], j) {
      assert s[j..j + 1] == [a[j]];
    }
  }

  /** A three-character separator whose middle character differs from its
      ends (" | ", " → ") occurs only at the joint when the part does not
      contain that middle character. */
  lemma Sep3OnlyAtEnd(a: string, sep: string)
    requires |sep| == 3 && sep[1] != sep[0] && sep[1] !in a
    ensures SepOnlyAtEnd(a, sep)
  {
    var s := a + sep;
    assert MatchAt(s, sep, |a|);
    forall j: nat | j < |a| ensures !MatchAt(s, sep, j) {
      if j + 1 < |a| {
        assert s[j + 1] == a[j + 1];
      } else {
        assert s[j + 1] == sep[0];
      }
      assert s[j + 1] != sep[1];
      assert j + 3 <= |s| ==> s[j..j + 3][1] == s[j + 1];
    }
  }

  /** If `sep` first occurs in `a + sep` at the joint, it first occurs there
      in `a + sep + b` as well. */
  lemma FindAtJoint(a: string, sep: string, b: string)
    requires |sep| > 0 && SepOnlyAtEnd(a, sep)
    ensures Find(a + sep + b, sep) == Some(|a|)
  {
    var s := a + sep + b;
    assert s[|a|..|a| + |sep|] == sep;
    assert MatchAt(s, sep, |a|);
    forall j: nat | j < |a| ensures !MatchAt(s, sep, j) {
      assert !MatchAt(a + sep, sep, j);
      assert s[j..j + |sep|] == (a + sep)[j..j + |sep|];
    }
  }

  /** A part with `sep` only at its joint contains no match of `sep`. */
  lemma NoMatchInside(a: string, sep: string)
    requires |sep| > 0 && SepOnlyAtEnd(a, sep)
    ensures Find(a, sep) == None
  {
    var s := a + sep;
    if Find(a, sep).Some? {
      var j := Find(a, sep).value;
      assert MatchAt(a, sep, j);
      assert s[j..j + |sep|] == a[j..j + |sep|];
      assert MatchAt(s, sep, j);
    }
  }

  /** Splitting at a three-character separator whose middle character the
      first part lacks cuts exactly that part off. */
  lemma SplitFirst(a: string, sep: string, b: string)
    requires |sep| == 3 && sep[1] != sep[0] && sep[1] !in a
    ensures SplitOn(a + sep + b, sep) == [a] + SplitOn(b, sep)
  {
    Sep3OnlyAtEnd(a, sep);
    FindAtJoint(a, sep, b);
    var s := a + sep + b;
    assert s[..|a|] == a && s[|a| + 3..] == b;
  }

  /** Splitting two parts joined by a three-character separator whose
      middle character neither holds gives the parts back. */
  lemma SplitPair(a: string, sep: string, b: string)
    requires |sep| == 3 && sep[1] != sep[0] && sep[1] !in a && sep[1] !in b
    ensures SplitOn(a + sep + b, sep) == [a, b]
  {
    SplitFirst(a, sep, b);
    NoSplit(b, sep);
  }

  /** A text lacking the middle character of a three-character separator
      is not split. */
  lemma NoSplit(b: string, sep: string)
    requires |sep| == 3 && sep[1] !in b
    ensures SplitOn(b, sep) == [b]
  {
    forall j: nat
      ensures !MatchAt(b, sep, j)
    {
      if j + 3 <= |b| {
        assert b[j..j + 3][1] == b[j + 1];
      }
    }
  }

  /** Splitting a joined text on a separator that occurs in no part gives the
      parts back. */
  lemma {:induction false} SplitJoin(parts: seq<string>, sep: string)
    requires |parts| >= 1 && |sep| > 0
    requires forall k :: 0 <= k < |parts| ==> SepOnlyAtEnd(parts[k], sep)
    ensures SplitOn(JoinWith(parts, sep), sep) == parts
    decreases |parts|
  {
    if |parts| == 1 {
      NoMatchInside(parts[0], sep);
    } else {
      var s := JoinWith(parts, sep);
      var rest := JoinWith(parts[1..], sep);
      assert s == parts[0] + sep + rest;
      FindAtJoint(parts[0], sep, rest);
      assert s[..|parts[0]|] == parts[0];
      assert s[|parts[0]| + |sep|..] == rest;
      SplitJoin(parts[1..], sep);
    }
  }

  /** No piece of `s.split(c)` contains `c`. */
  lemma {:induction false} SplitPiecesFree(s: string, c: char)
    ensures forall k :: 0 <= k < |SplitOn(s, [c])| ==> c !in SplitOn(s, [c])[k]
    decreases |s|
  {
    match Find(s, [c])
    case None =>
      forall i | 0 <= i < |s|
        ensures s[i] != c
      {
        assert !MatchAt(s, [c], i);
        assert s[i..i + 1] == [s[i]];
      }
    case Some(i) =>
      forall j | 0 <= j < i
        ensures s[j] != c
      {
        assert !MatchAt(s, [c], j);
        assert s[j..j + 1] == [s[j]];
      }
      assert forall j :: 0 <= j < |s[..i]| ==> s[..i][j] == s[j];
      SplitPiecesFree(s[i + 1..], c);
  }

  /** A character absent from both halves is absent from their
      concatenation. */
  lemma CharNotInConcat(c: char, a: string, b: string)
    requires c !in a && c !in b
    ensures c !in a + b
  {
    forall i | 0 <= i < |a + b| ensures (a + b)[i] != c {
      if i < |a| {
        assert (a + b)[i] == a[i];
      } else {
        assert (a + b)[i] == b[i - |a|];
      }
    }
  }

  /** Joining one more part adds the separator and the part. */
  lemma {:induction false} JoinWithSnoc(parts: seq<string>, p: string, sep: string)
    requires |parts| >= 1
    ensures JoinWith(parts + [p], sep) == JoinWith(parts, sep) + sep + p
    decreases |parts|
  {
    if |parts| == 1 {
      assert parts + [p] == [parts[0], p];
      assert JoinWith([p], sep) == p;
    } else {
      assert (parts + [p])[1..] == parts[1..] + [p];
      JoinWithSnoc(parts[1..], p, sep);
    }
  }

  // ---------------------------------------------------------------------------
  // Whitespace, words, replacing, path names
  // ---------------------------------------------------------------------------

  /** The ASCII whitespace that Python's `strip()`/`split()` and JavaScript's
      `trim()` remove. */
  predicate IsSpace(c: char) {
    c == ' ' || c == '\t' || c == '\n' || c == '\r' || c == '\U{000B}' || c == '\U{000C}'
  }

  function TrimStart(s: string): (r: string)
    ensures r == [] || !IsSpace(r[0])
    ensures exists k :: 0 <= k <= |s| && r == s[k..]
    decreases |s|
  {
    if s != [] && IsSpace(s[0]) then
      var t := TrimStart(s[1..]);
      assert exists k :: 0 <= k <= |s| - 1 && t == s[1..][k..];
      var k :| 0 <= k <= |s| - 1 && t == s[1..][k..];
      assert t == s[k + 1..];
      t
    else
      assert s[0..] == s;
      s
  }

  function TrimEnd(s: string): (r: string)
    ensures r == [] || !IsSpace(r[|r| - 1])
    ensures StartsWith(s, r)
    decreases |s|
  {
    if s != [] && IsSpace(s[|s| - 1]) then
      var t := TrimEnd(s[..|s| - 1]);
      assert s[..|s| - 1][..|t|] == s[..|t|];
      t
    else s
  }

  /** Python's `s.strip()` and JavaScript's `s.trim()`. */
  function Trim(s: string): string {
    TrimEnd(TrimStart(s))
  }

  /** Trimming removes characters only: a character absent from a text is
      absent from it trimmed, and the text does not grow. */
  lemma TrimKeepsOut(s: string, c: char)
    requires c !in s
    ensures c !in Trim(s) && |Trim(s)| <= |s|
  {
    TrimStartKeepsOut(s, c);
    TrimEndKeepsOut(TrimStart(s), c);
  }

  lemma TrimStartKeepsOut(s: string, c: char)
    requires c !in s
    ensures c !in TrimStart(s) && |TrimStart(s)| <= |s|
  {
    var v := TrimStart(s);
    var k :| 0 <= k <= |s| && v == s[k..];
    forall i | 0 <= i < |v| ensures v[i] != c {
      assert v[i] == s[k + i];
    }
  }

  lemma TrimEndKeepsOut(s: string, c: char)
    requires c !in s
    ensures c !in TrimEnd(s) && |TrimEnd(s)| <= |s|
  {
    var r := TrimEnd(s);
    forall i | 0 <= i < |r| ensures r[i] != c {
      assert r[i] == s[i];
    }
  }

  /** A non-empty text with no white space at either end. */
  predicate Unpadded(s: string) {
    s != [] && !IsSpace(s[0]) && !IsSpace(s[|s| - 1])
  }

  /** Lines without white space at their ends join into a text without
      white space at its ends. */
  lemma {:induction false} JoinUnpadded(lines: seq<string>, sep: string)
    requires lines != [] && forall k :: 0 <= k < |lines| ==> Unpadded(lines[k])
    ensures Unpadded(JoinWith(lines, sep))
    decreases |lines|
  {
    if |lines| > 1 {
      JoinUnpadded(lines[1..], sep);
      var t := JoinWith(lines[1..], sep);
      assert JoinWith(lines, sep) == lines[0] + sep + t;
      assert (lines[0] + sep + t)[0] == lines[0][0];
      assert (lines[0] + sep + t)[|lines[0] + sep + t| - 1] == t[|t| - 1];
    }
  }

  /** A text with non-space ends followed by a newline trims to itself. */
  lemma TrimNewline(s: string)
    requires Unpadded(s)
    ensures Trim(s + "\n") == s
  {
    assert IsSpace("\n"[0]);
    TrimTrailingSpace(s, "\n");
  }

  /** Trimming a text that does not start or end with whitespace, followed by
      whitespace, gives the text back. */
  lemma TrimTrailingSpace(s: string, w: string)
    requires s != [] && !IsSpace(s[0]) && !IsSpace(s[|s| - 1])
    requires forall i :: 0 <= i < |w| ==> IsSpace(w[i])
    ensures Trim(s + w) == s
  {
    assert TrimStart(s + w) == s + w;
    TrimEndSpaces(s, w);
  }

  lemma {:induction false} TrimEndSpaces(s: string, w: string)
    requires s != [] && !IsSpace(s[|s| - 1])
    requires forall i :: 0 <= i < |w| ==> IsSpace(w[i])
    ensures TrimEnd(s + w) == s
    decreases |w|
  {
    if w == [] {
      assert s + w == s;
    } else {
      var w' := w[..|w| - 1];
      assert (s + w)[..|s + w| - 1] == s + w';
      TrimEndSpaces(s, w');
    }
  }

  /** Length of the leading run of non-space characters. */
  function WordLength(s: string): (n: nat)
    ensures n <= |s|
    ensures forall i :: 0 <= i < n ==> !IsSpace(s[i])
    ensures n < |s| ==> IsSpace(s[n])
    decreases |s|
  {
    if s == [] || IsSpace(s[0]) then 0 else 1 + WordLength(s[1..])
  }

  /** Python's `s.split()`: the maximal runs of non-space characters. */
  function Words(s: string): (r: seq<string>)
    ensures forall k :: 0 <= k < |r| ==> r[k] != [] && forall i :: 0 <= i < |r[k]| ==> !IsSpace(r[k][i])
    decreases |s|
  {
    if s == [] then []
    else if IsSpace(s[0]) then Words(s[1..])
    else
      var n := WordLength(s);
      [s[..n]] + Words(s[n..])
  }

  /** Python's `s.replace(old, new)`: every non-overlapping occurrence, left to
      right. */
  function ReplaceAll(s: string, pat: string, rep: string): (r: string)
    requires |pat| > 0
    ensures Find(s, pat) == None ==> r == s
    decreases |s|
  {
    match Find(s, pat)
    case None => s
    case Some(i) => s[..i] + rep + ReplaceAll(s[i + |pat|..], pat, rep)
  }

  /** Replacing every match of a pattern whose first character does not
      recur in it keeps a final match as a final replacement. */
  lemma {:induction false} ReplaceEndsWith(s: string, pat: string, rep: string)
    requires |pat| > 0 && pat[0] !in pat[1..] && EndsWith(s, pat)
    ensures EndsWith(ReplaceAll(s, pat, rep), rep)
    decreases |s|
  {
    FirstMatchApart(s, pat);
    var i := Find(s, pat).value;
    var rest := s[i + |pat|..];
    ReplaceAllFirst(s, pat, rep);
    if rest == [] {
      ReplaceAtEnd(s[..i], rest, pat, rep);
    } else {
      EndsWithSuffix(s, i + |pat|, pat);
      ReplaceEndsWith(rest, pat, rep);
      EndsWithAfter(s[..i] + rep, ReplaceAll(rest, pat, rep), rep);
    }
  }

  /** A replacement with nothing after it ends the result. */
  lemma ReplaceAtEnd(a: string, rest: string, pat: string, rep: string)
    requires |pat| > 0 && rest == []
    ensures EndsWith((a + rep) + ReplaceAll(rest, pat, rep), rep)
  {
    assert Find(rest, pat) == None;
    assert (a + rep) + ReplaceAll(rest, pat, rep) == a + rep;
    assert (a + rep)[|a + rep| - |rep|..] == rep;
  }

  /** A suffix at least as long as the pattern keeps a final match. */
  lemma EndsWithSuffix(s: string, k: nat, pat: string)
    requires EndsWith(s, pat) && k + |pat| <= |s|
    ensures EndsWith(s[k..], pat)
  {
    assert s[k..][|s[k..]| - |pat|..] == s[|s| - |pat|..];
  }

  /** `replace` substitutes the first match, then goes on after it. */
  lemma ReplaceAllFirst(s: string, pat: string, rep: string)
    requires |pat| > 0 && Find(s, pat).Some?
    ensures var i := Find(s, pat).value;
      ReplaceAll(s, pat, rep) == (s[..i] + rep) + ReplaceAll(s[i + |pat|..], pat, rep)
  {
  }

  /** The first match of such a pattern in a text ending with it is the
      final one or lies wholly before it. */
  lemma FirstMatchApart(s: string, pat: string)
    requires |pat| > 0 && pat[0] !in pat[1..] && EndsWith(s, pat)
    ensures Find(s, pat).Some?
    ensures Find(s, pat).value + |pat| == |s| || Find(s, pat).value + 2 * |pat| <= |s|
  {
    var j := |s| - |pat|;
    assert MatchAt(s, pat, j);
    var i := Find(s, pat).value;
    forall k | i < k < i + |pat| && k + |pat| <= |s|
      ensures !MatchAt(s, pat, k)
    {
      assert s[k] == pat[k - i];
      assert pat[1..][k - i - 1] == pat[k - i];
    }
  }

  lemma SeqAssoc<T>(x: seq<T>, y: seq<T>, z: seq<T>)
    ensures x + (y + z) == (x + y) + z
  {
  }

  lemma EndsWithAfter(a: string, t: string, e: string)
    requires EndsWith(t, e)
    ensures EndsWith(a + t, e)
  {
    assert (a + t)[|a + t| - |e|..] == t[|t| - |e|..];
  }

  /** Python's `s.replace(c, "")` for one character. */
  function RemoveChar(s: string, c: char): (r: string)
    ensures c !in r
    ensures |r| <= |s|
    ensures c !in s ==> r == s
  {
    if s == [] then [] else (if s[0] == c then [] else [s[0]]) + RemoveChar(s[1..], c)
  }

  /** Index just past the last '/' of a path, or 0. */
  function BaseStart(p: string): (k: nat)
    ensures k <= |p|
    ensures k > 0 ==> p[k - 1] == '/'
    ensures forall i :: k <= i < |p| ==> p[i] != '/'
    decreases |p|
  {
    if p == [] then 0
    else if p[|p| - 1] == '/' then |p|
    else BaseStart(p[..|p| - 1])
  }

  /** Python's `os.path.basename` and JavaScript's `path.basename` of a path
      without a trailing '/': the text after the last '/'. */
  function Basename(p: string): (r: string)
    ensures '/' !in r
    ensures EndsWith(p, r)
    ensures '/' !in p ==> r == p
  {
    var k := BaseStart(p);
    assert forall i :: 0 <= i < |p[k..]| ==> p[k..][i] == p[k + i];
    p[k..]
  }

  /** Index of the last '.' in a name. */
  function LastDot(s: string): (r: Option<nat>)
    ensures r.Some? ==> r.value < |s| && s[r.value] == '.' && forall i :: r.value < i < |s| ==> s[i] != '.'
    ensures r.None? ==> '.' !in s
    decreases |s|
  {
    if s == [] then None
    else if s[|s| - 1] == '.' then Some(|s| - 1)
    else
      var r := LastDot(s[..|s| - 1]);
      assert '.' !in s[..|s| - 1] ==> '.' !in s;
      r
  }

  /** Python's `pathlib` suffix split of a file name with no '/': the stem and
      the suffix, where the suffix starts at the last '.' unless that dot is
      the first or the last character. */
  function SplitSuffix(name: string): (r: (string, string))
    ensures r.0 + r.1 == name
    ensures r.1 == [] || (r.1[0] == '.' && |r.1| >= 2 && '.' !in r.1[1..])
  {
    match LastDot(name)
    case Some(i) =>
      if 0 < i < |name| - 1 then
        assert name[..i] + name[i..] == name;
        (name[..i], name[i..])
      else (name, "")
    case None => (name, "")
  }

  /** `Path(name).stem` */
  function Stem(name: string): string {
    SplitSuffix(name).0
  }

  /** `Path(name).suffix` */
  function Suffix(name: string): string {
    SplitSuffix(name).1
  }

  /** ASCII lower case, as `str.lower()` acts on file extensions. */
  function Lower(s: string): (r: string)
    ensures |r| == |s|
  {
    seq(|s|, i requires 0 <= i < |s| => if 'A' <= s[i] <= 'Z' then (s[i] as int + 32) as char else s[i])
  }

  // ---------------------------------------------------------------------------
  // The file system
  // ---------------------------------------------------------------------------

  /** What a file holds: text that `json.load`/`JSON.parse` accepts, any other
      text (logs, truncated or corrupt JSON), or media of a byte size. */
  datatype Content = Doc(json: Json) | Text(text: string) | Media(size: nat)

  /** A file: its content and its modification time in milliseconds. */
  datatype FileRec = FileRec(content: Content, mtime: nat)

  /** The storage tree, from full path to file. */
  type FileSystem = map<string, FileRec>

  /** Byte size of a file as `os.path.getsize` reports it. JSON documents are
      not measured (see README). */
  function Size(c: Content): nat {
    match c
    case Doc(_) => 0
    case Text(t) => |t|
    case Media(n) => n
  }

  function SizeOf(fs: FileSystem, p: string): nat {
    if p in fs then Size(fs[p].content) else 0
  }

  function MtimeOf(fs: FileSystem, p: string): nat {
    if p in fs then fs[p].mtime else 0
  }

  /** `os.path.join(dir, name)` / `path.join(dir, name)`. */
  function Join(dir: string, name: string): string {
    dir + "/" + name
  }

  /** Joining to one directory tells names apart. */
  lemma JoinInjective(dir: string, a: string, b: string)
    requires Join(dir, a) == Join(dir, b)
    ensures a == b
  {
    assert Join(dir, a)[|dir| + 1..] == a;
    assert Join(dir, b)[|dir| + 1..] == b;
  }

  /** A name without '/' is the basename of its joined path. */
  lemma BasenameOfJoin(dir: string, name: string)
    requires '/' !in name
    ensures Basename(Join(dir, name)) == name
  {
    var p := dir + "/" + name;
    var k := BaseStart(p);
    assert p[|dir|] == '/';
    assert forall i :: |dir| + 1 <= i < |p| ==> p[i] == name[i - |dir| - 1] != '/';
    assert k == |dir| + 1;
    assert p[k..] == name;
  }

  /** The result of `json.load(open(p))`: the document, or None when the file
      is missing or its text is not JSON. */
  function LoadJson(fs: FileSystem, p: string): (r: Option<Json>)
    ensures r.Some? <==> p in fs && fs[p].content.Doc?
  {
    if p in fs && fs[p].content.Doc? then Some(fs[p].content.json) else None
  }

  /** `json.dump(v, open(p, "w"))` at time `now`. */
  function WriteDoc(fs: FileSystem, p: string, v: Json, now: nat): (r: FileSystem)
    ensures LoadJson(r, p) == Some(v)
  {
    fs[p := FileRec(Doc(v), now)]
  }

  /** Writing a document adds its path and leaves every other file as it
      was. */
  lemma WriteDocOthers(fs: FileSystem, p: string, v: Json, now: nat)
    ensures WriteDoc(fs, p, v, now).Keys == fs.Keys + {p}
    ensures forall q :: q in fs && q != p ==> WriteDoc(fs, p, v, now)[q] == fs[q]
  {
  }

  /** Code-point order of strings, as Python's `sorted` compares names. */
  predicate NameLeq(a: string, b: string)
    decreases |a|
  {
    a == [] || (b != [] && (a[0] < b[0] || (a[0] == b[0] && NameLeq(a[1..], b[1..]))))
  }

  lemma {:induction false} NameLeqTotal(a: string, b: string)
    ensures NameLeq(a, b) || NameLeq(b, a)
    decreases |a|
  {
    if a != [] && b != [] && a[0] == b[0] {
      NameLeqTotal(a[1..], b[1..]);
    }
  }

  lemma {:induction false} NameLeqTrans(a: string, b: string, c: string)
    requires NameLeq(a, b) && NameLeq(b, c)
    ensures NameLeq(a, c)
    decreases |a|
  {
    if a != [] && a[0] == b[0] && b[0] == c[0] {
      NameLeqTrans(a[1..], b[1..], c[1..]);
    }
  }

  predicate SortedByName(names: seq<string>) {
    forall i, j :: 0 <= i < j < |names| ==> NameLeq(names[i], names[j])
  }

  /** `x` placed before the first name it does not exceed. */
  function InsertName(x: string, s: seq<string>): (r: seq<string>)
    requires SortedByName(s)
    ensures multiset(r) == multiset(s) + multiset{x}
    ensures SortedByName(r)
    decreases |s|
  {
    if s == [] then [x]
    else if NameLeq(x, s[0]) then
      InsertFront(x, s);
      [x] + s
    else
      NameLeqTotal(x, s[0]);
      assert s == [s[0]] + s[1..];
      var r := [s[0]] + InsertName(x, s[1..]);
      InsertBehind(x, s, r);
      r
  }

  lemma InsertFront(x: string, s: seq<string>)
    requires s != [] && SortedByName(s) && NameLeq(x, s[0])
    ensures SortedByName([x] + s)
  {
    forall j | 0 < j < |s|
      ensures NameLeq(x, s[j])
    {
      NameLeqTrans(x, s[0], s[j]);
    }
  }

  lemma InsertBehind(x: string, s: seq<string>, r: seq<string>)
    requires s != [] && SortedByName(s) && NameLeq(s[0], x)
    requires r != [] && r[0] == s[0] && SortedByName(r[1..])
    requires multiset(r[1..]) == multiset(s[1..]) + multiset{x}
    ensures SortedByName(r)
  {
    forall j | 0 < j < |r|
      ensures NameLeq(r[0], r[j])
    {
      assert r[j] in multiset(r[1..]) by {
        assert r[1..][j - 1] == r[j];
      }
      if r[j] != x {
        assert r[j] in s[1..];
        var k :| 0 <= k < |s[1..]| && s[1..][k] == r[j];
        assert s[k + 1] == r[j];
      }
    }
    forall i, j | 0 <= i < j < |r|
      ensures NameLeq(r[i], r[j])
    {
      if i > 0 {
        assert r[1..][i - 1] == r[i] && r[1..][j - 1] == r[j];
      }
    }
  }

  /** `sorted(names)`: the same names in code-point order. */
  function SortNames(s: seq<string>): (r: seq<string>)
    ensures multiset(r) == multiset(s)
    ensures SortedByName(r)
    decreases |s|
  {
    if s == [] then []
    else
      assert s == [s[0]] + s[1..];
      InsertName(s[0], SortNames(s[1..]))
  }

  /** The names of a listing that `keep` selects, in listing order. */
  function Filter(names: seq<string>, keep: string -> bool): (r: seq<string>)
    ensures forall n :: n in r <==> n in names && keep(n)
    ensures |r| <= |names|
    decreases |names|
  {
    if names == [] then []
    else (if keep(names[0]) then [names[0]] else []) + Filter(names[1..], keep)
  }

  /** Filtering distributes over concatenation, so the kept names stay in
      listing order. */
  lemma {:induction false} FilterAppend(a: seq<string>, b: seq<string>, keep: string -> bool)
    ensures Filter(a + b, keep) == Filter(a, keep) + Filter(b, keep)
    decreases |a|
  {
    if a == [] {
      assert a + b == b;
    } else {
      var head := if keep(a[0]) then [a[0]] else [];
      FilterAppend(a[1..], b, keep);
      assert (a + b)[0] == a[0] && (a + b)[1..] == a[1..] + b;
      assert Filter(a + b, keep) == head + Filter(a[1..] + b, keep);
      assert Filter(a, keep) == head + Filter(a[1..], keep);
      SeqAssoc(head, Filter(a[1..], keep), Filter(b, keep));
    }
  }

  /** One name is kept exactly when `keep` selects it. */
  lemma FilterOne(n: string, keep: string -> bool)
    ensures Filter([n], keep) == if keep(n) then [n] else []
  {
    assert [n][1..] == [];
  }

  // ---------------------------------------------------------------------------
  // Sorting by modification time
  // ---------------------------------------------------------------------------

  /** Insert `p` before the first path at least as new. */
  function InsertByMtime(fs: FileSystem, p: string, xs: seq<string>): (r: seq<string>)
    ensures multiset(r) == multiset(xs) + multiset{p}
    ensures |r| == |xs| + 1
    decreases |xs|
  {
    if xs == [] || MtimeOf(fs, p) <= MtimeOf(fs, xs[0]) then [p] + xs
    else
      assert xs == [xs[0]] + xs[1..];
      [xs[0]] + InsertByMtime(fs, p, xs[1..])
  }

  /** Python's `sorted(paths, key=os.path.getmtime)` and JavaScript's
      `sort((a, b) => a.time - b.time)`: a stable sort, oldest first. */
  function SortByMtime(fs: FileSystem, xs: seq<string>): (r: seq<string>)
    ensures multiset(r) == multiset(xs)
    ensures |r| == |xs|
    decreases |xs|
  {
    if xs == [] then []
    else
      assert xs == [xs[0]] + xs[1..];
      InsertByMtime(fs, xs[0], SortByMtime(fs, xs[1..]))
  }

  predicate OldestFirst(fs: FileSystem, xs: seq<string>) {
    forall i, j :: 0 <= i < j < |xs| ==> MtimeOf(fs, xs[i]) <= MtimeOf(fs, xs[j])
  }

  lemma {:induction false} InsertKeepsOrder(fs: FileSystem, p: string, xs: seq<string>)
    requires OldestFirst(fs, xs)
    ensures OldestFirst(fs, InsertByMtime(fs, p, xs))
    decreases |xs|
  {
    if xs == [] || MtimeOf(fs, p) <= MtimeOf(fs, xs[0]) {
    } else {
      InsertKeepsOrder(fs, p, xs[1..]);
      var r := InsertByMtime(fs, p, xs[1..]);
      forall i | 0 <= i < |r| ensures MtimeOf(fs, xs[0]) <= MtimeOf(fs, r[i]) {
        assert r[i] in multiset(r);
        assert r[i] in multiset(xs[1..]) + multiset{p};
        if r[i] in multiset(xs[1..]) {
          var k :| 0 <= k < |xs[1..]| && xs[1..][k] == r[i];
          assert xs[k + 1] == r[i];
        }
      }
    }
  }

  /** The sorted list is ordered oldest first. */
  lemma {:induction false} SortByMtimeOrdered(fs: FileSystem, xs: seq<string>)
    ensures OldestFirst(fs, SortByMtime(fs, xs))
    decreases |xs|
  {
    if xs != [] {
      SortByMtimeOrdered(fs, xs[1..]);
      InsertKeepsOrder(fs, xs[0], SortByMtime(fs, xs[1..]));
    }
  }

  /** `shutil.copy2(src, dst)` / `fs.copyFileSync(src, dst)` succeeds: the
      source exists and the copy to `dst` is not one of those that fail
      (full disk, permissions), which are given as a set. */
  predicate CopyOk(fs: FileSystem, src: string, dst: string, fails: set<string>) {
    src in fs && dst !in fails
  }

  /** The paths of a listing of `dir`. */
  function JoinAll(dir: string, names: seq<string>): (r: seq<string>)
    ensures |r| == |names|
    ensures forall k :: 0 <= k < |r| ==> r[k] == Join(dir, names[k])
  {
    seq(|names|, k requires 0 <= k < |names| => Join(dir, names[k]))
  }

  /** A joined path of a listing names a listed entry. */
  lemma JoinAllListed(dir: string, names: seq<string>, n: string)
    requires Join(dir, n) in JoinAll(dir, names)
    ensures n in names
  {
    var k :| 0 <= k < |names| && JoinAll(dir, names)[k] == Join(dir, n);
    JoinInjective(dir, n, names[k]);
  }

  /** The paths listed in `s`, as a set. */
  function PathSet(s: seq<string>): (r: set<string>)
    ensures forall p :: p in r <==> p in s
  {
    set p | p in s
  }

  lemma PathSetSnoc(s: seq<string>, p: string)
    ensures PathSet(s + [p]) == PathSet(s) + {p}
  {
  }

  /** Deleting two sets of paths one after the other. */
  lemma MapMinusUnion(fs: FileSystem, a: set<string>, b: set<string>)
    ensures fs - a - b == fs - (a + b)
  {
  }

  /** Deleting one more path of a list, in list order. */
  lemma RemoveNext(fs: FileSystem, s: seq<string>, k: nat)
    requires k < |s|
    ensures fs - PathSet(s[..k]) - {s[k]} == fs - PathSet(s[..k + 1])
  {
    assert s[..k + 1] == s[..k] + [s[k]];
    PathSetSnoc(s[..k], s[k]);
  }

  /** The paths "keep the newest `keep`" deletes: all but the last `keep` of
      the list sorted oldest first. */
  function DropOldest(fs: FileSystem, xs: seq<string>, keep: nat): (r: seq<string>)
    ensures |r| == if |xs| > keep then |xs| - keep else 0
  {
    var sorted := SortByMtime(fs, xs);
    if |sorted| > keep then sorted[..|sorted| - keep] else []
  }

  /** Only listed paths are dropped. */
  lemma DropOldestListed(fs: FileSystem, xs: seq<string>, keep: nat, p: string)
    requires p in DropOldest(fs, xs, keep)
    ensures p in xs
  {
    var sorted := SortByMtime(fs, xs);
    assert p in sorted;
    assert p in multiset(sorted);
  }

  /** Each dropped path is no newer than every listed path that is kept. */
  lemma DropOldestKeepsNewest(fs: FileSystem, xs: seq<string>, keep: nat, p: string, q: string)
    requires p in DropOldest(fs, xs, keep) && q in xs && q !in DropOldest(fs, xs, keep)
    ensures MtimeOf(fs, p) <= MtimeOf(fs, q)
  {
    var sorted := SortByMtime(fs, xs);
    var e := |DropOldest(fs, xs, keep)|;
    SortByMtimeOrdered(fs, xs);
    assert q in multiset(sorted);
    var i :| 0 <= i < e && sorted[i] == p;
    var j :| 0 <= j < |sorted| && sorted[j] == q;
    assert j >= e;
  }

  // ---------------------------------------------------------------------------
  // Random picks
  // ---------------------------------------------------------------------------

  /** `random.randint(lo, hi)` with the draw given as an arbitrary number. */
  function RandInt(lo: int, hi: int, draw: nat): (r: int)
    requires lo <= hi
    ensures lo <= r <= hi
  {
    lo + draw % (hi - lo + 1)
  }

  /** `random.choice(xs)` with the draw given as an arbitrary number. */
  function Choice<T>(xs: seq<T>, draw: nat): (r: T)
    requires |xs| > 0
    ensures r in xs
  {
    xs[draw % |xs|]
  }

  /** Every entry of the table can be drawn. */
  lemma ChoiceReaches<T>(xs: seq<T>, k: nat)
    requires k < |xs|
    ensures Choice(xs, k) == xs[k]
  {
  }

  // ---------------------------------------------------------------------------
  // What a concurrent reader can see while a JSON file is being written
  // ---------------------------------------------------------------------------

  /** `json.dump(v, open(p, "w"))`: the file is first truncated, then filled. */
  function PlainWriteStates(fs: FileSystem, p: string, v: Json, now: nat): (r: seq<FileSystem>)
    ensures |r| == 3 && r[0] == fs && r[2] == WriteDoc(fs, p, v, now)
  {
    [fs, fs[p := FileRec(Text(""), now)], WriteDoc(fs, p, v, now)]
  }

  /** Write to `p + ".tmp"`, then `os.replace` it over `p`. */
  function AtomicWriteStates(fs: FileSystem, p: string, v: Json, now: nat): (r: seq<FileSystem>)
    ensures |r| == 4 && r[0] == fs
    ensures LoadJson(r[3], p) == Some(v)
  {
    var tmp := p + ".tmp";
    var s1 := fs[tmp := FileRec(Text(""), now)];
    var s2 := s1[tmp := FileRec(Doc(v), now)];
    var s3 := (map q | q in s2 && q != tmp :: s2[q])[p := FileRec(Doc(v), now)];
    [fs, s1, s2, s3]
  }

  /** A reader of a plain overwrite can find the file unreadable even when it
      held a valid document before and after. */
  lemma PlainWriteExposesTruncation(fs: FileSystem, p: string, v: Json, now: nat)
    ensures LoadJson(PlainWriteStates(fs, p, v, now)[1], p) == None
  {
  }

  /** A reader of an atomic write finds, at `p`, the old document or the new
      one, never anything else. */
  lemma AtomicWriteNoTornRead(fs: FileSystem, p: string, v: Json, now: nat)
    requires LoadJson(fs, p).Some? && p + ".tmp" != p
    ensures forall k :: 0 <= k < 4 ==>
      LoadJson(AtomicWriteStates(fs, p, v, now)[k], p) in {LoadJson(fs, p), Some(v)}
  {
    var tmp := p + ".tmp";
    assert tmp != p by { assert |tmp| == |p| + 4; }
  }
}

=== FILE: compose.dfy ===
/** The compose engine: it turns a task's analysis, scenes and scene clips into
    a beat-annotated timeline, saves the timeline next to the task and records
    its path in the task. `random.choice` is an oracle input. */
module Compose {
  import opened Common

  const TEMP := "storage/temp"

  const Transitions: seq<string> := [
    "fade", "slide_left", "slide_right", "whip", "zoom_in",
    "zoom_out", "flash", "rgb_split", "shake", "film_glow"
  ]

  const MoodEffects: map<string, seq<string>> := map[
    "aggressive" := ["shake", "flash", "rgb_split", "whip"],
    "epic" := ["zoom_in", "zoom_out", "whip", "cinematic_glow"],
    "sad" := ["fade", "soft_glow", "blur"],
    "romantic" := ["fade", "glow", "smooth_pan"],
    "cinematic" := ["film_glow", "smooth_pan", "fade"]
  ]

  // ---------------------------------------------------------------------------
  // make_block
  // ---------------------------------------------------------------------------

  /** `round(x, 2)` on an exact real, halves rounded up. */
  function Round2(x: real): (r: real)
    ensures x - 1.0 / 200.0 < r <= x + 1.0 / 200.0
    ensures x > 0.0 ==> r >= 0.0
  {
    var f := (x * 100.0 + 0.5).Floor;
    assert f as real <= x * 100.0 + 0.5 < f as real + 1.0;
    f as real / 100.0
  }

  /** `end - start` of two Python numbers, rounded to two decimals: an
      integer when both are ints or bools (`round` keeps an int an int). */
  function Duration(start: Json, end: Json): (d: Json)
    requires Num(start).Some? && Num(end).Some?
    ensures Num(d).Some?
    ensures (start.JInt? || start.JBool?) && (end.JInt? || end.JBool?) ==> d == JInt(IntOf(end) - IntOf(start))
    ensures var delta := Num(end).value - Num(start).value;
      delta - 1.0 / 200.0 < Num(d).value <= delta + 1.0 / 200.0
    ensures Num(end).value > Num(start).value ==> Num(d).value >= 0.0
  {
    if (start.JInt? || start.JBool?) && (end.JInt? || end.JBool?) then JInt(IntOf(end) - IntOf(start))
    else JReal(Round2(Num(end).value - Num(start).value))
  }

  /** `make_block` */
  function MakeBlock(clip: Json, start: Json, end: Json, effect: Json): (b: Obj)
    requires Num(start).Some? && Num(end).Some?
    ensures b.Keys == {"clip", "start", "end", "duration", "effect"}
    ensures b["clip"] == clip && b["start"] == start && b["end"] == end && b["effect"] == effect
    ensures b["duration"] == Duration(start, end)
  {
    map["clip" := clip, "start" := start, "end" := end, "duration" := Duration(start, end), "effect" := effect]
  }

  /** The single block of the fallback timeline. */
  function FallbackBlock(): (b: Obj)
    ensures b.Keys == {"clip", "start", "end", "duration", "effect"}
    ensures b["clip"] == JNull && b["start"] == JInt(0) && b["end"] == JInt(5)
    ensures b["duration"] == JInt(5) && b["effect"] == JStr("fade")
  {
    MakeBlock(JNull, JInt(0), JInt(5), JStr("fade"))
  }

  // ---------------------------------------------------------------------------
  // generate_timeline
  // ---------------------------------------------------------------------------

  /** `MOOD_EFFECTS.get(mood, TRANSITIONS)`; a list or dict mood is not
      hashable and raises. */
  function Pool(mood: Json): (r: Option<seq<string>>)
    ensures r.Some? ==> |r.value| > 0
    ensures mood.JStr? && mood.s in MoodEffects ==> r == Some(MoodEffects[mood.s])
    ensures mood.JStr? && mood.s !in MoodEffects ==> r == Some(Transitions)
    ensures r.None? <==> mood.JArr? || mood.JObj?
  {
    match mood
    case JStr(m) => if m in MoodEffects then Some(MoodEffects[m]) else Some(Transitions)
    case JArr(_) => None
    case JObj(_) => None
    case _ => Some(Transitions)
  }

  /** `clips[i % len(clips)]` for a list or a string; anything else raises. */
  function ClipAt(clips: Json, i: nat): (r: Option<Json>)
    ensures clips.JArr? && |clips.items| > 0 ==> r == Some(clips.items[i % |clips.items|])
    ensures r.Some? ==> clips.JArr? || clips.JStr?
  {
    match clips
    case JArr(xs) => if |xs| > 0 then Some(xs[i % |xs|]) else None
    case JStr(s) => if |s| > 0 then Some(JStr([s[i % |s|]])) else None
    case _ => None
  }

  /** `end - start` of a scene, when the scene is an object whose `start`
      and `end` are numbers or bools; otherwise the loop body raises. */
  function SceneDur(sc: Json): (r: Option<real>)
    ensures r.Some? <==> sc.JObj? && "start" in sc.fields && "end" in sc.fields
                         && Num(sc.fields["start"]).Some? && Num(sc.fields["end"]).Some?
    ensures r.Some? ==> var d := Num(Duration(sc.fields["start"], sc.fields["end"])).value;
      r.value - 1.0 / 200.0 < d <= r.value + 1.0 / 200.0 && (r.value > 0.0 ==> d >= 0.0)
  {
    if sc.JObj? && "start" in sc.fields && "end" in sc.fields
       && Num(sc.fields["start"]).Some? && Num(sc.fields["end"]).Some?
    then Some(Num(sc.fields["end"]).value - Num(sc.fields["start"]).value)
    else None
  }

  /** A scene that yields a block: its duration is positive. */
  predicate Positive(sc: Json) {
    SceneDur(sc).Some? && SceneDur(sc).value > 0.0
  }

  datatype Step = Raise | Skip | Emit(block: Obj)

  /** One iteration of the scene loop, for scene `sc` at index `i`. */
  function SceneStep(sc: Json, i: nat, clips: Json, mood: Json, draw: nat -> nat): (r: Step)
    ensures r.Skip? <==> SceneDur(sc).Some? && !Positive(sc)
    ensures r.Emit? <==> Positive(sc) && Pool(mood).Some? && ClipAt(clips, i).Some?
    ensures r.Emit? ==> r.block == MakeBlock(ClipAt(clips, i).value, sc.fields["start"], sc.fields["end"],
                                              JStr(Choice(Pool(mood).value, draw(i))))
  {
    match SceneDur(sc)
    case None => Raise
    case Some(dur) =>
      if dur <= 0.0 then Skip
      else if Pool(mood).None? || ClipAt(clips, i).None? then Raise
      else Emit(MakeBlock(ClipAt(clips, i).value, sc.fields["start"], sc.fields["end"],
                          JStr(Choice(Pool(mood).value, draw(i)))))
  }

  /** The blocks the scene loop has appended after the scenes in `scenes`, or
      None once a scene has raised. */
  function Blocks(scenes: seq<Json>, clips: Json, mood: Json, draw: nat -> nat): Option<seq<Obj>>
    decreases |scenes|
  {
    if scenes == [] then Some([])
    else
      var n := |scenes| - 1;
      match Blocks(scenes[..n], clips, mood, draw)
      case None => None
      case Some(bs) =>
        match SceneStep(scenes[n], n, clips, mood, draw)
        case Raise => None
        case Skip => Some(bs)
        case Emit(b) => Some(bs + [b])
  }

  /** One more scene of the loop. */
  lemma BlocksNext(xs: seq<Json>, i: nat, clips: Json, mood: Json, draw: nat -> nat)
    requires i < |xs| && Blocks(xs[..i], clips, mood, draw).Some?
    ensures var bs := Blocks(xs[..i], clips, mood, draw).value;
      Blocks(xs[..i + 1], clips, mood, draw) ==
        match SceneStep(xs[i], i, clips, mood, draw)
        case Raise => None
        case Skip => Some(bs)
        case Emit(b) => Some(bs + [b])
  {
    assert xs[..i + 1][..i] == xs[..i];
  }

  /** The indices of the scenes that yield a block, in scene order. */
  function Kept(scenes: seq<Json>): (r: seq<nat>)
    ensures forall k :: 0 <= k < |r| ==> r[k] < |scenes| && Positive(scenes[r[k]])
    ensures forall k, l :: 0 <= k < l < |r| ==> r[k] < r[l]
    ensures forall i :: 0 <= i < |scenes| && Positive(scenes[i]) ==> i in r
    decreases |scenes|
  {
    if scenes == [] then []
    else
      var n := |scenes| - 1;
      var r := Kept(scenes[..n]);
      assert forall i :: 0 <= i < n ==> scenes[..n][i] == scenes[i];
      if Positive(scenes[n]) then r + [n] else r
  }

  /** `int(duration / (60 / bpm))`, at least 1. */
  function Beats(duration: real, bpm: real): (b: int)
    requires bpm != 0.0
    ensures b >= 1
  {
    var t := Trunc(duration / (60.0 / bpm));
    if t > 1 then t else 1
  }

  /** A block's duration as a number. */
  function DurationOf(b: Obj): real {
    if "duration" in b && Num(b["duration"]).Some? then Num(b["duration"]).value else 0.0
  }

  /** The second loop: every block gains `beats`. */
  function WithBeats(bs: seq<Obj>, bpm: real): (r: seq<Obj>)
    requires bpm != 0.0
    ensures |r| == |bs|
    ensures forall k :: 0 <= k < |bs| ==>
      r[k].Keys == bs[k].Keys + {"beats"}
      && (forall key :: key in bs[k] && key != "beats" ==> r[k][key] == bs[k][key])
      && r[k]["beats"] == JInt(Beats(DurationOf(bs[k]), bpm))
  {
    seq(|bs|, k requires 0 <= k < |bs| => bs[k]["beats" := JInt(Beats(DurationOf(bs[k]), bpm))])
  }

  /** The inputs `generate_timeline` reads from the task; None when
      `task.get("analysis", {})` is not a dict and `.get` raises. */
  datatype Inputs = Inputs(mood: Json, bpm: Json, scenes: Json, clips: Json)

  function ReadInputs(task: Obj): (r: Option<Inputs>)
    ensures r.Some? <==> GetOr(task, "analysis", JObj(map[])).JObj?
  {
    var a := GetOr(task, "analysis", JObj(map[]));
    if !a.JObj? then None
    else Some(Inputs(GetOr(a.fields, "mood", JStr("cinematic")), GetOr(a.fields, "bpm", JInt(120)),
                     GetOr(task, "scenes", JArr([])), GetOr(task, "scene_clips", JArr([]))))
  }

  /** What `generate_timeline(task)` returns, or None when it raises. */
  function Timeline(task: Obj, draw: nat -> nat): (r: Option<seq<Obj>>)
    ensures ReadInputs(task).None? ==> r.None?
    ensures ReadInputs(task).Some? ==> var inp := ReadInputs(task).value;
      (!PyTruthy(inp.scenes) || !PyTruthy(inp.clips) ==> r == Some([FallbackBlock()]))
      && (PyTruthy(inp.scenes) && PyTruthy(inp.clips) && (Num(inp.bpm).None? || Num(inp.bpm).value == 0.0) ==> r.None?)
      && (PyTruthy(inp.scenes) && PyTruthy(inp.clips) ==>
            (r.Some? <==> Num(inp.bpm).Some? && Num(inp.bpm).value != 0.0
                          && inp.scenes.JArr? && Blocks(inp.scenes.items, inp.clips, inp.mood, draw).Some?))
      && (PyTruthy(inp.scenes) && PyTruthy(inp.clips) && r.Some? ==>
            inp.scenes.JArr? && Blocks(inp.scenes.items, inp.clips, inp.mood, draw).Some?
            && r.value == WithBeats(Blocks(inp.scenes.items, inp.clips, inp.mood, draw).value, Num(inp.bpm).value))
  {
    match ReadInputs(task)
    case None => None
    case Some(inp) =>
      if !PyTruthy(inp.scenes) || !PyTruthy(inp.clips) then Some([FallbackBlock()])
      else if Num(inp.bpm).None? || Num(inp.bpm).value == 0.0 || !inp.scenes.JArr? then None
      else
        match Blocks(inp.scenes.items, inp.clips, inp.mood, draw)
        case None => None
        case Some(bs) => Some(WithBeats(bs, Num(inp.bpm).value))
  }

  /** Once a scene has raised, the loop has raised. */
  lemma {:induction false} RaiseStops(scenes: seq<Json>, n: nat, clips: Json, mood: Json, draw: nat -> nat)
    requires n <= |scenes| && Blocks(scenes[..n], clips, mood, draw).None?
    ensures Blocks(scenes, clips, mood, draw).None?
    decreases |scenes| - n
  {
    if n < |scenes| {
      assert scenes[..n + 1][..n] == scenes[..n];
      RaiseStops(scenes, n + 1, clips, mood, draw);
    } else {
      assert scenes[..n] == scenes;
    }
  }

  /** The scene loop of `generate_timeline`: a block per scene of positive
      duration, in scene order; None when a scene raises. */
  method SceneLoop(xs: seq<Json>, clips: Json, mood: Json, draw: nat -> nat) returns (r: Option<seq<Obj>>)
    ensures r == Blocks(xs, clips, mood, draw)
  {
    var timeline: seq<Obj> := [];
    for i := 0 to |xs|
      invariant Blocks(xs[..i], clips, mood, draw) == Some(timeline)
    {
      BlocksNext(xs, i, clips, mood, draw);
      var step := SceneStep(xs[i], i, clips, mood, draw);
      if step.Raise? {
        RaiseStops(xs, i + 1, clips, mood, draw);
        return None;
      }
      if step.Emit? {
        timeline := timeline + [step.block];
      }
    }
    assert xs[..|xs|] == xs;
    r := Some(timeline);
  }

  /** The second loop of `generate_timeline`: `t["beats"] = ...` on every
      block in turn. */
  method BeatLoop(blocks: seq<Obj>, bpm: real) returns (timeline: seq<Obj>)
    requires bpm != 0.0
    ensures timeline == WithBeats(blocks, bpm)
  {
    timeline := blocks;
    for j := 0 to |timeline|
      invariant |timeline| == |blocks|
      invariant timeline[..j] == WithBeats(blocks, bpm)[..j]
      invariant timeline[j..] == blocks[j..]
    {
      assert timeline[j] == blocks[j];
      timeline := timeline[j := timeline[j]["beats" := JInt(Beats(DurationOf(timeline[j]), bpm))]];
    }
  }

  /** `generate_timeline` */
  method GenerateTimeline(task: Obj, draw: nat -> nat) returns (r: Option<seq<Obj>>)
    ensures r == Timeline(task, draw)
  {
    var inp := ReadInputs(task);
    if inp.None? {
      return None;
    }
    var mood, bpm, scenes, clips := inp.value.mood, inp.value.bpm, inp.value.scenes, inp.value.clips;
    if !PyTruthy(scenes) || !PyTruthy(clips) {
      return Some([MakeBlock(JNull, JInt(0), JInt(5), JStr("fade"))]);
    }
    if Num(bpm).None? || Num(bpm).value == 0.0 || !scenes.JArr? {
      return None;
    }
    var blocks := SceneLoop(scenes.items, clips, mood, draw);
    if blocks.None? {
      return None;
    }
    var timeline := BeatLoop(blocks.value, Num(bpm).value);
    r := Some(timeline);
  }

  // ---------------------------------------------------------------------------
  // Properties of the timeline
  // ---------------------------------------------------------------------------

  /** With no scenes or no clips the timeline is the single fallback block:
      no clip, from 0 to 5, effect "fade", and no `beats`. */
  lemma FallbackTimeline(task: Obj, draw: nat -> nat)
    requires ReadInputs(task).Some?
    requires !PyTruthy(GetOr(task, "scenes", JArr([]))) || !PyTruthy(GetOr(task, "scene_clips", JArr([])))
    ensures var t := Timeline(task, draw);
      t.Some? && |t.value| == 1 && "beats" !in t.value[0]
      && t.value[0]["clip"] == JNull && t.value[0]["start"] == JInt(0) && t.value[0]["end"] == JInt(5)
      && t.value[0]["effect"] == JStr("fade")
  {
  }

  /** A task without `analysis` composes as one with mood "cinematic" and
      bpm 120. */
  lemma MissingAnalysisDefaults(task: Obj, draw: nat -> nat)
    requires "analysis" !in task
    ensures Timeline(task, draw) ==
      Timeline(task["analysis" := JObj(map["mood" := JStr("cinematic"), "bpm" := JInt(120)])], draw)
  {
    var t2 := task["analysis" := JObj(map["mood" := JStr("cinematic"), "bpm" := JInt(120)])];
    assert ReadInputs(task) == ReadInputs(t2);
  }

  /** Block `b` is the one made from scene `sc` at index `i`: its clip is
      `clips[i % len(clips)]`, its span the scene's, its effect drawn from the
      mood's pool. */
  predicate BlockOf(b: Obj, sc: Json, i: nat, clips: Json, mood: Json) {
    sc.JObj? && "start" in sc.fields && "end" in sc.fields && Positive(sc)
    && ClipAt(clips, i).Some? && Pool(mood).Some?
    && "clip" in b && "start" in b && "end" in b && "effect" in b
    && b["clip"] == ClipAt(clips, i).value
    && b["start"] == sc.fields["start"] && b["end"] == sc.fields["end"]
    && b["effect"].JStr? && b["effect"].s in Pool(mood).value
  }

  /** The blocks follow the scenes of positive duration, in scene order: block
      k comes from scene `Kept(scenes)[k]`, whose index (skipped scenes
      included) chooses the clip. */
  lemma {:induction false} BlocksFollowScenes(scenes: seq<Json>, clips: Json, mood: Json, draw: nat -> nat)
    requires Blocks(scenes, clips, mood, draw).Some?
    ensures var bs := Blocks(scenes, clips, mood, draw).value;
      var kept := Kept(scenes);
      |bs| == |kept| && forall k :: 0 <= k < |bs| ==> BlockOf(bs[k], scenes[kept[k]], kept[k], clips, mood)
    decreases |scenes|
  {
    if scenes != [] {
      var n := |scenes| - 1;
      BlocksFollowScenes(scenes[..n], clips, mood, draw);
      var bs' := Blocks(scenes[..n], clips, mood, draw).value;
      var kept' := Kept(scenes[..n]);
      forall k | 0 <= k < |kept'| ensures scenes[..n][kept'[k]] == scenes[kept'[k]] {
      }
      var step := SceneStep(scenes[n], n, clips, mood, draw);
      if step.Emit? {
        assert BlockOf(step.block, scenes[n], n, clips, mood);
      }
    }
  }

  /** Every block of a non-fallback timeline has a positive duration and
      `beats` of at least 1. */
  lemma TimelineBeats(task: Obj, draw: nat -> nat)
    requires Timeline(task, draw).Some?
    requires PyTruthy(GetOr(task, "scenes", JArr([]))) && PyTruthy(GetOr(task, "scene_clips", JArr([])))
    ensures forall b: Obj :: b in Timeline(task, draw).value ==>
      "beats" in b && b["beats"].JInt? && b["beats"].i >= 1
      && "duration" in b && Num(b["duration"]).Some? && Num(b["duration"]).value >= 0.0
  {
    var inp := ReadInputs(task).value;
    var bs := Blocks(inp.scenes.items, inp.clips, inp.mood, draw).value;
    BlocksPositive(inp.scenes.items, inp.clips, inp.mood, draw);
  }

  lemma {:induction false} BlocksPositive(scenes: seq<Json>, clips: Json, mood: Json, draw: nat -> nat)
    requires Blocks(scenes, clips, mood, draw).Some?
    ensures forall b: Obj :: b in Blocks(scenes, clips, mood, draw).value ==>
      "duration" in b && Num(b["duration"]).Some? && Num(b["duration"]).value >= 0.0
    decreases |scenes|
  {
    if scenes != [] {
      BlocksPositive(scenes[..|scenes| - 1], clips, mood, draw);
    }
  }

  /** A bpm of `true` is the int 1 to Python: `60 / True` is a beat of 60
      seconds, and the timeline is the one for bpm 1. */
  lemma TrueBpmIsOne(task: Obj, a: Obj, draw: nat -> nat)
    requires "analysis" in task && task["analysis"] == JObj(a) && "bpm" in a && a["bpm"] == JBool(true)
    ensures Timeline(task, draw) == Timeline(task["analysis" := JObj(a["bpm" := JInt(1)])], draw)
  {
    var t2 := task["analysis" := JObj(a["bpm" := JInt(1)])];
    assert ReadInputs(task).value.bpm == JBool(true) && ReadInputs(t2).value.bpm == JInt(1);
    assert ReadInputs(task).value.(bpm := JInt(1)) == ReadInputs(t2).value;
  }

  /** A scene from `false` to `true` spans 1 to Python: it yields a block
      of duration 1 that keeps the two bools as its bounds. */
  lemma BoolBoundsScene(i: nat, clips: Json, mood: Json, draw: nat -> nat)
    requires Pool(mood).Some? && ClipAt(clips, i).Some?
    ensures var sc := JObj(map["start" := JBool(false), "end" := JBool(true)]);
      var r := SceneStep(sc, i, clips, mood, draw);
      r.Emit? && r.block["duration"] == JInt(1)
      && r.block["start"] == JBool(false) && r.block["end"] == JBool(true)
  {
  }

  // ---------------------------------------------------------------------------
  // save_timeline, compose_task
  // ---------------------------------------------------------------------------

  /** The saved timeline document. */
  function TimelineDoc(tl: seq<Obj>): (d: Json)
    ensures d.JArr? && |d.items| == |tl| && forall k :: 0 <= k < |tl| ==> d.items[k] == JObj(tl[k])
  {
    JArr(seq(|tl|, k requires 0 <= k < |tl| => JObj(tl[k])))
  }

  function TimelinePath(id: Json): string {
    Join(TEMP, PyStr(id) + "_timeline.json")
  }

  datatype ComposeResult = Unreadable | Composed | Raised

  /** `compose_task(path)`: False on an unreadable task; otherwise the
      timeline is saved and the task, with `timeline` set to its path, is
      written back. An exception raised after loading propagates. */
  method ComposeTask(fs: FileSystem, path: string, draw: nat -> nat, now: nat) returns (res: ComposeResult, fs': FileSystem)
    ensures res != Composed ==> fs' == fs
    ensures res == Unreadable <==> LoadJson(fs, path).None?
    ensures res == Composed <==>
      LoadJson(fs, path).Some? && LoadJson(fs, path).value.JObj?
      && Timeline(LoadJson(fs, path).value.fields, draw).Some?
    ensures res == Composed ==>
      var task := LoadJson(fs, path).value.fields;
      var tp := TimelinePath(GetOr(task, "id", JStr(Stem(Basename(path)))));
      fs'.Keys == fs.Keys + {tp, path}
      && (forall q :: q in fs && q != tp && q != path ==> fs'[q] == fs[q])
      && LoadJson(fs', path) == Some(JObj(task["timeline" := JStr(tp)]))
      && (tp != path ==> LoadJson(fs', tp) == Some(TimelineDoc(Timeline(task, draw).value)))
  {
    var loaded := LoadJson(fs, path);
    if loaded.None? {
      return Unreadable, fs;
    }
    if !loaded.value.JObj? {
      return Raised, fs;
    }
    var task := loaded.value.fields;
    var id := GetOr(task, "id", JStr(Stem(Basename(path))));
    var timeline := GenerateTimeline(task, draw);
    if timeline.None? {
      return Raised, fs;
    }
    var tl := timeline.value;
    var tp := TimelinePath(id);
    fs' := WriteDoc(fs, tp, TimelineDoc(tl), now);
    task := task["timeline" := JStr(tp)];
    fs' := WriteDoc(fs', path, JObj(task), now);
    TwoWrites(fs, tp, TimelineDoc(tl), path, JObj(task), now);
    res := Composed;
  }

  /** The two writes at the end of `compose_task`: the timeline file, then
      the task file; both read back, and nothing else changes. */
  lemma TwoWrites(fs: FileSystem, tp: string, doc: Json, path: string, task: Json, now: nat)
    ensures var fs' := WriteDoc(WriteDoc(fs, tp, doc, now), path, task, now);
      fs'.Keys == fs.Keys + {tp, path}
      && (forall q :: q in fs && q != tp && q != path ==> fs'[q] == fs[q])
      && LoadJson(fs', path) == Some(task)
      && (tp != path ==> LoadJson(fs', tp) == Some(doc))
  {
    WriteDocOthers(fs, tp, doc, now);
    WriteDocOthers(WriteDoc(fs, tp, doc, now), path, task, now);
  }
}

=== FILE: gemini.dfy ===
/** The model-pool manager: each cycle heals the pool of model sites (a dead
    site counts a failure, three failures swap in the backup link), discovers
    one new model, saves the pool atomically, and enriches every auto plan
    with a creativity level. Site checks, the clock and random draws are
    inputs. */
module GeminiManager {
  import opened Common

  const POOL := "backend/model_pool.json"
  const TEMP := "storage/temp"
  const BACKUP_LINK := "https://backup-ai-lab.net/"
  const DISCOVERY_LINK := "https://example-ai-lab.net/"
  const Types: seq<string> := ["audio", "video", "text"]
  const ExtraFx: seq<string> := ["energy_flash", "anime_blur", "speed_shock", "chromatic_pop", "3D_warp", "impact_shake"]

  // ---------------------------------------------------------------------------
  // The pool file
  // ---------------------------------------------------------------------------

  /** `load_models`: the pool document, or an empty list when the file is
      missing or unreadable. */
  function LoadModels(fs: FileSystem): (r: Json)
    ensures POOL !in fs ==> r == JArr([])
    ensures POOL in fs && !fs[POOL].content.Doc? ==> r == JArr([])
    ensures POOL in fs && fs[POOL].content.Doc? ==> r == fs[POOL].content.json
  {
    match LoadJson(fs, POOL)
    case None => JArr([])
    case Some(v) => v
  }

  /** `save_models`: dump to `<pool>.tmp`, then `os.replace` it over the
      pool (the intermediate states are `AtomicWriteStates`). */
  function SaveModels(fs: FileSystem, v: Json, now: nat): (r: FileSystem)
    ensures LoadJson(r, POOL) == Some(v)
    ensures POOL + ".tmp" !in r
    ensures forall q :: q != POOL && q != POOL + ".tmp" ==> (q in r <==> q in fs) && (q in fs ==> r[q] == fs[q])
  {
    AtomicWriteStates(fs, POOL, v, now)[3]
  }

  // ---------------------------------------------------------------------------
  // Healing one model
  // ---------------------------------------------------------------------------

  /** Python's `x + 1`; None where it raises. */
  function Succ(j: Json): (r: Option<Json>)
    ensures r.Some? <==> Num(j).Some?
    ensures r.Some? ==> Num(r.value) == Some(Num(j).value + 1.0)
  {
    match j
    case JInt(i) => Some(JInt(i + 1))
    case JBool(b) => Some(JInt(if b then 2 else 1))
    case JReal(x) => Some(JReal(x + 1.0))
    case _ => None
  }

  /** The fields `update_model_pool` may set on a model. */
  predicate HealField(k: string) {
    k == "active" || k == "fail_count" || k == "link" || k == "healed"
  }

  /** One iteration of the loop of `update_model_pool` on the model dict `m`,
      `live` being what `check_site` answers for its link; None where the
      iteration raises (a non-numeric `fail_count`, or a linked model without
      `name` when the log line reads it). */
  function Heal(m: Obj, live: bool): (r: Option<Obj>)
    ensures !PyTruthy(GetOr(m, "link", JNull)) ==> r == Some(m)
    ensures PyTruthy(GetOr(m, "link", JNull)) && live ==>
      r == (if "name" in m then Some(m["active" := JBool(true)]["fail_count" := JInt(0)]) else None)
    ensures PyTruthy(GetOr(m, "link", JNull)) && !live ==>
      (r.Some? <==> "name" in m && Num(GetOr(m, "fail_count", JInt(0))).Some?)
    ensures PyTruthy(GetOr(m, "link", JNull)) && !live && r.Some? ==>
      var c := Num(GetOr(m, "fail_count", JInt(0))).value + 1.0;
      (c >= 3.0 ==>
        GetOr(r.value, "link", JNull) == JStr(BACKUP_LINK) && GetOr(r.value, "healed", JNull) == JBool(true)
        && GetOr(r.value, "active", JNull) == JBool(true) && GetOr(r.value, "fail_count", JNull) == JInt(0))
      && (c < 3.0 ==>
        GetOr(r.value, "active", JNull) == JBool(false) && Num(GetOr(r.value, "fail_count", JNull)) == Some(c)
        && GetOr(r.value, "link", JNull) == GetOr(m, "link", JNull))
    ensures r.Some? && PyTruthy(GetOr(m, "link", JNull)) ==>
      "fail_count" in r.value && Num(r.value["fail_count"]).Some? && Num(r.value["fail_count"]).value < 3.0
    ensures r.Some? ==> forall k :: k in m && !HealField(k) ==> k in r.value && r.value[k] == m[k]
  {
    var link := GetOr(m, "link", JNull);
    if !PyTruthy(link) then Some(m)
    else if live then
      if "name" in m then Some(m["active" := JBool(true)]["fail_count" := JInt(0)]) else None
    else
      match Succ(GetOr(m, "fail_count", JInt(0)))
      case None => None
      case Some(c) =>
        if "name" !in m then None
        else if Num(c).value >= 3.0 then
          Some(m["active" := JBool(true)]["fail_count" := JInt(0)]["link" := JStr(BACKUP_LINK)]["healed" := JBool(true)])
        else Some(m["active" := JBool(false)]["fail_count" := c])
  }

  /** One pool entry: a dict is healed (`site` answering for its link); any
      other value makes `model.get` raise. */
  function Checked(x: Json, site: Json -> bool): Option<Obj> {
    if x.JObj? then Heal(x.fields, site(GetOr(x.fields, "link", JNull))) else None
  }

  /** The whole loop of `update_model_pool`: every entry healed, or None when
      one of them raises. */
  function HealAll(xs: seq<Json>, site: Json -> bool): (r: Option<seq<Obj>>)
    ensures r.Some? ==> |r.value| == |xs| && forall i :: 0 <= i < |xs| ==> Checked(xs[i], site) == Some(r.value[i])
    ensures r.None? ==> exists i :: 0 <= i < |xs| && Checked(xs[i], site).None?
    decreases |xs|
  {
    if xs == [] then Some([])
    else
      var n := |xs| - 1;
      match HealAll(xs[..n], site)
      case None => None
      case Some(ms) =>
        match Checked(xs[n], site)
        case None => None
        case Some(m) => Some(ms + [m])
  }

  /** The loop itself; an entry that raises ends it. */
  method HealPool(xs: seq<Json>, site: Json -> bool) returns (r: Option<seq<Obj>>)
    ensures r == HealAll(xs, site)
  {
    var healed: seq<Obj> := [];
    for i := 0 to |xs|
      invariant HealAll(xs[..i], site) == Some(healed)
    {
      assert xs[..i + 1][..i] == xs[..i];
      var h := Checked(xs[i], site);
      if h.None? {
        return None;
      }
      healed := healed + [h.value];
    }
    assert xs[..|xs|] == xs;
    r := Some(healed);
  }

  // ---------------------------------------------------------------------------
  // Discovery and the whole update
  // ---------------------------------------------------------------------------

  /** The model `update_model_pool` discovers at time `now` (ms). */
  function NewModel(now: nat, typeDraw: nat, creativityDraw: nat): (r: Obj)
    ensures r.Keys == {"name", "link", "type", "active", "creativity", "healed"}
    ensures r["name"] == JStr("AutoAI-" + NatToString(now / 1000)) && r["link"] == JStr(DISCOVERY_LINK)
    ensures r["type"].JStr? && r["type"].s in Types
    ensures r["creativity"].JInt? && 5 <= r["creativity"].i <= 10
    ensures r["active"] == JBool(true) && r["healed"] == JBool(false)
  {
    map["name" := JStr("AutoAI-" + NatToString(now / 1000)), "link" := JStr(DISCOVERY_LINK),
        "type" := JStr(Choice(Types, typeDraw)), "active" := JBool(true),
        "creativity" := JInt(RandInt(5, 10, creativityDraw)), "healed" := JBool(false)]
  }

  function Objs(ms: seq<Obj>): (r: seq<Json>)
    ensures |r| == |ms| && forall i :: 0 <= i < |ms| ==> r[i] == JObj(ms[i])
  {
    seq(|ms|, i requires 0 <= i < |ms| => JObj(ms[i]))
  }

  /** `update_model_pool`: the new file system, or None when it raises before
      saving (a pool that is not a list, or an entry that raises). */
  function UpdatePool(fs: FileSystem, site: Json -> bool, now: nat, typeDraw: nat, creativityDraw: nat): (r: Option<FileSystem>)
  {
    match LoadModels(fs)
    case JArr(xs) =>
      (match HealAll(xs, site)
       case None => None
       case Some(ms) => Some(SaveModels(fs, JArr(Objs(ms) + [JObj(NewModel(now, typeDraw, creativityDraw))]), now)))
    case _ => None
  }

  /** The same, step by step. */
  method UpdateModelPool(fs: FileSystem, site: Json -> bool, now: nat, typeDraw: nat, creativityDraw: nat)
    returns (r: Option<FileSystem>)
    ensures r == UpdatePool(fs, site, now, typeDraw, creativityDraw)
  {
    var models := LoadModels(fs);
    if !models.JArr? {
      return None;
    }
    var healed := HealPool(models.items, site);
    if healed.None? {
      return None;
    }
    var pool := Objs(healed.value) + [JObj(NewModel(now, typeDraw, creativityDraw))];
    r := Some(SaveModels(fs, JArr(pool), now));
  }

  /** A healed entry: a dict, with fewer than three recorded failures when
      linked, and unchanged when it has no link. */
  lemma CheckedFacts(x: Json, site: Json -> bool, m: Obj)
    requires Checked(x, site) == Some(m)
    ensures x.JObj?
    ensures PyTruthy(GetOr(m, "link", JNull)) ==> "fail_count" in m && Num(m["fail_count"]).Some? && Num(m["fail_count"]).value < 3.0
    ensures !PyTruthy(GetOr(x.fields, "link", JNull)) ==> x == JObj(m)
  {
  }

  /** After the healing loop every linked model has fewer than three
      recorded failures and every unlinked one is as it was. */
  lemma HealedBounded(xs: seq<Json>, site: Json -> bool, ms: seq<Obj>)
    requires HealAll(xs, site) == Some(ms)
    ensures |ms| == |xs|
    ensures forall i :: 0 <= i < |ms| && PyTruthy(GetOr(ms[i], "link", JNull)) ==>
      "fail_count" in ms[i] && Num(ms[i]["fail_count"]).Some? && Num(ms[i]["fail_count"]).value < 3.0
    ensures forall i :: 0 <= i < |ms| ==> xs[i].JObj? && (!PyTruthy(GetOr(xs[i].fields, "link", JNull)) ==> xs[i] == JObj(ms[i]))
  {
    forall i | 0 <= i < |ms|
      ensures PyTruthy(GetOr(ms[i], "link", JNull)) ==>
        "fail_count" in ms[i] && Num(ms[i]["fail_count"]).Some? && Num(ms[i]["fail_count"]).value < 3.0
      ensures xs[i].JObj? && (!PyTruthy(GetOr(xs[i].fields, "link", JNull)) ==> xs[i] == JObj(ms[i]))
    {
      CheckedFacts(xs[i], site, ms[i]);
    }
  }

  /** After a successful update the pool holds every old model, healed and in
      order, then the new one. */
  lemma PoolAfterUpdate(fs: FileSystem, site: Json -> bool, now: nat, td: nat, cd: nat, xs: seq<Json>, ms: seq<Obj>)
    requires LoadModels(fs) == JArr(xs) && HealAll(xs, site) == Some(ms)
    ensures UpdatePool(fs, site, now, td, cd).Some?
    ensures LoadJson(UpdatePool(fs, site, now, td, cd).value, POOL) == Some(JArr(Objs(ms) + [JObj(NewModel(now, td, cd))]))
  {
  }

  /** A pool that is not a list, or that holds a value which is not a dict,
      makes the update raise: nothing is saved. */
  lemma BadPoolNotSaved(fs: FileSystem, site: Json -> bool, now: nat, td: nat, cd: nat)
    requires !LoadModels(fs).JArr? || exists i :: 0 <= i < |LoadModels(fs).items| && !LoadModels(fs).items[i].JObj?
    ensures UpdatePool(fs, site, now, td, cd).None?
  {
  }

  /** With no readable pool the update starts from an empty list and saves a
      pool of exactly the one discovered model. */
  lemma MissingPoolStartsFresh(fs: FileSystem, site: Json -> bool, now: nat, td: nat, cd: nat)
    requires LoadJson(fs, POOL).None?
    ensures UpdatePool(fs, site, now, td, cd).Some?
    ensures LoadJson(UpdatePool(fs, site, now, td, cd).value, POOL) == Some(JArr([JObj(NewModel(now, td, cd))]))
  {
    assert LoadModels(fs) == JArr([]);
    assert HealAll([], site) == Some([]);
    assert Objs([]) + [JObj(NewModel(now, td, cd))] == [JObj(NewModel(now, td, cd))];
  }

  // ---------------------------------------------------------------------------
  // The creativity booster
  // ---------------------------------------------------------------------------

  /** `*_auto_plan.json` */
  predicate IsAutoPlan(n: string) {
    GlobMatch(n, "", "_auto_plan.json")
  }

  /** `TEMP_DIR.glob("*_auto_plan.json")` over the listing `names`. */
  function AutoPlans(names: seq<string>): (r: seq<string>)
    ensures |r| == |Filter(names, IsAutoPlan)|
    ensures forall k :: 0 <= k < |r| ==> r[k] == Join(TEMP, Filter(names, IsAutoPlan)[k])
  {
    var ps := Filter(names, IsAutoPlan);
    seq(|ps|, k requires 0 <= k < |ps| => Join(TEMP, ps[k]))
  }

  /** `plans[-5:]` */
  function Last5(plans: seq<string>): (r: seq<string>)
    ensures |r| == if |plans| <= 5 then |plans| else 5
    ensures plans != [] ==> r != []
    ensures forall p :: p in r ==> p in plans
  {
    if |plans| <= 5 then plans else plans[|plans| - 5..]
  }

  /** The scores the booster collects from `ps`: `creative_level` (default
      5) of each plan that loads as a dict; an unreadable plan or one that is
      not a dict makes `data.get` raise inside the `try`, and is skipped. */
  function Scores(fs: FileSystem, ps: seq<string>): (r: seq<Json>)
    ensures |r| <= |ps|
    decreases |ps|
  {
    if ps == [] then []
    else
      var n := |ps| - 1;
      Scores(fs, ps[..n]) + (match LoadJson(fs, ps[n]) case Some(JObj(m)) => [GetOr(m, "creative_level", JInt(5))] case _ => [])
  }

  /** Plans that do not load as dicts give no scores. */
  lemma {:induction false} NoDictNoScores(fs: FileSystem, ps: seq<string>)
    requires forall p :: p in ps ==> !(LoadJson(fs, p).Some? && LoadJson(fs, p).value.JObj?)
    ensures Scores(fs, ps) == []
    decreases |ps|
  {
    if ps != [] {
      NoDictNoScores(fs, ps[..|ps| - 1]);
    }
  }

  /** Python's `sum(scores)`; None where it raises on a non-number. */
  function SumNum(xs: seq<Json>): (r: Option<real>)
    ensures r.Some? <==> forall i :: 0 <= i < |xs| ==> Num(xs[i]).Some?
    decreases |xs|
  {
    if xs == [] then Some(0.0)
    else
      var n := |xs| - 1;
      match SumNum(xs[..n])
      case None => None
      case Some(s) => match Num(xs[n]) case None => None case Some(x) => Some(s + x)
  }

  /** `calculate_creativity_boost` over the plan paths `plans`; None where
      summing the scores raises. */
  function Boost(fs: FileSystem, plans: seq<string>, draw: nat): (r: Option<int>)
    ensures r.Some? ==> 4 <= r.value <= 10
    ensures plans == [] || Scores(fs, Last5(plans)) == [] ==> r.Some? && 5 <= r.value <= 10
    ensures Scores(fs, Last5(plans)) != [] ==> (r.None? <==> SumNum(Scores(fs, Last5(plans))).None?)
    ensures plans != [] && Scores(fs, Last5(plans)) != [] && r.Some? ==>
      var sc := Scores(fs, Last5(plans));
      (SumNum(sc).value / (|sc| as real) < 6.0 ==> 7 <= r.value <= 10)
      && (SumNum(sc).value / (|sc| as real) >= 6.0 ==> 4 <= r.value <= 7)
  {
    if plans == [] then Some(RandInt(5, 10, draw))
    else
      var scores := Scores(fs, Last5(plans));
      if scores == [] then Some(RandInt(5, 10, draw))
      else
        match SumNum(scores)
        case None => None
        case Some(s) =>
          if s / (|scores| as real) < 6.0 then Some(RandInt(7, 10, draw)) else Some(RandInt(4, 7, draw))
  }

  /** Plans as the orchestrator writes them are lists, never dicts: with
      only those in the last five, the booster has no score and draws from
      [5, 10]. */
  lemma ListPlansNeutralBoost(fs: FileSystem, plans: seq<string>, draw: nat)
    requires forall p :: p in plans ==> LoadJson(fs, p).Some? && LoadJson(fs, p).value.JArr?
    ensures Boost(fs, plans, draw).Some? && 5 <= Boost(fs, plans, draw).value <= 10
  {
    NoDictNoScores(fs, Last5(plans));
  }

  // ---------------------------------------------------------------------------
  // Plan enrichment
  // ---------------------------------------------------------------------------

  /** The fields `deep_sync_edit_plans` adds to a dict plan. */
  function Enriched(m: Obj, now: nat, level: int, fxDraw: nat): (r: Obj)
    ensures r.Keys == m.Keys + {"gemini_sync", "creative_level", "boost_effect"}
    ensures r["creative_level"] == JInt(level)
    ensures r["boost_effect"].JStr? && r["boost_effect"].s in ExtraFx
    ensures forall k :: k in m && k != "gemini_sync" && k != "creative_level" && k != "boost_effect" ==> r[k] == m[k]
  {
    m["gemini_sync" := JReal((now as real) / 1000.0)]["creative_level" := JInt(level)]["boost_effect" := JStr(Choice(ExtraFx, fxDraw))]
  }

  /** One iteration of `deep_sync_edit_plans` on `p`. A plan that is not a
      dict makes the first key assignment raise, and a failing booster raises
      before the dump; both are caught and the file is left as it was. The
      shuffle of a list plan is never reached. */
  function SyncOne(fs: FileSystem, plans: seq<string>, p: string, now: nat, creativityDraw: nat, fxDraw: nat): (r: FileSystem)
    ensures r.Keys == fs.Keys
    ensures forall q :: q != p && q in fs ==> r[q] == fs[q]
  {
    match LoadJson(fs, p)
    case Some(JObj(m)) =>
      (match Boost(fs, plans, creativityDraw)
       case None => fs
       case Some(level) => WriteDoc(fs, p, JObj(Enriched(m, now, level, fxDraw)), now))
    case _ => fs
  }

  /** A plan that changes was a dict and now holds it enriched with the
      booster's level. */
  lemma SyncOneChanges(fs: FileSystem, plans: seq<string>, p: string, now: nat, creativityDraw: nat, fxDraw: nat) returns (m: Obj)
    requires p in fs && SyncOne(fs, plans, p, now, creativityDraw, fxDraw)[p] != fs[p]
    ensures LoadJson(fs, p) == Some(JObj(m)) && Boost(fs, plans, creativityDraw).Some?
    ensures LoadJson(SyncOne(fs, plans, p, now, creativityDraw, fxDraw), p)
      == Some(JObj(Enriched(m, now, Boost(fs, plans, creativityDraw).value, fxDraw)))
  {
    m := LoadJson(fs, p).value.fields;
  }

  /** The file system after the first `|ps|` plans of `plans`. */
  function SyncFold(fs: FileSystem, plans: seq<string>, ps: seq<string>, now: nat, cd: nat -> nat, fd: nat -> nat): (r: FileSystem)
    decreases |ps|
  {
    if ps == [] then fs
    else
      var n := |ps| - 1;
      SyncOne(SyncFold(fs, plans, ps[..n], now, cd, fd), plans, ps[n], now, cd(n), fd(n))
  }

  lemma SyncFoldNext(fs: FileSystem, plans: seq<string>, k: nat, now: nat, cd: nat -> nat, fd: nat -> nat)
    requires k < |plans|
    ensures SyncFold(fs, plans, plans[..k + 1], now, cd, fd)
      == SyncOne(SyncFold(fs, plans, plans[..k], now, cd, fd), plans, plans[k], now, cd(k), fd(k))
  {
    assert plans[..k + 1][..k] == plans[..k];
  }

  /** `deep_sync_edit_plans` over the listing `names`; `cd(k)` and `fd(k)`
      are the random draws for the k-th plan. */
  method DeepSyncEditPlans(fs: FileSystem, names: seq<string>, now: nat, cd: nat -> nat, fd: nat -> nat)
    returns (fs': FileSystem)
    ensures fs' == SyncFold(fs, AutoPlans(names), AutoPlans(names), now, cd, fd)
  {
    var plans := AutoPlans(names);
    fs' := fs;
    if plans == [] {
      return;
    }
    for k := 0 to |plans|
      invariant fs' == SyncFold(fs, plans, plans[..k], now, cd, fd)
    {
      SyncFoldNext(fs, plans, k, now, cd, fd);
      fs' := SyncOne(fs', plans, plans[k], now, cd(k), fd(k));
    }
    assert plans[..|plans|] == plans;
  }

  /** A plan holding a JSON list (as the orchestrator writes every plan) is
      left exactly as it was by a whole enrichment pass. */
  lemma {:induction false} ListPlansUntouched(fs: FileSystem, plans: seq<string>, ps: seq<string>, now: nat, cd: nat -> nat, fd: nat -> nat, p: string, xs: seq<Json>)
    requires LoadJson(fs, p) == Some(JArr(xs))
    ensures var r := SyncFold(fs, plans, ps, now, cd, fd); p in r && r[p] == fs[p]
    decreases |ps|
  {
    if ps != [] {
      ListPlansUntouched(fs, plans, ps[..|ps| - 1], now, cd, fd, p, xs);
    }
  }

  /** A pass creates no file, and every file it changes is a dict plan that
      now carries a creative level in [4, 10] and a boost effect from the
      table. */
  lemma SyncOnlyEnrichesDicts(fs: FileSystem, plans: seq<string>, ps: seq<string>, now: nat, cd: nat -> nat, fd: nat -> nat)
    ensures SyncFold(fs, plans, ps, now, cd, fd).Keys == fs.Keys
    ensures forall q :: q in fs && SyncFold(fs, plans, ps, now, cd, fd)[q] != fs[q] ==>
      q in ps && Enrichment(SyncFold(fs, plans, ps, now, cd, fd), q)
  {
    SyncFoldKeys(fs, plans, ps, now, cd, fd);
    forall q | q in fs && SyncFold(fs, plans, ps, now, cd, fd)[q] != fs[q]
      ensures q in ps && Enrichment(SyncFold(fs, plans, ps, now, cd, fd), q)
    {
      SyncFoldChanged(fs, plans, ps, now, cd, fd, q);
    }
  }

  /** A pass keeps the set of files. */
  lemma {:induction false} SyncFoldKeys(fs: FileSystem, plans: seq<string>, ps: seq<string>, now: nat, cd: nat -> nat, fd: nat -> nat)
    ensures SyncFold(fs, plans, ps, now, cd, fd).Keys == fs.Keys
    decreases |ps|
  {
    if ps != [] {
      SyncFoldKeys(fs, plans, ps[..|ps| - 1], now, cd, fd);
    }
  }

  /** A file that a pass changes is one of its plans, and is enriched. */
  lemma {:induction false} SyncFoldChanged(fs: FileSystem, plans: seq<string>, ps: seq<string>, now: nat, cd: nat -> nat, fd: nat -> nat, q: string)
    requires q in fs && q in SyncFold(fs, plans, ps, now, cd, fd)
    requires SyncFold(fs, plans, ps, now, cd, fd)[q] != fs[q]
    ensures q in ps && Enrichment(SyncFold(fs, plans, ps, now, cd, fd), q)
    decreases |ps|
  {
    if ps == [] {
      assert false;
    } else {
      var n := |ps| - 1;
      var prior := SyncFold(fs, plans, ps[..n], now, cd, fd);
      SyncFoldKeys(fs, plans, ps[..n], now, cd, fd);
      var r := SyncOne(prior, plans, ps[n], now, cd(n), fd(n));
      assert r == SyncFold(fs, plans, ps, now, cd, fd);
      if r[q] == prior[q] {
        SyncFoldChanged(fs, plans, ps[..n], now, cd, fd, q);
        assert q in ps[..n];
        EnrichmentSame(prior, r, q);
      } else {
        assert q == ps[n];
        SyncOneEnriches(prior, plans, q, now, cd(n), fd(n));
      }
    }
  }

  /** A plan that one step changes is enriched. */
  lemma SyncOneEnriches(fs: FileSystem, plans: seq<string>, p: string, now: nat, creativityDraw: nat, fxDraw: nat)
    requires p in fs && SyncOne(fs, plans, p, now, creativityDraw, fxDraw)[p] != fs[p]
    ensures Enrichment(SyncOne(fs, plans, p, now, creativityDraw, fxDraw), p)
  {
    var m := SyncOneChanges(fs, plans, p, now, creativityDraw, fxDraw);
  }

  /** Whether a file is enriched depends on that file alone. */
  lemma EnrichmentSame(a: FileSystem, b: FileSystem, q: string)
    requires q in a && q in b && a[q] == b[q]
    ensures Enrichment(a, q) == Enrichment(b, q)
  {
    assert LoadJson(a, q) == LoadJson(b, q);
  }

  /** `q` holds a dict with an integer creative level in [4, 10] and a boost
      effect from the table. */
  predicate Enrichment(fs: FileSystem, q: string) {
    LoadJson(fs, q).Some? && LoadJson(fs, q).value.JObj?
    && var m := LoadJson(fs, q).value.fields;
    "creative_level" in m && m["creative_level"].JInt? && 4 <= m["creative_level"].i <= 10
    && "boost_effect" in m && m["boost_effect"].JStr? && m["boost_effect"].s in ExtraFx
  }
}

=== FILE: media_optimizer.dfy ===
/** The media optimizer: every pass walks the output directory and, for each
    render that is not itself a product of the optimizer, writes a sharpened
    copy (`_enhanced.mp4`) and a compressed copy (`_optimized.mp4`) whose
    quality factor depends on the original's size; it then empties the temp
    directory except for edit plans. The ffmpeg runs are an input: for each
    job, the size of the file it produces, or nothing. */
module MediaOptimizer {
  import opened Common

  const OUTPUT := "storage/output"
  const TEMP := "storage/temp"
  const MiB: nat := 1024 * 1024

  // ---------------------------------------------------------------------------
  // compress_video, enhance_video, already_optimized
  // ---------------------------------------------------------------------------

  /** The constant rate factor `compress_video` picks for a file of `size`
      bytes. */
  function Crf(size: nat): (crf: nat)
    ensures crf == 25 <==> size < 10 * MiB
    ensures crf == 28 <==> 10 * MiB <= size < 50 * MiB
    ensures crf == 30 <==> 50 * MiB <= size
  {
    if size < 10 * MiB then 25
    else if size < 50 * MiB then 28
    else 30
  }

  /** A larger original is never compressed at a lower rate factor. */
  lemma CrfMonotone(a: nat, b: nat)
    requires a <= b
    ensures Crf(a) <= Crf(b)
  {
  }

  /** `path.replace(".mp4", "_optimized.mp4")`. */
  function OptimizedPath(path: string): string {
    ReplaceAll(path, ".mp4", "_optimized.mp4")
  }

  /** `path.replace(".mp4", "_enhanced.mp4")`. */
  function EnhancedPath(path: string): string {
    ReplaceAll(path, ".mp4", "_enhanced.mp4")
  }

  /** `already_optimized(filename)`. */
  predicate AlreadyOptimized(name: string) {
    EndsWith(name, "_optimized.mp4") || EndsWith(name, "_enhanced.mp4")
  }

  /** The names the loop of `optimize_loop` processes. */
  predicate Eligible(name: string) {
    EndsWith(name, ".mp4") && !AlreadyOptimized(name)
  }

  /** A job handed to ffmpeg. */
  datatype Job = Enhance(src: string) | Compress(src: string, crf: nat)

  /** `enhance_video(path)`: the sharpened copy is written when ffmpeg
      produces it; the exit status is ignored. */
  function EnhanceVideo(fs: FileSystem, path: string, run: Job -> Option<nat>, now: nat): (r: FileSystem)
    ensures run(Enhance(path)).None? ==> r == fs
    ensures run(Enhance(path)).Some? ==> r == fs[EnhancedPath(path) := FileRec(Media(run(Enhance(path)).value), now)]
  {
    match run(Enhance(path))
    case None => fs
    case Some(size) => fs[EnhancedPath(path) := FileRec(Media(size), now)]
  }

  /** `compress_video(path)`: the rate factor used and the new tree.
      `os.path.getsize` raises on a missing file, so the file must exist. */
  function CompressVideo(fs: FileSystem, path: string, run: Job -> Option<nat>, now: nat): (r: (nat, FileSystem))
    requires path in fs
    ensures r.0 == Crf(Size(fs[path].content))
    ensures run(Compress(path, r.0)).None? ==> r.1 == fs
    ensures run(Compress(path, r.0)).Some? ==>
      r.1 == fs[OptimizedPath(path) := FileRec(Media(run(Compress(path, r.0)).value), now)]
  {
    var crf := Crf(Size(fs[path].content));
    match run(Compress(path, crf))
    case None => (crf, fs)
    case Some(size) => (crf, fs[OptimizedPath(path) := FileRec(Media(size), now)])
  }

  // ---------------------------------------------------------------------------
  // Output names
  // ---------------------------------------------------------------------------

  /** A replacement at the end of a name whose only ".mp4" is the last one. */
  lemma ReplaceAtEnd(a: string, pat: string, rep: string)
    requires |pat| > 0 && SepOnlyAtEnd(a, pat)
    ensures ReplaceAll(a + pat, pat, rep) == a + rep
  {
    FindAtJoint(a, pat, []);
    assert a + pat + [] == a + pat;
    assert (a + pat)[..|a|] == a && (a + pat)[|a| + |pat|..] == [];
    assert Find([], pat) == None;
  }

  /** A suffix free of '/' of a joined path is a suffix of the name. */
  lemma EndsWithJoin(dir: string, m: string, x: string)
    requires EndsWith(Join(dir, m), x) && '/' !in x
    ensures EndsWith(m, x)
  {
    if |x| > |m| {
      SlashInSuffix(dir, m, x);
    }
    var s := Join(dir, m);
    assert s[|s| - |x|..] == m[|m| - |x|..];
  }

  lemma SlashInSuffix(dir: string, m: string, x: string)
    requires EndsWith(Join(dir, m), x) && |x| > |m|
    ensures '/' in x
  {
    var s := Join(dir, m);
    var k := |x| - |m| - 1;
    assert x[k] == s[|s| - |x| + k];
  }

  /** A joined path ends with a suffix of its name. */
  lemma JoinEndsWith(dir: string, m: string, x: string)
    requires EndsWith(m, x)
    ensures EndsWith(Join(dir, m), x)
  {
    var s := Join(dir, m);
    assert s[|s| - |x|..] == m[|m| - |x|..];
  }

  /** Both copies of a render are products of the optimizer, named after
      it: a render whose only ".mp4" is its extension gets
      `<stem>_enhanced.mp4` and `<stem>_optimized.mp4` beside it. */
  lemma DerivedNames(stem: string)
    requires SepOnlyAtEnd(stem, ".mp4")
    ensures EnhancedPath(Join(OUTPUT, stem + ".mp4")) == Join(OUTPUT, stem + "_enhanced.mp4")
    ensures OptimizedPath(Join(OUTPUT, stem + ".mp4")) == Join(OUTPUT, stem + "_optimized.mp4")
    ensures AlreadyOptimized(stem + "_enhanced.mp4") && AlreadyOptimized(stem + "_optimized.mp4")
  {
    var pre := OUTPUT + "/";
    SepAfterPrefix(pre, stem, ".mp4");
    assert Join(OUTPUT, stem + ".mp4") == (pre + stem) + ".mp4";
    ReplaceAtEnd(pre + stem, ".mp4", "_enhanced.mp4");
    ReplaceAtEnd(pre + stem, ".mp4", "_optimized.mp4");
    assert Join(OUTPUT, stem + "_enhanced.mp4") == (pre + stem) + "_enhanced.mp4";
    assert Join(OUTPUT, stem + "_optimized.mp4") == (pre + stem) + "_optimized.mp4";
    var e := stem + "_enhanced.mp4";
    var o := stem + "_optimized.mp4";
    assert e[|e| - 13..] == "_enhanced.mp4";
    assert o[|o| - 14..] == "_optimized.mp4";
  }

  /** The optimizer never writes over a render it processes: each copy's
      path ends in a marker that such a render's name does not. */
  lemma DerivedNotEligible(n: string, m: string)
    requires EndsWith(n, ".mp4") && Eligible(m)
    ensures EnhancedPath(Join(OUTPUT, n)) != Join(OUTPUT, m)
    ensures OptimizedPath(Join(OUTPUT, n)) != Join(OUTPUT, m)
  {
    JoinEndsWith(OUTPUT, n, ".mp4");
    DerivedNotEligibleBy(Join(OUTPUT, n), m, "_enhanced.mp4");
    DerivedNotEligibleBy(Join(OUTPUT, n), m, "_optimized.mp4");
  }

  lemma NoSlashInSuffixes()
    ensures '/' !in "_enhanced.mp4" && '/' !in "_optimized.mp4"
  {
  }

  lemma DerivedNotEligibleBy(p: string, m: string, rep: string)
    requires EndsWith(p, ".mp4") && Eligible(m)
    requires rep == "_enhanced.mp4" || rep == "_optimized.mp4"
    ensures ReplaceAll(p, ".mp4", rep) != Join(OUTPUT, m)
  {
    assert ".mp4"[1..] == "mp4";
    NoSlashInSuffixes();
    ReplaceEndsWith(p, ".mp4", rep);
    if ReplaceAll(p, ".mp4", rep) == Join(OUTPUT, m) {
      EndsWithJoin(OUTPUT, m, rep);
    }
  }

  /** The two replacements the optimizer makes: a marker and the extension. */
  predicate Marker(rep: string) {
    rep == "_enhanced.mp4" || rep == "_optimized.mp4"
  }

  /** In `s[..i] + rep + x`, where `i` is the first ".mp4" of `s`, the first
      ".mp4" is the one that ends `rep`: the marker has no '.' before it and
      starts with a character no match can continue with. */
  lemma {:induction false} FirstMatchInReplace(s: string, i: nat, rep: string, x: string)
    requires Marker(rep) && Find(s, ".mp4") == Some(i)
    ensures Find((s[..i] + rep) + x, ".mp4") == Some(i + |rep| - 4)
  {
    var r := (s[..i] + rep) + x;
    var m := i + |rep| - 4;
    assert r[m..m + 4] == rep[|rep| - 4..];
    forall j: nat | j < m
      ensures !MatchAt(r, ".mp4", j)
    {
      NoEarlyMatch(s, i, rep, x, j);
    }
    FindIs(r, ".mp4", m);
  }

  lemma {:induction false} NoEarlyMatch(s: string, i: nat, rep: string, x: string, j: nat)
    requires Marker(rep) && Find(s, ".mp4") == Some(i) && j < i + |rep| - 4
    ensures !MatchAt((s[..i] + rep) + x, ".mp4", j)
  {
    if j + 4 <= i {
      NoMatchBefore(s, i, rep, x, j);
    } else if j < i {
      NoMatchAcross(s[..i], rep, x, j);
    } else {
      NoMatchInMarker(s[..i], rep, x, j);
    }
  }

  /** A match wholly before the cut would be a match of the original. */
  lemma {:induction false} NoMatchBefore(s: string, i: nat, rep: string, x: string, j: nat)
    requires j + 4 <= i <= |s| && !MatchAt(s, ".mp4", j)
    ensures !MatchAt((s[..i] + rep) + x, ".mp4", j)
  {
    var r := (s[..i] + rep) + x;
    assert r[..i] == s[..i];
    assert r[j..j + 4] == r[..i][j..j + 4] == s[..i][j..j + 4] == s[j..j + 4];
  }

  /** A match across the cut would need the marker's '_' to be part of ".mp4". */
  lemma {:induction false} NoMatchAcross(a: string, rep: string, x: string, j: nat)
    requires Marker(rep) && j < |a| < j + 4
    ensures !MatchAt((a + rep) + x, ".mp4", j)
  {
    var r := (a + rep) + x;
    assert r[|a|] == '_';
    if j + 4 <= |r| {
      assert r[j..j + 4][|a| - j] == r[|a|];
    }
  }

  /** A match starting inside the marker before its ".mp4" would need a '.'
      there. */
  lemma {:induction false} NoMatchInMarker(a: string, rep: string, x: string, j: nat)
    requires Marker(rep) && |a| <= j < |a| + |rep| - 4
    ensures !MatchAt((a + rep) + x, ".mp4", j)
  {
    var r := (a + rep) + x;
    assert r[j] == rep[j - |a|] != '.';
    if j + 4 <= |r| {
      assert r[j..j + 4][0] == r[j];
    }
  }

  /** The replaced text, split at its first match. */
  lemma {:induction false} ReplacedFirst(s: string, rep: string) returns (i: nat, t: string)
    requires Marker(rep) && Find(s, ".mp4").Some?
    ensures Find(s, ".mp4") == Some(i) && i + 4 <= |s| && t == ReplaceAll(s[i + 4..], ".mp4", rep)
    ensures ReplaceAll(s, ".mp4", rep) == (s[..i] + rep) + t
    ensures Find(ReplaceAll(s, ".mp4", rep), ".mp4") == Some(i + |rep| - 4)
  {
    i := Find(s, ".mp4").value;
    t := ReplaceAll(s[i + 4..], ".mp4", rep);
    ReplaceAllFirst(s, ".mp4", rep);
    FirstMatchInReplace(s, i, rep, t);
  }

  /** Equal replacements: both texts hold ".mp4" or neither does. */
  lemma {:induction false} ReplacedBoth(s1: string, s2: string, rep: string)
    requires Marker(rep) && ReplaceAll(s1, ".mp4", rep) == ReplaceAll(s2, ".mp4", rep)
    ensures Find(s1, ".mp4").Some? <==> Find(s2, ".mp4").Some?
  {
    var r := ReplaceAll(s1, ".mp4", rep);
    if Find(s1, ".mp4").Some? {
      var i, t := ReplacedFirst(s1, rep);
      assert MatchAt(r, ".mp4", i + |rep| - 4);
    }
    if Find(s2, ".mp4").Some? {
      var i, t := ReplacedFirst(s2, rep);
      assert MatchAt(r, ".mp4", i + |rep| - 4);
    }
  }

  /** Equal replacements: the first ".mp4" is at the same place, with the
      same text before it and equal replacements after it. */
  lemma {:induction false} ReplacedSame(s1: string, s2: string, rep: string) returns (i: nat)
    requires Marker(rep) && ReplaceAll(s1, ".mp4", rep) == ReplaceAll(s2, ".mp4", rep)
    requires Find(s1, ".mp4").Some? && Find(s2, ".mp4").Some?
    ensures Find(s1, ".mp4") == Some(i) && Find(s2, ".mp4") == Some(i) && s1[..i] == s2[..i]
    ensures ReplaceAll(s1[i + 4..], ".mp4", rep) == ReplaceAll(s2[i + 4..], ".mp4", rep)
  {
    var t1, i2, t2;
    i, t1 := ReplacedFirst(s1, rep);
    i2, t2 := ReplacedFirst(s2, rep);
    SameSplit(ReplaceAll(s1, ".mp4", rep), s1[..i], s2[..i2], rep, t1, t2, i + |rep| - 4);
  }

  /** One text cut two ways at the same place: the parts agree. */
  lemma {:induction false} SameSplit(r: string, x1: string, x2: string, rep: string, t1: string, t2: string, f: int)
    requires r == (x1 + rep) + t1 && r == (x2 + rep) + t2
    requires f == |x1| + |rep| - 4 && f == |x2| + |rep| - 4
    ensures x1 == x2 && t1 == t2
  {
    assert x1 == r[..|x1|] == x2;
    assert t1 == r[|x1| + |rep|..] == t2;
  }

  /** Texts that agree before and after a ".mp4" at the same place are
      equal. */
  lemma {:induction false} Reassemble(s1: string, s2: string, i: nat)
    requires MatchAt(s1, ".mp4", i) && MatchAt(s2, ".mp4", i)
    requires s1[..i] == s2[..i] && s1[i + 4..] == s2[i + 4..]
    ensures s1 == s2
  {
    assert |s1| == |s2|;
    forall k | 0 <= k < |s1|
      ensures s1[k] == s2[k]
    {
      if k < i {
        assert s1[k] == s1[..i][k] && s2[k] == s2[..i][k];
      } else if k < i + 4 {
        assert s1[k] == s1[i..i + 4][k - i] && s2[k] == s2[i..i + 4][k - i];
      } else {
        assert s1[k] == s1[i + 4..][k - i - 4] && s2[k] == s2[i + 4..][k - i - 4];
      }
    }
  }

  /** `path.replace(".mp4", marker)` tells paths apart. */
  lemma {:induction false} ReplaceInjective(s1: string, s2: string, rep: string)
    requires Marker(rep) && ReplaceAll(s1, ".mp4", rep) == ReplaceAll(s2, ".mp4", rep)
    ensures s1 == s2
    decreases |s1| + |s2|
  {
    ReplacedBoth(s1, s2, rep);
    if Find(s1, ".mp4").Some? {
      var i := ReplacedSame(s1, s2, rep);
      ReplaceInjective(s1[i + 4..], s2[i + 4..], rep);
      Reassemble(s1, s2, i);
    }
  }

  /** The copies of two renders never share a path: an enhanced copy is not
      an optimized one, and distinct renders have distinct copies. */
  lemma {:induction false} CopiesApart(n: string, m: string)
    requires EndsWith(n, ".mp4") && EndsWith(m, ".mp4")
    ensures EnhancedPath(Join(OUTPUT, n)) != OptimizedPath(Join(OUTPUT, m))
    ensures n != m ==> EnhancedPath(Join(OUTPUT, n)) != EnhancedPath(Join(OUTPUT, m))
    ensures n != m ==> OptimizedPath(Join(OUTPUT, n)) != OptimizedPath(Join(OUTPUT, m))
  {
    MarkersApart(Join(OUTPUT, n), Join(OUTPUT, m));
    if EnhancedPath(Join(OUTPUT, n)) == EnhancedPath(Join(OUTPUT, m)) {
      ReplaceInjective(Join(OUTPUT, n), Join(OUTPUT, m), "_enhanced.mp4");
      JoinInjective(OUTPUT, n, m);
    }
    if OptimizedPath(Join(OUTPUT, n)) == OptimizedPath(Join(OUTPUT, m)) {
      ReplaceInjective(Join(OUTPUT, n), Join(OUTPUT, m), "_optimized.mp4");
      JoinInjective(OUTPUT, n, m);
    }
  }

  /** The two copies of renders end in different markers. */
  lemma {:induction false} MarkersApart(p: string, q: string)
    requires EndsWith(p, ".mp4") && EndsWith(q, ".mp4")
    ensures EnhancedPath(p) != OptimizedPath(q)
  {
    assert ".mp4"[1..] == "mp4";
    ReplaceEndsWith(p, ".mp4", "_enhanced.mp4");
    ReplaceEndsWith(q, ".mp4", "_optimized.mp4");
    SuffixesClash(EnhancedPath(p));
  }

  /** No name ends in both markers. */
  lemma {:induction false} SuffixesClash(x: string)
    requires EndsWith(x, "_enhanced.mp4")
    ensures !EndsWith(x, "_optimized.mp4")
  {
    assert x[|x| - 13] == x[|x| - 13..][0] == '_';
    if |x| >= 14 {
      assert x[|x| - 14..][1] == x[|x| - 13];
    }
  }

  // ---------------------------------------------------------------------------
  // optimize_loop: one pass over the output directory
  // ---------------------------------------------------------------------------

  /** One iteration of the pass: the job record `(name, rate factor)` and the
      new tree. */
  function OptStep(fs: FileSystem, n: string, run: Job -> Option<nat>, now: nat): (r: (seq<(string, nat)>, FileSystem))
    requires Join(OUTPUT, n) in fs
    ensures fs.Keys <= r.1.Keys
  {
    if !EndsWith(n, ".mp4") || AlreadyOptimized(n) then ([], fs)
    else
      var p := Join(OUTPUT, n);
      var fs1 := EnhanceVideo(fs, p, run, now);
      var c := CompressVideo(fs1, p, run, now);
      ([(n, c.0)], c.1)
  }

  function OptFold(fs: FileSystem, names: seq<string>, run: Job -> Option<nat>, now: nat): (r: (seq<(string, nat)>, FileSystem))
    requires forall n :: n in names ==> Join(OUTPUT, n) in fs
    ensures fs.Keys <= r.1.Keys
    decreases |names|
  {
    if names == [] then ([], fs)
    else
      var s := OptStep(fs, names[0], run, now);
      var rest := OptFold(s.1, names[1..], run, now);
      (s.0 + rest.0, rest.1)
  }

  /** The pass from position `k` on: the step on `names[k]`, then the rest;
      a name the step skips adds nothing. */
  lemma OptFoldFirst(fs: FileSystem, names: seq<string>, k: nat, run: Job -> Option<nat>, now: nat)
    requires k < |names| && forall n :: n in names ==> Join(OUTPUT, n) in fs
    ensures var s := OptStep(fs, names[k], run, now);
      OptFold(fs, names[k..], run, now) == (s.0 + OptFold(s.1, names[k + 1..], run, now).0, OptFold(s.1, names[k + 1..], run, now).1)
    ensures !Eligible(names[k]) ==> OptFold(fs, names[k..], run, now) == OptFold(fs, names[k + 1..], run, now)
  {
    assert names[k..][0] == names[k] && names[k..][1..] == names[k + 1..];
    if !Eligible(names[k]) {
      var rest := OptFold(fs, names[k + 1..], run, now);
      assert [] + rest.0 == rest.0;
    }
  }

  /** The body of `optimize_loop`'s `for` over the listing `names` of the
      output directory (every listed file exists); `jobs` records the
      compressions and their rate factors in order. */
  method OptimizePass(fs: FileSystem, names: seq<string>, run: Job -> Option<nat>, now: nat)
    returns (jobs: seq<(string, nat)>, fs': FileSystem)
    requires forall n :: n in names ==> Join(OUTPUT, n) in fs
    ensures jobs == OptFold(fs, names, run, now).0 && fs' == OptFold(fs, names, run, now).1
    ensures jobs == Jobs(fs, names)
    ensures forall n :: n in names && Eligible(n) ==>
      CopyWritten(fs, fs', EnhancedPath(Join(OUTPUT, n)), Enhance(Join(OUTPUT, n)), run, now)
      && CopyWritten(fs, fs', OptimizedPath(Join(OUTPUT, n)), Compress(Join(OUTPUT, n), Crf(Size(fs[Join(OUTPUT, n)].content))), run, now)
    ensures forall q :: (forall n :: n in names && Eligible(n) ==> !IsCopyOf(q, n)) ==> Agree(fs, fs', q)
  {
    jobs, fs' := [], fs;
    assert names[0..] == names;
    for k := 0 to |names|
      invariant fs.Keys <= fs'.Keys
      invariant OptFold(fs, names, run, now).0 == jobs + OptFold(fs', names[k..], run, now).0
      invariant OptFold(fs, names, run, now).1 == OptFold(fs', names[k..], run, now).1
    {
      OptFoldFirst(fs', names, k, run, now);
      var f := names[k];
      if !EndsWith(f, ".mp4") {
        continue;
      }
      if AlreadyOptimized(f) {
        continue;
      }
      var path := Join(OUTPUT, f);
      fs' := EnhanceVideo(fs', path, run, now);
      var compressed := CompressVideo(fs', path, run, now);
      fs' := compressed.1;
      SeqAssoc(jobs, [(f, compressed.0)], OptFold(fs', names[k + 1..], run, now).0);
      jobs := jobs + [(f, compressed.0)];
    }
    assert names[|names|..] == [];
    PassJobs(fs, names, run, now);
    forall n | n in names && Eligible(n)
      ensures CopyWritten(fs, fs', EnhancedPath(Join(OUTPUT, n)), Enhance(Join(OUTPUT, n)), run, now)
      ensures CopyWritten(fs, fs', OptimizedPath(Join(OUTPUT, n)), Compress(Join(OUTPUT, n), Crf(Size(fs[Join(OUTPUT, n)].content))), run, now)
    {
      PassCopies(fs, names, run, now, n);
    }
    forall q | forall n :: n in names && Eligible(n) ==> !IsCopyOf(q, n)
      ensures Agree(fs, fs', q)
    {
      PassFrame(fs, names, run, now, q);
    }
  }

  /** The compressions a pass performs: one per processed render, in listing
      order, at the rate factor of that render's size. */
  function Jobs(fs: FileSystem, names: seq<string>): (r: seq<(string, nat)>)
    decreases |names|
  {
    if names == [] then [] else JobOf(fs, names[0]) + Jobs(fs, names[1..])
  }

  /** The compression record of one listed name, if it is processed. */
  function JobOf(fs: FileSystem, n: string): seq<(string, nat)> {
    if Eligible(n) then [(n, Crf(SizeOf(fs, Join(OUTPUT, n))))] else []
  }

  /** The job records name exactly the processed renders, in listing
      order, each with the rate factor of its size. */
  lemma {:induction false} JobsMeaning(fs: FileSystem, names: seq<string>)
    ensures |Jobs(fs, names)| == |Filter(names, Eligible)|
    ensures forall k :: 0 <= k < |Jobs(fs, names)| ==>
      Jobs(fs, names)[k].0 == Filter(names, Eligible)[k]
      && Jobs(fs, names)[k].1 == Crf(SizeOf(fs, Join(OUTPUT, Jobs(fs, names)[k].0)))
    decreases |names|
  {
    if names != [] {
      JobsMeaning(fs, names[1..]);
    }
  }

  /** A step leaves every processed render as it was. */
  lemma StepKeepsOriginal(fs: FileSystem, n: string, run: Job -> Option<nat>, now: nat, m: string)
    requires Join(OUTPUT, n) in fs && Eligible(m) && Join(OUTPUT, m) in fs
    ensures OptStep(fs, n, run, now).1[Join(OUTPUT, m)] == fs[Join(OUTPUT, m)]
  {
    if Eligible(n) {
      DerivedNotEligible(n, m);
    }
  }

  /** A pass leaves every processed render as it was: the originals are
      neither replaced nor removed. */
  lemma {:induction false} PassKeepsOriginals(fs: FileSystem, names: seq<string>, run: Job -> Option<nat>, now: nat, m: string)
    requires forall n :: n in names ==> Join(OUTPUT, n) in fs
    requires Eligible(m) && Join(OUTPUT, m) in fs
    ensures OptFold(fs, names, run, now).1[Join(OUTPUT, m)] == fs[Join(OUTPUT, m)]
    decreases |names|
  {
    if names != [] {
      var s := OptStep(fs, names[0], run, now);
      StepKeepsOriginal(fs, names[0], run, now, m);
      PassKeepsOriginals(s.1, names[1..], run, now, m);
    }
  }

  /** Job records depend only on the sizes of the processed renders. */
  lemma {:induction false} JobsSameSizes(fs: FileSystem, fs1: FileSystem, names: seq<string>)
    requires forall m :: m in names && Eligible(m) ==> SizeOf(fs1, Join(OUTPUT, m)) == SizeOf(fs, Join(OUTPUT, m))
    ensures Jobs(fs1, names) == Jobs(fs, names)
    decreases |names|
  {
    if names != [] {
      JobsSameSizes(fs, fs1, names[1..]);
    }
  }

  /** A pass compresses every render that is not a product of the optimizer,
      in listing order, at the rate factor of its size. */
  lemma {:induction false} PassJobs(fs: FileSystem, names: seq<string>, run: Job -> Option<nat>, now: nat)
    requires forall n :: n in names ==> Join(OUTPUT, n) in fs
    ensures OptFold(fs, names, run, now).0 == Jobs(fs, names)
    decreases |names|
  {
    if names != [] {
      var s := OptStep(fs, names[0], run, now);
      if Eligible(names[0]) {
        DerivedNotEligible(names[0], names[0]);
      }
      PassJobs(s.1, names[1..], run, now);
      forall m | m in names[1..] && Eligible(m)
        ensures SizeOf(s.1, Join(OUTPUT, m)) == SizeOf(fs, Join(OUTPUT, m))
      {
        StepKeepsOriginal(fs, names[0], run, now, m);
      }
      JobsSameSizes(fs, s.1, names[1..]);
    }
  }

  lemma {:induction false} JobsAppend(fs: FileSystem, a: seq<string>, b: seq<string>)
    ensures Jobs(fs, a + b) == Jobs(fs, a) + Jobs(fs, b)
    decreases |a|
  {
    if a != [] {
      assert (a + b)[0] == a[0] && (a + b)[1..] == a[1..] + b;
      JobsAppend(fs, a[1..], b);
      SeqAssoc(JobOf(fs, a[0]), Jobs(fs, a[1..]), Jobs(fs, b));
    } else {
      assert a + b == b;
    }
  }

  lemma {:induction false} NoneEligible(fs: FileSystem, copies: seq<string>)
    requires forall c :: c in copies ==> AlreadyOptimized(c)
    ensures Jobs(fs, copies) == []
    decreases |copies|
  {
    if copies != [] {
      NoneEligible(fs, copies[1..]);
    }
  }

  /** Nothing records what was processed: a second pass, over a listing that
      now also holds the copies, compresses exactly the same renders again,
      at the same rate factors. */
  lemma ReprocessedEveryPass(fs: FileSystem, names: seq<string>, copies: seq<string>, run: Job -> Option<nat>, now: nat)
    requires forall n :: n in names ==> Join(OUTPUT, n) in fs
    requires forall c :: c in copies ==> AlreadyOptimized(c) && Join(OUTPUT, c) in OptFold(fs, names, run, now).1
    ensures OptFold(OptFold(fs, names, run, now).1, names + copies, run, now).0 == OptFold(fs, names, run, now).0
  {
    var fs1 := OptFold(fs, names, run, now).1;
    PassJobs(fs, names, run, now);
    PassJobs(fs1, names + copies, run, now);
    JobsAppend(fs1, names, copies);
    NoneEligible(fs1, copies);
    forall m | m in names && Eligible(m)
      ensures SizeOf(fs1, Join(OUTPUT, m)) == SizeOf(fs, Join(OUTPUT, m))
    {
      PassKeepsOriginals(fs, names, run, now, m);
    }
    JobsSameSizes(fs, fs1, names);
  }

  /** `q` holds the same file, or none, in both trees. */
  predicate Agree(a: FileSystem, b: FileSystem, q: string) {
    (q in a <==> q in b) && (q in a ==> a[q] == b[q])
  }

  /** What a pass leaves at a copy's `path` for the ffmpeg `job` that
      writes it: the file ffmpeg produced, stamped `now`, or else whatever
      was there before. */
  predicate CopyWritten(fs: FileSystem, r: FileSystem, path: string, job: Job, run: Job -> Option<nat>, now: nat) {
    if run(job).Some? then path in r && r[path] == FileRec(Media(run(job).value), now)
    else Agree(fs, r, path)
  }

  /** The two copy paths of render `n`. */
  predicate IsCopyOf(q: string, n: string) {
    q == EnhancedPath(Join(OUTPUT, n)) || q == OptimizedPath(Join(OUTPUT, n))
  }

  /** A step on a processed render writes its two copies: the sharpened one
      from the enhance job, the compressed one from the compression at the
      rate factor of the render's size; every other path is untouched. */
  lemma StepWrites(fs: FileSystem, n: string, run: Job -> Option<nat>, now: nat)
    requires Join(OUTPUT, n) in fs && Eligible(n)
    ensures var p := Join(OUTPUT, n);
      var r := OptStep(fs, n, run, now).1;
      CopyWritten(fs, r, EnhancedPath(p), Enhance(p), run, now)
      && CopyWritten(fs, r, OptimizedPath(p), Compress(p, Crf(Size(fs[p].content))), run, now)
      && forall q :: !IsCopyOf(q, n) ==> Agree(fs, r, q)
  {
    DerivedNotEligible(n, n);
    CopiesApart(n, n);
  }

  /** A step changes nothing but the copies of the render it processes. */
  lemma StepFrame(fs: FileSystem, n: string, run: Job -> Option<nat>, now: nat, q: string)
    requires Join(OUTPUT, n) in fs && !(Eligible(n) && IsCopyOf(q, n))
    ensures Agree(fs, OptStep(fs, n, run, now).1, q)
  {
    if Eligible(n) {
      StepWrites(fs, n, run, now);
    }
  }

  /** A pass changes nothing but the copies of the renders it processes:
      every other path holds the same file, or none, after it. */
  lemma {:induction false} PassFrame(fs: FileSystem, names: seq<string>, run: Job -> Option<nat>, now: nat, q: string)
    requires forall n :: n in names ==> Join(OUTPUT, n) in fs
    requires forall n :: n in names && Eligible(n) ==> !IsCopyOf(q, n)
    ensures Agree(fs, OptFold(fs, names, run, now).1, q)
    decreases |names|
  {
    if names != [] {
      var s := OptStep(fs, names[0], run, now);
      StepFrame(fs, names[0], run, now, q);
      PassFrame(s.1, names[1..], run, now, q);
    }
  }

  /** A pass writes both copies of every processed render it lists: each
      holds the file ffmpeg produced, stamped `now`, and a copy ffmpeg did
      not produce is left as it was; the compression runs at the rate factor
      of the original's size. */
  lemma {:induction false} PassCopies(fs: FileSystem, names: seq<string>, run: Job -> Option<nat>, now: nat, n: string)
    requires forall m :: m in names ==> Join(OUTPUT, m) in fs
    requires n in names && Eligible(n)
    ensures var p := Join(OUTPUT, n);
      var r := OptFold(fs, names, run, now).1;
      CopyWritten(fs, r, EnhancedPath(p), Enhance(p), run, now)
      && CopyWritten(fs, r, OptimizedPath(p), Compress(p, Crf(Size(fs[p].content))), run, now)
    decreases |names|
  {
    var p := Join(OUTPUT, n);
    var s := OptStep(fs, names[0], run, now);
    var r := OptFold(fs, names, run, now).1;
    StepKeepsOriginal(fs, names[0], run, now, n);
    if n in names[1..] {
      PassCopies(s.1, names[1..], run, now, n);
      if names[0] != n {
        NotCopyOfOther(names[0], n);
        StepFrame(fs, names[0], run, now, EnhancedPath(p));
        StepFrame(fs, names[0], run, now, OptimizedPath(p));
      } else {
        StepWrites(fs, n, run, now);
      }
    } else {
      assert names[0] == n;
      StepWrites(fs, n, run, now);
      forall m | m in names[1..] && Eligible(m)
        ensures !IsCopyOf(EnhancedPath(p), m) && !IsCopyOf(OptimizedPath(p), m)
      {
        NotCopyOfOther(m, n);
      }
      PassFrame(s.1, names[1..], run, now, EnhancedPath(p));
      PassFrame(s.1, names[1..], run, now, OptimizedPath(p));
    }
  }

  /** Distinct renders have distinct copies. */
  lemma NotCopyOfOther(m: string, n: string)
    requires Eligible(n) && m != n
    ensures Eligible(m) ==> !IsCopyOf(EnhancedPath(Join(OUTPUT, n)), m) && !IsCopyOf(OptimizedPath(Join(OUTPUT, n)), m)
  {
    if Eligible(m) {
      CopiesApart(n, m);
      CopiesApart(m, n);
    }
  }

  // ---------------------------------------------------------------------------
  // clean_temp
  // ---------------------------------------------------------------------------

  /** Names `clean_temp` leaves alone. */
  predicate IsEditPlan(n: string) {
    EndsWith(n, "_edit_plan.json")
  }

  /** One iteration of `clean_temp` over the listing; `fails` holds the names
      whose unlink raises (the error is swallowed). */
  function CleanStep(fs: FileSystem, n: string, fails: set<string>): (r: FileSystem)
    ensures r.Keys <= fs.Keys
  {
    if IsEditPlan(n) then fs
    else if Join(TEMP, n) in fs && n !in fails then fs - {Join(TEMP, n)}
    else fs
  }

  function CleanFold(fs: FileSystem, names: seq<string>, fails: set<string>): (r: FileSystem)
    decreases |names|
  {
    if names == [] then fs
    else CleanStep(CleanFold(fs, names[..|names| - 1], fails), names[|names| - 1], fails)
  }

  /** `clean_temp()` with the listing `names` of the temp directory. */
  method CleanTemp(fs: FileSystem, names: seq<string>, fails: set<string>) returns (fs': FileSystem)
    ensures fs' == CleanFold(fs, names, fails)
  {
    fs' := fs;
    for k := 0 to |names|
      invariant fs' == CleanFold(fs, names[..k], fails)
    {
      assert names[..k + 1][..k] == names[..k];
      var name := names[k];
      if EndsWith(name, "_edit_plan.json") {
        continue;
      }
      var f := Join(TEMP, name);
      if f in fs' && name !in fails {
        fs' := fs' - {f};
      }
    }
    assert names[..|names|] == names;
  }

  /** Every listed file that is not an edit plan and whose unlink does not
      fail is gone, task descriptors included. */
  lemma {:induction false} CleanTempDeletes(fs: FileSystem, names: seq<string>, fails: set<string>, n: string)
    requires n in names && !IsEditPlan(n) && n !in fails
    ensures Join(TEMP, n) !in CleanFold(fs, names, fails)
    decreases |names|
  {
    var pre := names[..|names| - 1];
    var l := names[|names| - 1];
    if n != l {
      assert n in pre by {
        var i :| 0 <= i < |names| && names[i] == n;
        assert pre[i] == n;
      }
      CleanTempDeletes(fs, pre, fails, n);
    }
  }

  /** A file is kept, unchanged, unless it is a listed name that is neither
      an edit plan nor failing. */
  lemma {:induction false} CleanTempKeeps(fs: FileSystem, names: seq<string>, fails: set<string>, p: string)
    requires p in fs
    requires forall n :: n in names && p == Join(TEMP, n) ==> IsEditPlan(n) || n in fails
    ensures p in CleanFold(fs, names, fails) && CleanFold(fs, names, fails)[p] == fs[p]
    decreases |names|
  {
    if names != [] {
      CleanTempKeeps(fs, names[..|names| - 1], fails, p);
    }
  }

  /** Edit plans survive the cleaning. */
  lemma EditPlansSurvive(fs: FileSystem, names: seq<string>, fails: set<string>, n: string)
    requires IsEditPlan(n) && Join(TEMP, n) in fs
    ensures Join(TEMP, n) in CleanFold(fs, names, fails)
  {
    forall m | m in names && Join(TEMP, n) == Join(TEMP, m)
      ensures IsEditPlan(m) || m in fails
    {
      JoinInjective(TEMP, n, m);
    }
    CleanTempKeeps(fs, names, fails, Join(TEMP, n));
  }

  /** One pass of `optimize_loop`: process the output listing, then clean
      the temp directory with its listing. */
  method OptimizeLoopPass(fs: FileSystem, outputNames: seq<string>, tempNames: seq<string>,
                          run: Job -> Option<nat>, fails: set<string>, now: nat)
    returns (jobs: seq<(string, nat)>, fs': FileSystem)
    requires forall n :: n in outputNames ==> Join(OUTPUT, n) in fs
    ensures jobs == Jobs(fs, outputNames)
    ensures fs' == CleanFold(OptFold(fs, outputNames, run, now).1, tempNames, fails)
    ensures forall n :: n in outputNames && Eligible(n) ==>
      Produced(fs', EnhancedPath(Join(OUTPUT, n)), Enhance(Join(OUTPUT, n)), run, now)
      && Produced(fs', OptimizedPath(Join(OUTPUT, n)), Compress(Join(OUTPUT, n), Crf(Size(fs[Join(OUTPUT, n)].content))), run, now)
  {
    var fs1;
    jobs, fs1 := OptimizePass(fs, outputNames, run, now);
    fs' := CleanTemp(fs1, tempNames, fails);
    forall n | n in outputNames && Eligible(n)
      ensures Produced(fs', EnhancedPath(Join(OUTPUT, n)), Enhance(Join(OUTPUT, n)), run, now)
      ensures Produced(fs', OptimizedPath(Join(OUTPUT, n)), Compress(Join(OUTPUT, n), Crf(Size(fs[Join(OUTPUT, n)].content))), run, now)
    {
      var p := Join(OUTPUT, n);
      CopySurvives(fs1, tempNames, fails, n, "_enhanced.mp4", Enhance(p), run, now);
      CopySurvives(fs1, tempNames, fails, n, "_optimized.mp4", Compress(p, Crf(Size(fs[p].content))), run, now);
    }
  }

  /** A copy ffmpeg produced is in the tree, stamped `now`. */
  predicate Produced(r: FileSystem, path: string, job: Job, run: Job -> Option<nat>, now: nat) {
    run(job).Some? ==> path in r && r[path] == FileRec(Media(run(job).value), now)
  }

  /** The cleaning of the temp directory keeps the copies in the output
      directory. */
  lemma CopySurvives(fs: FileSystem, names: seq<string>, fails: set<string>, n: string, rep: string,
                      job: Job, run: Job -> Option<nat>, now: nat)
    requires Marker(rep) && Produced(fs, ReplaceAll(Join(OUTPUT, n), ".mp4", rep), job, run, now)
    ensures Produced(CleanFold(fs, names, fails), ReplaceAll(Join(OUTPUT, n), ".mp4", rep), job, run, now)
  {
    var q := ReplaceAll(Join(OUTPUT, n), ".mp4", rep);
    if q in fs {
      forall m | m in names
        ensures q != Join(TEMP, m)
      {
        OutputCopyNotTemp(n, m, rep);
      }
      CleanTempKeeps(fs, names, fails, q);
    }
  }

  /** A copy of a render lies in the output directory, never in the temp
      directory: the replacement leaves the directory part alone. */
  lemma OutputCopyNotTemp(n: string, m: string, rep: string)
    requires Marker(rep)
    ensures ReplaceAll(Join(OUTPUT, n), ".mp4", rep) != Join(TEMP, m)
  {
    var s := Join(OUTPUT, n);
    assert Join(TEMP, m)[8] == 't';
    if Find(s, ".mp4").Some? {
      var i := Find(s, ".mp4").value;
      HeadBeforeMatch(s, n, i);
      ReplaceAllFirst(s, ".mp4", rep);
      assert ReplaceAll(s, ".mp4", rep)[8] == s[..i][8];
    }
  }

  /** No ".mp4" starts within "storage/o". */
  lemma HeadBeforeMatch(s: string, n: string, i: nat)
    requires s == Join(OUTPUT, n) && MatchAt(s, ".mp4", i)
    ensures 8 < i && s[8] == 'o'
  {
    assert s[..15] == "storage/output/";
    assert s[i] == s[i..i + 4][0] == '.';
    assert forall j :: 0 <= j < 9 ==> s[j] == "storage/output/"[j];
  }
}

=== FILE: orchestrator.dfy ===
/** The pipeline runner: each pass finds the task descriptors in the temp
    directory and runs every one through analyse, pick clips, plan, render and
    save. The analyser subprocess, ffmpeg and `random` are oracle inputs. */
module Orchestrator {
  import opened Common
  import AudioAnalysis

  const TEMP := "storage/temp"
  const OUTPUT := "storage/output"

  const MoodEffects: map<string, seq<string>> := map[
    "sad" := ["blue_soft", "slow_fade", "blur_light"],
    "epic" := ["impact_flash", "shake_heavy", "zoom_crash"],
    "romantic" := ["warm_glow", "soft_zoom"],
    "dark" := ["red_flash", "glitch_hard"],
    "motivational" := ["speed_pop", "white_flash"]
  ]

  /** `list(MOOD_EFFECTS.keys())`, in declaration order. */
  const MoodKeys: seq<string> := ["sad", "epic", "romantic", "dark", "motivational"]

  const Transitions: seq<string> := ["shake_cut", "cross_flash", "zoom_whip", "spin_cut", "impact_cut", "anime_glitch"]

  const Effects: seq<string> := ["soft_glow", "shake", "lighting_flash", "zoom_hit", "glitch", "speedline", "color_pop"]

  lemma MoodKeysAreTableKeys()
    ensures forall k :: k in MoodKeys <==> k in MoodEffects
    ensures forall k :: k in MoodEffects ==> |MoodEffects[k]| > 0
  {
  }

  // ---------------------------------------------------------------------------
  // detect_tasks, load_task
  // ---------------------------------------------------------------------------

  /** A `task_*.json` entry whose path does not contain `_auto_plan`. */
  predicate Selected(n: string) {
    GlobMatch(n, "task_", ".json") && !Contains(Join(TEMP, n), "_auto_plan")
  }

  /** `detect_tasks`: the `task_*.json` entries whose path does not contain
      `_auto_plan`. */
  function DetectTasks(names: seq<string>): (r: seq<string>)
    ensures forall n :: n in r <==> n in names && Selected(n)
  {
    Filter(names, Selected)
  }

  datatype Loaded = NoTask | Loaded(data: Json)

  /** `load_task`: a dict gains `id` from the file stem when it has none; any
      other value survives only if `"id" in data` holds of it, and then is
      returned unchanged (the assignment that would raise is skipped). */
  function LoadTask(fs: FileSystem, name: string): (r: Loaded)
    ensures LoadJson(fs, Join(TEMP, name)).None? ==> r == NoTask
    ensures r.Loaded? && r.data.JObj? ==> "id" in r.data.fields
    ensures forall m :: LoadJson(fs, Join(TEMP, name)) == Some(JObj(m)) ==>
      r.Loaded? && r.data.JObj?
      && ("id" in m ==> r.data.fields == m)
      && ("id" !in m ==> r.data.fields == m["id" := JStr(Stem(name))])
    ensures r.Loaded? && !r.data.JObj? ==> LoadJson(fs, Join(TEMP, name)) == Some(r.data)
    ensures r.Loaded? && !r.data.JObj? <==>
      LoadJson(fs, Join(TEMP, name)).Some?
      && var d := LoadJson(fs, Join(TEMP, name)).value;
         (d.JArr? && JStr("id") in d.items) || (d.JStr? && Contains(d.s, "id"))
  {
    match LoadJson(fs, Join(TEMP, name))
    case None => NoTask
    case Some(data) =>
      match data
      case JObj(m) => if "id" in m then Loaded(data) else Loaded(JObj(m["id" := JStr(Stem(name))]))
      case JArr(xs) => if JStr("id") in xs then Loaded(data) else NoTask
      case JStr(s) => if Contains(s, "id") then Loaded(data) else NoTask
      case _ => NoTask
  }

  // ---------------------------------------------------------------------------
  // The stages
  // ---------------------------------------------------------------------------

  /** What the outside world answers for one task: the analyser's printed JSON
      (None when the subprocess fails), the draws of `random`, and whether
      ffmpeg produced the render and its size. */
  datatype Oracle = Oracle(analyser: Option<Json>, bpmDraw: nat, moodDraw: nat, draw: nat -> nat, produced: Option<nat>)

  /** The fallback analysis used when the analyser subprocess fails. */
  function Fallback(bpmDraw: nat, moodDraw: nat): (a: Json)
    ensures a.JObj? && a.fields.Keys == {"bpm", "mood", "error"}
    ensures a.fields["bpm"].JInt? && 90 <= a.fields["bpm"].i <= 180
    ensures a.fields["mood"].JStr? && a.fields["mood"].s in MoodEffects
    ensures a.fields["error"] == JStr("fallback_mode")
  {
    JObj(map[
      "bpm" := JInt(RandInt(90, 180, bpmDraw)),
      "mood" := JStr(Choice(MoodKeys, moodDraw)),
      "error" := JStr("fallback_mode")
    ])
  }

  /** `analyze_audio`: the analyser's output, or the fallback when the task has
      no `audio` or the subprocess fails. */
  function AnalyzeAudio(task: Obj, o: Oracle): (r: Obj)
    ensures r.Keys == task.Keys + {"analysis"}
    ensures forall k :: k in task && k != "analysis" ==> r[k] == task[k]
    ensures "audio" !in task || o.analyser.None? ==> r["analysis"] == Fallback(o.bpmDraw, o.moodDraw)
    ensures "audio" in task && o.analyser.Some? ==> r["analysis"] == o.analyser.value
  {
    if "audio" in task && o.analyser.Some? then task["analysis" := o.analyser.value]
    else task["analysis" := Fallback(o.bpmDraw, o.moodDraw)]
  }

  /** The analysis has the `bpm` and `mood` keys the progress log reads. */
  predicate Readable(a: Json) {
    a.JObj? && "bpm" in a.fields && "mood" in a.fields
  }

  function ClipPath(mood: Json, i: nat): string {
    "/sample_clips/" + PyStr(mood) + "_" + NatToString(i) + ".mp4"
  }

  /** The four clip paths `pick_clips` chooses for a mood, numbered 1 to 4. */
  function Clips(mood: Json): (r: seq<string>)
    ensures r == [ClipPath(mood, 1), ClipPath(mood, 2), ClipPath(mood, 3), ClipPath(mood, 4)]
  {
    [ClipPath(mood, 1), ClipPath(mood, 2), ClipPath(mood, 3), ClipPath(mood, 4)]
  }

  /** `pick_clips` */
  function PickClips(task: Obj, mood: Json): (r: Obj)
    ensures r.Keys == task.Keys + {"clips"}
    ensures forall k :: k in task && k != "clips" ==> r[k] == task[k]
    ensures r["clips"].JArr? && |r["clips"].items| == 4
    ensures forall i :: 0 <= i < 4 ==> r["clips"].items[i] == JStr("/sample_clips/" + PyStr(mood) + "_" + NatToString(i + 1) + ".mp4")
  {
    task["clips" := JArr(JStrs(Clips(mood)))]
  }

  /** Block `k` of the edit plan, starting at `start` seconds. */
  function Block(clip: string, k: nat, start: int, bpm: Json, fx: seq<string>, draw: nat -> nat): Json
    requires |fx| > 0
  {
    JObj(map[
      "clip" := JStr(clip),
      "start" := JInt(start),
      "end" := JInt(start + 4),
      "effect" := JStr(Choice(Effects, draw(3 * k))),
      "transition" := JStr(Choice(Transitions, draw(3 * k + 1))),
      "mood_fx" := JStr(Choice(fx, draw(3 * k + 2))),
      "beat_sync" := bpm
    ])
  }

  function PlanBlocks(clips: seq<string>, bpm: Json, fx: seq<string>, draw: nat -> nat): seq<Json>
    requires |fx| > 0
  {
    seq(|clips|, k requires 0 <= k < |clips| => Block(clips[k], k, 4 * k, bpm, fx, draw))
  }

  /** The loop of `generate_plan` with its `time_pos` accumulator: one block
      per clip, in clip order, each four seconds long and back to back. */
  method GeneratePlan(clips: seq<string>, bpm: Json, fx: seq<string>, draw: nat -> nat) returns (plan: seq<Json>)
    requires |fx| > 0
    ensures plan == PlanBlocks(clips, bpm, fx, draw)
    ensures |plan| == |clips|
    ensures forall k :: 0 <= k < |plan| ==> BlockOf(plan[k], clips[k], k, bpm, fx)
  {
    var timePos := 0;
    plan := [];
    for k := 0 to |clips|
      invariant timePos == 4 * k
      invariant plan == PlanBlocks(clips[..k], bpm, fx, draw)
    {
      var block := Block(clips[k], k, timePos, bpm, fx, draw);
      PlanBlocksNext(clips, bpm, fx, draw, k);
      plan := plan + [block];
      timePos := timePos + 4;
    }
    assert clips[..|clips|] == clips;
    forall k | 0 <= k < |plan|
      ensures BlockOf(plan[k], clips[k], k, bpm, fx)
    {
      BlockShape(clips[k], k, bpm, fx, draw);
    }
  }

  /** `b` is a block of the plan for `clip` at position `k`: four seconds
      from `4 * k`, synced to `bpm`, with an effect, a transition and a mood
      effect drawn from their tables. */
  predicate BlockOf(b: Json, clip: string, k: nat, bpm: Json, fx: seq<string>) {
    b.JObj? && b.fields.Keys == {"clip", "start", "end", "effect", "transition", "mood_fx", "beat_sync"}
    && b.fields["clip"] == JStr(clip)
    && b.fields["start"] == JInt(4 * k) && b.fields["end"] == JInt(4 * k + 4)
    && b.fields["beat_sync"] == bpm
    && b.fields["effect"].JStr? && b.fields["effect"].s in Effects
    && b.fields["transition"].JStr? && b.fields["transition"].s in Transitions
    && b.fields["mood_fx"].JStr? && b.fields["mood_fx"].s in fx
  }

  lemma BlockShape(clip: string, k: nat, bpm: Json, fx: seq<string>, draw: nat -> nat)
    requires |fx| > 0
    ensures BlockOf(Block(clip, k, 4 * k, bpm, fx, draw), clip, k, bpm, fx)
  {
  }

  lemma PlanBlocksNext(clips: seq<string>, bpm: Json, fx: seq<string>, draw: nat -> nat, k: nat)
    requires |fx| > 0 && k < |clips|
    ensures PlanBlocks(clips[..k + 1], bpm, fx, draw) == PlanBlocks(clips[..k], bpm, fx, draw) + [Block(clips[k], k, 4 * k, bpm, fx, draw)]
  {
  }

  function PlanPath(id: Json): string {
    Join(TEMP, PyStr(id) + "_auto_plan.json")
  }

  function RenderPath(id: Json): string {
    Join(OUTPUT, PyStr(id) + "_render.mp4")
  }

  function SavePath(id: Json): string {
    Join(TEMP, PyStr(id) + ".json")
  }

  /** `render`: the output path is recorded whatever ffmpeg does. */
  function Render(fs: FileSystem, task: Obj, produced: Option<nat>, now: nat): (r: (Obj, FileSystem))
    requires "id" in task
    ensures r.0 == task["output" := JStr(RenderPath(task["id"]))]
    ensures produced.Some? ==> RenderPath(task["id"]) in r.1 && r.1[RenderPath(task["id"])].content == Media(produced.value)
    ensures produced.None? ==> r.1 == fs
  {
    var out := RenderPath(task["id"]);
    var fs' := if produced.Some? then fs[out := FileRec(Media(produced.value), now)] else fs;
    (task["output" := JStr(out)], fs')
  }

  // ---------------------------------------------------------------------------
  // One task
  // ---------------------------------------------------------------------------

  /** How one task of a pass ends: skipped as not loadable, stopped by an
      exception the loop catches, or saved. */
  datatype Outcome = Skipped | Crashed | Saved(task: Obj)

  /** The keys the stages add to a task. */
  const Added: set<string> := {"analysis", "clips", "plan_path", "output"}

  lemma PlanPathApart(id: Json)
    ensures PlanPath(id) != SavePath(id) && PlanPath(id) != RenderPath(id) && SavePath(id) != RenderPath(id)
  {
    assert |PlanPath(id)| != |SavePath(id)|;
    assert PlanPath(id)[8] != RenderPath(id)[8];
    assert SavePath(id)[8] != RenderPath(id)[8];
  }

  /** The plan file, the render and the task file, in that order. */
  function Finish(fs: FileSystem, task: Obj, plan: seq<Json>, produced: Option<nat>, now: nat): (r: (Outcome, FileSystem))
    requires "id" in task
    ensures LoadJson(r.1, PlanPath(task["id"])) == Some(JArr(plan))
    ensures r.0.Saved? && r.0.task.Keys == task.Keys + {"plan_path", "output"}
    ensures forall k :: k in task && k !in {"plan_path", "output"} ==> r.0.task[k] == task[k]
    ensures r.0.task["output"] == JStr(RenderPath(task["id"]))
    ensures r.0.task["plan_path"] == JStr(PlanPath(task["id"]))
    ensures LoadJson(r.1, SavePath(task["id"])) == Some(JObj(r.0.task))
    ensures r.1.Keys == fs.Keys + {PlanPath(task["id"]), SavePath(task["id"])}
      + (if produced.Some? then {RenderPath(task["id"])} else {})
  {
    var id := task["id"];
    PlanPathApart(id);
    var fs1 := WriteDoc(fs, PlanPath(id), JArr(plan), now);
    var (t, fs2) := Render(fs1, task["plan_path" := JStr(PlanPath(id))], produced, now);
    (Saved(t), WriteDoc(fs2, SavePath(id), JObj(t), now))
  }

  /** The analysis a task is planned with has `bpm` and `mood`, and the mood
      is a key of MOOD_EFFECTS: the stages before the plan file do not raise. */
  predicate Plannable(task: Obj, o: Oracle) {
    var a := AnalyzeAudio(task, o)["analysis"];
    Readable(a) && a.fields["mood"].JStr? && a.fields["mood"].s in MoodEffects
  }

  /** The stages after loading: everything up to the plan file raises before
      anything is written. */
  function Stages(fs: FileSystem, task: Obj, o: Oracle, now: nat): (r: (Outcome, FileSystem))
    requires "id" in task
    ensures r.0.Saved? <==> Plannable(task, o)
    ensures !r.0.Saved? ==> r == (Crashed, fs)
    ensures r.0.Saved? ==> var a := AnalyzeAudio(task, o)["analysis"];
      LoadJson(r.1, PlanPath(task["id"]))
        == Some(JArr(PlanBlocks(Clips(a.fields["mood"]), a.fields["bpm"], MoodEffects[a.fields["mood"].s], o.draw)))
    ensures r.0.Saved? ==> r.0.task.Keys == task.Keys + Added
    ensures r.0.Saved? ==> forall k :: k in task && k !in Added ==> r.0.task[k] == task[k]
    ensures r.0.Saved? ==> LoadJson(r.1, SavePath(task["id"])) == Some(JObj(r.0.task))
  {
    var t1 := AnalyzeAudio(task, o);
    var a := t1["analysis"];
    if !Readable(a) then (Crashed, fs)
    else
      var mood := a.fields["mood"];
      if !(mood.JStr? && mood.s in MoodEffects) then (Crashed, fs)
      else
        var t2 := PickClips(t1, mood);
        assert t2.Keys + {"plan_path", "output"} == task.Keys + Added;
        assert forall k :: k in task && k !in Added ==> t2[k] == task[k];
        Finish(fs, t2, PlanBlocks(Clips(mood), a.fields["bpm"], MoodEffects[mood.s], o.draw), o.produced, now)
  }

  /** One iteration of `run`'s inner loop, on the task file `name`. */
  function Process(fs: FileSystem, name: string, o: Oracle, now: nat): (r: (Outcome, FileSystem))
    ensures r.0 == Skipped <==> LoadTask(fs, name).NoTask? || !PyTruthy(LoadTask(fs, name).data)
    ensures r.0.Saved? <==>
      LoadTask(fs, name).Loaded? && LoadTask(fs, name).data.JObj? && Plannable(LoadTask(fs, name).data.fields, o)
    ensures !r.0.Saved? ==> r.1 == fs
    ensures r.0.Saved? ==>
      LoadTask(fs, name).Loaded? && LoadTask(fs, name).data.JObj?
      && var task := LoadTask(fs, name).data.fields;
         r.0.task.Keys == task.Keys + Added
         && LoadJson(r.1, SavePath(task["id"])) == Some(JObj(r.0.task))
  {
    match LoadTask(fs, name)
    case NoTask => (Skipped, fs)
    case Loaded(data) =>
      if !PyTruthy(data) then (Skipped, fs)
      else if !data.JObj? then (Crashed, fs)
      else Stages(fs, data.fields, o, now)
  }

  /** The same iteration, stage by stage, as the worker runs it. */
  method RunTask(fs: FileSystem, name: string, o: Oracle, now: nat) returns (outcome: Outcome, fs': FileSystem)
    ensures (outcome, fs') == Process(fs, name, o, now)
  {
    var loaded := LoadTask(fs, name);
    if loaded.NoTask? || !PyTruthy(loaded.data) {
      return Skipped, fs;
    }
    if !loaded.data.JObj? {
      return Crashed, fs;
    }
    var task := loaded.data.fields;
    task := AnalyzeAudio(task, o);
    var a := task["analysis"];
    if !Readable(a) {
      return Crashed, fs;
    }
    var mood := a.fields["mood"];
    if !(mood.JStr? && mood.s in MoodEffects) {
      return Crashed, fs;
    }
    task := PickClips(task, mood);
    var plan := GeneratePlan(Clips(mood), a.fields["bpm"], MoodEffects[mood.s], o.draw);
    outcome, fs' := Finish(fs, task, plan, o.produced, now).0, Finish(fs, task, plan, o.produced, now).1;
  }

  // ---------------------------------------------------------------------------
  // One pass
  // ---------------------------------------------------------------------------

  /** The file system and the outcomes after the first `|ts|` tasks of a
      pass. */
  function PassFold(fs: FileSystem, ts: seq<string>, oracle: nat -> Oracle, now: nat): (r: (FileSystem, seq<Outcome>))
    ensures |r.1| == |ts|
    decreases |ts|
  {
    if ts == [] then (fs, [])
    else
      var n := |ts| - 1;
      var prior := PassFold(fs, ts[..n], oracle, now);
      var (o, fs') := Process(prior.0, ts[n], oracle(n), now);
      (fs', prior.1 + [o])
  }

  lemma PassFoldStep(fs: FileSystem, ts: seq<string>, k: nat, oracle: nat -> Oracle, now: nat)
    requires k < |ts|
    ensures var prior := PassFold(fs, ts[..k], oracle, now);
      PassFold(fs, ts[..k + 1], oracle, now)
        == (Process(prior.0, ts[k], oracle(k), now).1, prior.1 + [Process(prior.0, ts[k], oracle(k), now).0])
  {
    assert ts[..k + 1][..k] == ts[..k];
  }

  /** One pass of `run`: `oracle(k)` answers for the k-th detected task. */
  method RunPass(fs: FileSystem, names: seq<string>, oracle: nat -> Oracle, now: nat)
    returns (fs': FileSystem, outcomes: seq<Outcome>)
    ensures (fs', outcomes) == PassFold(fs, DetectTasks(names), oracle, now)
  {
    var tasks := DetectTasks(names);
    fs' := fs;
    outcomes := [];
    for k := 0 to |tasks|
      invariant (fs', outcomes) == PassFold(fs, tasks[..k], oracle, now)
    {
      PassFoldStep(fs, tasks, k, oracle, now);
      var outcome, next := RunTask(fs', tasks[k], oracle(k), now);
      fs' := next;
      outcomes := outcomes + [outcome];
    }
    assert tasks[..|tasks|] == tasks;
  }

  /** Every detected task is processed, whatever happened to the ones before
      it: the k-th outcome is that of the k-th task run on the file system
      the earlier tasks left. */
  lemma {:induction false} EveryTaskRuns(fs: FileSystem, ts: seq<string>, oracle: nat -> Oracle, now: nat, k: nat)
    requires k < |ts|
    ensures PassFold(fs, ts, oracle, now).1[k] == Process(PassFold(fs, ts[..k], oracle, now).0, ts[k], oracle(k), now).0
    decreases |ts|
  {
    var n := |ts| - 1;
    if k < n {
      EveryTaskRuns(fs, ts[..n], oracle, now, k);
      assert ts[..n][..k] == ts[..k];
      assert ts[..n][k] == ts[k];
    } else {
      assert ts[..n] == ts[..k];
    }
  }

  // ---------------------------------------------------------------------------
  // Properties of a task's run
  // ---------------------------------------------------------------------------

  /** A saved task carries exactly the keys the stages add; no stage sets or
      reads a status. */
  lemma SavedKeys(fs: FileSystem, name: string, o: Oracle, now: nat, m: Obj)
    requires LoadJson(fs, Join(TEMP, name)) == Some(JObj(m))
    requires Process(fs, name, o, now).0.Saved?
    ensures Process(fs, name, o, now).0.task.Keys == m.Keys + {"id"} + Added
    ensures forall k :: k in m && k != "id" && k !in Added ==> Process(fs, name, o, now).0.task[k] == m[k]
  {
    ProcessObject(fs, name, o, now, m);
    var t := LoadedFields(fs, name, m);
  }

  /** The fields a dict task is loaded with: its own, and `id`. */
  lemma LoadedFields(fs: FileSystem, name: string, m: Obj) returns (t: Obj)
    requires LoadJson(fs, Join(TEMP, name)) == Some(JObj(m))
    ensures LoadTask(fs, name) == Loaded(JObj(t))
    ensures t.Keys == m.Keys + {"id"} && forall k :: k in m && k != "id" ==> t[k] == m[k]
  {
    t := if "id" in m then m else m["id" := JStr(Stem(name))];
  }

  /** A mood outside MOOD_EFFECTS' keys stops the task before its plan file
      is written: nothing is saved for it. */
  lemma UnknownMoodCrashes(fs: FileSystem, name: string, o: Oracle, now: nat, m: Obj)
    requires LoadJson(fs, Join(TEMP, name)) == Some(JObj(m)) && "audio" in m
    requires o.analyser.Some? && Readable(o.analyser.value)
    requires o.analyser.value.fields["mood"] !in set k | k in MoodEffects :: JStr(k)
    ensures Process(fs, name, o, now) == (Crashed, fs)
  {
    var t := LoadTask(fs, name).data;
    assert PyTruthy(t) by { assert "id" in t.fields; }
  }

  /** The analyser's own moods "aggressive" and "cinematic" are not keys of
      MOOD_EFFECTS, so a task the analyser classifies so is never saved. */
  lemma AnalyserMoodsCrash(fs: FileSystem, name: string, o: Oracle, now: nat, m: Obj, mood: string)
    requires LoadJson(fs, Join(TEMP, name)) == Some(JObj(m)) && "audio" in m
    requires mood in {"aggressive", "cinematic"}
    requires o.analyser.Some? && o.analyser.value.JObj?
    requires "bpm" in o.analyser.value.fields && "mood" in o.analyser.value.fields
    requires o.analyser.value.fields["mood"] == JStr(mood)
    ensures Process(fs, name, o, now) == (Crashed, fs)
  {
    AudioAnalysis.AnalyserMoods();
    UnknownMoodCrashes(fs, name, o, now, m);
  }

  /** Without a working analyser (or without `audio`) a dict task always runs
      to the end: the fallback mood is a key of MOOD_EFFECTS. */
  lemma FallbackAlwaysSaves(fs: FileSystem, name: string, o: Oracle, now: nat, m: Obj)
    requires LoadJson(fs, Join(TEMP, name)) == Some(JObj(m))
    requires "audio" !in m || o.analyser.None?
    ensures Process(fs, name, o, now).0.Saved?
  {
    var t := LoadTask(fs, name).data;
    assert PyTruthy(t) by { assert "id" in t.fields; }
  }

  /** A dict task goes through the stages with its loaded form. */
  lemma ProcessObject(fs: FileSystem, name: string, o: Oracle, now: nat, m: Obj)
    requires LoadJson(fs, Join(TEMP, name)) == Some(JObj(m))
    ensures LoadTask(fs, name).Loaded? && LoadTask(fs, name).data.JObj?
    ensures Process(fs, name, o, now) == Stages(fs, LoadTask(fs, name).data.fields, o, now)
  {
    var t := LoadTask(fs, name).data;
    assert PyTruthy(t) by { assert "id" in t.fields; }
  }

  lemma StemSavePath(name: string)
    requires Suffix(name) == ".json"
    ensures SavePath(JStr(Stem(name))) == Join(TEMP, name)
  {
    assert Stem(name) + ".json" == name;
  }

  /** A task without an `id` is saved back to the file it came from, so the
      next pass detects it and runs it again. */
  lemma StemIdSavesInPlace(fs: FileSystem, name: string, o: Oracle, now: nat, m: Obj)
    requires LoadJson(fs, Join(TEMP, name)) == Some(JObj(m)) && "id" !in m
    requires Suffix(name) == ".json"
    requires Process(fs, name, o, now).0.Saved?
    ensures LoadJson(Process(fs, name, o, now).1, Join(TEMP, name)) == Some(JObj(Process(fs, name, o, now).0.task))
  {
    ProcessObject(fs, name, o, now, m);
    var t := LoadTask(fs, name).data.fields;
    assert t["id"] == JStr(Stem(name));
    StemSavePath(name);
  }
}

=== FILE: rchestrator.dfy ===
/** The one-shot runner: it marks a task "running", writes the stub analysis
    results and the edit plan, renders a preview with ffmpeg and marks the task
    "completed" or "error", appending to the task's notes at every step. The
    task file is written twice: once when the task starts and once when it
    completes or fails. ffmpeg is an oracle input. */
module Rchestrator {
  import opened Common

  /** What ffmpeg answers: its exit status, and the size of the file it left
      behind, if any. */
  datatype Ffmpeg = Ffmpeg(code: int, produced: Option<nat>)

  const AudioStub: Obj := map[
    "bpm" := JInt(120),
    "mood" := JStr("energetic"),
    "peaks" := JArr([JReal(1.0), JReal(3.2), JReal(7.5), JReal(12.0)])
  ]

  function Scene(s: int, e: int): Json {
    JObj(map["start" := JInt(s), "end" := JInt(e)])
  }

  const SceneStub: Obj := map["scenes" := JArr([Scene(0, 3), Scene(3, 7), Scene(7, 12)])]

  function Line(t: real, text: string): Json {
    JObj(map["t" := JReal(t), "text" := JStr(text)])
  }

  const LyricStub: Obj := map["lines" := JArr([
    Line(0.0, "(intro)"), Line(1.2, "feel the beat"), Line(3.5, "cut to motion"), Line(7.0, "rise to hook")
  ])]

  /** The notes steps 1 to 4 append, in order. */
  const StubNotes: seq<string> := ["Audio analyzed.", "Scenes detected.", "Lyrics aligned.", "Edit plan generated."]

  /** The notes a successful run appends after "Boss AI started.", in order. */
  const StepNotes: seq<string> := StubNotes + ["Preview render completed."]

  /** The edit plan combines the stub results without changing them. */
  function EditPlan(): (p: Obj)
    ensures p.Keys == {"bpm", "mood", "timeline", "captions"}
    ensures p["bpm"] == AudioStub["bpm"] && p["mood"] == AudioStub["mood"]
    ensures p["timeline"] == SceneStub["scenes"] && p["captions"] == LyricStub["lines"]
  {
    map[
      "bpm" := AudioStub["bpm"],
      "mood" := AudioStub["mood"],
      "timeline" := SceneStub["scenes"],
      "captions" := LyricStub["lines"]
    ]
  }

  /** The task's notes as a list of strings; absent notes count as empty. */
  function Notes(t: Obj): seq<Json> {
    if "notes" in t && t["notes"].JArr? then t["notes"].items else []
  }

  datatype Branch = ConcatBranch | TranscodeBranch | BlackBranch

  /** The render branch chosen by the number of videos. */
  function RenderBranch(n: nat): (b: Branch)
    ensures b == ConcatBranch <==> n > 1
    ensures b == TranscodeBranch <==> n == 1
    ensures b == BlackBranch <==> n == 0
  {
    if n > 1 then ConcatBranch else if n == 1 then TranscodeBranch else BlackBranch
  }

  function PreviewPath(outputDir: string, now: nat): string {
    Join(outputDir, "preview_" + NatToString(now) + ".mp4")
  }

  function Status(t: Obj): Json {
    GetOr(t, "status", JNull)
  }

  /** A status may stay, or move from "running" to "completed" or "error". */
  predicate StatusMove(a: Json, b: Json) {
    a == b || (a == JStr("running") && b in {JStr("completed"), JStr("error")})
  }

  /** Every persisted snapshot extends the notes of the one before. */
  predicate AppendOnly(writes: seq<Obj>) {
    forall i :: 0 < i < |writes| ==> Notes(writes[i - 1]) <= Notes(writes[i])
  }

  /** `task["notes"].append(note)` on a task whose notes are a list. */
  function AddNote(t: Obj, note: string): (r: Obj)
    ensures Notes(r) == Notes(t) + [JStr(note)]
    ensures r.Keys == t.Keys + {"notes"}
    ensures forall k :: k in t && k != "notes" ==> r[k] == t[k]
  {
    t["notes" := JArr(Notes(t) + [JStr(note)])]
  }

  /** The task as first persisted: running, with the start note. */
  function Started(t: Obj): (r: Obj)
    ensures Status(r) == JStr("running")
    ensures Notes(r) == Notes(t) + [JStr("Boss AI started.")]
    ensures forall k :: k in t && k !in {"status", "notes"} ==> k in r && r[k] == t[k]
  {
    AddNote(t["status" := JStr("running")], "Boss AI started.")
  }

  /** Where step `suffix` writes its stub: `temp_dir / f"{id}{suffix}"`. */
  function StubPath(tempDir: string, id: string, suffix: string): string {
    Join(tempDir, id + suffix)
  }

  /** Different suffixes name different stub files. */
  lemma StubPathsApart(tempDir: string, id: string, a: string, b: string)
    requires a != b
    ensures StubPath(tempDir, id, a) != StubPath(tempDir, id, b)
  {
    var p := tempDir + "/" + id;
    assert StubPath(tempDir, id, a) == p + a && StubPath(tempDir, id, b) == p + b;
    assert (p + a)[|p|..] == a && (p + b)[|p|..] == b;
  }

  /** The four stub files are four different files. */
  lemma FourStubPathsApart(tempDir: string, id: string)
    ensures var audio, scenes := StubPath(tempDir, id, "_audio.json"), StubPath(tempDir, id, "_scenes.json");
      var lyrics, plan := StubPath(tempDir, id, "_lyrics.json"), StubPath(tempDir, id, "_edit_plan.json");
      audio != scenes && audio != lyrics && audio != plan && scenes != lyrics && scenes != plan && lyrics != plan
  {
    StubPathsApart(tempDir, id, "_audio.json", "_scenes.json");
    StubPathsApart(tempDir, id, "_audio.json", "_lyrics.json");
    StubPathsApart(tempDir, id, "_audio.json", "_edit_plan.json");
    StubPathsApart(tempDir, id, "_scenes.json", "_lyrics.json");
    StubPathsApart(tempDir, id, "_scenes.json", "_edit_plan.json");
    StubPathsApart(tempDir, id, "_lyrics.json", "_edit_plan.json");
  }

  /** The four stub files of steps 1 to 4, each written with its stub result
      (the last being the edit plan that combines them); no other path
      changes. */
  method WriteStubFiles(fs: FileSystem, tempDir: string, id: string, now: nat) returns (fs': FileSystem)
    ensures fs'.Keys == fs.Keys + {StubPath(tempDir, id, "_audio.json"), StubPath(tempDir, id, "_scenes.json"),
                                   StubPath(tempDir, id, "_lyrics.json"), StubPath(tempDir, id, "_edit_plan.json")}
    ensures fs'[StubPath(tempDir, id, "_audio.json")] == FileRec(Doc(JObj(AudioStub)), now)
    ensures fs'[StubPath(tempDir, id, "_scenes.json")] == FileRec(Doc(JObj(SceneStub)), now)
    ensures fs'[StubPath(tempDir, id, "_lyrics.json")] == FileRec(Doc(JObj(LyricStub)), now)
    ensures fs'[StubPath(tempDir, id, "_edit_plan.json")] == FileRec(Doc(JObj(EditPlan())), now)
    ensures LoadJson(fs', StubPath(tempDir, id, "_edit_plan.json")) == Some(JObj(EditPlan()))
    ensures forall q :: q in fs && q !in {StubPath(tempDir, id, "_audio.json"), StubPath(tempDir, id, "_scenes.json"),
                                          StubPath(tempDir, id, "_lyrics.json"), StubPath(tempDir, id, "_edit_plan.json")} ==>
      fs'[q] == fs[q]
  {
    var audio, scenes := StubPath(tempDir, id, "_audio.json"), StubPath(tempDir, id, "_scenes.json");
    var lyrics, plan := StubPath(tempDir, id, "_lyrics.json"), StubPath(tempDir, id, "_edit_plan.json");
    FourStubPathsApart(tempDir, id);
    fs' := WriteDoc(fs, audio, JObj(AudioStub), now);
    fs' := WriteDoc(fs', scenes, JObj(SceneStub), now);
    fs' := WriteDoc(fs', lyrics, JObj(LyricStub), now);
    fs' := WriteDoc(fs', plan, JObj(EditPlan()), now);
    FourWrites(fs, audio, scenes, lyrics, plan, JObj(AudioStub), JObj(SceneStub), JObj(LyricStub), JObj(EditPlan()), now);
  }

  /** Four writes to four different paths: each path holds its document,
      and every other file is as it was. */
  lemma FourWrites(fs: FileSystem, a: string, b: string, c: string, d: string, va: Json, vb: Json, vc: Json, vd: Json, now: nat)
    requires a != b && a != c && a != d && b != c && b != d && c != d
    ensures var r := WriteDoc(WriteDoc(WriteDoc(WriteDoc(fs, a, va, now), b, vb, now), c, vc, now), d, vd, now);
      r.Keys == fs.Keys + {a, b, c, d}
      && r[a] == FileRec(Doc(va), now) && r[b] == FileRec(Doc(vb), now)
      && r[c] == FileRec(Doc(vc), now) && r[d] == FileRec(Doc(vd), now)
      && (forall q :: q in fs && q !in {a, b, c, d} ==> r[q] == fs[q])
  {
  }

  /** The task after the notes of steps 1 to 4. */
  function StubsNoted(t: Obj): (r: Obj)
    ensures Notes(r) == Notes(t) + JStrs(StubNotes)
    ensures r.Keys == t.Keys + {"notes"}
    ensures forall k :: k in t && k != "notes" ==> r[k] == t[k]
  {
    var r := AddNote(AddNote(AddNote(AddNote(t, StubNotes[0]), StubNotes[1]), StubNotes[2]), StubNotes[3]);
    FourNotes(t, StubNotes[0], StubNotes[1], StubNotes[2], StubNotes[3]);
    StubNotesListed();
    r
  }

  /** Four notes appended in turn: the notes grow by the four, in order,
      and only the notes key is added or changed. */
  lemma FourNotes(t: Obj, a: string, b: string, c: string, d: string)
    ensures var r := AddNote(AddNote(AddNote(AddNote(t, a), b), c), d);
      Notes(r) == Notes(t) + [JStr(a), JStr(b), JStr(c), JStr(d)]
      && r.Keys == t.Keys + {"notes"}
      && forall k :: k in t && k != "notes" ==> r[k] == t[k]
  {
  }

  lemma StubNotesListed()
    ensures JStrs(StubNotes) == [JStr(StubNotes[0]), JStr(StubNotes[1]), JStr(StubNotes[2]), JStr(StubNotes[3])]
  {
  }

  lemma StepNotesSplit()
    ensures JStrs(StepNotes) == JStrs(StubNotes) + [JStr("Preview render completed.")]
  {
  }

  /** Step 5 succeeded: completed, with the preview as output. */
  function Completed(t: Obj, out: string): (r: Obj)
    ensures Status(r) == JStr("completed")
    ensures Notes(r) == Notes(t) + [JStr("Preview render completed.")]
    ensures "output" in r && r["output"] == JStr(out)
  {
    AddNote(t["status" := JStr("completed")]["output" := JStr(out)], "Preview render completed.")
  }

  /** Step 5 failed: error, with the failure note; `output` is not touched. */
  function Failed(t: Obj, note: string): (r: Obj)
    ensures Status(r) == JStr("error")
    ensures Notes(r) == Notes(t) + [JStr(note)]
    ensures ("output" in r <==> "output" in t) && ("output" in t ==> r["output"] == t["output"])
  {
    AddNote(t["status" := JStr("error")], note)
  }

  function FailNote(b: Branch): string {
    if b == ConcatBranch then "FFmpeg concat failed." else "FFmpeg transcode failed."
  }

  /** Steps 1 to 5 on the started task `task`, which is already persisted.
      `last` is the final snapshot written to the task file, if any. */
  method Steps(fs: FileSystem, taskJson: string, outputDir: string, tempDir: string, task: Obj, ffmpeg: Ffmpeg, now: nat)
    returns (code: nat, fs': FileSystem, last: Option<Obj>)
    ensures code in {0, 1, 3}
    ensures last.Some? <==> code != 1
    ensures VideoCount(task).None? ==> code == 1
    ensures last.Some? ==> LoadJson(fs', taskJson) == Some(JObj(last.value))
    ensures code == 0 ==>
      Status(last.value) == JStr("completed")
      && Notes(last.value) == Notes(task) + JStrs(StepNotes)
      && "output" in last.value && last.value["output"] == JStr(PreviewPath(outputDir, now))
    ensures code == 3 ==>
      Status(last.value) == JStr("error") && ffmpeg.code != 0
      && VideoCount(task).Some? && RenderBranch(VideoCount(task).value) != BlackBranch
      && Notes(last.value) == Notes(task) + JStrs(StubNotes) + [JStr(FailNote(RenderBranch(VideoCount(task).value)))]
      && ("output" in last.value <==> "output" in task)
      && ("output" in task ==> last.value["output"] == task["output"])
  {
    if !("inputs" in task && task["inputs"].JObj? && "id" in task) {
      return 1, fs, None;
    }
    var videos := VideoCount(task);
    var id := PyStr(task["id"]);
    fs' := WriteStubFiles(fs, tempDir, id, now);
    var t := StubsNoted(task);
    if videos.None? {
      return 1, fs', None;
    }
    var outPath := PreviewPath(outputDir, now);
    var branch := RenderBranch(videos.value);
    if branch != BlackBranch && ffmpeg.code != 0 {
      t := Failed(t, FailNote(branch));
      fs' := WriteDoc(fs', taskJson, JObj(t), now);
      return 3, fs', Some(t);
    }
    if ffmpeg.produced.Some? {
      fs' := fs'[outPath := FileRec(Media(ffmpeg.produced.value), now)];
    }
    StepNotesSplit();
    SeqAssoc(Notes(task), JStrs(StubNotes), [JStr("Preview render completed.")]);
    t := Completed(t, outPath);
    fs' := WriteDoc(fs', taskJson, JObj(t), now);
    return 0, fs', Some(t);
  }

  /** `main()` with `args` = `sys.argv[1:]`. Returns the exit status, the file
      system afterwards and every snapshot of the task written to the task
      file, in order. An uncaught exception exits with status 1. */
  method Run(args: seq<string>, fs: FileSystem, ffmpeg: Ffmpeg, now: nat)
    returns (code: nat, fs': FileSystem, writes: seq<Obj>)
    ensures |args| < 3 ==> code == 1 && fs' == fs && writes == []
    ensures |args| >= 3 && args[0] !in fs ==> code == 2 && fs' == fs && writes == []
    ensures code in {0, 1, 2, 3}
    ensures writes != [] ==>
      |args| >= 3 && LoadJson(fs, args[0]).Some? && LoadJson(fs, args[0]).value.JObj?
      && writes[0] == Started(LoadJson(fs, args[0]).value.fields)
    ensures AppendOnly(writes)
    ensures writes != [] && VideoCount(writes[0]).None? ==> code == 1 && |writes| == 1
    ensures forall i :: 0 < i < |writes| ==> StatusMove(Status(writes[i - 1]), Status(writes[i]))
    ensures code == 0 ==>
      |args| >= 3 && |writes| == 2 && Status(writes[1]) == JStr("completed")
      && Notes(writes[1]) == Notes(writes[0]) + JStrs(StepNotes)
      && "output" in writes[1] && writes[1]["output"] == JStr(PreviewPath(args[1], now))
      && LoadJson(fs', args[0]) == Some(JObj(writes[1]))
    ensures code == 3 ==>
      |writes| == 2 && Status(writes[1]) == JStr("error") && ffmpeg.code != 0
      && VideoCount(writes[0]).Some? && RenderBranch(VideoCount(writes[0]).value) != BlackBranch
      && Notes(writes[1]) == Notes(writes[0]) + JStrs(StubNotes) + [JStr(FailNote(RenderBranch(VideoCount(writes[0]).value)))]
      && ("output" in writes[1] <==> "output" in writes[0])
      && ("output" in writes[0] ==> writes[1]["output"] == writes[0]["output"])
  {
    if |args| < 3 {
      return 1, fs, [];
    }
    var taskJson, outputDir, tempDir := args[0], args[1], args[2];
    if taskJson !in fs {
      return 2, fs, [];
    }
    var loaded := LoadJson(fs, taskJson);
    if !(loaded.Some? && loaded.value.JObj?) {
      return 1, fs, [];
    }
    var task := loaded.value.fields;
    if "notes" in task && !task["notes"].JArr? {
      return 1, fs, [];
    }
    task := Started(task);
    fs' := WriteDoc(fs, taskJson, JObj(task), now);
    var last;
    code, fs', last := Steps(fs', taskJson, outputDir, tempDir, task, ffmpeg, now);
    writes := if last.Some? then [task, last.value] else [task];
  }

  /** `len(videos)` for `videos = task["inputs"].get("videos", [])`, as far
      as step 5 gets with it: a list, a string or an object have a length,
      anything else raises. A single video is read as `videos[0]`, which an
      object with one key cannot answer (JSON keys are strings), so that
      raises too. */
  function VideoCount(t: Obj): (r: Option<nat>)
    ensures r.Some? ==> "inputs" in t && t["inputs"].JObj?
    ensures "inputs" in t && t["inputs"].JObj? && "videos" !in t["inputs"].fields ==> r == Some(0)
    ensures "inputs" in t && t["inputs"].JObj? && "videos" in t["inputs"].fields ==>
      var v := t["inputs"].fields["videos"];
      (v.JArr? ==> r == Some(|v.items|))
      && (v.JStr? ==> r == Some(|v.s|))
      && (v.JObj? ==> (r.None? <==> |v.fields| == 1) && (r.Some? ==> r.value == |v.fields|))
      && (!v.JArr? && !v.JStr? && !v.JObj? ==> r.None?)
    ensures r == Some(1) ==>
      "videos" in t["inputs"].fields && (t["inputs"].fields["videos"].JArr? || t["inputs"].fields["videos"].JStr?)
  {
    if "inputs" in t && t["inputs"].JObj? then
      var inputs := t["inputs"].fields;
      if "videos" !in inputs then Some(0)
      else match inputs["videos"]
        case JArr(xs) => Some(|xs|)
        case JStr(s) => Some(|s|)
        case JObj(m) => if |m| == 1 then None else Some(|m|)
        case _ => None
    else None
  }
}

=== FILE: render_fusion.dfy ===
/** The render fusion engine: each pass renders every `*_edit_plan.json` in
    TEMP through an ffmpeg concat of its clips, then renames the plan to
    `.done` whatever the render did. ffmpeg's exit status is not looked at;
    the size of the file it leaves, if any, is an oracle input. */
module RenderFusion {
  import opened Common

  const TEMP := "storage/temp"
  const OUTPUT := "storage/output"

  /** The pattern `*_edit_plan.json` of `get_edit_plans`. */
  predicate IsEditPlan(n: string) {
    GlobMatch(n, "", "_edit_plan.json")
  }

  /** `get_edit_plans`: the matching entries of the listing, joined to TEMP. */
  function GetEditPlans(names: seq<string>): (r: seq<string>)
    ensures |r| == |Filter(names, IsEditPlan)|
    ensures forall k :: 0 <= k < |r| ==> r[k] == Join(TEMP, Filter(names, IsEditPlan)[k])
    ensures forall n :: n in names && IsEditPlan(n) ==> Join(TEMP, n) in r
  {
    var ps := Filter(names, IsEditPlan);
    seq(|ps|, k requires 0 <= k < |ps| => Join(TEMP, ps[k]))
  }

  // ---------------------------------------------------------------------------
  // The concat list
  // ---------------------------------------------------------------------------

  /** One line of the list file, the clip's text put between quotes as it is:
      no escaping. */
  function ListLine(c: Json): string {
    "file '" + PyStr(c) + "'\n"
  }

  /** The text written for `clips`, one line per clip in order. */
  function ListText(clips: seq<Json>): (r: string)
    ensures |r| >= 8 * |clips|
    decreases |clips|
  {
    if clips == [] then "" else ListLine(clips[0]) + ListText(clips[1..])
  }

  /** The lines without their newline. */
  function Lines(clips: seq<Json>): (r: seq<string>)
    ensures |r| == |clips|
  {
    seq(|clips|, i requires 0 <= i < |clips| => "file '" + PyStr(clips[i]) + "'")
  }

  /** Writing one more clip appends its line. */
  lemma {:induction false} ListTextSnoc(clips: seq<Json>, c: Json)
    ensures ListText(clips + [c]) == ListText(clips) + ListLine(c)
    decreases |clips|
  {
    if clips == [] {
      assert [c][1..] == [];
    } else {
      assert (clips + [c])[1..] == clips[1..] + [c];
      ListTextSnoc(clips[1..], c);
    }
  }

  /** The `for` loop that writes the list file. */
  method WriteList(clips: seq<Json>) returns (text: string)
    ensures text == ListText(clips)
  {
    text := "";
    for i := 0 to |clips|
      invariant text == ListText(clips[..i])
    {
      assert clips[..i + 1] == clips[..i] + [clips[i]];
      ListTextSnoc(clips[..i], clips[i]);
      text := text + ListLine(clips[i]);
    }
    assert clips[..|clips|] == clips;
  }

  /** The list text is the lines joined by newlines, with a final newline. */
  lemma {:induction false} ListTextJoin(clips: seq<Json>)
    ensures ListText(clips) == JoinWith(Lines(clips) + [""], "\n")
    decreases |clips|
  {
    if clips != [] {
      ListTextJoin(clips[1..]);
      var parts := Lines(clips) + [""];
      assert parts[1..] == Lines(clips[1..]) + [""];
      assert parts[0] + "\n" == ListLine(clips[0]);
    }
  }

  /** A line holds a newline only where the clip's text does. */
  lemma LineNoNewline(c: Json)
    requires '\n' !in PyStr(c)
    ensures SepOnlyAtEnd("file '" + PyStr(c) + "'", "\n")
  {
    CharNotInConcat('\n', "file '", PyStr(c));
    CharNotInConcat('\n', "file '" + PyStr(c), "'");
    CharSepOnlyAtEnd("file '" + PyStr(c) + "'", '\n');
  }

  /** Reading the list back line by line gives one `file '<c>'` line per
      clip, in order, then the empty rest after the final newline, as long as
      no clip's text holds a newline. */
  lemma ListLinesRoundTrip(clips: seq<Json>)
    requires forall i :: 0 <= i < |clips| ==> '\n' !in PyStr(clips[i])
    ensures SplitOn(ListText(clips), "\n") == Lines(clips) + [""]
  {
    ListTextJoin(clips);
    LinesSplitOnlyAtEnd(clips);
    SplitJoin(Lines(clips) + [""], "\n");
  }

  lemma LinesSplitOnlyAtEnd(clips: seq<Json>)
    requires forall i :: 0 <= i < |clips| ==> '\n' !in PyStr(clips[i])
    ensures forall k :: 0 <= k < |clips| + 1 ==> SepOnlyAtEnd((Lines(clips) + [""])[k], "\n")
  {
    var parts := Lines(clips) + [""];
    forall k | 0 <= k < |parts| ensures SepOnlyAtEnd(parts[k], "\n") {
      if k < |clips| {
        LineNoNewline(clips[k]);
      } else {
        CharSepOnlyAtEnd(parts[k], '\n');
      }
    }
  }

  // ---------------------------------------------------------------------------
  // render_video
  // ---------------------------------------------------------------------------

  /** The clock (in ms) and the size of the file ffmpeg leaves, if any. */
  datatype Env = Env(now: nat, produced: Option<nat>)

  /** `fusion_<seconds>.mp4` */
  function OutName(now: nat): string {
    "fusion_" + NatToString(now / 1000) + ".mp4"
  }

  function ListPath(now: nat): string {
    Join(TEMP, "list_" + NatToString(now / 1000) + ".txt")
  }

  /** The name `render_video` returns (None for a skipped plan or a caught
      error) and the file system after it. */
  datatype Rendered = Rendered(result: Option<string>, fs: FileSystem)

  /** The clips of a loaded plan, as `plan.get("clips", [])` gives them. */
  function Clips(m: Obj): Json {
    GetOr(m, "clips", JArr([]))
  }

  /** `render_video` once the plan is loaded. A plan that is not a dict
      raises at `plan.get`; falsy clips return None before any file is
      written; clips that cannot be iterated raise after the list file was
      opened, which leaves it behind, empty. Otherwise the list is written,
      ffmpeg runs, the list is removed and the output name is returned,
      whether or not ffmpeg produced the file. */
  function RenderPlan(fs: FileSystem, plan: Json, env: Env): (r: Rendered)
    ensures !plan.JObj? || !PyTruthy(Clips(plan.fields)) ==> r == Rendered(None, fs)
    ensures r.result.Some? <==> plan.JObj? && PyTruthy(Clips(plan.fields)) && PyIter(Clips(plan.fields)).Some?
    ensures r.result.Some? ==> r.result.value == OutName(env.now) && ListPath(env.now) !in r.fs
    ensures r.result.Some? && env.produced.Some? ==>
      Join(OUTPUT, OutName(env.now)) in r.fs && r.fs[Join(OUTPUT, OutName(env.now))].content == Media(env.produced.value)
    ensures r.result.None? ==> r.fs == fs || r.fs == fs[ListPath(env.now) := FileRec(Text(""), env.now)]
    ensures forall q :: q != ListPath(env.now) && q != Join(OUTPUT, OutName(env.now)) ==>
      (q in r.fs <==> q in fs) && (q in fs ==> r.fs[q] == fs[q])
  {
    if !plan.JObj? then Rendered(None, fs)
    else
      var clips := Clips(plan.fields);
      if !PyTruthy(clips) then Rendered(None, fs)
      else
        var list := ListPath(env.now);
        match PyIter(clips)
        case None => Rendered(None, fs[list := FileRec(Text(""), env.now)])
        case Some(cs) =>
          var out := Join(OUTPUT, OutName(env.now));
          assert list != out by { assert list[8] != out[8]; }
          var fs1 := fs[list := FileRec(Text(ListText(cs)), env.now)];
          var fs2 := if env.produced.Some? then fs1[out := FileRec(Media(env.produced.value), env.now)] else fs1;
          Rendered(Some(OutName(env.now)), fs2 - {list})
  }

  /** `render_video(plan_path)`: a plan `json.load` rejects is a caught error. */
  function Render(fs: FileSystem, path: string, env: Env): (r: Rendered)
    ensures LoadJson(fs, path).None? ==> r == Rendered(None, fs)
  {
    match LoadJson(fs, path)
    case None => Rendered(None, fs)
    case Some(plan) => RenderPlan(fs, plan, env)
  }

  /** The same, step by step: the list file is written clip by clip and
      removed after ffmpeg. */
  method RenderVideo(fs: FileSystem, path: string, env: Env) returns (result: Option<string>, fs': FileSystem)
    ensures Rendered(result, fs') == Render(fs, path, env)
  {
    result, fs' := None, fs;
    var loaded := LoadJson(fs, path);
    if loaded.None? || !loaded.value.JObj? {
      return;
    }
    var clips := Clips(loaded.value.fields);
    if !PyTruthy(clips) {
      return;
    }
    var list := ListPath(env.now);
    fs' := fs'[list := FileRec(Text(""), env.now)];
    var items := PyIter(clips);
    if items.None? {
      return;
    }
    var text := WriteList(items.value);
    fs' := fs'[list := FileRec(Text(text), env.now)];
    var out := Join(OUTPUT, OutName(env.now));
    if env.produced.Some? {
      fs' := fs'[out := FileRec(Media(env.produced.value), env.now)];
    }
    fs' := fs' - {list};
    result := Some(OutName(env.now));
  }

  /** Effects are only logged: a plan's `effects` never changes the render. */
  lemma EffectsIgnored(fs: FileSystem, m: Obj, effects: Json, env: Env)
    ensures RenderPlan(fs, JObj(m["effects" := effects]), env) == RenderPlan(fs, JObj(m), env)
  {
    assert Clips(m["effects" := effects]) == Clips(m);
  }

  // ---------------------------------------------------------------------------
  // The main loop
  // ---------------------------------------------------------------------------

  /** `plan.with_suffix(".done")` for the listed name `n`. */
  function DonePath(n: string): string {
    Join(TEMP, Stem(n) + ".done")
  }

  /** A plan's `.done` name is not its own name. */
  lemma PlanNotDone(n: string)
    ensures IsEditPlan(n) ==> DonePath(n) != Join(TEMP, n)
  {
    if IsEditPlan(n) {
      var p, d := Join(TEMP, n), DonePath(n);
      assert p[|p| - 1] == n[|n| - 1] == 'n';
      assert d[|d| - 1] == 'e';
    }
  }

  datatype Outcome = Done(result: Option<string>) | Crashed

  /** One plan of the loop of `main`: render, then rename to `.done`; a plan
      that is gone by then makes the rename raise, which ends the engine. */
  function Step(fs: FileSystem, n: string, env: Env): (r: (Outcome, FileSystem))
    ensures r.0.Done? ==> DonePath(n) in r.1
    ensures r.0.Done? && IsEditPlan(n) ==> Join(TEMP, n) !in r.1
  {
    var p := Join(TEMP, n);
    PlanNotDone(n);
    var rendered := Render(fs, p, env);
    if p !in rendered.fs then (Crashed, rendered.fs)
    else
      var renamed := rendered.fs[DonePath(n) := rendered.fs[p]];
      if DonePath(n) == p then (Done(rendered.result), renamed)
      else (Done(rendered.result), renamed - {p})
  }

  /** The file system and outcomes after the first `|plans|` plans of a
      pass; a crash stops it. */
  function PassFold(fs: FileSystem, plans: seq<string>, env: nat -> Env): (r: (FileSystem, seq<Outcome>))
    ensures |r.1| <= |plans|
    decreases |plans|
  {
    if plans == [] then (fs, [])
    else
      var n := |plans| - 1;
      var prior := PassFold(fs, plans[..n], env);
      if Crashed in prior.1 then prior
      else
        var (o, fs') := Step(prior.0, plans[n], env(n));
        (fs', prior.1 + [o])
  }

  /** One pass of `main` over the listing `names`; `env(k)` is what the k-th
      plan sees. */
  method FusionPass(fs: FileSystem, names: seq<string>, env: nat -> Env) returns (fs': FileSystem, outcomes: seq<Outcome>)
    ensures (fs', outcomes) == PassFold(fs, Filter(names, IsEditPlan), env)
  {
    var plans := Filter(names, IsEditPlan);
    fs' := fs;
    outcomes := [];
    for k := 0 to |plans|
      invariant (fs', outcomes) == PassFold(fs, plans[..k], env)
    {
      assert plans[..k + 1][..k] == plans[..k];
      if Crashed in outcomes {
        continue;
      }
      var p := Join(TEMP, plans[k]);
      var result, rendered := RenderVideo(fs', p, env(k));
      if p !in rendered {
        fs' := rendered;
        outcomes := outcomes + [Crashed];
      } else {
        fs' := rendered[DonePath(plans[k]) := rendered[p]];
        if DonePath(plans[k]) != p {
          fs' := fs' - {p};
        }
        outcomes := outcomes + [Done(result)];
      }
    }
    assert plans[..|plans|] == plans;
  }

  /** No step of a pass creates a `*_edit_plan.json` file in TEMP: the list
      file, the output and the `.done` names all differ from it. */
  lemma NoPlanCreated(fs: FileSystem, n: string, env: Env, q: string)
    requires IsEditPlan(q) && q != n && Join(TEMP, q) !in fs
    ensures Join(TEMP, q) !in Step(fs, n, env).1
  {
    var p := Join(TEMP, q);
    var list := ListPath(env.now);
    assert p != list by { assert p[|p| - 1] == 'n' && list[|list| - 1] == 't'; }
    var out := Join(OUTPUT, OutName(env.now));
    assert p != out by { assert p[8] == 't' && out[8] == 'o'; }
    var d := DonePath(n);
    assert p != d by { assert p[|p| - 1] == 'n' && d[|d| - 1] == 'e'; }
  }

  /** Every plan of a pass that did not crash is renamed: none of them is
      listed again, so each plan is rendered at most once. */
  lemma {:induction false} PlansRetired(fs: FileSystem, plans: seq<string>, env: nat -> Env)
    requires forall i :: 0 <= i < |plans| ==> IsEditPlan(plans[i])
    requires forall i, j :: 0 <= i < j < |plans| ==> plans[i] != plans[j]
    requires Crashed !in PassFold(fs, plans, env).1
    ensures forall i :: 0 <= i < |plans| ==> Join(TEMP, plans[i]) !in PassFold(fs, plans, env).0
    decreases |plans|
  {
    if plans != [] {
      var n := |plans| - 1;
      var prior := PassFold(fs, plans[..n], env);
      assert Crashed !in prior.1;
      PlansRetired(fs, plans[..n], env);
      var last := Step(prior.0, plans[n], env(n));
      assert PassFold(fs, plans, env) == (last.1, prior.1 + [last.0]);
      assert last.0.Done?;
      forall i | 0 <= i < n ensures Join(TEMP, plans[i]) !in prior.0 {
        assert plans[..n][i] == plans[i];
      }
      LastRetires(prior.0, plans, env(n));
    }
  }

  /** The step on the last plan of `plans`, when it renders, retires it and
      brings back none of the earlier plans already retired. */
  lemma LastRetires(fs: FileSystem, plans: seq<string>, env: Env)
    requires plans != []
    requires forall i :: 0 <= i < |plans| ==> IsEditPlan(plans[i])
    requires forall i, j :: 0 <= i < j < |plans| ==> plans[i] != plans[j]
    requires forall i :: 0 <= i < |plans| - 1 ==> Join(TEMP, plans[i]) !in fs
    requires Step(fs, plans[|plans| - 1], env).0.Done?
    ensures forall i :: 0 <= i < |plans| ==> Join(TEMP, plans[i]) !in Step(fs, plans[|plans| - 1], env).1
  {
    var n := |plans| - 1;
    var r := Step(fs, plans[n], env);
    assert Join(TEMP, plans[n]) !in r.1;
    forall i | 0 <= i < n ensures Join(TEMP, plans[i]) !in r.1 {
      assert plans[i] != plans[n];
      NoPlanCreated(fs, plans[n], env, plans[i]);
    }
  }
}

=== FILE: render_manager.dfy ===
/** The render manager: each pass loads every task descriptor, checks that its
    `output` is a real render (a file of more than 5000 bytes), and when it is
    not, re-renders a placeholder and records it as `output_fixed`. ffmpeg is
    an oracle input: the size of the file it leaves, if any. */
module RenderManager {
  import opened Common

  const TEMP := "storage/temp"
  const OUTPUT := "storage/output"

  /** The names `detect_tasks` keeps: `task_*.json` without `_auto_plan`. */
  predicate Selected(f: string) {
    StartsWith(f, "task_") && EndsWith(f, ".json") && !Contains(f, "_auto_plan")
  }

  /** `detect_tasks`: the selected entries of the listing, joined to TEMP,
      in listing order. */
  function DetectTasks(names: seq<string>): (r: seq<string>)
    ensures |r| == |Filter(names, Selected)|
    ensures forall k :: 0 <= k < |r| ==> r[k] == Join(TEMP, Filter(names, Selected)[k])
    ensures forall f :: f in names && Selected(f) ==> Join(TEMP, f) in r
  {
    var fs := Filter(names, Selected);
    seq(|fs|, k requires 0 <= k < |fs| => Join(TEMP, fs[k]))
  }

  /** `safe_load(path)`: a list is refused; a dict gains `id` (the basename
      without ".json") when it has none; a string passes only if "id" occurs
      in it (adding a key to it raises, and the error is caught); any other
      value makes `"id" in data` raise, which is caught too. */
  function SafeLoad(fs: FileSystem, path: string): (r: Option<Json>)
    ensures LoadJson(fs, path).None? ==> r.None?
    ensures forall xs :: LoadJson(fs, path) == Some(JArr(xs)) ==> r.None?
    ensures forall m :: LoadJson(fs, path) == Some(JObj(m)) ==>
      r.Some? && r.value.JObj?
      && ("id" in m ==> r.value.fields == m)
      && ("id" !in m ==> r.value.fields == m["id" := JStr(ReplaceAll(Basename(path), ".json", ""))])
    ensures r.Some? ==> r.value.JObj? || (r.value.JStr? && Contains(r.value.s, "id"))
  {
    match LoadJson(fs, path)
    case None => None
    case Some(data) =>
      match data
      case JObj(m) =>
        if "id" in m then Some(data) else Some(JObj(m["id" := JStr(ReplaceAll(Basename(path), ".json", ""))]))
      case JStr(s) => if Contains(s, "id") then Some(data) else None
      case _ => None
  }

  /** `check_video_quality(path)` for a path: the file exists and holds
      more than 5000 bytes. */
  predicate GoodVideo(fs: FileSystem, p: string) {
    p in fs && Size(fs[p].content) > 5000
  }

  /** `check_video_quality(out)` for any JSON value, None when
      `os.path.exists` raises: an int is a file descriptor, good when open
      on more than 5000 bytes. */
  function CheckQuality(fs: FileSystem, out: Json, fds: Descriptors): (r: Option<bool>)
    ensures out.JStr? ==> r == Some(GoodVideo(fs, out.s))
    ensures r.None? <==> PyExists(fs, out, fds).None?
    ensures r == Some(true) <==> PyExists(fs, out, fds) == Some(true) && PySize(fs, out, fds) > 5000
  {
    match PyExists(fs, out, fds)
    case None => None
    case Some(present) => Some(present && PySize(fs, out, fds) > 5000)
  }

  function RerenderPath(id: Json): string {
    Join(OUTPUT, "rerender_" + PyStr(id) + ".mp4")
  }

  /** `re_render(task)`: ffmpeg writes the placeholder (or nothing) and the
      target path is returned whether or not it passes the check. */
  function ReRender(fs: FileSystem, id: Json, produced: Option<nat>, now: nat): (r: (string, FileSystem))
    ensures r.0 == RerenderPath(id)
    ensures forall q :: q != r.0 ==> (q in r.1 <==> q in fs) && (q in fs ==> r.1[q] == fs[q])
    ensures produced.Some? ==> r.0 in r.1 && r.1[r.0].content == Media(produced.value)
    ensures produced.None? ==> r.1 == fs
  {
    var out := RerenderPath(id);
    match produced
    case None => (out, fs)
    case Some(size) => (out, fs[out := FileRec(Media(size), now)])
  }

  datatype Outcome = Skipped | Verified | Repaired(fixed: string) | Crashed

  /** One iteration of the loop of `auto_render_loop` on the task file
      `path`. A string task passed by `safe_load` makes `data.get` raise,
      which ends the loop (Crashed); so does a truthy `output` that
      `os.path.exists` cannot take. */
  function Step(fs: FileSystem, path: string, produced: Option<nat>, fds: Descriptors, now: nat): (r: (Outcome, FileSystem))
    ensures !r.0.Repaired? ==> r.1 == fs
  {
    if Contains(path, "_auto_plan") then (Skipped, fs)
    else
      match SafeLoad(fs, path)
      case None => (Skipped, fs)
      case Some(data) =>
        if !PyTruthy(data) then (Skipped, fs)
        else if !data.JObj? then (Crashed, fs)
        else
          var task := data.fields;
          var out := GetOr(task, "output", JNull);
          if !PyTruthy(out) then (Skipped, fs)
          else
            match CheckQuality(fs, out, fds)
            case None => (Crashed, fs)
            case Some(good) =>
              if good then (Verified, fs)
              else
                var (fixed, fs1) := ReRender(fs, GetOr(task, "id", JNull), produced, now);
                (Repaired(fixed), WriteDoc(fs1, path, JObj(task["output_fixed" := JStr(fixed)]), now))
  }

  // ---------------------------------------------------------------------------
  // One pass
  // ---------------------------------------------------------------------------

  /** The file system and the outcomes after the first `|ts|` tasks of a
      pass; nothing runs after a crash. */
  function PassFold(fs: FileSystem, ts: seq<string>, oracle: nat -> Option<nat>, fds: Descriptors, now: nat): (r: (FileSystem, seq<Outcome>))
    ensures |r.1| <= |ts|
    decreases |ts|
  {
    if ts == [] then (fs, [])
    else
      var n := |ts| - 1;
      var prior := PassFold(fs, ts[..n], oracle, fds, now);
      if Crashed in prior.1 then prior
      else
        var (o, fs') := Step(prior.0, ts[n], oracle(n), fds, now);
        (fs', prior.1 + [o])
  }

  /** One pass of `auto_render_loop` over the listing `names`; `oracle(k)`
      answers for ffmpeg on the k-th task. */
  method RenderPass(fs: FileSystem, names: seq<string>, oracle: nat -> Option<nat>, fds: Descriptors, now: nat)
    returns (fs': FileSystem, outcomes: seq<Outcome>)
    ensures (fs', outcomes) == PassFold(fs, DetectTasks(names), oracle, fds, now)
  {
    var tasks := DetectTasks(names);
    fs' := fs;
    outcomes := [];
    for k := 0 to |tasks|
      invariant (fs', outcomes) == PassFold(fs, tasks[..k], oracle, fds, now)
      invariant Crashed !in outcomes ==> |outcomes| == k
    {
      assert tasks[..k + 1][..k] == tasks[..k];
      if Crashed in outcomes {
        continue;
      }
      var outcome;
      outcome, fs' := Step(fs', tasks[k], oracle(k), fds, now).0, Step(fs', tasks[k], oracle(k), fds, now).1;
      outcomes := outcomes + [outcome];
    }
    assert tasks[..|tasks|] == tasks;
  }

  /** A crash is the last thing a pass does; every task before it ran. */
  lemma {:induction false} CrashEndsPass(fs: FileSystem, ts: seq<string>, oracle: nat -> Option<nat>, fds: Descriptors, now: nat)
    ensures var outs := PassFold(fs, ts, oracle, fds, now).1;
      (forall k :: 0 <= k < |outs| - 1 ==> outs[k] != Crashed)
      && (Crashed !in outs ==> |outs| == |ts|)
    decreases |ts|
  {
    if ts != [] {
      CrashEndsPass(fs, ts[..|ts| - 1], oracle, fds, now);
    }
  }

  // ---------------------------------------------------------------------------
  // Properties of one task
  // ---------------------------------------------------------------------------

  /** The fields `safe_load` hands on for a dict task: truthy, since they
      hold `id`. */
  lemma Loaded(fs: FileSystem, path: string, m: Obj) returns (t: Obj)
    requires LoadJson(fs, path) == Some(JObj(m))
    ensures SafeLoad(fs, path) == Some(JObj(t)) && PyTruthy(JObj(t))
    ensures forall k :: k in m && k != "id" ==> k in t && t[k] == m[k]
  {
    t := if "id" in m then m else m["id" := JStr(ReplaceAll(Basename(path), ".json", ""))];
    assert "id" in t;
  }

  /** A dict task without a truthy `output` is skipped and its file is not
      rewritten. */
  lemma NoOutputSkipped(fs: FileSystem, path: string, produced: Option<nat>, fds: Descriptors, now: nat, m: Obj)
    requires LoadJson(fs, path) == Some(JObj(m))
    requires "output" !in m || !PyTruthy(m["output"])
    ensures Step(fs, path, produced, fds, now) == (Skipped, fs)
  {
    var t := Loaded(fs, path, m);
    assert !PyTruthy(GetOr(t, "output", JNull));
  }

  /** A dict task whose `output` names a good video is verified and left
      untouched. */
  lemma GoodOutputUntouched(fs: FileSystem, path: string, produced: Option<nat>, fds: Descriptors, now: nat, m: Obj, out: string)
    requires !Contains(path, "_auto_plan")
    requires LoadJson(fs, path) == Some(JObj(m)) && "output" in m && m["output"] == JStr(out) && out != ""
    requires GoodVideo(fs, out)
    ensures Step(fs, path, produced, fds, now) == (Verified, fs)
  {
    var t := Loaded(fs, path, m);
    assert GetOr(t, "output", JNull) == JStr(out);
  }

  /** A dict task whose `output` fails the check is rewritten with
      `output_fixed` = the re-render path; `output` and every other field
      keep their values. */
  lemma BadOutputRepaired(fs: FileSystem, path: string, produced: Option<nat>, fds: Descriptors, now: nat, m: Obj, out: string)
    requires !Contains(path, "_auto_plan")
    requires LoadJson(fs, path) == Some(JObj(m)) && "output" in m && m["output"] == JStr(out) && out != ""
    requires !GoodVideo(fs, out)
    ensures var r := Step(fs, path, produced, fds, now);
      var t := SafeLoad(fs, path).value.fields;
      r.0 == Repaired(RerenderPath(t["id"]))
      && LoadJson(r.1, path) == Some(JObj(t["output_fixed" := JStr(RerenderPath(t["id"]))]))
      && t["output"] == JStr(out)
      && (forall k :: k in m && k != "output_fixed" && k != "id" ==> t[k] == m[k])
  {
    var t := Loaded(fs, path, m);
    assert GetOr(t, "output", JNull) == JStr(out);
  }

  /** Repair has no bound: when the failing `output` is neither the
      re-render target nor the task file itself, the rewritten task fails
      the check again and the next pass re-renders it again. */
  lemma RepairRepeats(fs: FileSystem, path: string, p1: Option<nat>, p2: Option<nat>, fds: Descriptors, t1: nat, t2: nat, m: Obj, out: string)
    requires !Contains(path, "_auto_plan")
    requires LoadJson(fs, path) == Some(JObj(m)) && "output" in m && m["output"] == JStr(out) && out != ""
    requires !GoodVideo(fs, out)
    requires out != path && out != RerenderPath(SafeLoad(fs, path).value.fields["id"])
    ensures Step(fs, path, p1, fds, t1).0.Repaired?
    ensures Step(Step(fs, path, p1, fds, t1).1, path, p2, fds, t2).0.Repaired?
  {
    BadOutputRepaired(fs, path, p1, fds, t1, m, out);
    var t := SafeLoad(fs, path).value.fields;
    var fs1 := Step(fs, path, p1, fds, t1).1;
    var m1 := t["output_fixed" := JStr(RerenderPath(t["id"]))];
    assert !GoodVideo(fs1, out);
    assert "id" in m1;
    BadOutputRepaired(fs1, path, p2, fds, t2, m1, out);
  }

  /** A dict task whose `output` is an int naming a closed file descriptor
      (or one open on at most 5000 bytes) fails the check and is re-rendered
      like a missing file, with `output` kept. */
  lemma DescriptorOutputRepaired(fs: FileSystem, path: string, produced: Option<nat>, fds: Descriptors, now: nat, m: Obj, fd: int)
    requires !Contains(path, "_auto_plan")
    requires LoadJson(fs, path) == Some(JObj(m)) && "output" in m && m["output"] == JInt(fd) && fd != 0
    requires IntMin <= fd <= IntMax && (fd < 0 || fds(fd).None? || fds(fd).value <= 5000)
    ensures var t := SafeLoad(fs, path).value.fields;
      Step(fs, path, produced, fds, now).0 == Repaired(RerenderPath(t["id"]))
      && LoadJson(Step(fs, path, produced, fds, now).1, path) == Some(JObj(t["output_fixed" := JStr(RerenderPath(t["id"]))]))
      && t["output"] == JInt(fd)
  {
    var t := Loaded(fs, path, m);
    assert GetOr(t, "output", JNull) == JInt(fd);
  }

  /** A truthy `output` that `os.path.exists` cannot take (a float, a list,
      a dict, or an int beyond C's range) raises and ends the pass, with
      nothing written. */
  lemma UnstatableOutputCrashes(fs: FileSystem, path: string, produced: Option<nat>, fds: Descriptors, now: nat, m: Obj)
    requires !Contains(path, "_auto_plan")
    requires LoadJson(fs, path) == Some(JObj(m)) && "output" in m && PyTruthy(m["output"])
    requires PyExists(fs, m["output"], fds).None?
    ensures Step(fs, path, produced, fds, now) == (Crashed, fs)
  {
    var t := Loaded(fs, path, m);
    assert GetOr(t, "output", JNull) == m["output"];
  }

  /** A JSON string that contains "id" passes `safe_load` and makes the loop
      raise: the rest of the pass does not run. */
  lemma StringTaskCrashes(fs: FileSystem, path: string, produced: Option<nat>, fds: Descriptors, now: nat, s: string)
    requires !Contains(path, "_auto_plan")
    requires LoadJson(fs, path) == Some(JStr(s)) && Contains(s, "id")
    ensures Step(fs, path, produced, fds, now) == (Crashed, fs)
  {
    assert s != [] by {
      assert Find(s, "id").Some?;
    }
  }
}

=== FILE: resume_queue.dfy ===
/** The Node resume worker: each scan takes every `task_*.json` that is
    readable, not done/failed/cancelled and not locked, locks it, marks it
    "resuming" with one note, and runs it through `processTask`, which ends in
    "done" with an output or "failed" with an error. Every persisted state of
    the task is recorded in a write log. ffmpeg is an oracle input: given the
    text it is asked to read (the concat list, or the input path) it answers
    with failure, its stderr and the size of the file it leaves. */
module ResumeQueue {
  import opened Common
  import Orchestrator

  const TEMP := "storage/temp"
  const OUTPUT := "storage/output"

  // ---------------------------------------------------------------------------
  // Files, ids and locks
  // ---------------------------------------------------------------------------

  predicate IsTaskFile(f: string) {
    StartsWith(f, "task_") && EndsWith(f, ".json")
  }

  /** `listTaskFiles`: the `task_*.json` entries of the listing, in order. */
  function ListTaskFiles(names: seq<string>): (r: seq<string>)
    ensures forall f :: f in r <==> f in names && IsTaskFile(f)
    ensures |r| <= |names|
  {
    Filter(names, IsTaskFile)
  }

  /** `readTask(file)`: the parsed document, or None (`null`) when the file is
      missing or not JSON. */
  function ReadTask(fs: FileSystem, f: string): (r: Option<Json>)
    ensures r.Some? <==> Join(TEMP, f) in fs && fs[Join(TEMP, f)].content.Doc?
  {
    LoadJson(fs, Join(TEMP, f))
  }

  /** `${t.id}`: the text of the `id` field; "undefined" when there is none,
      which is the case for every value that is not an object. */
  function IdOf(t: Json): string {
    if t.JObj? && "id" in t.fields then JsStr(Some(t.fields["id"])) else "undefined"
  }

  /** Where `writeTaskObj` writes: named after the id, not after the file the
      task was read from. */
  function TaskPath(id: string): string {
    Join(TEMP, id + ".json")
  }

  function LockPath(id: string): string {
    Join(TEMP, id + ".lock")
  }

  function ListPath(id: string): string {
    Join(TEMP, "concat_" + id + ".txt")
  }

  function OutPath(now: nat, id: string): string {
    Join(OUTPUT, "resume_" + NatToString(now) + "_" + id + ".mp4")
  }

  /** The four paths a task touches are pairwise distinct. */
  lemma PathsDistinct(id: string, now: nat)
    ensures TaskPath(id) != LockPath(id) && TaskPath(id) != ListPath(id) && LockPath(id) != ListPath(id)
    ensures OutPath(now, id) !in {TaskPath(id), LockPath(id), ListPath(id)}
  {
    var t, l, c, o := TaskPath(id), LockPath(id), ListPath(id), OutPath(now, id);
    assert t[|t| - 1] == 'n' && l[|l| - 1] == 'k' && c[|c| - 1] == 't';
    assert o[8] == 'o' && t[8] == 't' && l[8] == 't' && c[8] == 't';
  }

  /** `isLocked(id)`: the lock file exists. */
  predicate IsLocked(fs: FileSystem, id: string) {
    LockPath(id) in fs
  }

  /** `lockTask(id)` when the write succeeds: the lock file holds the pid. */
  function LockTask(fs: FileSystem, id: string, pid: nat, now: nat): (r: FileSystem)
    ensures IsLocked(r, id)
  {
    fs[LockPath(id) := FileRec(Text(NatToString(pid)), now)]
  }

  /** `unlockTask(id)`: the lock file is gone, everything else stays. */
  function UnlockTask(fs: FileSystem, id: string): (r: FileSystem)
    ensures !IsLocked(r, id)
  {
    fs - {LockPath(id)}
  }

  /** A status that `mainOnce` does not resume. */
  predicate Finished(t: Json) {
    t.JObj? && "status" in t.fields
    && t.fields["status"] in [JStr("done"), JStr("failed"), JStr("cancelled")]
  }

  // ---------------------------------------------------------------------------
  // Inputs and the concat list
  // ---------------------------------------------------------------------------

  /** `task.inputs?.videos || []` */
  function Videos(m: Obj): (r: Json)
    ensures JsTruthy(r)
  {
    var inputs := GetOr(m, "inputs", JNull);
    var v := if inputs.JObj? then GetOr(inputs.fields, "videos", JNull) else JNull;
    if JsTruthy(v) then v else JArr([])
  }

  /** `task.inputs?.audio || null` */
  function Audio(m: Obj): (r: Json)
    ensures r == JNull || JsTruthy(r)
  {
    var inputs := GetOr(m, "inputs", JNull);
    var a := if inputs.JObj? then GetOr(inputs.fields, "audio", JNull) else JNull;
    if JsTruthy(a) then a else JNull
  }

  /** `videos.length`: an array's or a string's length, an object's own
      `length` field, and undefined (None) for anything else. */
  function Length(v: Json): (r: Option<Json>)
    ensures v.JArr? ==> r == Some(JInt(|v.items|))
    ensures v.JStr? ==> r == Some(JInt(|v.s|))
    ensures v.JObj? ==> (r.Some? <==> "length" in v.fields) && (r.Some? ==> r.value == v.fields["length"])
    ensures !v.JArr? && !v.JStr? && !v.JObj? ==> r.None?
  {
    match v
    case JArr(xs) => Some(JInt(|xs|))
    case JStr(s) => Some(JInt(|s|))
    case JObj(m) => if "length" in m then Some(m["length"]) else None
    case _ => None
  }

  /** `videos.length === 0`: the length is the number 0. */
  predicate NoVideos(v: Json) {
    Length(v) == Some(JInt(0)) || Length(v) == Some(JReal(0.0))
  }

  /** `videos.length > 1`: the length, converted to a number as `>` does,
      is above 1; undefined and null are not. */
  predicate ManyVideos(v: Json) {
    Length(v).Some? && Num(Length(v).value).Some? && Num(Length(v).value).value > 1.0
  }

  /** `videos[0] || audio`: the single input of the transcode branch. */
  function Input(videos: Json, audio: Json): (r: Json)
    ensures videos.JArr? && |videos.items| > 0 && JsTruthy(videos.items[0]) ==> r == videos.items[0]
    ensures (videos.JArr? || videos.JStr?) && NoVideos(videos) ==> r == audio
    ensures videos.JObj? ==>
      r == if "0" in videos.fields && JsTruthy(videos.fields["0"]) then videos.fields["0"] else audio
    ensures !videos.JArr? && !videos.JStr? && !videos.JObj? ==> r == audio
  {
    var first :=
      match videos
      case JArr(xs) => if |xs| > 0 then xs[0] else JNull
      case JStr(s) => if |s| > 0 then JStr(s[..1]) else JNull
      case JObj(m) => if "0" in m then m["0"] else JNull
      case _ => JNull;
    if JsTruthy(first) then first else audio
  }

  /** An object given as `videos` answers `length` and `[0]` from its own
      fields: `{length: 0}` counts as no videos, `{length: 2}` as several
      (and then has no `map`, so the concat branch throws), and
      `{"0": "clip.mp4"}` is a single video. */
  lemma ObjectVideos()
    ensures NoVideos(JObj(map["length" := JInt(0)]))
    ensures ManyVideos(JObj(map["length" := JInt(2)])) && ConcatLines(JObj(map["length" := JInt(2)])).None?
    ensures var v := JObj(map["0" := JStr("clip.mp4")]);
      !NoVideos(v) && !ManyVideos(v) && Input(v, JNull) == JStr("clip.mp4")
  {
  }

  /** `v.replace(/'/g, "\\'")`: a backslash before every single quote. */
  function Escape(v: string): (r: string)
    ensures forall c :: c in r ==> c in v || c == '\\'
    ensures forall i :: 0 <= i < |r| && r[i] == '\'' ==> 0 < i && r[i - 1] == '\\'
    ensures '\'' !in v ==> r == v
  {
    if v == [] then []
    else
      var head := if v[0] == '\'' then "\\'" else [v[0]];
      var rest := Escape(v[1..]);
      assert forall i :: |head| <= i < |head + rest| ==> (head + rest)[i] == rest[i - |head|];
      assert head[|head| - 1] == '\'' ==> |head| == 2;
      head + rest
  }

  function ConcatLine(v: string): string {
    "file '" + Escape(v) + "'"
  }

  /** The lines of the concat list, or None when `videos.map` or `v.replace`
      raises: the videos are not an array, or one of them is not a string. */
  function ConcatLines(videos: Json): (r: Option<seq<string>>)
    ensures r.Some? <==> videos.JArr? && forall i :: 0 <= i < |videos.items| ==> videos.items[i].JStr?
    ensures r.Some? ==> (|r.value| == |videos.items|
      && forall i :: 0 <= i < |r.value| ==> r.value[i] == ConcatLine(videos.items[i].s))
  {
    if videos.JArr? && forall i :: 0 <= i < |videos.items| ==> videos.items[i].JStr? then
      Some(seq(|videos.items|, i requires 0 <= i < |videos.items| => ConcatLine(videos.items[i].s)))
    else None
  }

  /** The list file holds one line per video, in order: splitting it at
      newlines gives back exactly the `file '<v>'` lines, provided no path
      holds a newline; and every quote inside a path is escaped. */
  lemma ConcatListLines(xs: seq<string>)
    requires |xs| > 0
    requires forall i :: 0 <= i < |xs| ==> '\n' !in xs[i]
    ensures ConcatLines(JArr(JStrs(xs))).Some?
    ensures SplitOn(JoinWith(ConcatLines(JArr(JStrs(xs))).value, "\n"), "\n")
      == seq(|xs|, i requires 0 <= i < |xs| => ConcatLine(xs[i]))
    ensures forall i :: 0 <= i < |xs| ==> ConcatLine(xs[i])[..6] == "file '" && ConcatLine(xs[i])[|ConcatLine(xs[i])| - 1] == '\''
  {
    var lines := ConcatLines(JArr(JStrs(xs))).value;
    assert lines == seq(|xs|, i requires 0 <= i < |xs| => ConcatLine(xs[i]));
    forall k | 0 <= k < |lines| ensures SepOnlyAtEnd(lines[k], "\n") {
      LineNoNewline(xs[k]);
    }
    SplitJoin(lines, "\n");
    forall i | 0 <= i < |xs|
      ensures ConcatLine(xs[i])[..6] == "file '" && ConcatLine(xs[i])[|ConcatLine(xs[i])| - 1] == '\''
    {
      ConcatLineShape(xs[i]);
    }
  }

  lemma ConcatLineShape(v: string)
    ensures ConcatLine(v)[..6] == "file '" && ConcatLine(v)[|ConcatLine(v)| - 1] == '\''
  {
  }

  /** A concat line holds no newline when its path holds none. */
  lemma LineNoNewline(v: string)
    requires '\n' !in v
    ensures SepOnlyAtEnd(ConcatLine(v), "\n")
  {
    assert '\n' !in Escape(v);
    CharNotInConcat('\n', "file '", Escape(v));
    CharNotInConcat('\n', "file '" + Escape(v), "'");
    CharSepOnlyAtEnd(ConcatLine(v), '\n');
  }


  // ---------------------------------------------------------------------------
  // processTask
  // ---------------------------------------------------------------------------

  /** What ffmpeg answers, given the text it reads. */
  datatype Ffmpeg = Ffmpeg(failed: bool, stderr: string, produced: Option<nat>)

  /** Everything outside the file system that one task sees: the clock (in
      ms, and as ISO text), the pid, whether the lock file can be written,
      ffmpeg, and the text of an error raised inside the `try`. */
  datatype Env = Env(now: nat, iso: string, pid: nat, lockOk: bool, ffmpeg: string -> Ffmpeg, error: string)

  /** The task object, the file system and the writes of `processTask`, and
      whether it raised. */
  datatype Processed = Processed(task: Obj, fs: FileSystem, writes: seq<Json>, threw: bool)

  predicate Field(o: Obj, k: string, v: Json) {
    k in o && o[k] == v
  }

  /** The fields `processTask` sets. */
  predicate SetByProcess(k: string) {
    k in {"status", "started_at", "finished_at", "error", "stderr", "output"}
  }

  /** Every field of `m` that `processTask` does not set keeps its value in
      `t`. */
  predicate KeepsFields(m: Obj, t: Obj) {
    forall k :: k in m && !SetByProcess(k) ==> k in t && t[k] == m[k]
  }

  /** Every path outside `touched` is as it was. */
  ghost predicate SameElsewhere(fs: FileSystem, fs': FileSystem, touched: set<string>) {
    forall q :: q !in touched ==> (q in fs' <==> q in fs) && (q in fs ==> fs'[q] == fs[q])
  }

  lemma SameElsewhereTrans(a: FileSystem, b: FileSystem, c: FileSystem, s1: set<string>, s2: set<string>, s: set<string>)
    requires SameElsewhere(a, b, s1) && SameElsewhere(b, c, s2) && s1 + s2 <= s
    ensures SameElsewhere(a, c, s)
  {
  }

  const Failures := [JStr("no_inputs"), JStr("input_missing"), JStr("ffmpeg_concat_failed"), JStr("ffmpeg_transcode_failed")]

  /** How `processTask` leaves a task: "done" with its output, or "failed"
      with one of its four errors. */
  predicate Ended(t: Obj, out: string) {
    (Field(t, "status", JStr("done")) && Field(t, "output", JStr(out)))
    || (Field(t, "status", JStr("failed")) && "error" in t && t["error"] in Failures)
  }

  /** An exit of `processTask` from the object `m`: `m` written, then the
      ended object with `finished_at`, and the lock released. */
  predicate Closed(r: Processed, m: Obj, id: string, now: nat) {
    !r.threw && !IsLocked(r.fs, id)
    && r.writes == [JObj(m), JObj(r.task)]
    && LoadJson(r.fs, TaskPath(id)) == Some(JObj(r.task))
    && Ended(r.task, OutPath(now, id)) && Field(r.task, "finished_at", JInt(now))
    && KeepsFields(m, r.task)
  }

  /** The file ffmpeg leaves, if any. */
  function Produce(fs: FileSystem, out: string, produced: Option<nat>, now: nat): (r: FileSystem)
    ensures produced.Some? ==> out in r && r[out].content == Media(produced.value)
  {
    if produced.Some? then fs[out := FileRec(Media(produced.value), now)] else fs
  }

  /** The common end of every exit of `processTask`: `finished_at`, write,
      unlock. */
  function Close(fs: FileSystem, m: Obj, task: Obj, id: string, now: nat): (r: Processed)
    requires Ended(task, OutPath(now, id)) && KeepsFields(m, task)
    ensures Closed(r, m, id, now)
  {
    PathsDistinct(id, now);
    var t := task["finished_at" := JInt(now)];
    Processed(t, UnlockTask(WriteDoc(fs, TaskPath(id), JObj(t), now), id), [JObj(m), JObj(t)], false)
  }

  /** The task after ffmpeg: "done" with the output, or "failed" with the
      given error and stderr. */
  function AfterFfmpeg(m: Obj, run: Ffmpeg, failure: string, out: string): (r: Obj)
    requires JStr(failure) in Failures
    ensures Ended(r, out)
    ensures Field(r, "status", if run.failed then JStr("failed") else JStr("done"))
    ensures run.failed ==> Field(r, "error", JStr(failure)) && Field(r, "stderr", JStr(run.stderr))
    ensures KeepsFields(m, r)
  {
    if run.failed then m["status" := JStr("failed")]["error" := JStr(failure)]["stderr" := JStr(run.stderr)]
    else m["status" := JStr("done")]["output" := JStr(out)]
  }

  /** The concat branch (more than one video): the list file is written,
      read by ffmpeg and removed. */
  function Concat(fs: FileSystem, m: Obj, videos: Json, id: string, env: Env): (r: Processed)
    ensures r.threw <==> ConcatLines(videos).None?
    ensures r.threw ==> r == Processed(m, fs, [JObj(m)], true)
    ensures !r.threw ==> Closed(r, m, id, env.now) && ListPath(id) !in r.fs
    ensures !r.threw ==> (Field(r.task, "status", JStr("failed")) <==> env.ffmpeg(JoinWith(ConcatLines(videos).value, "\n")).failed)
  {
    match ConcatLines(videos)
    case None => Processed(m, fs, [JObj(m)], true)
    case Some(lines) =>
      PathsDistinct(id, env.now);
      var text := JoinWith(lines, "\n");
      var run := env.ffmpeg(text);
      var withList := fs[ListPath(id) := FileRec(Text(text), env.now)];
      var fs1 := Produce(withList, OutPath(env.now, id), run.produced, env.now) - {ListPath(id)};
      Close(fs1, m, AfterFfmpeg(m, run, "ffmpeg_concat_failed", OutPath(env.now, id)), id, env.now)
  }

  /** The single-input branch: a missing input fails the task, otherwise
      ffmpeg transcodes it. */
  function Transcode(fs: FileSystem, m: Obj, input: Json, id: string, env: Env): (r: Processed)
    ensures Closed(r, m, id, env.now)
    ensures !(input.JStr? && input.s in fs) ==> Field(r.task, "error", JStr("input_missing"))
    ensures input.JStr? && input.s in fs ==> (Field(r.task, "status", JStr("failed")) <==> env.ffmpeg(input.s).failed)
  {
    if !(input.JStr? && input.s in fs) then
      Close(fs, m, m["status" := JStr("failed")]["error" := JStr("input_missing")], id, env.now)
    else
      var run := env.ffmpeg(input.s);
      var fs1 := Produce(fs, OutPath(env.now, id), run.produced, env.now);
      Close(fs1, m, AfterFfmpeg(m, run, "ffmpeg_transcode_failed", OutPath(env.now, id)), id, env.now)
  }

  /** The object `processTask` starts from: "processing" and `started_at`. */
  function Processing(m: Obj, now: nat): (r: Obj)
    ensures Field(r, "status", JStr("processing")) && Field(r, "started_at", JInt(now))
    ensures KeepsFields(m, r)
  {
    m["status" := JStr("processing")]["started_at" := JInt(now)]
  }

  /** `processTask(task)` on a task object whose lock is held. It raises only
      in the concat branch; otherwise it writes the "processing" object, then
      the ended one, and releases the lock. */
  function Process(fs: FileSystem, m: Obj, id: string, env: Env): (r: Processed)
    ensures r.threw ==> (r.task == Processing(m, env.now) && r.writes == [JObj(r.task)]
      && r.fs == WriteDoc(fs, TaskPath(id), JObj(r.task), env.now))
    ensures !r.threw ==> Closed(r, Processing(m, env.now), id, env.now)
  {
    var m1 := Processing(m, env.now);
    var fs1 := WriteDoc(fs, TaskPath(id), JObj(m1), env.now);
    var videos := Videos(m1);
    var audio := Audio(m1);
    if NoVideos(videos) && !JsTruthy(audio) then
      Close(fs1, m1, m1["status" := JStr("failed")]["error" := JStr("no_inputs")], id, env.now)
    else if ManyVideos(videos) then
      Concat(fs1, m1, videos, id, env)
    else
      Transcode(fs1, m1, Input(videos, audio), id, env)
  }

  /** The same, step by step: the task object is updated in place and
      written after each change of status. */
  method ProcessTask(fs: FileSystem, m: Obj, id: string, env: Env)
    returns (task: Obj, fs': FileSystem, writes: seq<Json>, threw: bool)
    ensures Processed(task, fs', writes, threw) == Process(fs, m, id, env)
  {
    task := m["status" := JStr("processing")];
    task := task["started_at" := JInt(env.now)];
    fs' := WriteDoc(fs, TaskPath(id), JObj(task), env.now);
    writes := [JObj(task)];
    threw := false;
    var videos := Videos(task);
    var audio := Audio(task);
    if NoVideos(videos) && !JsTruthy(audio) {
      var closed := Close(fs', task, task["status" := JStr("failed")]["error" := JStr("no_inputs")], id, env.now);
      task, fs', writes := closed.task, closed.fs, closed.writes;
    } else if ManyVideos(videos) {
      var lines := ConcatLines(videos);
      if lines.None? {
        threw := true;
        return;
      }
      var text := JoinWith(lines.value, "\n");
      var start := task;
      fs' := fs'[ListPath(id) := FileRec(Text(text), env.now)];
      var run := env.ffmpeg(text);
      fs' := Produce(fs', OutPath(env.now, id), run.produced, env.now);
      fs' := fs' - {ListPath(id)};
      var closed := Close(fs', start, AfterFfmpeg(start, run, "ffmpeg_concat_failed", OutPath(env.now, id)), id, env.now);
      task, fs', writes := closed.task, closed.fs, closed.writes;
    } else {
      var closed := Transcode(fs', task, Input(videos, audio), id, env);
      task, fs', writes := closed.task, closed.fs, closed.writes;
    }
  }

  /** Closing a task touches only its task file and its lock. */
  lemma CloseFrame(fs: FileSystem, m: Obj, task: Obj, id: string, now: nat)
    requires Ended(task, OutPath(now, id)) && KeepsFields(m, task)
    ensures SameElsewhere(fs, Close(fs, m, task, id, now).fs, {TaskPath(id), LockPath(id)})
  {
    PathsDistinct(id, now);
  }

  /** The concat branch touches only the task's own four files. */
  lemma ConcatFrame(fs: FileSystem, m: Obj, videos: Json, id: string, env: Env)
    ensures SameElsewhere(fs, Concat(fs, m, videos, id, env).fs, {TaskPath(id), LockPath(id), ListPath(id), OutPath(env.now, id)})
  {
    if ConcatLines(videos).Some? {
      PathsDistinct(id, env.now);
      var text := JoinWith(ConcatLines(videos).value, "\n");
      var run := env.ffmpeg(text);
      var fs1 := Produce(fs[ListPath(id) := FileRec(Text(text), env.now)], OutPath(env.now, id), run.produced, env.now) - {ListPath(id)};
      assert SameElsewhere(fs, fs1, {ListPath(id), OutPath(env.now, id)});
      var t := AfterFfmpeg(m, run, "ffmpeg_concat_failed", OutPath(env.now, id));
      CloseFrame(fs1, m, t, id, env.now);
      SameElsewhereTrans(fs, fs1, Close(fs1, m, t, id, env.now).fs, {ListPath(id), OutPath(env.now, id)}, {TaskPath(id), LockPath(id)},
        {TaskPath(id), LockPath(id), ListPath(id), OutPath(env.now, id)});
    }
  }

  /** The single-input branch touches only the task file, the lock and the
      output. */
  lemma TranscodeFrame(fs: FileSystem, m: Obj, input: Json, id: string, env: Env)
    ensures SameElsewhere(fs, Transcode(fs, m, input, id, env).fs, {TaskPath(id), LockPath(id), OutPath(env.now, id)})
  {
    var touched := {TaskPath(id), LockPath(id), OutPath(env.now, id)};
    if !(input.JStr? && input.s in fs) {
      CloseFrame(fs, m, m["status" := JStr("failed")]["error" := JStr("input_missing")], id, env.now);
    } else {
      var run := env.ffmpeg(input.s);
      var fs1 := Produce(fs, OutPath(env.now, id), run.produced, env.now);
      assert SameElsewhere(fs, fs1, {OutPath(env.now, id)});
      var t := AfterFfmpeg(m, run, "ffmpeg_transcode_failed", OutPath(env.now, id));
      CloseFrame(fs1, m, t, id, env.now);
      SameElsewhereTrans(fs, fs1, Close(fs1, m, t, id, env.now).fs, {OutPath(env.now, id)}, {TaskPath(id), LockPath(id)}, touched);
    }
  }

  /** `processTask` touches only the task file, its lock, its concat list
      and its output. */
  lemma ProcessFrame(fs: FileSystem, m: Obj, id: string, env: Env)
    ensures SameElsewhere(fs, Process(fs, m, id, env).fs, {TaskPath(id), LockPath(id), ListPath(id), OutPath(env.now, id)})
  {
    var touched := {TaskPath(id), LockPath(id), ListPath(id), OutPath(env.now, id)};
    var m1 := Processing(m, env.now);
    var fs1 := WriteDoc(fs, TaskPath(id), JObj(m1), env.now);
    assert SameElsewhere(fs, fs1, {TaskPath(id)});
    var videos := Videos(m1);
    var audio := Audio(m1);
    if NoVideos(videos) && !JsTruthy(audio) {
      var t := m1["status" := JStr("failed")]["error" := JStr("no_inputs")];
      CloseFrame(fs1, m1, t, id, env.now);
      SameElsewhereTrans(fs, fs1, Close(fs1, m1, t, id, env.now).fs, {TaskPath(id)}, {TaskPath(id), LockPath(id)}, touched);
    } else if ManyVideos(videos) {
      ConcatFrame(fs1, m1, videos, id, env);
      SameElsewhereTrans(fs, fs1, Concat(fs1, m1, videos, id, env).fs, {TaskPath(id)}, touched, touched);
    } else {
      TranscodeFrame(fs1, m1, Input(videos, audio), id, env);
      SameElsewhereTrans(fs, fs1, Transcode(fs1, m1, Input(videos, audio), id, env).fs, {TaskPath(id)},
        {TaskPath(id), LockPath(id), OutPath(env.now, id)}, touched);
    }
  }

  // ---------------------------------------------------------------------------
  // One task of mainOnce
  // ---------------------------------------------------------------------------

  datatype Outcome = Skipped | Handled(task: Json) | Crashed

  /** The outcome, the file system and the values written to the task's
      file, in order. */
  datatype Handling = Handling(outcome: Outcome, fs: FileSystem, writes: seq<Json>)

  function Note(iso: string): string {
    "resumed_by_worker:" + iso
  }

  /** `String(e).slice(0, 1000)` */
  function Head(s: string, n: nat): (r: string)
    ensures |r| <= n && StartsWith(s, r)
    ensures |s| <= n ==> r == s
  {
    if |s| <= n then s else s[..n]
  }

  /** The catch of `mainOnce`: "failed" with the error text, write, unlock. */
  function Fail(fs: FileSystem, writes: seq<Json>, task: Obj, id: string, env: Env): (r: Handling)
    ensures !IsLocked(r.fs, id)
    ensures r.outcome == Handled(JObj(task["status" := JStr("failed")]["error" := JStr(Head(env.error, 1000))]))
    ensures r.writes == writes + [r.outcome.task]
    ensures LoadJson(r.fs, TaskPath(id)) == Some(r.outcome.task)
  {
    PathsDistinct(id, env.now);
    var t := JObj(task["status" := JStr("failed")]["error" := JStr(Head(env.error, 1000))]);
    Handling(Handled(t), UnlockTask(WriteDoc(fs, TaskPath(id), t, env.now), id), writes + [t])
  }

  /** The catch touches only the task file and its lock. */
  lemma FailFrame(fs: FileSystem, writes: seq<Json>, task: Obj, id: string, env: Env)
    ensures SameElsewhere(fs, Fail(fs, writes, task, id, env).fs, {TaskPath(id), LockPath(id)})
  {
    PathsDistinct(id, env.now);
  }

  /** `t.notes = t.notes || []; t.notes.push(...)` succeeds: the notes are
      falsy or an array. */
  predicate NotesPushable(m: Obj) {
    !JsTruthy(GetOr(m, "notes", JNull)) || GetOr(m, "notes", JNull).JArr?
  }

  /** The notes after the push: the old array (or none) and one note. */
  function PushedNotes(m: Obj, iso: string): (r: Json)
    ensures r.JArr? && |r.items| > 0 && r.items[|r.items| - 1] == JStr(Note(iso))
    ensures "notes" in m && m["notes"].JArr? ==> r.items[..|r.items| - 1] == m["notes"].items
    ensures !("notes" in m && m["notes"].JArr?) ==> r.items == [JStr(Note(iso))]
  {
    var notes := GetOr(m, "notes", JNull);
    JArr((if notes.JArr? then notes.items else []) + [JStr(Note(iso))])
  }

  /** The task marked as resumed: "resuming", `resumed_at`, and the note
      appended to `notes`. */
  function Resuming(m: Obj, env: Env): (r: Obj)
    ensures Field(r, "status", JStr("resuming")) && Field(r, "resumed_at", JInt(env.now))
    ensures Field(r, "notes", PushedNotes(m, env.iso))
  {
    m["status" := JStr("resuming")]["resumed_at" := JInt(env.now)]["notes" := PushedNotes(m, env.iso)]
  }

  /** Marking a task as resumed keeps every other field, and marking it as
      processing keeps every field but `status` and `started_at`. */
  lemma MarksKeepFields(m: Obj, env: Env)
    ensures forall k :: k in m && k !in {"status", "resumed_at", "notes"} ==> k in Resuming(m, env) && Resuming(m, env)[k] == m[k]
    ensures forall k :: k in m && k != "status" && k != "started_at" ==> k in Processing(m, env.now) && Processing(m, env.now)[k] == m[k]
  {
  }

  /** A task as the catch of `mainOnce` leaves it. */
  predicate CaughtFailure(t: Obj, error: string) {
    Field(t, "status", JStr("failed")) && Field(t, "error", JStr(Head(error, 1000)))
  }

  /** A task object handled by the `try` block of `mainOnce`: it ends
      unlocked with its last value written, "done" with its output or
      "failed". */
  predicate HandledWell(r: Handling, id: string, env: Env) {
    r.outcome.Handled? && r.outcome.task.JObj?
    && !IsLocked(r.fs, id) && |r.writes| > 0 && r.writes[|r.writes| - 1] == r.outcome.task
    && LoadJson(r.fs, TaskPath(id)) == Some(r.outcome.task)
    && (Ended(r.outcome.task.fields, OutPath(env.now, id)) || CaughtFailure(r.outcome.task.fields, env.error))
  }

  /** A written value is an object whose `notes` are `notes`. */
  predicate HasNotes(j: Json, notes: Json) {
    j.JObj? && Field(j.fields, "notes", notes)
  }

  /** The `try` block of `mainOnce` once the notes took the push. */
  function ResumePushed(fs: FileSystem, m: Obj, id: string, env: Env): (r: Handling)
    requires NotesPushable(m)
    ensures HandledWell(r, id, env)
  {
    var m1 := Resuming(m, env);
    var p := Process(WriteDoc(fs, TaskPath(id), JObj(m1), env.now), m1, id, env);
    var w := [JObj(m1)] + p.writes;
    if p.threw then
      var h := Fail(p.fs, w, p.task, id, env);
      assert CaughtFailure(h.outcome.task.fields, env.error);
      h
    else
      assert Ended(p.task, OutPath(env.now, id));
      assert w[|w| - 1] == JObj(p.task);
      Handling(Handled(JObj(p.task)), p.fs, w)
  }

  /** The values written for a resumed task: the "resuming" object, the
      "processing" object, and the final one; each carries exactly the one
      new note, since `processTask` and the catch never touch `notes`. */
  lemma ResumeWrites(fs: FileSystem, m: Obj, id: string, env: Env)
    requires NotesPushable(m)
    ensures ResumeWritten(ResumePushed(fs, m, id, env).writes, m, env)
  {
    var m1 := Resuming(m, env);
    if Process(WriteDoc(fs, TaskPath(id), JObj(m1), env.now), m1, id, env).threw {
      ThrownWrites(fs, m, id, env);
    } else {
      ClosedWrites(fs, m, id, env);
    }
  }

  /** Three writes: the "resuming" object, the "processing" object and the
      last one, all with the pushed notes. */
  predicate ResumeWritten(w: seq<Json>, m: Obj, env: Env) {
    var notes := PushedNotes(m, env.iso);
    |w| == 3 && w[0] == JObj(Resuming(m, env)) && w[1] == JObj(Processing(Resuming(m, env), env.now))
    && HasNotes(w[0], notes) && HasNotes(w[1], notes) && HasNotes(w[2], notes)
  }

  lemma ThrownWrites(fs: FileSystem, m: Obj, id: string, env: Env)
    requires NotesPushable(m)
    requires Process(WriteDoc(fs, TaskPath(id), JObj(Resuming(m, env)), env.now), Resuming(m, env), id, env).threw
    ensures ResumeWritten(ResumePushed(fs, m, id, env).writes, m, env)
  {
    var m1 := Resuming(m, env);
    var fs1 := WriteDoc(fs, TaskPath(id), JObj(m1), env.now);
    var notes := PushedNotes(m, env.iso);
    ProcessKeepsNotes(fs1, m1, id, env, notes);
    var p := Process(fs1, m1, id, env);
    FailedKeepsNotes(p.fs, [JObj(m1)] + p.writes, p.task, id, env, notes);
    var r := Fail(p.fs, [JObj(m1)] + p.writes, p.task, id, env);
    assert ResumePushed(fs, m, id, env) == r;
    assert r.writes == [JObj(m1), p.writes[0], r.outcome.task];
  }

  lemma ClosedWrites(fs: FileSystem, m: Obj, id: string, env: Env)
    requires NotesPushable(m)
    requires !Process(WriteDoc(fs, TaskPath(id), JObj(Resuming(m, env)), env.now), Resuming(m, env), id, env).threw
    ensures ResumeWritten(ResumePushed(fs, m, id, env).writes, m, env)
  {
    var m1 := Resuming(m, env);
    var fs1 := WriteDoc(fs, TaskPath(id), JObj(m1), env.now);
    var notes := PushedNotes(m, env.iso);
    ProcessKeepsNotes(fs1, m1, id, env, notes);
    var p := Process(fs1, m1, id, env);
    assert ResumePushed(fs, m, id, env).writes == [JObj(m1), p.writes[0], p.writes[1]];
  }

  /** `processTask` writes the "processing" object first, then the ended one
      unless it raised; all of them, and its task object, keep `notes`. */
  lemma ProcessKeepsNotes(fs: FileSystem, m: Obj, id: string, env: Env, notes: Json)
    requires Field(m, "notes", notes)
    ensures var p := Process(fs, m, id, env);
      |p.writes| == (if p.threw then 1 else 2) && p.writes[0] == JObj(Processing(m, env.now))
      && Field(p.task, "notes", notes)
      && HasNotes(p.writes[0], notes) && (!p.threw ==> HasNotes(p.writes[1], notes))
  {
    MarksKeepFields(m, env);
    assert Field(Processing(m, env.now), "notes", notes);
    assert !SetByProcess("notes");
  }

  lemma FailedKeepsNotes(fs: FileSystem, writes: seq<Json>, task: Obj, id: string, env: Env, notes: Json)
    requires Field(task, "notes", notes)
    ensures var r := Fail(fs, writes, task, id, env);
      r.writes == writes + [r.outcome.task] && HasNotes(r.outcome.task, notes)
  {
  }

  /** The `try` block of `mainOnce` on a task object whose lock is held: the
      task is always handled, ends unlocked with its last value written, and
      is "done" with its output or "failed". */
  function Resume(fs: FileSystem, m: Obj, id: string, env: Env): (r: Handling)
    ensures HandledWell(r, id, env)
    ensures !NotesPushable(m) ==> r.writes == [r.outcome.task] && Field(r.outcome.task.fields, "notes", m["notes"])
  {
    if !NotesPushable(m) then
      Fail(fs, [], m["status" := JStr("resuming")]["resumed_at" := JInt(env.now)], id, env)
    else
      ResumePushed(fs, m, id, env)
  }

  /** `mainOnce` passes over the file: unreadable or falsy, finished, locked,
      or its lock cannot be written. */
  predicate Skips(fs: FileSystem, f: string, env: Env) {
    var t := ReadTask(fs, f);
    t.None? || !JsTruthy(t.value) || Finished(t.value) || IsLocked(fs, IdOf(t.value)) || !env.lockOk
  }

  /** One iteration of the loop of `mainOnce` on the listed file `f`. A
      truthy array is processed as an object without fields: it is written
      back unchanged to `undefined.json` and fails with "no_inputs" in
      memory only. Assigning `status` to any other non-object raises, and
      raises again in the `catch`, which ends the scan with the lock left
      behind. */
  function HandleFile(fs: FileSystem, f: string, env: Env): (r: Handling)
    ensures r.outcome.Skipped? <==> Skips(fs, f, env)
    ensures r.outcome.Skipped? ==> r.fs == fs && r.writes == []
    ensures r.outcome.Crashed? <==> !Skips(fs, f, env) && !ReadTask(fs, f).value.JObj? && !ReadTask(fs, f).value.JArr?
    ensures r.outcome.Crashed? ==> r.fs == LockTask(fs, IdOf(ReadTask(fs, f).value), env.pid, env.now)
    ensures r.outcome.Handled? ==> (
      var id := IdOf(ReadTask(fs, f).value);
      !IsLocked(r.fs, id) && |r.writes| > 0 && r.writes[|r.writes| - 1] == r.outcome.task
      && LoadJson(r.fs, TaskPath(id)) == Some(r.outcome.task))
  {
    var t := ReadTask(fs, f);
    if t.None? || !JsTruthy(t.value) || Finished(t.value) then Handling(Skipped, fs, [])
    else
      var id := IdOf(t.value);
      if IsLocked(fs, id) || !env.lockOk then Handling(Skipped, fs, [])
      else
        PathsDistinct(id, env.now);
        var fs1 := LockTask(fs, id, env.pid, env.now);
        match t.value
        case JObj(m) => Resume(fs1, m, id, env)
        case JArr(_) =>
          Handling(Handled(t.value), UnlockTask(WriteDoc(fs1, TaskPath(id), t.value, env.now), id), [t.value, t.value, t.value])
        case _ => Handling(Crashed, fs1, [])
  }

  /** The `try` block changes no file but the task file, its lock, its
      concat list and its output. */
  lemma ResumeFrame(fs: FileSystem, m: Obj, id: string, env: Env)
    ensures SameElsewhere(fs, Resume(fs, m, id, env).fs, {TaskPath(id), LockPath(id), ListPath(id), OutPath(env.now, id)})
  {
    var touched := {TaskPath(id), LockPath(id), ListPath(id), OutPath(env.now, id)};
    if NotesPushable(m) {
      var m1 := Resuming(m, env);
      var fs2 := WriteDoc(fs, TaskPath(id), JObj(m1), env.now);
      var p := Process(fs2, m1, id, env);
      assert SameElsewhere(fs, fs2, {TaskPath(id)});
      ProcessFrame(fs2, m1, id, env);
      SameElsewhereTrans(fs, fs2, p.fs, {TaskPath(id)}, touched, touched);
      if p.threw {
        var h := Fail(p.fs, [JObj(m1)] + p.writes, p.task, id, env);
        FailFrame(p.fs, [JObj(m1)] + p.writes, p.task, id, env);
        SameElsewhereTrans(fs, p.fs, h.fs, touched, {TaskPath(id), LockPath(id)}, touched);
      }
    } else {
      FailFrame(fs, [], m["status" := JStr("resuming")]["resumed_at" := JInt(env.now)], id, env);
    }
  }

  /** Handling a task changes no file but its own task file, its lock, its
      concat list and its output. */
  lemma OnlyOwnFilesChange(fs: FileSystem, f: string, env: Env)
    requires ReadTask(fs, f).Some?
    ensures var id := IdOf(ReadTask(fs, f).value);
      SameElsewhere(fs, HandleFile(fs, f, env).fs, {TaskPath(id), LockPath(id), ListPath(id), OutPath(env.now, id)})
  {
    var t := ReadTask(fs, f).value;
    var id := IdOf(t);
    var touched := {TaskPath(id), LockPath(id), ListPath(id), OutPath(env.now, id)};
    if !Skips(fs, f, env) {
      var fs1 := LockTask(fs, id, env.pid, env.now);
      assert SameElsewhere(fs, fs1, {LockPath(id)});
      if t.JObj? {
        ResumeFrame(fs1, t.fields, id, env);
        SameElsewhereTrans(fs, fs1, Resume(fs1, t.fields, id, env).fs, {LockPath(id)}, touched, touched);
      }
    }
  }

  /** The same, step by step. */
  method HandleTaskFile(fs: FileSystem, f: string, env: Env) returns (outcome: Outcome, fs': FileSystem, writes: seq<Json>)
    ensures Handling(outcome, fs', writes) == HandleFile(fs, f, env)
  {
    outcome, fs', writes := Skipped, fs, [];
    var t := ReadTask(fs, f);
    if t.None? || !JsTruthy(t.value) || Finished(t.value) {
      return;
    }
    var id := IdOf(t.value);
    if IsLocked(fs, id) || !env.lockOk {
      return;
    }
    fs' := LockTask(fs, id, env.pid, env.now);
    if !t.value.JObj? {
      if t.value.JArr? {
        writes := [t.value, t.value, t.value];
        fs' := UnlockTask(WriteDoc(fs', TaskPath(id), t.value, env.now), id);
        outcome := Handled(t.value);
      } else {
        outcome := Crashed;
      }
      return;
    }
    var m := t.value.fields;
    if !NotesPushable(m) {
      var h := Fail(fs', [], m["status" := JStr("resuming")]["resumed_at" := JInt(env.now)], id, env);
      outcome, fs', writes := h.outcome, h.fs, h.writes;
      return;
    }
    assert HandleFile(fs, f, env) == ResumePushed(LockTask(fs, id, env.pid, env.now), m, id, env);
    var task := Resuming(m, env);
    fs' := WriteDoc(fs', TaskPath(id), JObj(task), env.now);
    writes := [JObj(task)];
    var threw, more;
    task, fs', more, threw := ProcessTask(fs', task, id, env);
    writes := writes + more;
    if threw {
      var h := Fail(fs', writes, task, id, env);
      outcome, fs', writes := h.outcome, h.fs, h.writes;
    } else {
      outcome := Handled(JObj(task));
    }
  }

  // ---------------------------------------------------------------------------
  // mainOnce
  // ---------------------------------------------------------------------------

  /** The file system and the outcomes after the first `|files|` listed
      files; a crash rejects `mainOnce` and nothing after it runs. */
  function PassFold(fs: FileSystem, files: seq<string>, env: nat -> Env): (r: (FileSystem, seq<Outcome>))
    ensures |r.1| <= |files|
    decreases |files|
  {
    if files == [] then (fs, [])
    else
      var n := |files| - 1;
      var prior := PassFold(fs, files[..n], env);
      if Crashed in prior.1 then prior
      else
        var h := HandleFile(prior.0, files[n], env(n));
        (h.fs, prior.1 + [h.outcome])
  }

  /** `mainOnce` over the listing `names`; `env(k)` is what the k-th task
      sees. */
  method MainOnce(fs: FileSystem, names: seq<string>, env: nat -> Env) returns (fs': FileSystem, outcomes: seq<Outcome>)
    ensures (fs', outcomes) == PassFold(fs, ListTaskFiles(names), env)
  {
    var files := ListTaskFiles(names);
    fs' := fs;
    outcomes := [];
    for k := 0 to |files|
      invariant (fs', outcomes) == PassFold(fs, files[..k], env)
    {
      assert files[..k + 1][..k] == files[..k];
      if Crashed in outcomes {
        continue;
      }
      var outcome, writes;
      outcome, fs', writes := HandleTaskFile(fs', files[k], env(k));
      outcomes := outcomes + [outcome];
    }
    assert files[..|files|] == files;
  }

  // ---------------------------------------------------------------------------
  // Properties
  // ---------------------------------------------------------------------------

  /** A task without videos or audio fails with "no_inputs"; ffmpeg does not
      run and no output appears. */
  lemma NoInputsFails(fs: FileSystem, m: Obj, id: string, env: Env)
    requires NoVideos(Videos(m)) && Audio(m) == JNull
    ensures var p := Process(fs, m, id, env);
      !p.threw && Field(p.task, "status", JStr("failed")) && Field(p.task, "error", JStr("no_inputs"))
      && SameElsewhere(fs, p.fs, {TaskPath(id), LockPath(id)})
  {
    var m1 := Processing(m, env.now);
    ProcessingInputs(m, env.now);
    assert Process(fs, m, id, env) == Close(WriteDoc(fs, TaskPath(id), JObj(m1), env.now), m1,
      m1["status" := JStr("failed")]["error" := JStr("no_inputs")], id, env.now);
    FailedAtOnce(fs, m1, "no_inputs", id, env.now);
  }

  /** A task closed as failed with `err` right after it was marked
      "processing": only its task file and its lock change. */
  lemma FailedAtOnce(fs: FileSystem, m1: Obj, err: string, id: string, now: nat)
    requires err in {"no_inputs", "input_missing"}
    ensures var c := Close(WriteDoc(fs, TaskPath(id), JObj(m1), now), m1, m1["status" := JStr("failed")]["error" := JStr(err)], id, now);
      Field(c.task, "status", JStr("failed")) && Field(c.task, "error", JStr(err))
      && SameElsewhere(fs, c.fs, {TaskPath(id), LockPath(id)})
  {
    var fs1 := WriteDoc(fs, TaskPath(id), JObj(m1), now);
    var t := m1["status" := JStr("failed")]["error" := JStr(err)];
    assert SameElsewhere(fs, fs1, {TaskPath(id)});
    CloseFrame(fs1, m1, t, id, now);
    SameElsewhereTrans(fs, fs1, Close(fs1, m1, t, id, now).fs, {TaskPath(id)}, {TaskPath(id), LockPath(id)}, {TaskPath(id), LockPath(id)});
  }

  /** With at most one video, a `videos[0]`-or-audio path that does not
      exist fails the task with "input_missing", and ffmpeg does not run. */
  lemma InputMissingFails(fs: FileSystem, m: Obj, id: string, env: Env)
    requires !NoVideos(Videos(m)) || Audio(m) != JNull
    requires !ManyVideos(Videos(m))
    requires var input := Input(Videos(m), Audio(m));
      !(input.JStr? && (input.s in fs || input.s == TaskPath(id)))
    ensures var p := Process(fs, m, id, env);
      Field(p.task, "status", JStr("failed")) && Field(p.task, "error", JStr("input_missing"))
      && SameElsewhere(fs, p.fs, {TaskPath(id), LockPath(id)})
  {
    InputMissingCloses(fs, m, id, env);
    FailedAtOnce(fs, Processing(m, env.now), "input_missing", id, env.now);
  }

  lemma InputMissingCloses(fs: FileSystem, m: Obj, id: string, env: Env)
    requires !NoVideos(Videos(m)) || Audio(m) != JNull
    requires !ManyVideos(Videos(m))
    requires var input := Input(Videos(m), Audio(m));
      !(input.JStr? && (input.s in fs || input.s == TaskPath(id)))
    ensures var m1 := Processing(m, env.now);
      Process(fs, m, id, env) == Close(WriteDoc(fs, TaskPath(id), JObj(m1), env.now), m1,
        m1["status" := JStr("failed")]["error" := JStr("input_missing")], id, env.now)
  {
    var m1 := Processing(m, env.now);
    ProcessingInputs(m, env.now);
    var fs1 := WriteDoc(fs, TaskPath(id), JObj(m1), env.now);
    var input := Input(Videos(m), Audio(m));
    assert Process(fs, m, id, env) == Transcode(fs1, m1, input, id, env);
    assert !(input.JStr? && input.s in fs1);
  }

  /** Marking a task as processing leaves its inputs alone. */
  lemma ProcessingInputs(m: Obj, now: nat)
    ensures Videos(Processing(m, now)) == Videos(m) && Audio(Processing(m, now)) == Audio(m)
  {
    assert GetOr(Processing(m, now), "inputs", JNull) == GetOr(m, "inputs", JNull);
  }

  /** The orchestrator's plan file `<id>_auto_plan.json`, for an id that is
      a file stem `task_<n>` and so named `task_<n>_auto_plan.json`, holds a
      non-empty JSON list; it is listed as a task and copied unchanged to
      `undefined.json`. */
  lemma PlanFileCopied(fs: FileSystem, id: string, plan: seq<Json>, env: Env)
    requires StartsWith(id, "task_")
    requires LoadJson(fs, Orchestrator.PlanPath(JStr(id))) == Some(JArr(plan)) && plan != []
    requires !IsLocked(fs, "undefined") && env.lockOk
    ensures IsTaskFile(id + "_auto_plan.json")
    ensures var h := HandleFile(fs, id + "_auto_plan.json", env);
      h.outcome == Handled(JArr(plan)) && LoadJson(h.fs, TaskPath("undefined")) == Some(JArr(plan))
  {
    var n := id + "_auto_plan.json";
    assert n[..5] == id[..5];
    assert n[|n| - 5..] == ".json";
    assert Join(TEMP, n) == Orchestrator.PlanPath(JStr(id));
  }
}

=== FILE: resume_repair.dfy ===
/** The Python resume worker: each pass loads every `task_*.json` (repairing
    files whose JSON is corrupt when removing NUL characters and surrounding
    whitespace is enough), and gives a task whose `output` is missing a
    placeholder render. `json.loads` of repaired text and ffmpeg are oracle
    inputs. */
module ResumeRepair {
  import opened Common
  import Orchestrator

  const TEMP := "storage/temp"
  const OUTPUT := "storage/output"

  /** The text `load_json_safe` tries again: NUL characters removed, then
      stripped. */
  function Sanitise(t: string): (r: string)
    ensures '\0' !in r
    ensures |r| <= |t|
  {
    var u := RemoveChar(t, '\0');
    TrimKeepsOut(u, '\0');
    Trim(u)
  }

  /** `load_json_safe(path)` and the file system after it: a valid document is
      returned as is; a corrupt text is sanitised and, if `json.loads`
      (`parse`) accepts it, written back at time `now` and returned;
      otherwise None and the file is left as it was. */
  function LoadJsonSafe(fs: FileSystem, path: string, parse: string -> Option<Json>, now: nat): (r: (Option<Json>, FileSystem))
    ensures LoadJson(fs, path).Some? ==> r == (LoadJson(fs, path), fs)
    ensures r.0.None? ==> r.1 == fs
    ensures r.0.Some? ==> LoadJson(r.1, path) == r.0
    ensures forall t :: path in fs && fs[path].content == Text(t) ==>
      r.0 == parse(Sanitise(t))
      && (r.0.Some? ==> r.1 == WriteDoc(fs, path, r.0.value, now) && r.1[path].mtime == now)
  {
    if path !in fs then (None, fs)
    else
      match fs[path].content
      case Doc(v) => (Some(v), fs)
      case Media(_) => (None, fs)
      case Text(t) =>
        match parse(Sanitise(t))
        case None => (None, fs)
        case Some(j) => (Some(j), WriteDoc(fs, path, j, now))
  }

  /** `detect_incomplete_tasks`: every `task_*.json`, whatever its status. */
  predicate Incomplete(f: string) {
    StartsWith(f, "task_") && EndsWith(f, ".json")
  }

  function DetectIncomplete(names: seq<string>): (r: seq<string>)
    ensures |r| == |Filter(names, Incomplete)|
    ensures forall k :: 0 <= k < |r| ==> r[k] == Join(TEMP, Filter(names, Incomplete)[k])
    ensures forall f :: f in names && Incomplete(f) ==> Join(TEMP, f) in r
  {
    var fs := Filter(names, Incomplete);
    seq(|fs|, k requires 0 <= k < |fs| => Join(TEMP, fs[k]))
  }

  function ResumePath(tid: Json): string {
    Join(OUTPUT, "resume_" + PyStr(tid) + ".mp4")
  }

  /** What answers for one task: `json.loads` of a sanitised text, the
      size of the placeholder ffmpeg renders, if any, and the open file
      descriptors `os.path.exists` consults for an integer `output`. */
  datatype Oracle = Oracle(parse: string -> Option<Json>, produced: Option<nat>, fds: Descriptors)

  /** How `resume_task` ends: skipped (unloadable or falsy), raised (the
      loaded value is not a dict, or `os.path.exists` raises on its truthy
      `output`), or
      resumed, recording whether the plan repair was requested and whether the
      output was repaired. */
  datatype Outcome = Skipped | Crashed | Resumed(repairRequested: bool, repaired: bool)

  /** `resume_task(path)`. The `--repair` subprocess is taken to change
      nothing (see README). */
  function Resume(fs: FileSystem, path: string, o: Oracle, now: nat): (r: (Outcome, FileSystem))
    ensures var loaded := LoadJsonSafe(fs, path, o.parse, now).0;
      var fs1 := LoadJsonSafe(fs, path, o.parse, now).1;
      (r.0 == Skipped <==> loaded.None? || !PyTruthy(loaded.value))
      && (!(r.0.Resumed? && r.0.repaired) ==> r.1 == fs1)
      && (r.0.Resumed? ==> loaded.Some? && loaded.value.JObj?)
      && (r.0.Resumed? ==> r.0.repairRequested == !PyTruthy(GetOr(loaded.value.fields, "plan_path", JNull)))
  {
    var loaded := LoadJsonSafe(fs, path, o.parse, now).0;
    var fs1 := LoadJsonSafe(fs, path, o.parse, now).1;
    match loaded
    case None => (Skipped, fs1)
    case Some(task) =>
      if !PyTruthy(task) then (Skipped, fs1)
      else if !task.JObj? then (Crashed, fs1)
      else ResumeLoaded(fs1, path, task.fields, o, now)
  }

  /** The rest of `resume_task` once the task `t` is a non-empty dict: the
      plan check, then the output check and repair. */
  function ResumeLoaded(fs: FileSystem, path: string, t: Obj, o: Oracle, now: nat): (r: (Outcome, FileSystem))
    ensures r.0 != Skipped
    ensures !(r.0.Resumed? && r.0.repaired) ==> r.1 == fs
    ensures r.0.Resumed? ==> r.0.repairRequested == !PyTruthy(GetOr(t, "plan_path", JNull))
    ensures r.0 == Crashed <==> PyTruthy(GetOr(t, "output", JNull)) && PyExists(fs, GetOr(t, "output", JNull), o.fds).None?
  {
    var tid := GetOr(t, "id", JStr(ReplaceAll(Basename(path), ".json", "")));
    var repair := !PyTruthy(GetOr(t, "plan_path", JNull));
    var out := GetOr(t, "output", JNull);
    var present := if PyTruthy(out) then PyExists(fs, out, o.fds) else Some(false);
    if present.None? then (Crashed, fs)
    else if present.value then (Resumed(repair, false), fs)
    else
      var fixed := ResumePath(tid);
      var fs2 := if o.produced.Some? then fs[fixed := FileRec(Media(o.produced.value), now)] else fs;
      (Resumed(repair, true), WriteDoc(fs2, path, JObj(t["output" := JStr(fixed)]), now))
  }

  /** The same, step by step as the worker runs it. */
  method ResumeTask(fs: FileSystem, path: string, o: Oracle, now: nat) returns (outcome: Outcome, fs': FileSystem)
    ensures (outcome, fs') == Resume(fs, path, o, now)
  {
    var loaded;
    loaded, fs' := LoadJsonSafe(fs, path, o.parse, now).0, LoadJsonSafe(fs, path, o.parse, now).1;
    if loaded.None? || !PyTruthy(loaded.value) {
      return Skipped, fs';
    }
    if !loaded.value.JObj? {
      return Crashed, fs';
    }
    outcome, fs' := ResumeLoadedTask(fs', path, loaded.value.fields, o, now);
  }

  /** The plan and output checks of `resume_task`, step by step. */
  method ResumeLoadedTask(fs: FileSystem, path: string, task: Obj, o: Oracle, now: nat) returns (outcome: Outcome, fs': FileSystem)
    ensures (outcome, fs') == ResumeLoaded(fs, path, task, o, now)
  {
    fs' := fs;
    var tid := GetOr(task, "id", JStr(ReplaceAll(Basename(path), ".json", "")));
    var repair := !PyTruthy(GetOr(task, "plan_path", JNull));
    var out := GetOr(task, "output", JNull);
    if PyTruthy(out) {
      var present := PyExists(fs, out, o.fds);
      if present.None? {
        return Crashed, fs;
      }
      if present.value {
        return Resumed(repair, false), fs;
      }
    }
    var repaired := ResumePath(tid);
    if o.produced.Some? {
      fs' := fs'[repaired := FileRec(Media(o.produced.value), now)];
    }
    var fixed := task["output" := JStr(repaired)];
    fs' := WriteDoc(fs', path, JObj(fixed), now);
    outcome := Resumed(repair, true);
  }

  // ---------------------------------------------------------------------------
  // One pass
  // ---------------------------------------------------------------------------

  /** The file system and outcomes after the first `|ts|` tasks of a pass;
      an uncaught error ends the worker. */
  function PassFold(fs: FileSystem, ts: seq<string>, oracle: nat -> Oracle, now: nat): (r: (FileSystem, seq<Outcome>))
    ensures |r.1| <= |ts|
    decreases |ts|
  {
    if ts == [] then (fs, [])
    else
      var n := |ts| - 1;
      var prior := PassFold(fs, ts[..n], oracle, now);
      if Crashed in prior.1 then prior
      else
        var (o, fs') := Resume(prior.0, ts[n], oracle(n), now);
        (fs', prior.1 + [o])
  }

  /** One pass of `resume_loop` over the listing `names`. */
  method ResumePass(fs: FileSystem, names: seq<string>, oracle: nat -> Oracle, now: nat)
    returns (fs': FileSystem, outcomes: seq<Outcome>)
    ensures (fs', outcomes) == PassFold(fs, DetectIncomplete(names), oracle, now)
  {
    var tasks := DetectIncomplete(names);
    fs' := fs;
    outcomes := [];
    for k := 0 to |tasks|
      invariant (fs', outcomes) == PassFold(fs, tasks[..k], oracle, now)
    {
      PassFoldStep(fs, tasks, k, oracle, now);
      if Crashed in outcomes {
        continue;
      }
      var outcome;
      outcome, fs' := ResumeTask(fs', tasks[k], oracle(k), now);
      outcomes := outcomes + [outcome];
    }
    assert tasks[..|tasks|] == tasks;
  }

  /** The fold over one more task: nothing more after a crash, otherwise
      that task resumed on the files left by the ones before it. */
  lemma PassFoldStep(fs: FileSystem, ts: seq<string>, k: nat, oracle: nat -> Oracle, now: nat)
    requires k < |ts|
    ensures var prior := PassFold(fs, ts[..k], oracle, now);
      var step := Resume(prior.0, ts[k], oracle(k), now);
      PassFold(fs, ts[..k + 1], oracle, now) == if Crashed in prior.1 then prior else (step.1, prior.1 + [step.0])
  {
    assert ts[..k + 1][..k] == ts[..k];
  }

  // ---------------------------------------------------------------------------
  // Properties
  // ---------------------------------------------------------------------------

  /** A dict task whose `output` names an existing file is left as it was
      loaded (only the JSON repair may have rewritten it). */
  lemma OutputPresentNoWrite(fs: FileSystem, path: string, o: Oracle, now: nat, m: Obj, out: string)
    requires LoadJson(fs, path) == Some(JObj(m)) && m != map[]
    requires "output" in m && m["output"] == JStr(out) && out != "" && out in fs
    ensures Resume(fs, path, o, now) == (Resumed(!PyTruthy(GetOr(m, "plan_path", JNull)), false), fs)
  {
  }

  /** A dict task whose `output` is absent, names a missing file, or is an
      integer naming a closed file descriptor is written back with `output` =
      `OUTPUT/resume_<tid>.mp4`, tid being its `id` or the file name without
      ".json"; `plan_path` is never set by this worker and every field but
      `output` is kept. */
  lemma MissingOutputRepaired(fs: FileSystem, path: string, o: Oracle, now: nat, m: Obj)
    requires LoadJson(fs, path) == Some(JObj(m)) && m != map[]
    requires "output" !in m || !PyTruthy(m["output"]) || PyExists(fs, m["output"], o.fds) == Some(false)
    ensures var r := Resume(fs, path, o, now);
      var tid := GetOr(m, "id", JStr(ReplaceAll(Basename(path), ".json", "")));
      r.0 == Resumed(!PyTruthy(GetOr(m, "plan_path", JNull)), true)
      && LoadJson(r.1, path) == Some(JObj(m["output" := JStr(ResumePath(tid))]))
      && ("plan_path" in m <==> "plan_path" in m["output" := JStr(ResumePath(tid))])
  {
  }

  /** An `output` that `os.path.exists` cannot take (a float, a list, a
      dict, or an int beyond C's range) raises and ends the worker, with
      nothing written. */
  lemma UnstatableOutputCrashes(fs: FileSystem, path: string, o: Oracle, now: nat, m: Obj)
    requires LoadJson(fs, path) == Some(JObj(m))
    requires "output" in m && PyTruthy(m["output"]) && PyExists(fs, m["output"], o.fds).None?
    ensures Resume(fs, path, o, now) == (Crashed, fs)
  {
  }

  /** A repaired JSON file is rewritten at time `now`, whatever its old
      modification time, and a task with an existing output is not written
      again. */
  lemma RepairedFileIsFresh(fs: FileSystem, path: string, o: Oracle, now: nat, t: string)
    requires path in fs && fs[path].content == Text(t) && o.parse(Sanitise(t)).Some?
    ensures var fs' := Resume(fs, path, o, now).1;
      path in fs' && fs'[path].mtime == now
  {
  }

  /** A corrupt file that sanitising cannot save is neither rewritten nor
      deleted, and the task is skipped. */
  lemma UnfixableUntouched(fs: FileSystem, path: string, o: Oracle, now: nat, t: string)
    requires path in fs && fs[path].content == Text(t) && o.parse(Sanitise(t)).None?
    ensures Resume(fs, path, o, now) == (Skipped, fs)
  {
  }

  /** The orchestrator's plan file for a task whose id starts with "task_"
      is itself a `task_*.json` entry, so this worker picks it up; the plan
      is a non-empty JSON list, and `task.get` on it raises, ending the
      worker. */
  lemma PlanFileCrashesWorker(fs: FileSystem, id: string, plan: seq<Json>, o: Oracle, now: nat)
    requires StartsWith(id, "task_")
    requires LoadJson(fs, Orchestrator.PlanPath(JStr(id))) == Some(JArr(plan)) && plan != []
    ensures Incomplete(id + "_auto_plan.json")
    ensures Join(TEMP, id + "_auto_plan.json") == Orchestrator.PlanPath(JStr(id))
    ensures Resume(fs, Orchestrator.PlanPath(JStr(id)), o, now).0 == Crashed
  {
    var n := id + "_auto_plan.json";
    assert n[..5] == id[..5];
    assert n[|n| - 5..] == ".json";
  }
}

=== FILE: scene_split.dfy ===
/** The scene splitter: ffmpeg's scene filter prints `pts_time` stamps that
    become back-to-back intervals (or fixed four-second chunks when it prints
    none); a short preview clip is rendered for each of the first eight scenes
    and the task records both. ffmpeg, ffprobe and `float()` are oracle
    inputs. The lines parsed are taken as an input too: as written, the
    command runs ffmpeg with `-loglevel error`, which keeps showinfo quiet,
    and sends its stderr to stdout with `2>&1` while the worker reads
    stderr, so a real run sees no lines and takes the four-second chunks. */
module SceneSplit {
  import opened Common

  const STORAGE := "storage"

  /** A scene as `(start, end)` in seconds. */
  type Interval = (real, real)

  /** What the outside world answers for one video: the lines ffmpeg prints at
      threshold 0.4 and at 0.1, the duration ffprobe reports (0.0 when it
      fails), `float()` of a text (None when it raises), and the size of the
      preview clip ffmpeg renders for an output path, a start and a length
      (None when it renders nothing). */
  datatype Probe = Probe(
    linesAt04: seq<string>,
    linesAt01: seq<string>,
    duration: real,
    parse: string -> Option<real>,
    render: (string, real, real) -> Option<nat>,
    fds: Descriptors)

  // ---------------------------------------------------------------------------
  // pts_time parsing
  // ---------------------------------------------------------------------------

  /** The first word that contains `p`. */
  function FirstWith(words: seq<string>, p: string): (r: Option<string>)
    ensures r.Some? ==> exists k :: 0 <= k < |words| && words[k] == r.value && Contains(r.value, p)
                                    && forall j :: 0 <= j < k ==> !Contains(words[j], p)
    ensures r.None? ==> forall w :: w in words ==> !Contains(w, p)
    decreases |words|
  {
    if words == [] then None
    else if Contains(words[0], p) then Some(words[0])
    else
      var r := FirstWith(words[1..], p);
      assert r.Some? ==> exists k :: 0 <= k < |words| && words[k] == r.value && Contains(r.value, p)
                                     && forall j :: 0 <= j < k ==> !Contains(words[j], p) by {
        if r.Some? {
          var k :| 0 <= k < |words[1..]| && words[1..][k] == r.value && Contains(r.value, p)
                   && forall j :: 0 <= j < k ==> !Contains(words[1..][j], p);
          assert words[k + 1] == r.value;
          assert forall j :: 0 <= j < k + 1 ==> !Contains(words[j], p) by {
            forall j | 0 <= j < k + 1 ensures !Contains(words[j], p) {
              if j > 0 { assert words[j] == words[1..][j - 1]; }
            }
          }
        }
      }
      r
  }

  /** The stamp one line contributes: the text after the first '=' of its
      first `pts_time` word, when `float()` accepts it. Lines without
      `pts_time`, and lines whose parse raises, contribute nothing. */
  function LineTime(line: string, parse: string -> Option<real>): (r: Option<real>)
    ensures !Contains(line, "pts_time") ==> r.None?
    ensures Contains(line, "pts_time") && FirstWith(Words(line), "pts_time").Some? ==>
      var w := FirstWith(Words(line), "pts_time").value;
      r == (if |SplitOn(w, "=")| >= 2 then parse(SplitOn(w, "=")[1]) else None)
    ensures r.Some? ==> FirstWith(Words(line), "pts_time").Some?
  {
    if !Contains(line, "pts_time") then None
    else
      match FirstWith(Words(line), "pts_time")
      case None => None
      case Some(part) =>
        var pieces := SplitOn(part, "=");
        if |pieces| < 2 then None else parse(pieces[1])
  }

  /** The stamp of every line, stamped or not. */
  function LineTimes(lines: seq<string>, parse: string -> Option<real>): (r: seq<Option<real>>)
    ensures |r| == |lines| && forall i :: 0 <= i < |lines| ==> r[i] == LineTime(lines[i], parse)
  {
    seq(|lines|, i requires 0 <= i < |lines| => LineTime(lines[i], parse))
  }

  /** The indices of the entries that hold a value, ascending. */
  function Stamped(ts: seq<Option<real>>): (r: seq<nat>)
    ensures |r| <= |ts|
    ensures forall k :: 0 <= k < |r| ==> r[k] < |ts| && ts[r[k]].Some?
    ensures forall k, l :: 0 <= k < l < |r| ==> r[k] < r[l]
    ensures forall i :: 0 <= i < |ts| && ts[i].Some? ==> i in r
    decreases |ts|
  {
    if ts == [] then []
    else
      var n := |ts| - 1;
      var r := Stamped(ts[..n]);
      assert forall i :: 0 <= i < n ==> ts[..n][i] == ts[i];
      if ts[n].Some? then r + [n] else r
  }

  /** The stamps of the lines, in line order: one per stamped line. */
  function Times(lines: seq<string>, parse: string -> Option<real>): (r: seq<real>)
    ensures |r| == |Stamped(LineTimes(lines, parse))| <= |lines|
    ensures forall k :: 0 <= k < |r| ==> LineTime(lines[Stamped(LineTimes(lines, parse))[k]], parse) == Some(r[k])
    decreases |lines|
  {
    if lines == [] then []
    else
      var n := |lines| - 1;
      assert LineTimes(lines[..n], parse) == LineTimes(lines, parse)[..n];
      var prefix := Times(lines[..n], parse);
      match LineTime(lines[n], parse)
      case Some(t) => prefix + [t]
      case None => prefix
  }

  /** The parsing loop of `detect_scenes_ffmpeg`. */
  method ParseTimes(lines: seq<string>, parse: string -> Option<real>) returns (times: seq<real>)
    ensures times == Times(lines, parse)
  {
    times := [];
    for i := 0 to |lines|
      invariant times == Times(lines[..i], parse)
    {
      assert lines[..i + 1][..i] == lines[..i];
      var t := LineTime(lines[i], parse);
      if t.Some? {
        times := times + [t.value];
      }
    }
    assert lines[..|lines|] == lines;
  }

  // ---------------------------------------------------------------------------
  // The chunk fallback
  // ---------------------------------------------------------------------------

  function Min(a: real, b: real): real {
    if a <= b then a else b
  }

  /** How many four-second chunks cover `d` seconds. */
  function ChunkCount(d: real): (n: nat)
    ensures d <= 0.0 ==> n == 0
    ensures d > 0.0 ==> n >= 1 && 4.0 * (n - 1) as real < d <= 4.0 * n as real
  {
    if d <= 0.0 then 0
    else
      var f := (d / 4.0).Floor;
      if f as real * 4.0 == d then f else f + 1
  }

  /** Chunk k runs from 4k to 4k + 4, clipped to the duration. */
  function Chunks(d: real): (r: seq<Interval>)
    ensures |r| == ChunkCount(d)
  {
    seq(ChunkCount(d), k requires 0 <= k < ChunkCount(d) => (4.0 * k as real, Min(d, 4.0 * k as real + 4.0)))
  }

  /** The fallback of `detect_scenes_ffmpeg` when no stamp was parsed: the
      `while t < duration` loop with step 4. */
  method ChunkLoop(duration: real) returns (chunks: seq<Interval>)
    ensures chunks == Chunks(duration)
  {
    if duration <= 0.0 {
      return [];
    }
    var step := 4.0;
    chunks := [];
    var t := 0.0;
    while t < duration
      invariant t == 4.0 * |chunks| as real
      invariant |chunks| <= ChunkCount(duration)
      invariant forall k :: 0 <= k < |chunks| ==> chunks[k] == (4.0 * k as real, Min(duration, 4.0 * k as real + 4.0))
      decreases duration.Floor + 1 - 4 * |chunks|
    {
      chunks := chunks + [(t, Min(duration, t + step))];
      t := t + step;
    }
  }

  /** The chunks are back to back from 0 and the last ends at the duration. */
  lemma ChunksCover(d: real)
    requires d > 0.0
    ensures var c := Chunks(d);
      |c| >= 1 && c[0].0 == 0.0 && c[|c| - 1].1 == d
      && (forall k :: 0 <= k < |c| - 1 ==> c[k].1 == c[k + 1].0)
      && (forall k :: 0 <= k < |c| ==> c[k].0 < c[k].1 <= c[k].0 + 4.0)
  {
    var c := Chunks(d);
    var n := ChunkCount(d);
    forall k | 0 <= k < n - 1 ensures c[k].1 == c[k + 1].0 {
      assert 4.0 * k as real + 4.0 <= 4.0 * (n - 1) as real < d;
    }
  }

  // ---------------------------------------------------------------------------
  // Intervals from stamps
  // ---------------------------------------------------------------------------

  /** `(prev, t)` for each stamp, `prev` being the stamp before (0 first). */
  function Intervals(times: seq<real>): (r: seq<Interval>)
    ensures |r| == |times|
  {
    seq(|times|, k requires 0 <= k < |times| => (if k == 0 then 0.0 else times[k - 1], times[k]))
  }

  /** The interval loop of `detect_scenes_ffmpeg`. */
  method IntervalLoop(times: seq<real>) returns (intervals: seq<Interval>, prev: real)
    ensures intervals == Intervals(times)
    ensures prev == if times == [] then 0.0 else times[|times| - 1]
  {
    intervals := [];
    prev := 0.0;
    for k := 0 to |times|
      invariant intervals == Intervals(times[..k])
      invariant prev == if k == 0 then 0.0 else times[k - 1]
    {
      intervals := intervals + [(prev, times[k])];
      prev := times[k];
    }
    assert times[..|times|] == times;
  }

  /** The intervals, with the tail `(prev, duration)` when the duration is
      non-zero and beyond the last stamp. */
  function WithTail(times: seq<real>, d: real): (r: seq<Interval>)
  {
    var prev := if times == [] then 0.0 else times[|times| - 1];
    if d != 0.0 && prev < d then Intervals(times) + [(prev, d)] else Intervals(times)
  }

  /** Each interval starts where the one before ends, the first at 0; the
      tail is present exactly when the duration is non-zero and beyond the
      last stamp, and then ends at the duration. */
  lemma IntervalsChain(times: seq<real>, d: real)
    requires times != []
    ensures var r := WithTail(times, d);
      r[0].0 == 0.0
      && (forall k :: 0 <= k < |r| - 1 ==> r[k].1 == r[k + 1].0)
      && (|r| == |times| + 1 <==> d != 0.0 && times[|times| - 1] < d)
      && (|r| == |times| + 1 ==> r[|times|] == (times[|times| - 1], d))
  {
  }

  /** What `detect_scenes_ffmpeg(video)` returns for the printed lines, or
      None when it raises: the video does not exist, or `os.path.exists`
      cannot take it. */
  function Detect(fs: FileSystem, video: Json, lines: seq<string>, p: Probe): (r: Option<seq<Interval>>)
    ensures r.None? <==> PyExists(fs, video, p.fds) != Some(true)
  {
    if PyExists(fs, video, p.fds) != Some(true) then None
    else
      var times := Times(lines, p.parse);
      if times == [] then Some(Chunks(p.duration)) else Some(WithTail(times, p.duration))
  }

  /** `detect_scenes_ffmpeg` */
  method DetectScenes(fs: FileSystem, video: Json, lines: seq<string>, p: Probe) returns (r: Option<seq<Interval>>)
    ensures r == Detect(fs, video, lines, p)
  {
    if PyExists(fs, video, p.fds) != Some(true) {
      return None;
    }
    var times := ParseTimes(lines, p.parse);
    var scenes := ScenesFrom(times, p.duration);
    r := Some(scenes);
  }

  /** The second half of `detect_scenes_ffmpeg`: the four-second chunks when
      no stamp was parsed, else the intervals between the stamps with the
      tail to the duration. */
  method ScenesFrom(times: seq<real>, duration: real) returns (scenes: seq<Interval>)
    ensures times == [] ==> scenes == Chunks(duration)
    ensures times != [] ==> scenes == WithTail(times, duration)
  {
    if times == [] {
      scenes := ChunkLoop(duration);
      return;
    }
    var prev;
    scenes, prev := IntervalLoop(times);
    if duration != 0.0 && prev < duration {
      scenes := scenes + [(prev, duration)];
    }
  }

  // ---------------------------------------------------------------------------
  // create_scene_clips
  // ---------------------------------------------------------------------------

  /** `max(0.5, e - s)` */
  function ClipLength(sc: Interval): (d: real)
    ensures d >= 0.5 && d >= sc.1 - sc.0
    ensures d == 0.5 || d == sc.1 - sc.0
  {
    if sc.1 - sc.0 > 0.5 then sc.1 - sc.0 else 0.5
  }

  function ClipName(dir: string, video: string, idx: nat): string {
    Join(dir, Stem(Basename(video)) + "_scene_" + NatToString(idx) + ".mp4")
  }

  /** The file system after ffmpeg renders the preview of scene number `idx`. */
  function RenderClip(fs: FileSystem, video: string, sc: Interval, idx: nat, dir: string, p: Probe, now: nat): (r: FileSystem)
    ensures r.Keys == fs.Keys || r.Keys == fs.Keys + {ClipName(dir, video, idx)}
    ensures forall q :: q in fs && q != ClipName(dir, video, idx) ==> r[q] == fs[q]
  {
    var out := ClipName(dir, video, idx);
    match p.render(out, sc.0, ClipLength(sc))
    case None => fs
    case Some(size) => fs[out := FileRec(Media(size), now)]
  }

  /** The file system after the previews of `scenes`, and the numbers (from
      1) of the previews found on disk afterwards, in scene order. */
  function SceneClips(fs: FileSystem, video: string, scenes: seq<Interval>, dir: string, p: Probe, now: nat): (r: (FileSystem, seq<nat>))
    ensures fs.Keys <= r.0.Keys
    decreases |scenes|
  {
    if scenes == [] then (fs, [])
    else
      var n := |scenes| - 1;
      var prior := SceneClips(fs, video, scenes[..n], dir, p, now);
      var fs' := RenderClip(prior.0, video, scenes[n], n + 1, dir, p, now);
      (fs', if ClipName(dir, video, n + 1) in fs' then prior.1 + [n + 1] else prior.1)
  }

  function ClipNames(dir: string, video: string, idxs: seq<nat>): (r: seq<string>)
    ensures |r| == |idxs|
  {
    seq(|idxs|, k requires 0 <= k < |idxs| => ClipName(dir, video, idxs[k]))
  }

  /** `create_scene_clips(video, scenes, dir)` */
  method CreateSceneClips(fs: FileSystem, video: string, scenes: seq<Interval>, dir: string, p: Probe, now: nat)
    returns (fs': FileSystem, clips: seq<string>)
    ensures fs' == SceneClips(fs, video, scenes, dir, p, now).0
    ensures clips == ClipNames(dir, video, SceneClips(fs, video, scenes, dir, p, now).1)
  {
    fs' := fs;
    var idxs: seq<nat> := [];
    for i := 0 to |scenes|
      invariant (fs', idxs) == SceneClips(fs, video, scenes[..i], dir, p, now)
    {
      assert scenes[..i + 1][..i] == scenes[..i];
      var idx := i + 1;
      fs' := RenderClip(fs', video, scenes[i], idx, dir, p, now);
      if ClipName(dir, video, idx) in fs' {
        idxs := idxs + [idx];
      }
    }
    assert scenes[..|scenes|] == scenes;
    clips := ClipNames(dir, video, idxs);
  }

  /** The previews returned are numbered 1 to `|scenes|` in increasing (scene)
      order, and each is a file afterwards. */
  lemma {:induction false} SceneClipsOrdered(fs: FileSystem, video: string, scenes: seq<Interval>, dir: string, p: Probe, now: nat)
    ensures forall k :: 0 <= k < |SceneClips(fs, video, scenes, dir, p, now).1| ==>
      1 <= SceneClips(fs, video, scenes, dir, p, now).1[k] <= |scenes|
      && ClipName(dir, video, SceneClips(fs, video, scenes, dir, p, now).1[k]) in SceneClips(fs, video, scenes, dir, p, now).0
    ensures forall k, l :: 0 <= k < l < |SceneClips(fs, video, scenes, dir, p, now).1| ==>
      SceneClips(fs, video, scenes, dir, p, now).1[k] < SceneClips(fs, video, scenes, dir, p, now).1[l]
    decreases |scenes|
  {
    if scenes != [] {
      var n := |scenes| - 1;
      SceneClipsOrdered(fs, video, scenes[..n], dir, p, now);
      var prior := SceneClips(fs, video, scenes[..n], dir, p, now);
      var fs' := RenderClip(prior.0, video, scenes[n], n + 1, dir, p, now);
      assert prior.0.Keys <= fs'.Keys;
      assert |scenes[..n]| == n;
      var r := SceneClips(fs, video, scenes, dir, p, now);
      assert r.0 == fs';
      assert r.1 == if ClipName(dir, video, n + 1) in fs' then prior.1 + [n + 1] else prior.1;
      forall k | 0 <= k < |r.1| ensures 1 <= r.1[k] <= |scenes| && ClipName(dir, video, r.1[k]) in r.0 {
        if k < |prior.1| {
          assert r.1[k] == prior.1[k];
          assert ClipName(dir, video, prior.1[k]) in prior.0;
        }
      }
    }
  }

  /** A preview already on disk from an earlier run is reported even when
      ffmpeg renders nothing this time. */
  lemma StalePreviewReported(fs: FileSystem, video: string, sc: Interval, dir: string, p: Probe, now: nat)
    requires ClipName(dir, video, 1) in fs
    ensures SceneClips(fs, video, [sc], dir, p, now).1 == [1]
  {
    assert [sc][..0] == [];
    assert SceneClips(fs, video, [], dir, p, now) == (fs, []);
    var fs' := RenderClip(fs, video, sc, 1, dir, p, now);
    assert ClipName(dir, video, 1) in fs';
  }

  // ---------------------------------------------------------------------------
  // scene_split_task
  // ---------------------------------------------------------------------------

  /** `task.get("video") or task.get("videos") and task.get("videos")[0]`,
      None when the indexing raises. */
  function VideoField(task: Obj): (r: Option<Json>)
    ensures "video" in task && PyTruthy(task["video"]) ==> r == Some(task["video"])
  {
    var v := GetOr(task, "video", JNull);
    if PyTruthy(v) then Some(v)
    else
      var vs := GetOr(task, "videos", JNull);
      if !PyTruthy(vs) then Some(vs)
      else match vs
        case JArr(xs) => Some(xs[0])
        case JStr(s) => Some(JStr([s[0]]))
        case _ => None
  }

  /** The preview directory `STORAGE/previews/<id or stem>`; None when a
      truthy id is not a string and the path join raises. */
  function PreviewDir(task: Obj, path: string): Option<string> {
    var id := GetOr(task, "id", JNull);
    if !PyTruthy(id) then Some(Join(Join(STORAGE, "previews"), Stem(Basename(path))))
    else if id.JStr? then Some(Join(Join(STORAGE, "previews"), id.s))
    else None
  }

  function SceneObj(sc: Interval): Json {
    JObj(map["start" := JReal(sc.0), "end" := JReal(sc.1)])
  }

  function SceneObjs(scenes: seq<Interval>): (r: seq<Json>)
    ensures |r| == |scenes|
    ensures forall k :: 0 <= k < |scenes| ==> r[k] == SceneObj(scenes[k])
  {
    seq(|scenes|, k requires 0 <= k < |scenes| => SceneObj(scenes[k]))
  }

  /** The first eight scenes, `scenes[:8]`. */
  function FirstEight(scenes: seq<Interval>): (r: seq<Interval>)
    ensures |r| <= 8 && r <= scenes
    ensures |scenes| >= 8 ==> |r| == 8
    ensures |scenes| < 8 ==> r == scenes
  {
    if |scenes| <= 8 then scenes else scenes[..8]
  }

  datatype SplitResult = NotSplit | Split | Raised

  /** The scenes kept: those at threshold 0.4, or at 0.1 when 0.4 finds
      none. */
  function ChosenScenes(fs: FileSystem, video: Json, p: Probe): seq<Interval>
    requires PyExists(fs, video, p.fds) == Some(true)
  {
    var first := Detect(fs, video, p.linesAt04, p).value;
    if first == [] then Detect(fs, video, p.linesAt01, p).value else first
  }

  /** The task as written back: scenes as `{start, end}` and the preview
      paths. */
  function SplitTaskDoc(task: Obj, scenes: seq<Interval>, clips: seq<string>): Obj {
    task["scenes" := JArr(SceneObjs(scenes))]["scene_clips" := JArr(JStrs(clips))]
  }

  /** The outcome of `scene_split_task(path)` and the file system after it.
      A video given by a file descriptor passes both existence checks when
      the descriptor is open, and then `Path(video)` raises on the first
      preview, so it splits only when no scene is found. */
  function SplitTask(fs: FileSystem, path: string, p: Probe, now: nat): (r: (SplitResult, FileSystem))
    ensures r.0 != Split ==> r.1 == fs
    ensures r.0 == Split <==>
      LoadJson(fs, path).Some? && LoadJson(fs, path).value.JObj?
      && var task := LoadJson(fs, path).value.fields;
         VideoField(task).Some? && PyTruthy(VideoField(task).value)
         && PyExists(fs, VideoField(task).value, p.fds) == Some(true)
         && PreviewDir(task, path).Some?
         && (VideoField(task).value.JStr? || FirstEight(ChosenScenes(fs, VideoField(task).value, p)) == [])
    ensures r.0 == NotSplit <==>
      LoadJson(fs, path).None?
      || (LoadJson(fs, path).value.JObj?
          && var task := LoadJson(fs, path).value.fields;
             VideoField(task).Some?
             && (!PyTruthy(VideoField(task).value) || PyExists(fs, VideoField(task).value, p.fds) == Some(false)))
  {
    match LoadJson(fs, path)
    case None => (NotSplit, fs)
    case Some(doc) =>
      if !doc.JObj? then (Raised, fs)
      else
        var task := doc.fields;
        match VideoField(task)
        case None => (Raised, fs)
        case Some(v) =>
          if !PyTruthy(v) then (NotSplit, fs)
          else
            match PyExists(fs, v, p.fds)
            case None => (Raised, fs)
            case Some(present) =>
              if !present then (NotSplit, fs)
              else
                match PreviewDir(task, path)
                case None => (Raised, fs)
                case Some(dir) =>
                  var scenes := ChosenScenes(fs, v, p);
                  if !v.JStr? then
                    if FirstEight(scenes) != [] then (Raised, fs)
                    else (Split, WriteDoc(fs, path, JObj(SplitTaskDoc(task, scenes, [])), now))
                  else
                    var made := SceneClips(fs, v.s, FirstEight(scenes), dir, p, now);
                    (Split, WriteDoc(made.0, path, JObj(SplitTaskDoc(task, scenes, ClipNames(dir, v.s, made.1))), now))
  }

  /** `scene_split_task(path)` */
  method SceneSplitTask(fs: FileSystem, path: string, p: Probe, now: nat) returns (res: SplitResult, fs': FileSystem)
    ensures (res, fs') == SplitTask(fs, path, p, now)
  {
    var loaded := LoadJson(fs, path);
    if loaded.None? {
      return NotSplit, fs;
    }
    if !loaded.value.JObj? {
      return Raised, fs;
    }
    var task := loaded.value.fields;
    var v := VideoField(task);
    if v.None? {
      return Raised, fs;
    }
    var video := v.value;
    if !PyTruthy(video) {
      return NotSplit, fs;
    }
    var present := PyExists(fs, video, p.fds);
    if present.None? {
      return Raised, fs;
    }
    if !present.value {
      return NotSplit, fs;
    }
    var scenes := DetectScenes(fs, video, p.linesAt04, p);
    if scenes.value == [] {
      scenes := DetectScenes(fs, video, p.linesAt01, p);
    }
    var dir := PreviewDir(task, path);
    task := task["scenes" := JArr(SceneObjs(scenes.value))];
    if dir.None? {
      return Raised, fs;
    }
    var clips: seq<string>;
    if video.JStr? {
      fs', clips := CreateSceneClips(fs, video.s, FirstEight(scenes.value), dir.value, p, now);
    } else if FirstEight(scenes.value) != [] {
      return Raised, fs;
    } else {
      fs', clips := fs, [];
    }
    task := task["scene_clips" := JArr(JStrs(clips))];
    fs' := WriteDoc(fs', path, JObj(task), now);
    res := Split;
  }

  /** An unreadable task, or one whose video is falsy, missing or a closed
      file descriptor, is not split and nothing is written. */
  lemma NoSplitWithoutVideo(fs: FileSystem, path: string, p: Probe, now: nat)
    requires LoadJson(fs, path).None?
      || (LoadJson(fs, path).value.JObj? && VideoField(LoadJson(fs, path).value.fields).Some?
          && var v := VideoField(LoadJson(fs, path).value.fields).value;
             !PyTruthy(v) || PyExists(fs, v, p.fds) == Some(false))
    ensures SplitTask(fs, path, p, now) == (NotSplit, fs)
  {
  }

  /** A truthy video that `os.path.exists` cannot take (a float, a list, a
      dict, or an int beyond C's range) raises, and nothing is written. */
  lemma UnstatableVideoRaises(fs: FileSystem, path: string, p: Probe, now: nat, task: Obj)
    requires LoadJson(fs, path) == Some(JObj(task)) && VideoField(task).Some?
    requires PyTruthy(VideoField(task).value) && PyExists(fs, VideoField(task).value, p.fds).None?
    ensures SplitTask(fs, path, p, now) == (Raised, fs)
  {
  }

  /** A video given as an open file descriptor passes the existence checks,
      and once a scene is found the preview step raises on it: nothing is
      written. */
  lemma DescriptorVideoRaises(fs: FileSystem, path: string, p: Probe, now: nat, task: Obj, fd: int)
    requires LoadJson(fs, path) == Some(JObj(task)) && VideoField(task) == Some(JInt(fd))
    requires 0 < fd <= IntMax && p.fds(fd).Some? && PreviewDir(task, path).Some?
    requires ChosenScenes(fs, JInt(fd), p) != []
    ensures SplitTask(fs, path, p, now) == (Raised, fs)
  {
  }

  /** A split task is written back with its scenes as `{start, end}` in
      order, every other field kept, and at most eight previews, one per
      scene among the first eight at most. The threshold-0.1 retry happens
      only when threshold 0.4 finds nothing. */
  lemma SplitWritesScenes(fs: FileSystem, path: string, p: Probe, now: nat)
    requires SplitTask(fs, path, p, now).0 == Split
    ensures var fs' := SplitTask(fs, path, p, now).1;
      var task := LoadJson(fs, path).value.fields;
      var video := VideoField(task).value;
      var scenes := ChosenScenes(fs, video, p);
      LoadJson(fs', path).Some? && LoadJson(fs', path).value.JObj?
      && var t := LoadJson(fs', path).value.fields;
      t.Keys == task.Keys + {"scenes", "scene_clips"}
      && (forall k :: k in task && k != "scenes" && k != "scene_clips" ==> t[k] == task[k])
      && t["scenes"] == JArr(SceneObjs(scenes))
      && t["scene_clips"].JArr? && |t["scene_clips"].items| <= 8 && |t["scene_clips"].items| <= |scenes|
      && (Detect(fs, video, p.linesAt04, p).value != [] ==> scenes == Detect(fs, video, p.linesAt04, p).value)
      && (!video.JStr? ==> scenes == [] && t["scene_clips"] == JArr([]))
  {
    var task := LoadJson(fs, path).value.fields;
    var video := VideoField(task).value;
    var scenes := ChosenScenes(fs, video, p);
    var dir := PreviewDir(task, path).value;
    if video.JStr? {
      var made := SceneClips(fs, video.s, FirstEight(scenes), dir, p, now);
      var clips := ClipNames(dir, video.s, made.1);
      assert SplitTask(fs, path, p, now).1 == WriteDoc(made.0, path, JObj(SplitTaskDoc(task, scenes, clips)), now);
      SplitTaskDocFields(task, scenes, clips);
      SceneClipsOrdered(fs, video.s, FirstEight(scenes), dir, p, now);
      StrictlyIncreasingBound(made.1, |FirstEight(scenes)|);
    } else {
      assert SplitTask(fs, path, p, now).1 == WriteDoc(fs, path, JObj(SplitTaskDoc(task, scenes, [])), now);
      SplitTaskDocFields(task, scenes, []);
      assert JStrs([]) == [];
    }
  }

  /** The task written back: the task with its scenes and clip names. */
  lemma SplitTaskDocFields(task: Obj, scenes: seq<Interval>, clips: seq<string>)
    ensures var d := SplitTaskDoc(task, scenes, clips);
      d.Keys == task.Keys + {"scenes", "scene_clips"}
      && (forall k :: k in task && k != "scenes" && k != "scene_clips" ==> d[k] == task[k])
      && d["scenes"] == JArr(SceneObjs(scenes)) && d["scene_clips"] == JArr(JStrs(clips))
  {
  }

  /** A strictly increasing list of numbers in [1, m] has at most m entries. */
  lemma {:induction false} StrictlyIncreasingBound(xs: seq<nat>, m: nat)
    requires forall k :: 0 <= k < |xs| ==> 1 <= xs[k] <= m
    requires forall k, l :: 0 <= k < l < |xs| ==> xs[k] < xs[l]
    ensures |xs| <= m
    decreases m
  {
    if xs != [] {
      var last := xs[|xs| - 1];
      var ys := xs[..|xs| - 1];
      assert forall k :: 0 <= k < |ys| ==> ys[k] < last <= m;
      StrictlyIncreasingBound(ys, m - 1);
    }
  }
}

=== FILE: task_monitor.dfy ===
/** The read-side task monitor: a cache of the task descriptors and the
    output videos, rebuilt at most once every three seconds, and the routes
    that serve an output file or the tail of a log by a name reduced to its
    basename. Directory listings and the clock are inputs. */
module TaskMonitor {
  import opened Common

  const TEMP := "storage/temp"
  const OUTPUT := "storage/output"
  const LOGS := "storage/logs"

  /** Seconds during which `refresh_cache` returns the cache as it is. */
  const THROTTLE: real := 3.0

  /** Lines a log response keeps. */
  const TAIL_LINES: nat := 150

  // ---------------------------------------------------------------------------
  // Collecting listed files, stopping at the first raised error
  // ---------------------------------------------------------------------------

  /** A loop over a sorted listing that appends `entry(f)` for every name
      `keep` selects; an entry of None is an exception that ends the loop
      and the refresh. */
  function Collect<T>(names: seq<string>, keep: string -> bool, entry: string -> Option<T>): (r: Option<seq<T>>)
    decreases |names|
  {
    if names == [] then Some([])
    else
      var prev := Collect(names[..|names| - 1], keep, entry);
      var f := names[|names| - 1];
      if prev.None? then None
      else if !keep(f) then prev
      else match entry(f)
        case None => None
        case Some(e) => Some(prev.value + [e])
  }

  /** Once the loop has raised, the whole refresh has. */
  lemma {:induction false} CollectStops<T>(names: seq<string>, keep: string -> bool, entry: string -> Option<T>, k: nat)
    requires k <= |names| && Collect(names[..k], keep, entry).None?
    ensures Collect(names, keep, entry).None?
    decreases |names| - k
  {
    if k == |names| {
      assert names[..k] == names;
    } else {
      assert names[..k + 1][..k] == names[..k];
      CollectStops(names, keep, entry, k + 1);
    }
  }

  /** One more iteration of the loop. */
  lemma CollectStep<T>(names: seq<string>, keep: string -> bool, entry: string -> Option<T>, k: nat)
    requires k < |names|
    ensures var prev := Collect(names[..k], keep, entry);
      Collect(names[..k + 1], keep, entry) ==
        if prev.None? then None
        else if !keep(names[k]) then prev
        else if entry(names[k]).None? then None
        else Some(prev.value + [entry(names[k]).value])
  {
    assert names[..k + 1][..k] == names[..k];
  }

  /** The loop raises exactly when a selected name's entry raises; otherwise
      it holds the entry of every selected name and nothing else. */
  lemma {:induction false} CollectMeaning<T>(names: seq<string>, keep: string -> bool, entry: string -> Option<T>)
    ensures Collect(names, keep, entry).None? <==> exists f :: f in names && keep(f) && entry(f).None?
    ensures Collect(names, keep, entry).Some? ==>
      forall e :: e in Collect(names, keep, entry).value ==> exists f :: f in names && keep(f) && entry(f) == Some(e)
    ensures Collect(names, keep, entry).Some? ==>
      forall f :: f in names && keep(f) ==> entry(f).Some? && entry(f).value in Collect(names, keep, entry).value
    decreases |names|
  {
    if names != [] {
      var pre := names[..|names| - 1];
      var l := names[|names| - 1];
      CollectMeaning(pre, keep, entry);
      assert names == pre + [l];
      forall f | f in pre
        ensures f in names
      {
      }
    }
  }

  /** Over a sorted listing, the entries come in the order of the names
      they were made from. */
  lemma {:induction false} CollectOrdered<T>(names: seq<string>, keep: string -> bool, entry: string -> Option<T>, tag: T -> string)
    requires SortedByName(names)
    requires forall f :: keep(f) && entry(f).Some? ==> tag(entry(f).value) == f
    ensures Collect(names, keep, entry).Some? ==>
      forall i, j :: 0 <= i < j < |Collect(names, keep, entry).value| ==>
        NameLeq(tag(Collect(names, keep, entry).value[i]), tag(Collect(names, keep, entry).value[j]))
    decreases |names|
  {
    if names != [] && Collect(names, keep, entry).Some? {
      var pre := names[..|names| - 1];
      var l := names[|names| - 1];
      var prev := Collect(pre, keep, entry);
      assert SortedByName(pre) by {
        forall i, j | 0 <= i < j < |pre|
          ensures NameLeq(pre[i], pre[j])
        {
          assert pre[i] == names[i] && pre[j] == names[j];
        }
      }
      CollectOrdered(pre, keep, entry, tag);
      if keep(l) {
        CollectMeaning(pre, keep, entry);
        var v := prev.value;
        forall e | e in v
          ensures NameLeq(tag(e), l)
        {
          var f :| f in pre && keep(f) && entry(f) == Some(e);
          var k :| 0 <= k < |pre| && pre[k] == f;
          assert names[k] == f;
        }
        var w := v + [entry(l).value];
        forall i, j | 0 <= i < j < |w|
          ensures NameLeq(tag(w[i]), tag(w[j]))
        {
          if j == |v| {
            assert w[i] in v by {
              assert w[i] == v[i];
            }
          } else {
            assert w[i] == v[i] && w[j] == v[j];
          }
        }
      }
    }
  }

  /** The text of a string field of an object, or "". */
  function Field(e: Json, key: string): string {
    if e.JObj? && key in e.fields && e.fields[key].JStr? then e.fields[key].s else ""
  }

  // ---------------------------------------------------------------------------
  // refresh_cache: tasks
  // ---------------------------------------------------------------------------

  /** The names the task loop reads. */
  predicate IsTaskFile(f: string) {
    StartsWith(f, "task_") && EndsWith(f, ".json")
  }

  /** The object stored for an unreadable descriptor. */
  const CORRUPT: map<string, Json> := map["error" := JStr("corrupt")]

  /** One iteration of the task loop: the descriptor tagged with `_file`;
      `{"error": "corrupt"}` tagged the same way when it cannot be read; None
      when it holds a JSON value that is not an object, where setting
      `_file` raises. */
  function TaskEntry(fs: FileSystem, f: string): (r: Option<Json>)
    ensures r.Some? ==> r.value.JObj? && Field(r.value, "_file") == f
    ensures r.None? <==> LoadJson(fs, Join(TEMP, f)).Some? && !LoadJson(fs, Join(TEMP, f)).value.JObj?
    ensures LoadJson(fs, Join(TEMP, f)).None? ==> r == Some(JObj(CORRUPT["_file" := JStr(f)]))
    ensures LoadJson(fs, Join(TEMP, f)).Some? && LoadJson(fs, Join(TEMP, f)).value.JObj? ==>
      r == Some(JObj(LoadJson(fs, Join(TEMP, f)).value.fields["_file" := JStr(f)]))
  {
    match LoadJson(fs, Join(TEMP, f))
    case None => Some(JObj(CORRUPT["_file" := JStr(f)]))
    case Some(JObj(m)) => Some(JObj(m["_file" := JStr(f)]))
    case Some(_) => None
  }

  function TaskEntries(fs: FileSystem): string -> Option<Json> {
    f => TaskEntry(fs, f)
  }

  function TaskList(fs: FileSystem, names: seq<string>): Option<seq<Json>> {
    Collect(SortNames(names), IsTaskFile, TaskEntries(fs))
  }

  /** The task list of a refresh: it fails exactly when a listed descriptor
      holds a non-object; otherwise it holds one tagged entry per listed
      `task_*.json` name and nothing else, ordered by `_file`. */
  lemma TasksMeaning(fs: FileSystem, names: seq<string>)
    ensures TaskList(fs, names).None? <==>
      exists f :: f in names && IsTaskFile(f) && TaskEntry(fs, f).None?
    ensures TaskList(fs, names).Some? ==> forall e :: e in TaskList(fs, names).value ==>
      exists f :: f in names && IsTaskFile(f) && TaskEntry(fs, f) == Some(e)
    ensures TaskList(fs, names).Some? ==> forall f :: f in names && IsTaskFile(f) ==>
      TaskEntry(fs, f).Some? && TaskEntry(fs, f).value in TaskList(fs, names).value
    ensures TaskList(fs, names).Some? ==> forall i, j :: 0 <= i < j < |TaskList(fs, names).value| ==>
      NameLeq(Field(TaskList(fs, names).value[i], "_file"), Field(TaskList(fs, names).value[j], "_file"))
  {
    var sorted := SortNames(names);
    assert forall f :: f in sorted <==> f in names by {
      forall f
        ensures f in sorted <==> f in names
      {
        assert f in multiset(sorted) <==> f in multiset(names);
      }
    }
    CollectMeaning(sorted, IsTaskFile, TaskEntries(fs));
    CollectOrdered(sorted, IsTaskFile, TaskEntries(fs), e => Field(e, "_file"));
  }

  // ---------------------------------------------------------------------------
  // refresh_cache: outputs
  // ---------------------------------------------------------------------------

  /** `f.lower().endswith((".mp4", ".mov", ".mkv"))`. */
  predicate IsOutput(f: string) {
    EndsWith(Lower(f), ".mp4") || EndsWith(Lower(f), ".mov") || EndsWith(Lower(f), ".mkv")
  }

  /** One iteration of the output loop: name, size and whole-second mtime;
      None when `os.stat` raises on a name that is no longer there. */
  function OutputEntry(fs: FileSystem, f: string): (r: Option<Json>)
    ensures r.Some? <==> Join(OUTPUT, f) in fs
    ensures r.Some? ==> Field(r.value, "file") == f
    ensures r.Some? ==> r.value.JObj? && "size" in r.value.fields && "mtime" in r.value.fields
    ensures r.Some? ==> r.value.fields["size"] == JInt(Size(fs[Join(OUTPUT, f)].content))
    ensures r.Some? ==> r.value.fields["mtime"] == JInt(fs[Join(OUTPUT, f)].mtime / 1000)
  {
    var p := Join(OUTPUT, f);
    if p !in fs then None
    else Some(JObj(map["file" := JStr(f), "size" := JInt(Size(fs[p].content)), "mtime" := JInt(fs[p].mtime / 1000)]))
  }

  function OutputEntries(fs: FileSystem): string -> Option<Json> {
    f => OutputEntry(fs, f)
  }

  function OutputList(fs: FileSystem, names: seq<string>): Option<seq<Json>> {
    Collect(SortNames(names), IsOutput, OutputEntries(fs))
  }

  /** The output list of a refresh: one entry per listed video, whatever the
      case of its extension, and nothing else, ordered by name. */
  lemma OutputsMeaning(fs: FileSystem, names: seq<string>)
    ensures OutputList(fs, names).None? <==>
      exists f :: f in names && IsOutput(f) && Join(OUTPUT, f) !in fs
    ensures OutputList(fs, names).Some? ==> forall e :: e in OutputList(fs, names).value ==>
      exists f :: f in names && IsOutput(f) && OutputEntry(fs, f) == Some(e)
    ensures OutputList(fs, names).Some? ==> forall f :: f in names && IsOutput(f) ==>
      OutputEntry(fs, f).Some? && OutputEntry(fs, f).value in OutputList(fs, names).value
    ensures OutputList(fs, names).Some? ==> forall i, j :: 0 <= i < j < |OutputList(fs, names).value| ==>
      NameLeq(Field(OutputList(fs, names).value[i], "file"), Field(OutputList(fs, names).value[j], "file"))
  {
    var sorted := SortNames(names);
    assert forall f :: f in sorted <==> f in names by {
      forall f
        ensures f in sorted <==> f in names
      {
        assert f in multiset(sorted) <==> f in multiset(names);
      }
    }
    CollectMeaning(sorted, IsOutput, OutputEntries(fs));
    CollectOrdered(sorted, IsOutput, OutputEntries(fs), e => Field(e, "file"));
  }

  /** Upper-case extensions are videos too. */
  lemma UpperCaseVideo()
    ensures IsOutput("CLIP.MP4")
  {
    assert Lower("CLIP.MP4") == "clip.mp4";
  }

  // ---------------------------------------------------------------------------
  // The cache
  // ---------------------------------------------------------------------------

  /** The task loop of `refresh_cache` over the sorted listing of the temp
      directory; None when it raises. */
  method ReadTasks(fs: FileSystem, names: seq<string>) returns (r: Option<seq<Json>>)
    ensures r == TaskList(fs, names)
  {
    var temp := SortNames(names);
    var ts: seq<Json> := [];
    for k := 0 to |temp|
      invariant Collect(temp[..k], IsTaskFile, TaskEntries(fs)) == Some(ts)
    {
      CollectStep(temp, IsTaskFile, TaskEntries(fs), k);
      var f := temp[k];
      if StartsWith(f, "task_") && EndsWith(f, ".json") {
        var data := TaskEntry(fs, f);
        if data.None? {
          CollectStops(temp, IsTaskFile, TaskEntries(fs), k + 1);
          return None;
        }
        ts := ts + [data.value];
      }
    }
    assert temp[..|temp|] == temp;
    return Some(ts);
  }

  /** The output loop of `refresh_cache` over the sorted listing of the
      output directory; None when `os.stat` raises. */
  method ReadOutputs(fs: FileSystem, names: seq<string>) returns (r: Option<seq<Json>>)
    ensures r == OutputList(fs, names)
  {
    var output := SortNames(names);
    var outs: seq<Json> := [];
    for k := 0 to |output|
      invariant Collect(output[..k], IsOutput, OutputEntries(fs)) == Some(outs)
    {
      CollectStep(output, IsOutput, OutputEntries(fs), k);
      var f := output[k];
      if IsOutput(f) {
        var entry := OutputEntry(fs, f);
        if entry.None? {
          CollectStops(output, IsOutput, OutputEntries(fs), k + 1);
          return None;
        }
        outs := outs + [entry.value];
      }
    }
    assert output[..|output|] == output;
    return Some(outs);
  }

  /** The global `CACHE` dict. */
  class Cache {
    var tasks: seq<Json>
    var outputs: seq<Json>
    var lastUpdate: real

    constructor()
      ensures tasks == [] && outputs == [] && lastUpdate == 0.0
    {
      tasks, outputs, lastUpdate := [], [], 0.0;
    }

    /** `refresh_cache()` at time `now` (seconds), with the listings of the
        temp and output directories; `ok` is false when the refresh raised,
        which leaves the cache as it was. */
    method Refresh(fs: FileSystem, tempNames: seq<string>, outputNames: seq<string>, now: real) returns (ok: bool)
      modifies this
      ensures now - old(lastUpdate) < THROTTLE ==>
        ok && tasks == old(tasks) && outputs == old(outputs) && lastUpdate == old(lastUpdate)
      ensures now - old(lastUpdate) >= THROTTLE ==>
        (ok <==> TaskList(fs, tempNames).Some? && OutputList(fs, outputNames).Some?)
      ensures now - old(lastUpdate) >= THROTTLE && ok ==>
        tasks == TaskList(fs, tempNames).value && outputs == OutputList(fs, outputNames).value && lastUpdate == now
      ensures !ok ==> tasks == old(tasks) && outputs == old(outputs) && lastUpdate == old(lastUpdate)
    {
      if now - lastUpdate < THROTTLE {
        return true;
      }

      var ts := ReadTasks(fs, tempNames);
      if ts.None? {
        return false;
      }
      var outs := ReadOutputs(fs, outputNames);
      if outs.None? {
        return false;
      }
      tasks, outputs, lastUpdate := ts.value, outs.value, now;
      ok := true;
    }
  }

  // ---------------------------------------------------------------------------
  // api_output_file, api_logs
  // ---------------------------------------------------------------------------

  /** `os.path.join(dir, os.path.basename(fname))`: whatever the requested
      name, the path names an entry directly inside `dir`. */
  function ServedPath(dir: string, fname: string): (r: string)
    ensures StartsWith(r, dir + "/") && '/' !in r[|dir| + 1..]
    ensures '/' !in fname ==> r == Join(dir, fname)
  {
    var b := Basename(fname);
    assert Join(dir, b)[|dir| + 1..] == b;
    Join(dir, b)
  }

  datatype FileResponse = FileNotFound | SendFile(path: string)

  /** `api_output_file(fname)`. */
  function ApiOutputFile(fs: FileSystem, fname: string): (r: FileResponse)
    ensures r.FileNotFound? <==> ServedPath(OUTPUT, fname) !in fs
    ensures r.SendFile? ==> r.path in fs && StartsWith(r.path, OUTPUT + "/") && '/' !in r.path[|OUTPUT| + 1..]
  {
    var path := ServedPath(OUTPUT, fname);
    if path !in fs then FileNotFound else SendFile(path)
  }

  /** `"".join(lines)`. */
  function Concat(xs: seq<string>): string
    decreases |xs|
  {
    if xs == [] then "" else xs[0] + Concat(xs[1..])
  }

  lemma {:induction false} ConcatSplit(xs: seq<string>, k: nat)
    requires k <= |xs|
    ensures Concat(xs) == Concat(xs[..k]) + Concat(xs[k..])
    decreases k
  {
    if k > 0 {
      ConcatSplit(xs[1..], k - 1);
      assert xs[1..][..k - 1] == xs[1..k] && xs[1..][k - 1..] == xs[k..];
      assert xs[..k][0] == xs[0] && xs[..k][1..] == xs[1..k];
    } else {
      assert xs[..0] == [] && xs[0..] == xs;
    }
  }

  /** `f.readlines()`: the text cut after every newline; the pieces put
      back together give the text, each holds a newline only at its end,
      and all but the last end in one. */
  function ReadLines(t: string): (r: seq<string>)
    ensures Concat(r) == t
    ensures forall k :: 0 <= k < |r| ==> r[k] != [] && '\n' !in r[k][..|r[k]| - 1]
    ensures forall k :: 0 <= k < |r| - 1 ==> r[k][|r[k]| - 1] == '\n'
    decreases |t|
  {
    if t == [] then []
    else match Find(t, "\n")
      case None =>
        NoNewline(t);
        assert Concat([t]) == t + Concat([]);
        [t]
      case Some(i) =>
        FirstNewline(t, i);
        var rest := ReadLines(t[i + 1..]);
        var r := [t[..i + 1]] + rest;
        assert r[0] == t[..i + 1] && r[1..] == rest;
        assert t == t[..i + 1] + t[i + 1..];
        assert forall k :: 1 <= k < |r| ==> r[k] == rest[k - 1];
        r
  }

  lemma NoNewline(t: string)
    requires Find(t, "\n").None?
    ensures '\n' !in t
  {
    forall j | 0 <= j < |t|
      ensures t[j] != '\n'
    {
      assert !MatchAt(t, "\n", j);
      assert t[j..j + 1] == [t[j]];
    }
  }

  lemma FirstNewline(t: string, i: nat)
    requires Find(t, "\n") == Some(i)
    ensures i < |t| && t[i] == '\n' && '\n' !in t[..i]
  {
    assert MatchAt(t, "\n", i);
    assert t[i..i + 1][0] == t[i];
    forall j | 0 <= j < i
      ensures t[..i][j] != '\n'
    {
      assert !MatchAt(t, "\n", j);
      assert t[j..j + 1] == [t[j]];
    }
  }

  /** `lines[-n:]`. */
  function LastLines(xs: seq<string>, n: nat): (r: seq<string>)
    ensures |r| <= n && |r| <= |xs|
    ensures r == xs[|xs| - |r|..]
    ensures |xs| <= n ==> r == xs
  {
    if |xs| <= n then xs else xs[|xs| - n..]
  }

  /** The text of a log, read as text. */
  function LogText(fs: FileSystem, p: string): string {
    if p in fs && fs[p].content.Text? then fs[p].content.text else ""
  }

  /** The text a log page shows: its last 150 lines. */
  function LogBody(text: string): string {
    Concat(LastLines(ReadLines(text), TAIL_LINES))
  }

  /** The body of a log page is an end of the log of at most 150 lines, and
      the whole log when it has no more than that. */
  lemma LogBodyTail(text: string)
    ensures EndsWith(text, LogBody(text))
    ensures |ReadLines(LogBody(text))| <= TAIL_LINES
    ensures |ReadLines(text)| <= TAIL_LINES ==> LogBody(text) == text
  {
    var lines := ReadLines(text);
    var tail := LastLines(lines, TAIL_LINES);
    ConcatSplit(lines, |lines| - |tail|);
    TailLines(lines, |lines| - |tail|);
  }

  datatype LogResponse = LogNotFound | LogPage(html: string)

  /** `api_logs(fname)`. */
  function ApiLogs(fs: FileSystem, fname: string): (r: LogResponse)
    ensures r.LogNotFound? <==> ServedPath(LOGS, fname) !in fs
  {
    var path := ServedPath(LOGS, fname);
    if path !in fs then LogNotFound
    else LogPage("<pre>" + LogBody(LogText(fs, path)) + "</pre>")
  }

  /** A log page wraps in `<pre>` an end of the log of at most 150 lines,
      and the whole log when it has no more than that. */
  lemma LogPageTail(fs: FileSystem, fname: string)
    requires ApiLogs(fs, fname).LogPage?
    ensures var html := ApiLogs(fs, fname).html;
      var text := LogText(fs, ServedPath(LOGS, fname));
      |html| >= 11 && html[..5] == "<pre>" && html[|html| - 6..] == "</pre>"
      && EndsWith(text, html[5..|html| - 6])
      && |ReadLines(html[5..|html| - 6])| <= TAIL_LINES
      && (|ReadLines(text)| <= TAIL_LINES ==> html[5..|html| - 6] == text)
  {
    var text := LogText(fs, ServedPath(LOGS, fname));
    var body := LogBody(text);
    var html := "<pre>" + body + "</pre>";
    assert ApiLogs(fs, fname).html == html;
    assert html[5..|html| - 6] == body;
    LogBodyTail(text);
  }

  /** Reading back a run of whole lines gives those lines. */
  lemma TailLines(xs: seq<string>, k: nat)
    requires k <= |xs|
    requires forall i :: 0 <= i < |xs| ==> xs[i] != [] && '\n' !in xs[i][..|xs[i]| - 1]
    requires forall i :: 0 <= i < |xs| - 1 ==> xs[i][|xs[i]| - 1] == '\n'
    ensures |ReadLines(Concat(xs[k..]))| == |xs| - k
  {
    LinesRoundTrip(xs[k..]);
  }

  lemma {:induction false} LinesRoundTrip(xs: seq<string>)
    requires forall i :: 0 <= i < |xs| ==> xs[i] != [] && '\n' !in xs[i][..|xs[i]| - 1]
    requires forall i :: 0 <= i < |xs| - 1 ==> xs[i][|xs[i]| - 1] == '\n'
    ensures ReadLines(Concat(xs)) == xs
    decreases |xs|
  {
    if xs != [] {
      var h := xs[0];
      assert Concat(xs) == h + Concat(xs[1..]);
      if |xs| == 1 {
        assert Concat(xs[1..]) == [] && h + [] == h;
        ReadLinesLast(h);
      } else {
        LinesRoundTrip(xs[1..]);
        ReadLinesCons(h, Concat(xs[1..]));
        assert xs == [h] + xs[1..];
      }
    }
  }

  /** A line ending in its only newline is read off the front of a text. */
  lemma ReadLinesCons(h: string, rest: string)
    requires h != [] && h[|h| - 1] == '\n' && '\n' !in h[..|h| - 1]
    ensures ReadLines(h + rest) == [h] + ReadLines(rest)
  {
    var t := h + rest;
    var a := h[..|h| - 1];
    assert h == a + "\n";
    CharSepOnlyAtEnd(a, '\n');
    FindAtJoint(a, "\n", rest);
    assert a + "\n" + rest == t;
    assert t[..|h|] == h && t[|h|..] == rest;
  }

  /** A last line, with or without its newline, is read as one line. */
  lemma ReadLinesLast(h: string)
    requires h != [] && '\n' !in h[..|h| - 1]
    ensures ReadLines(h) == [h]
  {
    if h[|h| - 1] == '\n' {
      ReadLinesCons(h, []);
      assert h + [] == h;
    } else {
      assert '\n' !in h by {
        assert forall c :: c in h ==> c in h[..|h| - 1] || c == h[|h| - 1];
      }
      NoMatchIn(h);
    }
  }

  lemma NoMatchIn(t: string)
    requires '\n' !in t
    ensures Find(t, "\n").None?
  {
    if Find(t, "\n").Some? {
      FirstNewline(t, Find(t, "\n").value);
    }
  }
}
